=== FILE: README.md ===
# NAPO contract reconciliation, modelled in Dafny

NAPO turns a handful of uploaded CSV exports into one JSON document of taxi
contracts. The import page reads each export as rows of cells, matches its
headers against a list of standard field names, and joins three tables on
the area code (`OMRADEKODE`):

- the contract table (`avtaleinnhold.csv`);
- the area table (`omrade.csv`), which gives each area its office and
  transporter;
- the start-location table (`startsted.csv`), which gives each area its
  postal code, city and municipality.

The contracts are typed cell by cell: a number, a boolean or text. User-defined
custom fields are written along dotted paths, and the result is wrapped as
`{contracts}`. Around that core sit:

- the server actions that load and search contracts;
- the dashboard statistics and the licence tables;
- the browser-side contract store;
- the JSON viewer, the contract manager and the export history;
- the translation table, the theme helpers, the language provider and the
  soft-delete columns of the backend models.

The project models each of these as pure functions over immutable data. It
is organised in these modules:

| module | models |
|---|---|
| `Json` | the JavaScript values the code builds: objects as ordered association lists, `undefined`, `null`, `NaN` and decimal numbers |
| `Text`, `Numbers`, `Seqs` | the string, number (`Number`, `parseFloat`, `parseInt`) and array built-ins the code relies on |
| `Transform` | the import page's helpers |
| `Reconcile` | the join that builds the contract list |
| `CustomFields` | `applyCustomFields` |
| `CsvUtils` | `parseCSV` |
| `Dashboard` | the dashboard server actions |
| `ContractLoad`, `Search`, `Distinct` | the contract server actions |
| `Store` | the IndexedDB layer |
| `ContractManager` | the contract manager component |
| `JsonViewer` | the JSON viewer page |
| `History` | the export history page |
| `Analyze` | the analysis page |
| `I18n` | the translation table |
| `Theme` | the theme helpers |
| `Language` | the two language providers |
| `BaseClass` | the backend base model |

A thrown exception is the `Err` case of a `Result`, so every path that can
throw is visible in the types. `Err` also carries `Unmodelled`, which marks
a path the model does not follow (an array write to a non-index key, a
string index past a character outside the basic plane, `includes` on an
array colour), and JavaScript need not throw there. Effects become parameters:

- the outcome of a file write or store call;
- the clock value stamped on a row;
- the browser language.

Behaviours of the code worth noting:

- A contract's `id` is the normalised area code, not the code as written.
- Cells are cut at every comma. Quotes protect nothing.
- No character-encoding repair is done anywhere.
- `validNeeds` pieces are dropped when empty in the import page but kept in
  the server action.

## Model

| member | source | states |
|---|---|---|
| Transform.NormalizeFieldName | app/transform/page.tsx:102-104 | a normalised header name holds no whitespace and no lower-case letter |
| Transform.NormalizeFieldNameNoTrim | app/transform/page.tsx:102-104 | the trim is redundant: the name is the upper-cased header with every whitespace character removed |
| Transform.NormalizeFieldNameIdempotent | app/transform/page.tsx:102-104 | normalising a normalised name changes nothing |
| Transform.FindIndex | app/transform/page.tsx:348-359 | the index found is the first header whose normal form is the target, and none is found exactly when no header normalises to it |
| Transform.FindField | app/transform/page.tsx:107-110 | a header is found exactly when some header normalises to the standard name, and the one found is a header as written |
| Transform.GetDefaultField | app/transform/page.tsx:142-157 | the default field is empty or one of the headers |
| Transform.GetDefaultFieldPrefersAreaCode | app/transform/page.tsx:142-157 | the default field is the OMRADEKODE header when there is one, else the AVTALEOMRADEKODE header, else empty |
| Transform.NormalizeAreaCode | app/transform/page.tsx:301-309 | a normalised area code holds only A-Z, 0-9 and '-' |
| Transform.CodeKey | app/transform/page.tsx:301-309 | the reference join key holds only code characters |
| Transform.NormalizeAreaCodeIsCodeKey | app/transform/page.tsx:301-309 | the chain of trim, upper-case, space removal and character filter equals the one-pass reference key of the code's text |
| Transform.CodesMatchIff | app/transform/page.tsx:301-314 | two codes match exactly when their reference keys agree, so matching is reflexive, symmetric and transitive |
| Transform.NormalizeAreaCodeIdempotent | app/transform/page.tsx:301-309 | normalising a normalised code changes nothing |
| Transform.CodeKeyIgnoresCase | app/transform/page.tsx:301-309 | lower- or upper-casing a code does not change its key |
| Transform.CodeKeyIgnoresSpace | app/transform/page.tsx:301-309 | inserting a whitespace character anywhere does not change a code's key |
| Transform.Pad4 | app/transform/page.tsx:123 | the padded code is at least four UTF-16 code units long, ends with the code, and has only zeros in front of it |
| Transform.CleanToken | app/transform/page.tsx:116-129 | a cleaned token is at least four UTF-16 code units long: a single code is zero-padded to `max(length, 4)` units, and a range has both ends padded |
| Transform.CleanPostalRanges | app/transform/page.tsx:113-131 | one cleaned token per comma-separated piece, in order; padding means none is empty, so the final filter drops nothing |
| Transform.CleanTokenOfCode | app/transform/page.tsx:121-124 | a plain code without a dash becomes exactly its zero-padded form |
| Transform.CleanTokenOfRange | app/transform/page.tsx:126-128 | a plain range `a-b` becomes `pad(a)-pad(b)` |
| Transform.NormalizeNewlines | app/transform/page.tsx:167 | the text afterwards has no carriage return, and text without one is unchanged |
| Transform.CleanCell | app/transform/page.tsx:170-173 | a cleaned cell has no carriage return and is no longer than the cell |
| Transform.SplitRow | app/transform/page.tsx:168-175 | a line gives one more cell than it has commas, and no cell holds a comma or carriage return |
| Transform.UploadSplit | app/transform/page.tsx:166-177 | the headers are the first line's cells; the content keeps, in order, exactly the later lines that have a non-blank cell, each as many times as it occurs |
| Transform.UploadSplitOfJoined | app/transform/page.tsx:166-177 | clean rows written as comma- and newline-separated text are read back as the same headers and rows |
| Transform.ToggleField | app/transform/page.tsx:218-228 | only the files with the name change, and in them only the selected fields |
| Transform.ToggleIn | app/transform/page.tsx:221-223 | the field is selected afterwards exactly when it was not before; every other field keeps its state |
| Transform.ToggleTwice | app/transform/page.tsx:218-228 | toggling the same field twice restores which fields are selected |
| Transform.UploadRelationships | app/transform/page.tsx:189-200 | the new file links to an existing file exactly when either of the two has a default field, and the last existing file with a name wins |
| Transform.UploadRelationshipsOnlyLinked | app/transform/page.tsx:194-199 | every relationship of the new file points at an existing file that satisfies the linking condition, with both default fields recorded |
| Transform.AddUploadedFile | app/transform/page.tsx:179-211 | the new file is appended with all headers selected, and every earlier file keeps everything but gains the back link |
| Transform.LinkBack | app/transform/page.tsx:201-207 | only the relationships of an existing file change, and they gain the reverse link exactly when the linking condition holds |
| Transform.UploadMirrored | app/transform/page.tsx:189-211 | after an upload the new file and each linked existing file point at each other with source and target fields swapped |
| Transform.AllRelationships | app/transform/page.tsx:274-295 | a file is linked to each other file exactly when both have a default field |
| Transform.AllRelationshipsNeedDefault | app/transform/page.tsx:285 | a file without a default field gets no relationships |
| Transform.SetAllToOmradekode | app/transform/page.tsx:268-298 | only relationships change, and each file's are rebuilt from scratch |
| Transform.SetAllSymmetric | app/transform/page.tsx:268-298 | with distinct names, two files that both have a default field point at each other with the fields swapped |
| Reconcile.FindFileIndex | app/transform/page.tsx:321-325 | the index found is the first file whose lower-cased name is the one asked for |
| Reconcile.FindFile | app/transform/page.tsx:321-325 | a file is found exactly when some file's lower-cased name is the one asked for |
| Reconcile.Lookup | app/transform/page.tsx:361-373 | every keyed row's normalised code is a key of the map, and the map holds the entry of the last keyed row with that code |
| Reconcile.StartLocations | app/transform/page.tsx:346-375 | no start-location table, or one without an OMRADEKODE column, gives an empty map |
| Reconcile.StartLocationOfRow | app/transform/page.tsx:361-373 | the last start-location row with a given code supplies that code's postal code, city and municipality, each read from its own column |
| Reconcile.AreaInfos | app/transform/page.tsx:377-402 | no area table, or one without an OMRADEKODE column, gives an empty map |
| Reconcile.AreaInfoOfRow | app/transform/page.tsx:389-400 | the last area row with a given code supplies that code's office and transporter, trimmed |
| Reconcile.Coerce | app/transform/page.tsx:412-418 | a cell becomes a number exactly when `Number` reads it and the column is not `omradekode`; otherwise a boolean exactly when it spells true or false in any case; otherwise the text |
| Reconcile.CellValue | app/transform/page.tsx:410-411 | a column has a value exactly when its cell is present and not blank |
| Reconcile.ContractData | app/transform/page.tsx:408-420 | the record holds only selected columns with defined values, every stored column is present, and a repeated header holds its last stored value |
| Reconcile.AreaCodeOf | app/transform/page.tsx:422-423 | the area code is the `OmradeKode` value when truthy, else the value of the first header that normalises to OMRADEKODE |
| Reconcile.ValidNeeds | app/transform/page.tsx:461-464 | a text value splits into its non-empty `;`-pieces, trimmed; any other value throws |
| Reconcile.ValidNeedsOfJoined | app/transform/page.tsx:461-464 | trimmed non-empty needs written as a `;`-list are read back as the same list |
| Reconcile.AssembleContract | app/transform/page.tsx:422-474 | a row yields no contract exactly when its area code is falsy; the contract's id is the normalised code and its office, transporter and start location come from the lookup maps |
| Reconcile.MakeContract | app/transform/page.tsx:443-471 | the contract keeps the area code as found and is keyed by its normalised form; each cost, the type and the transport is the found value when truthy and else 0 or empty text; office, transporter and start location come from the maps or default to empty |
| Reconcile.ContractFields | app/transform/page.tsx:422-471 | a row's contract has as area code the value the row gives for it and as id its normalised form; the three costs default to 0 and the type and transport to empty text when the row's value is falsy; the needs are the pieces of the row's needs value, or none when it is falsy |
| Reconcile.AllOk | app/transform/page.tsx:477 | all outcomes are values exactly when none is an error, and the values are kept in order; otherwise the first error is reported |
| Reconcile.Somes | app/transform/page.tsx:477-480 | the kept entries are exactly the present ones |
| Reconcile.SomesAppend | app/transform/page.tsx:477-480 | dropping absent entries commutes with concatenation |
| Reconcile.AssembleSome | app/transform/page.tsx:422-428 | a row's outcome holds a contract exactly when its area code is truthy |
| Reconcile.RowsCount | app/transform/page.tsx:405-480 | the contracts of a list of rows are as many as the rows with a truthy area code |
| Reconcile.ContractCount | app/transform/page.tsx:405-480 | the contract list has one contract per non-blank row of the contract table with a truthy area code |
| Reconcile.RowsSource | app/transform/page.tsx:405-480 | every contract made from a list of rows is the contract of one of those rows |
| Reconcile.ContractsFromRows | app/transform/page.tsx:405-480 | every contract is the contract of some non-blank row of the contract table |
| Reconcile.OnlyContractTable | app/transform/page.tsx:466-473 | with neither lookup table uploaded, every contract has an empty office, empty transporter and empty start location |
| Reconcile.ContractValue | app/transform/page.tsx:443-474 | the JSON object of a contract has exactly the contract keys, in the order the code writes them |
| Reconcile.ContractValueReads | app/transform/page.tsx:444-467 | the written object reads back the id, `hasPaidReturn` false, `resourceCount` 0, the type, the transport, the number of needs, the office and the transporter |
| Reconcile.ContractCostReads | app/transform/page.tsx:446-451 | the written `cost` reads back the three costs of the contract and a `costPerWaitedMinute` of 0 |
| Reconcile.ContractNodeReads | app/transform/page.tsx:452-457 | the written `nodes` is one node whose id is the area code as found and whose pickup and delivery lists are empty |
| Reconcile.ContractStartReads | app/transform/page.tsx:468-472 | the written `startLocation` reads back the contract's postal code, city and municipality |
| Reconcile.ContractValueNeeds | app/transform/page.tsx:461-464 | need `k` of the contract is element `k` of the written `validNeeds` |
| Reconcile.ContractValues | app/transform/page.tsx:489-491 | every contract is written as its JSON object, in order |
| Reconcile.GenerateJson | app/transform/page.tsx:316-501 | a missing contract table is an error; a result is an object whose `contracts` is truthy and not the empty array |
| Reconcile.Finish | app/transform/page.tsx:488-501 | the wrapped result is an object whose `contracts` is truthy and not the empty array, or the empty-result error |
| Reconcile.GenerateWithoutCustomFields | app/transform/page.tsx:488-501 | without custom fields the output is exactly the contracts of the join, or the empty-result error when there are none |
| Reconcile.FinishWithout | app/transform/page.tsx:488-501 | without custom fields the result wraps the contracts unchanged |
| CustomFields.FieldValue | app/transform/page.tsx:605-607 | a number field is `Number` of the text (NaN when unreadable), a boolean field is whether the text is non-empty, and a string field is the text |
| CustomFields.FieldValueOfPrinted | app/transform/page.tsx:605 | a number typed as its own decimal text is written back as that number |
| CustomFields.GetAt | app/transform/page.tsx:597-600 | reading along the empty path gives the root |
| CustomFields.SetAt | app/transform/page.tsx:597-600 | writing along a path into an object leaves an object |
| CustomFields.GetAtSetAt | app/transform/page.tsx:597-617 | a path that was written reads back as the value written |
| CustomFields.Walk | app/transform/page.tsx:584-602 | walking the segments of a path over an object keeps it an object |
| CustomFields.FillItems | app/transform/page.tsx:589-593 | filling the array items keeps the root an object |
| CustomFields.FillTurn | app/transform/page.tsx:590-592 | one turn of the fill loop, on item `j`, and the turns after it keep the root an object |
| CustomFields.FillItemsObjects | app/transform/page.tsx:589-593 | on an array of objects, every item whose key is falsy gets an empty object there and every other item is kept |
| CustomFields.ArrayThenKey | app/transform/page.tsx:579-619 | a path `a[].b` over a non-empty array of objects gives every item with a falsy `b` an empty object, then sets only item 0's `b` to the value |
| CustomFields.ArrayThenKeyEmpty | app/transform/page.tsx:594-617 | the same path over an empty array throws a TypeError, since item 0 is `undefined` |
| CustomFields.SetInEach | app/transform/page.tsx:612-614 | setting the key in every contract keeps the number of contracts |
| CustomFields.ApplyField | app/transform/page.tsx:579-619 | applying one custom field keeps the result an object |
| CustomFields.WriteLast | app/transform/page.tsx:604-618 | the final write keeps the result an object |
| CustomFields.ApplyCustomFields | app/transform/page.tsx:576-622 | applying every custom field keeps the result an object |
| CustomFields.TopLevelField | app/transform/page.tsx:616-617 | a path without dots or `[]` sets that key of the result to the field's value |
| CustomFields.WalkPlain | app/transform/page.tsx:596-601 | without array segments the walk ends at the path minus its last segment |
| CustomFields.PlainPathReadsBack | app/transform/page.tsx:579-619 | a custom field with no array segment, once applied, reads back along its path as its value |
| CustomFields.SetInEachObjects | app/transform/page.tsx:612-614 | on a list of objects the write succeeds and sets the key in each |
| CustomFields.EveryContractField | app/transform/page.tsx:609-615 | a one-segment path `key[]` writes the value into every contract |
| CustomFields.ArraySegmentField | app/transform/page.tsx:609-615 | an array-segment field sets the key in every contract and changes nothing else of the result |
| CustomFields.OneSegment | app/transform/page.tsx:580-584 | a path without a dot skips the walk |
| CsvUtils.Cell | lib/csv-utils.ts:9 | a cell is the trimmed value, or `undefined` past the end of the line |
| CsvUtils.Cells | lib/csv-utils.ts:8-10 | one cell per header, in header order |
| CsvUtils.Record | lib/csv-utils.ts:7-11 | the record's keys are the trimmed headers without repeats, in order |
| CsvUtils.Lines | lib/csv-utils.ts:3 | trimmed text always has at least one line |
| CsvUtils.Records | lib/csv-utils.ts:5-12 | one record per line, each read against the same headers |
| CsvUtils.ParseCsv | lib/csv-utils.ts:3-13 | one record for every line after the first, blank lines included |
| CsvUtils.RecordGetLast | lib/csv-utils.ts:8-10 | a header's value is the cell of its last column |
| CsvUtils.RecordGetAbsent | lib/csv-utils.ts:8-10 | a name that no trimmed header has is not a key of the record |
| CsvUtils.ExtraCellsIgnored | lib/csv-utils.ts:8-10 | cells past the last header are never read |
| CsvUtils.HeaderOnlyIsEmpty | lib/csv-utils.ts:3-5 | text with no line break after trimming gives no records |
| CsvUtils.QuotesNotHonoured | lib/csv-utils.ts:6 | a quoted cell holding a comma is cut at the comma |
| Dashboard.CsvLines | frontend/app/actions/dashboard-actions.ts:85-87 | the lines kept are non-empty, trimmed, and in file order |
| Dashboard.CsvRow | frontend/app/actions/dashboard-actions.ts:88 | a line gives at least one cell, each trimmed |
| Dashboard.ReadCsvFile | frontend/app/actions/dashboard-actions.ts:82-93 | an unreadable file gives no rows; otherwise one row of trimmed cells per non-blank line |
| Dashboard.ReadCsvFileRoundTrip | frontend/app/actions/dashboard-actions.ts:82-93 | plain rows written as comma-separated lines are read back as the same rows |
| Dashboard.EmptyFileHasNoLines | frontend/app/actions/dashboard-actions.ts:85-87 | an empty file has no lines |
| Dashboard.TotalPass | frontend/app/actions/dashboard-actions.ts:108-121 | the first pass has exactly the offices of the totals rows; TotalPassTotal, TotalPassOperators and TotalPassLastRowWins state what each office holds |
| Dashboard.TotalPassTotal | frontend/app/actions/dashboard-actions.ts:116-117 | an office's `totalLicenses` is the sum of the totals of all its rows |
| Dashboard.TotalPassOperators | frontend/app/actions/dashboard-actions.ts:118-121 | an office's operators are exactly those named with it in the file, each with no areas yet |
| Dashboard.TotalPassLastRowWins | frontend/app/actions/dashboard-actions.ts:118-121 | an operator's entry holds the total of the last row naming it |
| Dashboard.RepeatedOperatorCountedTwice | frontend/app/actions/dashboard-actions.ts:116-121 | two rows for one office and operator add both totals to the office but keep only the later one for the operator |
| Dashboard.AreaPass | frontend/app/actions/dashboard-actions.ts:125-133 | the area pass adds no office or operator and changes no total; AreaPassAreas states which areas each operator gains |
| Dashboard.AreaPassAreas | frontend/app/actions/dashboard-actions.ts:125-133 | each operator's areas gain exactly the area rows naming it, in file order |
| Dashboard.AreaPassIgnoresUnmatched | frontend/app/actions/dashboard-actions.ts:126 | an area row naming an unknown office or operator is skipped |
| Dashboard.LicenseStats | frontend/app/actions/dashboard-actions.ts:95-140 | the offices are exactly those of the totals file, each with the sum of its rows' totals; LicenseStatsTotals states the same per office |
| Dashboard.LicenseStatsTotals | frontend/app/actions/dashboard-actions.ts:95-140 | the offices of the licence statistics are those of the totals file, each with the sum of its totals |
| Dashboard.ContractTypes | frontend/app/actions/dashboard-actions.ts:205-209 | one count per distinct type (or `Unknown`) in first-occurrence order, each the number of contracts of that type |
| Dashboard.ContractTypesSum | frontend/app/actions/dashboard-actions.ts:204-209 | the type counts add up to the number of contracts |
| Dashboard.KontorStatsOf | frontend/app/actions/dashboard-actions.ts:150-192 | an office's contract count is the number of its contracts, and its transporter, city and municipality counts are the numbers of distinct truthy values among them, none above the contract count |
| Distinct.DistinctTruthyCount | frontend/app/actions/dashboard-actions.ts:166-168 | the list of distinct truthy values is as long as the set of truthy values |
| Dashboard.KontorGroups | frontend/app/actions/dashboard-actions.ts:150-201 | one group per distinct office (or `Unknown`) in first-occurrence order |
| Dashboard.GroupsShareContracts | frontend/app/actions/dashboard-actions.ts:150-204 | the office groups' contract counts add up to the number of contracts |
| Dashboard.GroupTotalAt | frontend/app/actions/dashboard-actions.ts:165 | an office's contract count is the number of contracts whose office key is that office |
| Dashboard.GroupsShareResources | frontend/app/actions/dashboard-actions.ts:169-210 | the office groups' resources add up to `totalResources` |
| Dashboard.ValidNeedsOf | frontend/app/actions/dashboard-actions.ts:214 | a need is listed exactly when some contract has it |
| Dashboard.DashboardStatsOf | frontend/app/actions/dashboard-actions.ts:142-218 | no contract list gives no statistics; otherwise `totalContracts` is the contract count, the transports and needs are the distinct truthy values, `contractTypes`, `totalResources`, `kontorStats` and `licenseStats` are the type tally, resource sum, office groups and licence statistics of the contracts and files, and the type counts and group counts each add up to the contract count and the group resources to `totalResources` |
| Dashboard.ReorderObject | frontend/app/actions/dashboard-actions.ts:225-243 | the keys come in the order given first, then the others in their own order |
| Dashboard.ReorderKeepsPairs | frontend/app/actions/dashboard-actions.ts:225-243 | reordering keeps exactly the object's key/value pairs |
| Dashboard.ReorderAll | frontend/app/actions/dashboard-actions.ts:246 | every contract is reordered, in order |
| ContractLoad.CostOf | frontend/app/actions/contract-actions.ts:29-31 | a cost is always a number |
| ContractLoad.RecordFields | frontend/app/actions/contract-actions.ts:21-33 | the mapped contract has the seven keys in the order written, each holding its column |
| ContractLoad.ContractOfRow | frontend/app/actions/contract-actions.ts:21-33 | the contract's id, office, name and type are the row's code, office, name and type cells; LoadedContract carries them through the enrichment |
| ContractLoad.ValidNeeds | frontend/app/actions/contract-actions.ts:27 | a missing or empty cell gives no needs; otherwise one need per `;`-piece, empty pieces included, each trimmed and free of `;`; ValidNeedsOfJoined is the round trip from a written list |
| ContractLoad.ValidNeedsOfJoined | frontend/app/actions/contract-actions.ts:27 | trimmed needs without `;` written as a `;`-list come back as the same list |
| ContractLoad.EmptyNeedKept | frontend/app/actions/contract-actions.ts:27 | `a;;b` gives three needs, the middle one empty |
| ContractLoad.CostOfWritten | frontend/app/actions/contract-actions.ts:29-31 | a cost written as a non-zero number is read back as that number |
| ContractLoad.FirstCell | frontend/app/actions/contract-actions.ts:41-49 | the cell is taken from the first row with exactly the code, or is `undefined` when no row has it |
| ContractLoad.StartLocation | frontend/app/actions/contract-actions.ts:46-50 | the start location always has the three text fields, in order |
| ContractLoad.LoadContracts | frontend/app/actions/contract-actions.ts:21-52 | one enriched contract per row of the contract table |
| ContractLoad.StartRowGivesLocation | frontend/app/actions/contract-actions.ts:42-49 | with a start row for the code, its first such row gives the postal code and city, and its municipality unless empty |
| ContractLoad.Enrich | frontend/app/actions/contract-actions.ts:40-52 | the contract gains the start location built for its id and keeps every other key; StartRowGivesLocation and NoStartRowNoPostalCode state what the location holds |
| ContractLoad.NoStartRowNoPostalCode | frontend/app/actions/contract-actions.ts:47-49 | without a start row the postal code and city are empty and the municipality falls back to the area table |
| ContractLoad.LoadedContract | frontend/app/actions/contract-actions.ts:21-52 | row `i` becomes contract `i`, its code the id and the other columns carried over |
| ContractLoad.MostRecentFile | app/actions/contract-actions.ts:21-37 | nothing exactly when there is no `.json` file; otherwise a `.json` file of the listing at least as new as every other; MostRecentFileNewest adds the tie rule |
| ContractLoad.MostRecentFileNewest | app/actions/contract-actions.ts:21-37 | nothing is picked exactly when there is no `.json` file; otherwise the newest one is, ties going to the later file |
| ContractLoad.NewestAtUnique | app/actions/contract-actions.ts:35-37 | at most one position of the listing is the one the reduction picks |
| Search.KontorTypeStage | frontend/app/actions/contract-actions.ts:78-83 | the office and type filters keep exactly the contracts with that office and type |
| Search.PostalTest | frontend/app/actions/contract-actions.ts:84-88 | a contract passes exactly when its postal code is text containing the filter or an array holding it, and the test throws exactly for a postal code that is neither missing, a string nor an array |
| Search.ApplyFilters | frontend/app/actions/contract-actions.ts:78-97 | a result is a subsequence of the input, no filter gives the input, and only an active postal filter throws, with a TypeError; SearchKeepsExactly and SearchThrows state exactly what is kept and when it throws |
| Search.SearchThrows | frontend/app/actions/contract-actions.ts:84-88 | the search throws exactly when the postal filter meets a surviving contract whose postal code is neither missing, a string nor an array |
| Search.SearchIsOneFilter | frontend/app/actions/contract-actions.ts:65-104 | the filters and the term together are one filter by the conjunction of their tests |
| Search.SearchContracts | frontend/app/actions/contract-actions.ts:65-104 | a result is a subsequence of the input whose every contract matches the term, and no filter and no term give the input; SearchKeepsExactly and SearchThrows state exactly what is kept and when it throws |
| Search.SearchKeepsExactly | frontend/app/actions/contract-actions.ts:65-104 | the result is the input with the rejected contracts removed, in order, and with no filter and no term it is the input |
| Search.FilterOrderIrrelevant | frontend/app/actions/contract-actions.ts:78-97 | applying two filter steps in either order gives the same list |
| Search.MissingPostalCodeExcluded | frontend/app/actions/contract-actions.ts:84-88 | a contract with no postal code never survives a postal filter |
| Search.DistinctColumn | frontend/app/actions/contract-actions.ts:113-123 | every truthy value of the property once, and nothing else |
| Search.StatsFirstOccurrenceOrder | frontend/app/actions/contract-actions.ts:113-123 | the distinct values come in the order of their first occurrence |
| Distinct.DistinctTruthy | frontend/app/actions/dashboard-actions.ts:213-214 | every truthy value once, and nothing else |
| Distinct.DistinctTruthyOrder | frontend/app/actions/dashboard-actions.ts:213-214 | the values come in the order of their first occurrence |
| Distinct.FilterFirstSameList | frontend/app/actions/contract-actions.ts:113-117 | filtering before or after removing duplicates gives the same list |
| Store.LessTotal | app/lib/db.ts:57-58 | two different keys are ordered one way or the other by their UTF-16 code units |
| Store.LessTrans | app/lib/db.ts:57-58 | the key order is transitive |
| Store.Lookup | app/lib/db.ts:113-116 | a record is found exactly when one is held under the key, and it is that record |
| Store.GetAll | app/lib/db.ts:124 | the records in key order |
| Store.PutSorted | app/lib/db.ts:99-102 | a put keeps the store in key order and adds no record but the new one |
| Store.Put | app/lib/db.ts:99-102 | the new record is held, every record under another key is kept, nothing but the new record is added, and the store grows by at most one; LookupPutSame and LookupPutOther state what a lookup then finds |
| Store.LookupPutSame | app/lib/db.ts:99-102 | after a put the key holds the new record |
| Store.LookupPutOther | app/lib/db.ts:99-102 | a put leaves every other key as it was |
| Store.StoreContract | app/lib/db.ts:99-102 | storing a contract keeps every record under its own id |
| Store.StoreContracts | app/lib/db.ts:104-111 | storing a list keeps every record under its own id |
| Store.StoreContractReplaces | app/lib/db.ts:99-102 | storing replaces the contract with the same id and leaves every other id as it was |
| Store.StoreContractsLastWins | app/lib/db.ts:104-111 | an id of the list holds its last contract of the list; other ids are unchanged |
| Store.SearchStoredKeeps | app/lib/db.ts:118-139 | the result holds exactly the stored contracts the query accepts, in key order, and an empty query returns them all |
| Store.SearchStored | app/lib/db.ts:118-139 | a result is a subsequence of the stored contracts in key order, and an empty query returns them all; SearchStoredKeeps states exactly what is kept |
| Store.StoredExactly | app/lib/db.ts:118-124 | the listed contracts are exactly those a lookup of their own id finds |
| Store.GetLocation | app/lib/db.ts:173-177 | the location found is the first in key order with the contract id, and none is found exactly when none has it |
| Store.UpdateLocation | app/lib/db.ts:179-187 | updating keeps every location under its own id |
| Store.UpdateLocationEffect | app/lib/db.ts:179-187 | only the coordinate and timestamp of the location with the id change, and an unknown id changes nothing |
| I18n.Substitute | app/lib/i18n.ts:220-224 | no params give the text unchanged; params on a non-string throw; otherwise the result is text |
| I18n.WalkResolves | app/lib/i18n.ts:209-218 | a key path that leads through objects to a string is read to that string |
| I18n.WalkMisses | app/lib/i18n.ts:212-216 | a key path that reaches an object lacking the next segment stops without throwing |
| I18n.Table | app/lib/i18n.ts:15-210 | the table of `en` or `no`, and `undefined` for any other language |
| I18n.TablesSameShape | app/lib/i18n.ts:15-206 | the English and Norwegian tables have the same sections and keys in the same order, every value text |
| I18n.KeyInBothLanguages | app/lib/i18n.ts:15-218 | a key resolves in English exactly when it resolves in Norwegian, and misses in one exactly when it misses in the other |
| I18n.T | app/lib/i18n.ts:208-226 | an omitted language, like `'en'`, looks the key up in the English table, `'no'` in the Norwegian one, and any other language throws a TypeError |
| I18n.Translate | app/lib/i18n.ts:209-226 | a key path that resolves gives its text with the params substituted, and one that misses gives the key back |
| I18n.TResolves | app/lib/i18n.ts:208-226 | a key that resolves in the table of the language, English when it is omitted, gives its text with the params substituted; omitting the language is asking for English |
| I18n.TDefaultsToEnglish | app/lib/i18n.ts:208 | `t` without a language equals `t` with `'en'` |
| I18n.TMisses | app/lib/i18n.ts:212-216 | a key that misses comes back unchanged, whatever the params |
| I18n.TUnknownLanguage | app/lib/i18n.ts:208-213 | a language given explicitly that the table lacks makes `t` throw on the first segment |
| I18n.EnglishSections | app/lib/i18n.ts:15-206 | the English table's sections, in order |
| I18n.UnknownSectionGivesKey | app/lib/i18n.ts:212-216 | a key whose first segment names no section comes back unchanged |
| I18n.SubstituteOne | app/lib/i18n.ts:221-223 | one param replaces the first `{name}` of the text by its value's text, with `$$`, `$&`, `` $` `` and `$'` expanded to `$`, the placeholder, the text before it and the text after it |
| I18n.SubstituteOneLiteral | app/lib/i18n.ts:221-223 | a value whose text has no `$` is inserted as it is |
| I18n.SubstituteMatchedText | app/lib/i18n.ts:221-223 | the value `$&` puts the placeholder back, so the text comes out unchanged |
| Theme.GetThemeValueFollows | frontend/app/styles/theme/utils.ts:9-11 | along existing keys the lookup finds the nested value |
| Theme.GetThemeValue | frontend/app/styles/theme/utils.ts:9-11 | an empty path gives the object; `undefined` or `null` before a segment, or a key missing from an object, gives `undefined`; the optional chaining never throws a TypeError; GetThemeValueFollows states the found value |
| Theme.MissingSegment | frontend/app/styles/theme/utils.ts:10 | a segment missing from an object makes the whole lookup `undefined` |
| Theme.TvFinds | frontend/app/styles/theme/utils.ts:47-57 | a path to a truthy value gives that value, and a path through a missing key gives empty text |
| Theme.Tv | frontend/app/styles/theme/utils.ts:47-57 | the result throws exactly when the lookup does, is truthy or empty text, and a truthy result is the value found; TvFinds ties it to the path stored in the theme |
| Theme.CssVarName | frontend/app/styles/theme/utils.ts:60-72 | a path to a truthy value names the variable with every dot replaced by a dash |
| Theme.CssVar | frontend/app/styles/theme/utils.ts:60-72 | the result throws exactly when the lookup does, and a non-empty name is `var(--…)` of the path with every dot replaced by a dash; CssVarName states when it is empty |
| Theme.IsHexColorIff | frontend/app/styles/theme/utils.ts:27-29 | the test accepts exactly six hexadecimal digits with or without one leading `#` |
| Theme.HexToRgb | frontend/app/styles/theme/utils.ts:14-24 | for a valid colour each component is the decimal value of its pair of digits; HexToRgbOfHex2 is the round trip from three bytes |
| Theme.HexToRgbOfHex2 | frontend/app/styles/theme/utils.ts:14-29 | three bytes written as a colour are read back as their decimal values |
| Theme.ComponentOf | frontend/app/styles/theme/utils.ts:19-21 | a component of six hex digits is the decimal text of its byte |
| Theme.FormatColorKinds | frontend/app/styles/theme/utils.ts:32-45 | a hex colour gives `rgb`/`rgba` of its components, other text with `%` gives `hsl`, and the rest is wrapped as given |
| Theme.FormatColor | frontend/app/styles/theme/utils.ts:32-45 | a hex colour gives `rgb` or `rgba` of the decimal values of its bytes; other text with `%` gives `hsl` of the text; FormatColorKinds adds that the HSL form ignores the alpha and never applies to a hex colour |
| Theme.ColorOf | frontend/app/styles/theme/utils.ts:75-84 | a theme without readable `colors` or a lookup that throws passes the error on; a falsy value gives empty text, colour text is formatted, and a number, boolean or object throws a TypeError; ColorOfFound and MissingColorIsEmpty tie this to the path stored in the theme |
| Theme.MissingColorIsEmpty | frontend/app/styles/theme/utils.ts:75-96 | a colour path missing under `colors` gives empty text from `color` and `hsl` |
| Theme.ColorOfFound | frontend/app/styles/theme/utils.ts:75-84 | a colour text stored under the path is formatted as a colour |
| Theme.ColorOfHex | frontend/app/styles/theme/utils.ts:75-84 | a hex colour stored under the path comes out in the `rgb` form |
| Theme.Hsl | frontend/app/styles/theme/utils.ts:86-96 | a theme without readable `colors` or a lookup that throws passes the error on, a falsy value gives empty text, and any other result is `hsl(…)`; HslFound and MissingColorIsEmpty tie this to the path stored in the theme |
| Theme.HslFound | frontend/app/styles/theme/utils.ts:86-96 | a truthy value stored under the path comes out as its text inside `hsl(…)`, a stored text as written |
| JsonViewer.Swap | frontend/app/json-viewer/page.tsx:105-107 | a swap keeps the columns as a permutation |
| JsonViewer.MoveField | frontend/app/json-viewer/page.tsx:102-110 | moving a column keeps the columns as a permutation |
| JsonViewer.MoveFieldPositions | frontend/app/json-viewer/page.tsx:102-110 | the column moves one place when it can and trades places with its neighbour; everything else stays |
| JsonViewer.MoveUpThenDown | frontend/app/json-viewer/page.tsx:102-110 | moving a column up and then back down restores the order |
| JsonViewer.MoveDownThenUp | frontend/app/json-viewer/page.tsx:102-110 | moving a column down and then back up restores the order |
| JsonViewer.AvailableFieldsExactly | frontend/app/json-viewer/page.tsx:54-59 | the columns are exactly the keys of some contract, each once, in first-seen order |
| JsonViewer.AvailableFields | frontend/app/json-viewer/page.tsx:54-59 | the columns list each key of some contract, once, and nothing else; AvailableFieldsExactly adds the first-seen order |
| JsonViewer.AvailableFieldsUniform | frontend/app/json-viewer/page.tsx:54-62 | contracts with the same keys in the same order give those keys as columns |
| JsonViewer.HandleFilterChange | frontend/app/json-viewer/page.tsx:90-95 | the filter state keeps holding text only |
| JsonViewer.HandleFilterChangeReads | frontend/app/json-viewer/page.tsx:90-95 | a change sets that column's filter and keeps every other one |
| JsonViewer.ApplyFieldFiltersIsFilter | frontend/app/json-viewer/page.tsx:69-76 | the column filters together keep exactly the contracts that pass every non-empty one |
| JsonViewer.ApplyFieldFilters | frontend/app/json-viewer/page.tsx:69-76 | the result is a subsequence of the contracts, each passing every non-empty column filter; ApplyFieldFiltersIsFilter states that nothing else is dropped |
| JsonViewer.Narrow | frontend/app/json-viewer/page.tsx:70-75 | one filter entry keeps a subsequence of the contracts, each matching a non-empty value |
| JsonViewer.ViewFilterKeepsExactly | frontend/app/json-viewer/page.tsx:66-88 | the list shown keeps, in order, exactly the contracts that pass the column filters and the term |
| JsonViewer.ViewFilter | frontend/app/json-viewer/page.tsx:66-88 | the list shown is a subsequence of the contracts, each passing the column filters and the term; ViewFilterKeepsExactly states that nothing else is dropped |
| JsonViewer.EmptyFiltersShowAll | frontend/app/json-viewer/page.tsx:66-88 | empty filters and an empty term show every contract |
| ContractManager.MapMatching | frontend/components/contract/contract-manager.tsx:212-222 | exactly the rows with the id are transformed, the rest kept |
| ContractManager.ToggleEditFields | frontend/components/contract/contract-manager.tsx:212-222 | toggling flips the editing flag; entering edit mode copies the row into `editedValues` and leaving it clears them; no other key changes |
| ContractManager.ToggleEditModeEffect | frontend/components/contract/contract-manager.tsx:212-222 | only rows with the id change: their flag flips, entering edit mode copies the row into `editedValues`, and leaving it clears them |
| ContractManager.ToggleEditMode | frontend/components/contract/contract-manager.tsx:212-222 | the row count is kept, rows without the id are untouched, and each row with the id flips its editing flag and keeps its id; ToggleEditModeEffect states the edited values |
| ContractManager.ToggleEditModeTwice | frontend/components/contract/contract-manager.tsx:212-222 | entering and then leaving edit mode ends out of edit mode with no edits and every other key as it was |
| ContractManager.HandleValueChangeEffect | frontend/components/contract/contract-manager.tsx:253-265 | only rows with the id change: their edits hold the new value under the field and keep the others |
| ContractManager.HandleValueChange | frontend/components/contract/contract-manager.tsx:253-265 | the row count is kept, rows without the id are untouched, and each row with the id holds the new value under the field in its edited values; HandleValueChangeEffect states that the other edits stay |
| ContractManager.ApplyEditsFields | frontend/components/contract/contract-manager.tsx:225-250 | the merged row reads each edited key as edited and every other key as before |
| ContractManager.ApplyEdits | frontend/components/contract/contract-manager.tsx:225-250 | the merged row is out of edit mode with no edited values; ApplyEditsFields states every other key |
| ContractManager.SaveEdited | frontend/components/contract/contract-manager.tsx:225-250 | the row count is kept, rows without the id are untouched, and a failed store or an id no row has changes nothing; SaveEditedEffect states the merge |
| ContractManager.SaveEditedEffect | frontend/components/contract/contract-manager.tsx:225-250 | with nothing to save or a failed store the rows are unchanged; a stored save merges the edits and leaves edit mode |
| ContractManager.SaveEditedAsWrittenChangesNothing | frontend/components/contract/contract-manager.tsx:14-250 | as written the save always takes the failure path and the rows come back unchanged |
| ContractManager.SaveEditedAsWrittenLosesEdit | frontend/components/contract/contract-manager.tsx:14-250 | an edit differing from the row's value is lost as written but kept by the corrected save |
| ContractManager.ExpandFields | frontend/components/contract/contract-manager.tsx:166-209 | expanding sets only the expanded flag and the related data |
| ContractManager.CollapseFields | frontend/components/contract/contract-manager.tsx:171-176 | collapsing clears the expanded flag and touches no other key |
| ContractManager.ToggleRowExpansion | frontend/components/contract/contract-manager.tsx:166-209 | the row count is kept, rows without the id are untouched, and an id no row has changes nothing; ToggleRowExpansionEffect states the collapse and load outcomes |
| ContractManager.ToggleRowExpansionEffect | frontend/components/contract/contract-manager.tsx:166-209 | rows without the id are untouched; an expanded row collapses; otherwise the row shows the loaded data or collapses on failure |
| ContractManager.LoadedRow | frontend/components/contract/contract-manager.tsx:179-201 | a row that loaded its data is expanded with that data, every other key as before |
| ContractManager.FailedRow | frontend/components/contract/contract-manager.tsx:179-207 | a row whose load failed is collapsed with the loading marker left, every other key as before |
| ContractManager.SearchParams | frontend/components/contract/contract-manager.tsx:119-123 | the `all` selections and an empty postal code become absent filters; every other control value is passed as given |
| ContractManager.SearchParamsAccept | components/contract/contract-manager.tsx:62-66 | a contract passes the query exactly when it matches every control that is not `all` or empty |
| ContractManager.ManagerSearchKeeps | components/contract/contract-manager.tsx:58-75 | the list holds exactly the stored contracts that the controls and the term accept, and with everything cleared it is every stored contract |
| ContractManager.ManagerSearch | components/contract/contract-manager.tsx:58-75 | the list is a subsequence of the stored contracts in key order, every contract of it matches a non-empty term, and it throws exactly when the store search does; ManagerSearchKeeps states exactly what is kept |
| History.HandleDelete | app/history/page.tsx:68-77 | the list shown is a subsequence of the history; after a successful delete and save it holds exactly the entries without the id, otherwise it is the history |
| History.HandleDeleteEffect | app/history/page.tsx:68-77 | after a successful delete no entry has the id and every other entry is kept in order; a failure changes nothing |
| History.FilterCount | app/history/page.tsx:71 | the list shrinks by the number of entries with the id |
| History.HandleDeleteTwice | app/history/page.tsx:68-77 | deleting the same id a second time changes nothing |
| History.WithSize | app/history/page.tsx:90-95 | every entry keeps its file name, and only the entries of the file get the new size |
| History.HandleSaveEdit | app/history/page.tsx:79-104 | the history keeps its length and file names |
| History.HandleSaveEditEffect | app/history/page.tsx:79-104 | a successful save sets the size of the open file's entries to the text's length and leaves the rest; any failure changes nothing |
| History.HandleSaveEditTwice | app/history/page.tsx:79-104 | saving the same text twice leaves the history as one save did |
| History.Tenths | app/history/page.tsx:109 | the count of tenths is the nearest to the exact quotient, ties going up |
| History.TenthsNearest | app/history/page.tsx:109 | no other count of tenths is nearer, and one as near is smaller |
| History.Fixed1 | app/history/page.tsx:109-112 | the text has one digit after the point and a sign only when negative |
| History.FormatFileSize | app/history/page.tsx:106-113 | sizes below 1024 KB are shown in KB, larger ones in MB |
| Analyze.DistrictCount | frontend/app/analyze/page.tsx:53 | the count is the number of districts when they are loaded, otherwise 0 |
| Analyze.Copies | frontend/app/analyze/page.tsx:64 | each taxi adds its copies, or 0 when missing |
| Analyze.TotalCopies | frontend/app/analyze/page.tsx:64 | no taxis, or no taxi with copies, give 0, and non-negative copies give a non-negative total; TotalCopiesIsSum equates it with the plain sum |
| Analyze.TotalCopiesIsSum | frontend/app/analyze/page.tsx:64 | the left fold gives the plain sum of each taxi's copies |
| Analyze.TotalCopiesAppend | frontend/app/analyze/page.tsx:64 | splitting the taxis in two splits the total |
| Analyze.AssignTotal | frontend/app/analyze/page.tsx:70-72 | the table's keys are the districts' keys and each holds the total |
| Analyze.CopiesBy | frontend/app/analyze/page.tsx:58-82 | with both lists loaded every district key holds the total copies; otherwise the table is empty |
| Language.InitialLanguage | components/theme/language-provider.tsx:16-25 | a known saved language is kept; otherwise Norwegian exactly when the browser language names it |
| Language.Mount | components/theme/language-provider.tsx:16-30 | after mounting, the language is the initial one and is what storage holds |
| Language.SetLanguage | components/theme/language-provider.tsx:28-30 | a change is stored, and setting the current language stores nothing new |
| Language.ChangesStayPersisted | components/theme/language-provider.tsx:28-30 | after any sequence of known languages the stored value is the language |
| Language.SetAll | components/theme/language-provider.tsx:28-30 | the language after a sequence of changes is the last one |
| Language.ReloadRestores | components/theme/language-provider.tsx:16-30 | what one session stores, the next mount restores |
| Language.ForeignCodeNotRestored | frontend/components/theme/language-provider.tsx:21-30 | the root provider's `no` is not recognised by the other provider and is replaced by the browser default |
| Language.NoPrefixOnlyAtRoot | frontend/components/theme/language-provider.tsx:25-29 | a browser language starting with `no` gives Norwegian only under the root provider |
| Language.UseLanguage | components/theme/language-provider.tsx:39-45 | outside a provider the hook throws; inside it returns the provider's value |
| BaseClass.SoftDelete | backend/app/db/base_class.py:24-27 | a soft-deleted row is inactive and stamped with the time; nothing else changes |
| BaseClass.Restore | backend/app/db/base_class.py:29-32 | a restored row is active with no deletion stamp; nothing else changes |
| BaseClass.RestoreUndoesSoftDelete | backend/app/db/base_class.py:24-32 | restoring a soft-deleted live row gives the row back |
| BaseClass.SoftDeleteTwice | backend/app/db/base_class.py:24-27 | deleting twice keeps only the later stamp |
| BaseClass.TableName | backend/app/db/base_class.py:13-15 | the table name has the class name's length; each ASCII or Latin-1 capital becomes its small letter, and every other character is kept |
| BaseClass.TableNameIdempotent | backend/app/db/base_class.py:13-15 | a table name is its own table name |

## Left out

- File and network I/O: reading uploads, writing the JSON output, the history file, logging, `alert`, `console` calls and the IndexedDB transaction machinery. The outcome of a file or store call is a parameter instead.
- Floating-point arithmetic:
  - the dashboard averages (`averageCostPerKm`, `averageMinimumCost`);
  - the analysis page's `avgKmpris`;
  - the office `totalCostPerKm`.
  Numbers are exact decimals. `Number` reads the plain signed decimal grammar only: exponent, hexadecimal, binary, octal and `Infinity` text reads as NaN. `parseFloat` reads the longest `digits[.digits]` prefix: it stops before an exponent (`"1e3"` reads as 1), reads hexadecimal, binary and octal text as 0 as JavaScript does, and reads `Infinity` as NaN. `parseInt` reads a `0x` prefix as base 16.
- `resourceCounts` and `areaPostalCodes`: the import page declares them but never fills them. Every contract therefore has `resourceCount` 0 and empty postal-code lists, and the model writes those constants directly.
- The type and resource tables (`type_kikk.csv`, `ressurser.csv`) are looked up by name but never read.
- The relationships the upload and `setAllToOmradekode` build are modelled, but the join never consults them. It always joins on the normalised area code.
- The custom-field form is never rendered, so the page's `customFields` list stays empty. `CustomFields` models `applyCustomFields` for any list; `Reconcile.GenerateJson` takes the list as a parameter.
- JavaScript's ordering of integer-like keys ahead of other keys in an object is not modelled. Objects keep insertion order.
- Case mapping covers the ASCII letters and the Latin-1 letters that map one to one. Whitespace is JavaScript's full `\s` set.
- `processCSVData` of frontend/app/lib/csv, the module the frontend's server action imports as `@/app/lib/csv`, is not part of this model. `ContractLoad` takes its parsed rows as input.
- The preview editor, the coordinate picker, app/lib/settings.ts and all rendering are left out, because they are presentation only.
- The backend's column defaults (`uuid4`, `utcnow`) are left out, because they are clock and randomness. `BaseClass.SoftDelete` takes the time as a parameter.
- The `id` and timestamps of `saveLocation` are left out, because they come from `crypto.randomUUID` and the clock.
- ContractLoad.CostOf: a cost written with an exponent reads as the number before the `e` (`"1.5e2"` gives 1.5 where JavaScript's `parseFloat` gives 150), and `"Infinity"` gives 0 where JavaScript keeps Infinity, because `parseFloat` is modelled without the exponent and infinity forms.
- Json.ToStr: numbers are always written in fixed notation. JavaScript's `String(x)` switches to exponent form when the magnitude is at least 1e21 or below 1e-6, so `String(1e-7)` is `"1e-7"` and `String(1e21)` is `"1e+21"`, where the model writes `"0.0000001"` and the 22 digits. This text reaches `Transform.NormalizeAreaCode` for an area code that `Reconcile.Coerce` made a number, `Dashboard.GroupKey` and the params of `I18n.Substitute`.
- Language.SetLanguage: the React effect scheduling is reduced to "stored after each change". Batching of several changes into one render is not modelled.
- Transform.NormalizeAreaCode: `toUpperCase` is modelled for ASCII and Latin-1 only. `ß` stays `ß` and is then dropped by the character filter, so `"Gaßa"` gives `"GAA"` where JavaScript gives `"GASSA"`. Likewise `ı`, `ſ` and the ligatures do not become ASCII capitals as they do in JavaScript.
- Reconcile.Coerce: text that JavaScript's `Number` reads but the plain decimal grammar does not is kept as text. This covers exponent, hexadecimal, binary, octal and `Infinity` forms. JavaScript stores `parseFloat` of such text instead, so `"0x1A"` becomes 0 and `"1e3"` becomes 1000.
- BaseClass.TableName: Python's `lower()` maps all of Unicode. The model maps ASCII, Latin-1 and `Ÿ` only.
- Unmodelled: the error `Json.Unmodelled` stands for engine behaviour the model does not follow:
  - Json.SetProp on an array with a key that is not an index, with `length`, or with an index past the end. JavaScript adds a property, truncates or extends the array; for example, a custom field `contracts.length` truncates the contract list.
  - Json.Prop on a string, at an index, when the string holds a character outside the Basic Multilingual Plane.
  - Theme.ColorOf on an array value, which JavaScript searches with `Array.prototype.includes`.
- Json.Prop: properties inherited from `Object.prototype` are not modelled and read as `undefined`. In JavaScript `t('navigation.constructor')` finds the `Object` constructor, not the key.
- Reconcile.ContractValue: every contract gets its own copy of the start location. In JavaScript all contracts of one area code share the one object `startLocations.get(...)` returns, so a custom field `contracts[].startLocation.x` written through one of them shows in every contract of that area.
- Dashboard.LicenseStats: the result is a map, so the insertion order of JavaScript's object is not kept.
- History.Fixed1: the text is produced for the tenths count. `toFixed`'s behaviour on binary floating-point values that lie exactly halfway is approximated by rounding the exact quotient half up.

## Findings

| source | as written | input that shows it | evidently intended | confidence | as-written member | corrected member |
|---|---|---|---|---|---|---|
| frontend/components/contract/contract-manager.tsx:14-250 | `saveEditedValues` calls `storeContract`, but the component never imports it. The call throws a ReferenceError, the catch only logs, and the edits stay pending. | any row in edit mode with an edited value that differs from the stored one, then Save | the merged record is stored and the row leaves edit mode with the edits applied | not executed | ContractManager.SaveEditedAsWrittenLosesEdit | ContractManager.SaveEditedEffect |

=== FILE: analyze.dfy ===
/** The aggregates of the analysis page, frontend/app/analyze/page.tsx:
    the number of districts and the copies-per-key tables. The fetch of the
    data and the kilometre-price average are not modelled. */
module Analyze {
  import opened Wrappers
  import opened Seqs

  datatype District = District(avtalekontor: string, omradeKode: string)

  /** A taxi resource; `copies` is `None` when the property is missing or
      zero, which `t.copies || 0` both read as 0. */
  datatype Taxi = Taxi(copies: Option<int>, contractId: string)

  /** The fetched data; a missing list is `None`. */
  datatype Data = Data(districts: Option<seq<District>>, taxis: Option<seq<Taxi>>)

  /** `data?.districts?.length ?? 0`, with `None` for data not loaded. */
  function DistrictCount(data: Option<Data>): (n: nat)
    ensures n > 0 ==> data.Some? && data.value.districts.Some? && n == |data.value.districts.value|
    ensures data.Some? && data.value.districts.Some? ==> n == |data.value.districts.value|
  {
    if data.Some? && data.value.districts.Some? then |data.value.districts.value| else 0
  }

  /** The copies each taxi adds to the total. */
  function Copies(taxis: seq<Taxi>): (cs: seq<int>)
    ensures |cs| == |taxis|
    ensures forall i :: 0 <= i < |taxis| ==> cs[i] == taxis[i].copies.GetOr(0)
  {
    seq(|taxis|, i requires 0 <= i < |taxis| => taxis[i].copies.GetOr(0))
  }

  /** `taxis.reduce((acc, t) => acc + (t.copies || 0), 0)`, folding from
      the left. */
  function TotalCopies(taxis: seq<Taxi>): (total: int)
    ensures |taxis| == 0 ==> total == 0
    ensures (forall i :: 0 <= i < |taxis| ==> taxis[i].copies.GetOr(0) >= 0) ==> total >= 0
    ensures (forall i :: 0 <= i < |taxis| ==> taxis[i].copies.None?) ==> total == 0
  {
    if |taxis| == 0 then 0 else TotalCopies(taxis[..|taxis| - 1]) + taxis[|taxis| - 1].copies.GetOr(0)
  }

  /** The left fold adds up the same numbers as the plain sum: each taxi
      counts once, a missing count as 0, whatever the grouping. */
  lemma {:induction false} TotalCopiesIsSum(taxis: seq<Taxi>)
    ensures TotalCopies(taxis) == Sum(Copies(taxis))
  {
    if |taxis| > 0 {
      var init := taxis[..|taxis| - 1];
      TotalCopiesIsSum(init);
      assert Copies(taxis) == Copies(init) + [taxis[|taxis| - 1].copies.GetOr(0)];
      SumAppend(Copies(init), [taxis[|taxis| - 1].copies.GetOr(0)]);
    }
  }

  /** Splitting the taxis in two splits the total. */
  lemma TotalCopiesAppend(a: seq<Taxi>, b: seq<Taxi>)
    ensures TotalCopies(a + b) == TotalCopies(a) + TotalCopies(b)
  {
    TotalCopiesIsSum(a + b);
    TotalCopiesIsSum(a);
    TotalCopiesIsSum(b);
    CopiesAppend(a, b);
    SumAppend(Copies(a), Copies(b));
  }

  lemma CopiesAppend(a: seq<Taxi>, b: seq<Taxi>)
    ensures Copies(a + b) == Copies(a) + Copies(b)
  {
    var l, r := Copies(a + b), Copies(a) + Copies(b);
    assert |l| == |r|;
    forall i | 0 <= i < |l| ensures l[i] == r[i] {
      if i < |a| {
        assert (a + b)[i] == a[i];
      } else {
        assert (a + b)[i] == b[i - |a|];
      }
    }
  }

  /** Which district property keys the table. */
  datatype KeyBy = ByOmradeKode | ByAvtalekontor

  function KeyOf(d: District, key: KeyBy): string {
    if key == ByOmradeKode then d.omradeKode else d.avtalekontor
  }

  /** The keys of the districts. */
  ghost function DistrictKeys(ds: seq<District>, key: KeyBy): set<string> {
    set i | 0 <= i < |ds| :: KeyOf(ds[i], key)
  }

  /** `for (const dist of districts) table[key(dist)] = total`. */
  method AssignTotal(ds: seq<District>, key: KeyBy, total: int) returns (table: map<string, int>)
    ensures table.Keys == DistrictKeys(ds, key)
    ensures forall k :: k in table ==> table[k] == total
  {
    table := map[];
    var i := 0;
    while i < |ds|
      invariant 0 <= i <= |ds|
      invariant table.Keys == DistrictKeys(ds[..i], key)
      invariant forall k :: k in table ==> table[k] == total
    {
      assert ds[..i + 1] == ds[..i] + [ds[i]];
      table := table[KeyOf(ds[i], key) := total];
      i := i + 1;
    }
    assert ds[..i] == ds;
  }

  /** `copiesByOmradeKode` and `copiesByAvtalekontor`: when both lists are
      present every district's key maps to the total number of copies;
      otherwise the table is empty. */
  method CopiesBy(data: Option<Data>, key: KeyBy) returns (table: map<string, int>)
    ensures data.Some? && data.value.districts.Some? && data.value.taxis.Some? ==>
      && table.Keys == DistrictKeys(data.value.districts.value, key)
      && forall k :: k in table ==> table[k] == Sum(Copies(data.value.taxis.value))
    ensures !(data.Some? && data.value.districts.Some? && data.value.taxis.Some?) ==> table == map[]
  {
    table := map[];
    if data.Some? && data.value.districts.Some? && data.value.taxis.Some? {
      var total := TotalCopies(data.value.taxis.value);
      TotalCopiesIsSum(data.value.taxis.value);
      table := AssignTotal(data.value.districts.value, key, total);
    }
  }
}

=== FILE: base_class.dfy ===
/** The common columns of the backend's database models and their soft
    delete (backend/app/db/base_class.py). A timestamp is a parameter:
    the clock is outside the model. */
module BaseClass {
  import opened Wrappers
  import opened Text

  /** A row of any model: the common columns and the model's own
      attributes `A`, which the methods here never touch. */
  datatype Row<A> = Row(
    id: string,
    createdAt: int,
    updatedAt: int,
    deletedAt: Option<int>,
    isActive: bool,
    attrs: A)

  /** The column defaults of a new row: active and not deleted. */
  predicate Live<A>(r: Row<A>) {
    r.isActive && r.deletedAt.None?
  }

  /** `soft_delete`: stamped with the time and made inactive. */
  function SoftDelete<A>(r: Row<A>, now: int): (d: Row<A>)
    ensures !d.isActive && d.deletedAt == Some(now)
    ensures d.id == r.id && d.createdAt == r.createdAt && d.updatedAt == r.updatedAt && d.attrs == r.attrs
  {
    r.(deletedAt := Some(now), isActive := false)
  }

  /** `restore`: the deletion stamp cleared and the row active again. */
  function Restore<A>(r: Row<A>): (d: Row<A>)
    ensures Live(d)
    ensures d.id == r.id && d.createdAt == r.createdAt && d.updatedAt == r.updatedAt && d.attrs == r.attrs
  {
    r.(deletedAt := None, isActive := true)
  }

  /** Restoring a soft-deleted live row gives the row back. */
  lemma RestoreUndoesSoftDelete<A>(r: Row<A>, now: int)
    requires Live(r)
    ensures Restore(SoftDelete(r, now)) == r
  {
  }

  /** Soft-deleting twice keeps only the later stamp. */
  lemma SoftDeleteTwice<A>(r: Row<A>, t1: int, t2: int)
    ensures SoftDelete(SoftDelete(r, t1), t2) == SoftDelete(r, t2)
  {
  }

  /** `__tablename__`: the class name lower-cased. Each capital becomes
      its small letter; every other character is kept. */
  function TableName(className: string): (t: string)
    ensures |t| == |className|
    ensures forall k :: 0 <= k < |t| ==> !IsAsciiUpper(t[k])
    ensures forall k :: 0 <= k < |t| && IsAsciiUpper(className[k]) ==> t[k] as int == className[k] as int + 32
    ensures forall k :: 0 <= k < |t| && IsLatinUpper(className[k]) ==> t[k] as int == className[k] as int + 32
    ensures forall k :: 0 <= k < |t| && className[k] == '\U{0178}' ==> t[k] == '\U{00FF}'
    ensures forall k :: (0 <= k < |t| && !IsAsciiUpper(className[k]) && !IsLatinUpper(className[k])
                         && className[k] != '\U{0178}') ==> t[k] == className[k]
  {
    ToLower(className)
  }

  /** A table name is its own table name. */
  lemma TableNameIdempotent(className: string)
    ensures TableName(TableName(className)) == TableName(className)
  {
    var t := TableName(className);
    forall k | 0 <= k < |t| ensures LowerChar(t[k]) == t[k] {
      LowerCharIdempotent(className[k]);
    }
  }

  lemma LowerCharIdempotent(c: char)
    ensures LowerChar(LowerChar(c)) == LowerChar(c)
  {
  }
}

=== FILE: contract_load.dfy ===
/** Loading contracts in the two server actions: the mapping of the
    agreement rows to contracts and their enrichment with the area and
    start-place rows (frontend/app/actions/contract-actions.ts), and the
    choice of the newest output file (app/actions/contract-actions.ts).
    The rows are taken as the CSV reader delivers them; reading the files
    and the file times are outside the model. */
module ContractLoad {
  import opened Wrappers
  import opened Text
  import opened Numbers
  import opened Json
  import opened Seqs
  import opened Search

  /** A parsed CSV row: column name to cell text. */
  type CsvRow = map<string, string>

  /** `row.COL`: the cell, `undefined` for a missing column. */
  function CellOf(row: CsvRow, col: string): Value {
    if col in row then Str(row[col]) else Undefined
  }

  /** `row.GYLDIGBEHOV ? row.GYLDIGBEHOV.split(';').map(n => n.trim()) : []`:
      the needs cell splits at every `;`, empty pieces included, each piece
      trimmed; a missing or empty cell gives no needs. */
  function ValidNeeds(row: CsvRow): (needs: seq<string>)
    ensures !("GYLDIGBEHOV" in row && |row["GYLDIGBEHOV"]| > 0) ==> needs == []
    ensures "GYLDIGBEHOV" in row && |row["GYLDIGBEHOV"]| > 0 ==>
      && |needs| == Occurrences(row["GYLDIGBEHOV"], ';') + 1
      && forall k :: 0 <= k < |needs| ==> ';' !in needs[k] && Trim(needs[k]) == needs[k]
  {
    if "GYLDIGBEHOV" in row && |row["GYLDIGBEHOV"]| > 0 then
      var pieces := Split(row["GYLDIGBEHOV"], ';');
      SplitCount(row["GYLDIGBEHOV"], ';');
      assert forall k :: 0 <= k < |pieces| ==> ';' !in Trim(pieces[k]) && Trim(Trim(pieces[k])) == Trim(pieces[k]) by {
        forall k | 0 <= k < |pieces| ensures ';' !in Trim(pieces[k]) && Trim(Trim(pieces[k])) == Trim(pieces[k]) {
          TrimIdempotent(pieces[k]);
          var t := Trim(pieces[k]);
          var i := LeadingSpaces(pieces[k]);
          assert t == pieces[k][i..i + |t|];
        }
      }
      TrimAll(pieces)
    else []
  }

  /** `parseFloat(row.COL) || 0`: the number at the front of the cell; no
      number (NaN), a zero or a missing cell give 0. */
  function CostOf(row: CsvRow, col: string): (v: Value)
    ensures v.Num?
  {
    if col !in row then NumOf(0)
    else
      match ParseFloatPrefix(row[col])
      case Some(d) => if IsZero(d) then NumOf(0) else Num(d)
      case None => NumOf(0)
  }

  function Strs(xs: seq<string>): (vs: seq<Value>)
    ensures |vs| == |xs|
    ensures forall i :: 0 <= i < |xs| ==> vs[i] == Str(xs[i])
  {
    seq(|xs|, i requires 0 <= i < |xs| => Str(xs[i]))
  }

  /** The contract object, keys in the order the mapping writes them. */
  function Record(id: Value, office: Value, name: Value, kind: Value, transport: Value, needs: Value, cost: Value): Contract {
    [Field("id", id)] + ([Field("avtaleKontor", office)] + ([Field("avtaleNavn", name)] + ([Field("type", kind)] +
      [Field("validTransport", transport), Field("validNeeds", needs), Field("cost", cost)])))
  }

  lemma RecordFields(id: Value, office: Value, name: Value, kind: Value, transport: Value, needs: Value, cost: Value)
    ensures var c := Record(id, office, name, kind, transport, needs, cost);
      At(c, "id") == id && At(c, "avtaleKontor") == office && At(c, "avtaleNavn") == name && At(c, "type") == kind
  {
    var r3 := [Field("type", kind)] + [Field("validTransport", transport), Field("validNeeds", needs), Field("cost", cost)];
    var r2 := [Field("avtaleNavn", name)] + r3;
    var r1 := [Field("avtaleKontor", office)] + r2;
    GetSkip(Field("avtaleNavn", name), r3, "type");
    GetSkip(Field("avtaleKontor", office), r2, "type");
    GetSkip(Field("avtaleKontor", office), r2, "avtaleNavn");
    GetSkip(Field("id", id), r1, "type");
    GetSkip(Field("id", id), r1, "avtaleNavn");
    GetSkip(Field("id", id), r1, "avtaleKontor");
  }

  /** The contract built from one agreement row. */
  function ContractOfRow(row: CsvRow): (c: Contract)
    ensures At(c, "id") == CellOf(row, "OMRADEKODE")
    ensures At(c, "avtaleKontor") == CellOf(row, "AVTALEKONTOR")
    ensures At(c, "avtaleNavn") == CellOf(row, "AVTALENAVN")
    ensures At(c, "type") == CellOf(row, "TYPE")
  {
    RecordFields(CellOf(row, "OMRADEKODE"), CellOf(row, "AVTALEKONTOR"), CellOf(row, "AVTALENAVN"), CellOf(row, "TYPE"),
      CellOf(row, "GYLDIGTRANSPORT"), Arr(Strs(ValidNeeds(row))), CostsOf(row));
    Record(CellOf(row, "OMRADEKODE"), CellOf(row, "AVTALEKONTOR"), CellOf(row, "AVTALENAVN"), CellOf(row, "TYPE"),
      CellOf(row, "GYLDIGTRANSPORT"), Arr(Strs(ValidNeeds(row))), CostsOf(row))
  }

  /** The `cost` object of a row. */
  function CostsOf(row: CsvRow): Value {
    Obj([ Field("costPerKm", CostOf(row, "KMPRIS")),
          Field("minimumCost", CostOf(row, "MINPRIS")),
          Field("startupCost", CostOf(row, "STARTTAKST")) ])
  }

  /** Trimmed needs without `;` written as a `;`-list come back as the
      list. */
  lemma ValidNeedsOfJoined(row: CsvRow, needs: seq<string>)
    requires |needs| > 0
    requires forall k :: 0 <= k < |needs| ==> ';' !in needs[k] && Trim(needs[k]) == needs[k]
    requires "GYLDIGBEHOV" in row && row["GYLDIGBEHOV"] == Join(needs, ';')
    requires |Join(needs, ';')| > 0
    ensures ValidNeeds(row) == needs
  {
    SplitJoin(needs, ';');
    TrimAllOfTrimmed(needs);
  }

  /** Empty pieces are kept: `a;;b` gives three needs, the middle one
      empty. */
  lemma EmptyNeedKept(row: CsvRow)
    requires "GYLDIGBEHOV" in row && row["GYLDIGBEHOV"] == "a;;b"
    ensures ValidNeeds(row) == ["a", "", "b"]
  {
    assert Join(["a", "", "b"], ';') == "a;;b";
    TrimNoSpace("a");
    TrimNoSpace("b");
    ValidNeedsOfJoined(row, ["a", "", "b"]);
  }

  /** A cost written as a non-zero number is read back as that number. */
  lemma CostOfWritten(row: CsvRow, col: string, d: Dec)
    requires Normal(d) && !IsZero(d)
    requires col in row && row[col] == DecToString(d)
    ensures CostOf(row, col) == Num(d)
  {
    NumberOfDecToString(d);
    NormalizeNormal(d);
    ParseFloatAgrees(row[col]);
  }

  /** The first row of `rows` with exactly this code. */
  predicate FirstWithCode(rows: seq<CsvRow>, id: Value, i: int) {
    && 0 <= i < |rows| && CellOf(rows[i], "OMRADEKODE") == id
    && forall j :: 0 <= j < i ==> CellOf(rows[j], "OMRADEKODE") != id
  }

  predicate NoRowWithCode(rows: seq<CsvRow>, id: Value) {
    forall i :: 0 <= i < |rows| ==> CellOf(rows[i], "OMRADEKODE") != id
  }

  /** `rows.find(r => r.OMRADEKODE === id)?.COL`: the cell of the first
      row with the code, `undefined` when no row has it. A row without the
      code column matches an `undefined` id. */
  function FirstCell(rows: seq<CsvRow>, id: Value, col: string): (v: Value)
    ensures v.Str? || v.Undefined?
    ensures NoRowWithCode(rows, id) ==> v == Undefined
    ensures forall i :: FirstWithCode(rows, id, i) ==> v == CellOf(rows[i], col)
  {
    var i := FindFirst(rows, r => CellOf(r, "OMRADEKODE") == id);
    if i < |rows| then CellOf(rows[i], col) else Undefined
  }

  /** The `startLocation` object built for the contract with code `id`. */
  function StartLocation(id: Value, areaRows: seq<CsvRow>, startRows: seq<CsvRow>): (loc: Value)
    ensures loc.Obj? && Keys(loc.fields) == ["postalCode", "city", "municipality"]
    ensures forall k :: 0 <= k < |loc.fields| ==> loc.fields[k].val.Str?
  {
    Obj([
      Field("postalCode", Or(FirstCell(startRows, id, "STARTPOSTNR"), Str(""))),
      Field("city", Or(FirstCell(startRows, id, "STARTPOSTSTED"), Str(""))),
      Field("municipality", Or(Or(FirstCell(startRows, id, "KOMMUNE"), FirstCell(areaRows, id, "KOMMUNE")), Str("")))])
  }

  /** The contract with its `startLocation` added. */
  function Enrich(c: Contract, areaRows: seq<CsvRow>, startRows: seq<CsvRow>): (r: Contract)
    ensures At(r, "startLocation") == StartLocation(At(c, "id"), areaRows, startRows)
    ensures forall k :: k != "startLocation" ==> At(r, k) == At(c, k)
  {
    var loc := StartLocation(At(c, "id"), areaRows, startRows);
    GetSetSame(c, "startLocation", loc);
    assert forall k :: k != "startLocation" ==> At(Set(c, "startLocation", loc), k) == At(c, k) by {
      forall k | k != "startLocation" ensures At(Set(c, "startLocation", loc), k) == At(c, k) {
        GetSetOther(c, "startLocation", loc, k);
      }
    }
    Set(c, "startLocation", loc)
  }

  /** `loadContracts` of the front end, from the parsed rows of the three
      files. */
  function LoadContracts(rows: seq<CsvRow>, areaRows: seq<CsvRow>, startRows: seq<CsvRow>): (cs: seq<Contract>)
    ensures |cs| == |rows|
  {
    seq(|rows|, i requires 0 <= i < |rows| => Enrich(ContractOfRow(rows[i]), areaRows, startRows))
  }

  /** The text of a cell, `''` standing for a missing or empty one. */
  function TextOr(v: Value): Value {
    if v.Str? && |v.s| > 0 then v else Str("")
  }

  /** With a start row for the code, the first such row gives the postal
      code and city, and the municipality unless its own is empty; the
      area rows are consulted only then. */
  lemma StartRowGivesLocation(id: Value, areaRows: seq<CsvRow>, startRows: seq<CsvRow>, i: int)
    requires FirstWithCode(startRows, id, i)
    ensures var loc := StartLocation(id, areaRows, startRows).fields;
      var sk := CellOf(startRows[i], "KOMMUNE");
      && At(loc, "postalCode") == TextOr(CellOf(startRows[i], "STARTPOSTNR"))
      && At(loc, "city") == TextOr(CellOf(startRows[i], "STARTPOSTSTED"))
      && At(loc, "municipality") == if Truthy(sk) then sk else TextOr(FirstCell(areaRows, id, "KOMMUNE"))
  {
    var pc := FirstCell(startRows, id, "STARTPOSTNR");
    var city := FirstCell(startRows, id, "STARTPOSTSTED");
    var sk := FirstCell(startRows, id, "KOMMUNE");
    var ak := FirstCell(areaRows, id, "KOMMUNE");
    assert pc == CellOf(startRows[i], "STARTPOSTNR");
    assert city == CellOf(startRows[i], "STARTPOSTSTED");
    assert sk == CellOf(startRows[i], "KOMMUNE");
    LocationAt(Or(pc, Str("")), Or(city, Str("")), Or(Or(sk, ak), Str("")));
    CellOrEmpty(pc);
    CellOrEmpty(city);
    CellOrEmpty(ak);
  }

  /** The three fields of a start location read back. */
  lemma LocationAt(pc: Value, city: Value, m: Value)
    ensures var loc := [Field("postalCode", pc), Field("city", city), Field("municipality", m)];
      At(loc, "postalCode") == pc && At(loc, "city") == city && At(loc, "municipality") == m
  {
    var l3 := [Field("municipality", m)];
    var l2 := [Field("city", city)] + l3;
    assert [Field("postalCode", pc), Field("city", city), Field("municipality", m)] == [Field("postalCode", pc)] + l2;
    GetSkip(Field("postalCode", pc), l2, "city");
    GetSkip(Field("postalCode", pc), l2, "municipality");
    GetSkip(Field("city", city), l3, "municipality");
  }

  /** `cell || ''` of a cell is its text, `''` for a missing cell. */
  lemma CellOrEmpty(v: Value)
    requires v.Str? || v.Undefined?
    ensures Or(v, Str("")) == TextOr(v)
  {
  }

  /** Without a start row for the code the postal code and city are empty
      whatever the area rows hold; the municipality comes from the first
      area row with the code, else is empty. */
  lemma NoStartRowNoPostalCode(id: Value, areaRows: seq<CsvRow>, startRows: seq<CsvRow>)
    requires NoRowWithCode(startRows, id)
    ensures var loc := StartLocation(id, areaRows, startRows).fields;
      && At(loc, "postalCode") == Str("") && At(loc, "city") == Str("")
      && At(loc, "municipality") == TextOr(FirstCell(areaRows, id, "KOMMUNE"))
      && (NoRowWithCode(areaRows, id) ==> At(loc, "municipality") == Str(""))
  {
    var ak := FirstCell(areaRows, id, "KOMMUNE");
    assert FirstCell(startRows, id, "STARTPOSTNR") == Undefined;
    assert FirstCell(startRows, id, "STARTPOSTSTED") == Undefined;
    assert FirstCell(startRows, id, "KOMMUNE") == Undefined;
    LocationAt(Str(""), Str(""), Or(Or(Undefined, ak), Str("")));
    CellOrEmpty(ak);
  }

  /** Row `i` becomes contract `i`: its code is the id, the other columns
      land under their own keys, and the start location is the one built
      for that code; the enrichment leaves every other key alone. */
  lemma LoadedContract(rows: seq<CsvRow>, areaRows: seq<CsvRow>, startRows: seq<CsvRow>, i: nat)
    requires i < |rows|
    ensures var c := LoadContracts(rows, areaRows, startRows)[i];
      var id := CellOf(rows[i], "OMRADEKODE");
      && At(c, "id") == id
      && At(c, "avtaleKontor") == CellOf(rows[i], "AVTALEKONTOR")
      && At(c, "avtaleNavn") == CellOf(rows[i], "AVTALENAVN")
      && At(c, "type") == CellOf(rows[i], "TYPE")
      && At(c, "startLocation") == StartLocation(id, areaRows, startRows)
  {
    var c0 := ContractOfRow(rows[i]);
    var id := CellOf(rows[i], "OMRADEKODE");
    var loc := StartLocation(id, areaRows, startRows);
    RecordFields(id, CellOf(rows[i], "AVTALEKONTOR"), CellOf(rows[i], "AVTALENAVN"), CellOf(rows[i], "TYPE"),
      CellOf(rows[i], "GYLDIGTRANSPORT"), Arr(Strs(ValidNeeds(rows[i]))), CostsOf(rows[i]));
    assert LoadContracts(rows, areaRows, startRows)[i] == Set(c0, "startLocation", loc);
    GetSetSame(c0, "startLocation", loc);
    GetSetOther(c0, "startLocation", loc, "id");
    GetSetOther(c0, "startLocation", loc, "avtaleKontor");
    GetSetOther(c0, "startLocation", loc, "avtaleNavn");
    GetSetOther(c0, "startLocation", loc, "type");
  }


  /** A file's name and modification time. */
  datatype FileStat = FileStat(name: string, time: int)

  predicate IsJson(f: FileStat) {
    EndsWith(f.name, ".json")
  }

  /** File `k` is the one `reduce((prev, curr) => prev.time > curr.time ?
      prev : curr)` over the `.json` files ends at: a `.json` file with the
      latest time, and no later `.json` file with that time. */
  predicate NewestAt(files: seq<FileStat>, k: int) {
    && 0 <= k < |files| && IsJson(files[k])
    && (forall j :: 0 <= j < |files| && IsJson(files[j]) ==> files[j].time <= files[k].time)
    && (forall j :: k < j < |files| && IsJson(files[j]) ==> files[j].time < files[k].time)
  }

  ghost predicate Picks(files: seq<FileStat>, f: FileStat) {
    exists k :: NewestAt(files, k) && files[k] == f
  }

  /** The file `loadContracts` reads: the `.json` files of the listing
      reduced to the newest, none when there is none. */
  function MostRecentFile(files: seq<FileStat>): (r: Option<FileStat>)
    ensures r.None? <==> NoJson(files)
    ensures r.Some? ==> IsJson(r.value) && r.value in files
    ensures r.Some? ==> forall j :: 0 <= j < |files| && IsJson(files[j]) ==> files[j].time <= r.value.time
    decreases |files|
  {
    if |files| == 0 then None
    else
      var n := |files| - 1;
      var prev := MostRecentFile(files[..n]);
      if !IsJson(files[n]) || (prev.Some? && prev.value.time > files[n].time) then prev
      else Some(files[n])
  }

  predicate NoJson(files: seq<FileStat>) {
    forall j :: 0 <= j < |files| ==> !IsJson(files[j])
  }

  /** One more file after the newest of the prefix: the newest stays, or
      the new file takes over when it is a `.json` file at least as new. */
  lemma NewestAtSnoc(files: seq<FileStat>, k: int)
    requires |files| > 0 && NewestAt(files[..|files| - 1], k)
    ensures var last := files[|files| - 1];
      if IsJson(last) && files[k].time <= last.time then NewestAt(files, |files| - 1) else NewestAt(files, k)
  {
    var n := |files| - 1;
    assert forall j :: 0 <= j < n ==> files[..n][j] == files[j];
  }

  /** The first `.json` file of a listing is its newest so far. */
  lemma NewestAtFirstJson(files: seq<FileStat>)
    requires |files| > 0 && NoJson(files[..|files| - 1]) && IsJson(files[|files| - 1])
    ensures NewestAt(files, |files| - 1)
  {
    var n := |files| - 1;
    assert forall j :: 0 <= j < n ==> files[..n][j] == files[j];
  }

  /** `MostRecentFile` finds nothing exactly when no file is a `.json` file,
      and otherwise the newest one, ties going to the later file. */
  lemma {:induction false} MostRecentFileNewest(files: seq<FileStat>)
    ensures MostRecentFile(files).None? <==> NoJson(files)
    ensures MostRecentFile(files).Some? ==> Picks(files, MostRecentFile(files).value)
    decreases |files|
  {
    if |files| > 0 {
      var n := |files| - 1;
      var prev := MostRecentFile(files[..n]);
      MostRecentFileNewest(files[..n]);
      assert forall j :: 0 <= j < n ==> files[..n][j] == files[j];
      if prev.Some? {
        var k :| NewestAt(files[..n], k) && files[..n][k] == prev.value;
        NewestAtSnoc(files, k);
      } else if IsJson(files[n]) {
        NewestAtFirstJson(files);
      }
    }
  }

  /** At most one position is the newest, so ties in time go to the later
      file of the listing. */
  lemma {:induction false} NewestAtUnique(files: seq<FileStat>, a: int, b: int)
    requires NewestAt(files, a) && NewestAt(files, b)
    ensures a == b
  {
  }
}

=== FILE: contract_manager.dfy ===
/** The contract manager screens: the search parameters the filter controls
    produce (components/contract/contract-manager.tsx) and the row state
    updates of the editable table (frontend/components/contract/
    contract-manager.tsx). Rows are contract objects that also carry the
    screen's own keys `isEditing`, `editedValues`, `isExpanded` and
    `relatedData`; each update is `rows.map(c => c.id === contractId ?
    { ...c, ... } : c)`. */
module ContractManager {
  import opened Wrappers
  import opened Json
  import opened Seqs
  import opened Search
  import opened Store

  /** `c.id === contractId`. */
  predicate IsRow(c: Contract, id: string) {
    At(c, "id") == Str(id)
  }

  /** `prev.map(c => c.id === contractId ? f(c) : c)`. */
  function MapMatching(rows: seq<Contract>, id: string, f: Contract -> Contract): (r: seq<Contract>)
    ensures |r| == |rows|
    ensures forall i :: 0 <= i < |rows| ==> r[i] == if IsRow(rows[i], id) then f(rows[i]) else rows[i]
  {
    seq(|rows|, i requires 0 <= i < |rows| => if IsRow(rows[i], id) then f(rows[i]) else rows[i])
  }

  /** `{ ...v }` of a value that is an object or `undefined`: its own
      fields, none for anything but an object. */
  function SpreadOf(v: Value): seq<Field> {
    if v.Obj? then v.fields else []
  }

  /** Every key of a row other than the ones named keeps its value. */
  ghost predicate SameExcept(a: Contract, b: Contract, k1: string, k2: string) {
    forall k :: k != k1 && k != k2 ==> At(a, k) == At(b, k)
  }

  // ---------------------------------------------------------------- edit mode

  /** One row entering or leaving edit mode: the flag flips, and entering
      takes a copy of the row as the edited values. */
  function ToggleEdit(c: Contract): Contract {
    var editing := Truthy(At(c, "isEditing"));
    Set(Set(c, "isEditing", Bool(!editing)), "editedValues", if editing then Undefined else Obj(c))
  }

  /** `toggleEditMode(contractId)`. */
  function ToggleEditMode(rows: seq<Contract>, id: string): (r: seq<Contract>)
    ensures |r| == |rows|
    ensures forall i :: 0 <= i < |rows| && !IsRow(rows[i], id) ==> r[i] == rows[i]
    ensures forall i :: 0 <= i < |rows| && IsRow(rows[i], id) ==>
      At(r[i], "isEditing") == Bool(!Truthy(At(rows[i], "isEditing"))) && IsRow(r[i], id)
  {
    assert forall c :: At(ToggleEdit(c), "isEditing") == Bool(!Truthy(At(c, "isEditing"))) && At(ToggleEdit(c), "id") == At(c, "id") by {
      forall c ensures At(ToggleEdit(c), "isEditing") == Bool(!Truthy(At(c, "isEditing"))) && At(ToggleEdit(c), "id") == At(c, "id") {
        ToggleEditFields(c);
      }
    }
    MapMatching(rows, id, ToggleEdit)
  }

  lemma ToggleEditFields(c: Contract)
    ensures var t := ToggleEdit(c);
      && At(t, "isEditing") == Bool(!Truthy(At(c, "isEditing")))
      && At(t, "editedValues") == (if Truthy(At(c, "isEditing")) then Undefined else Obj(c))
      && SameExcept(t, c, "isEditing", "editedValues")
      && At(t, "id") == At(c, "id")
  {
    var editing := Truthy(At(c, "isEditing"));
    var ev := if editing then Undefined else Obj(c);
    GetSetTwice(c, "isEditing", Bool(!editing), "editedValues", ev, "isEditing");
    GetSetTwice(c, "isEditing", Bool(!editing), "editedValues", ev, "editedValues");
    GetSetTwice(c, "isEditing", Bool(!editing), "editedValues", ev, "id");
    forall k | k != "isEditing" && k != "editedValues" ensures At(ToggleEdit(c), k) == At(c, k) {
      GetSetTwice(c, "isEditing", Bool(!editing), "editedValues", ev, k);
    }
  }

  /** Only the rows with the id change: their flag flips, entering edit
      mode copies the row into `editedValues` and leaving clears it, and
      every other key keeps its value. */
  lemma ToggleEditModeEffect(rows: seq<Contract>, id: string, i: nat)
    requires i < |rows|
    ensures var r := ToggleEditMode(rows, id);
      && |r| == |rows|
      && (!IsRow(rows[i], id) ==> r[i] == rows[i])
      && (IsRow(rows[i], id) ==>
            && At(r[i], "isEditing") == Bool(!Truthy(At(rows[i], "isEditing")))
            && At(r[i], "editedValues") == (if Truthy(At(rows[i], "isEditing")) then Undefined else Obj(rows[i]))
            && SameExcept(r[i], rows[i], "isEditing", "editedValues"))
  {
    ToggleEditFields(rows[i]);
  }

  /** Entering and then leaving edit mode ends out of edit mode with no
      edited values, and every other key as it was. */
  lemma ToggleEditModeTwice(rows: seq<Contract>, id: string, i: nat)
    requires i < |rows| && !Truthy(At(rows[i], "isEditing"))
    ensures var r := ToggleEditMode(ToggleEditMode(rows, id), id);
      && |r| == |rows|
      && (!IsRow(rows[i], id) ==> r[i] == rows[i])
      && (IsRow(rows[i], id) ==>
            && At(r[i], "isEditing") == Bool(false)
            && At(r[i], "editedValues") == Undefined
            && SameExcept(r[i], rows[i], "isEditing", "editedValues"))
  {
    var once := ToggleEditMode(rows, id);
    ToggleEditFields(rows[i]);
    ToggleEditFields(once[i]);
  }

  // ------------------------------------------------------------ value change

  /** One edited value written into the row's `editedValues`. */
  function ChangeValue(c: Contract, field: string, value: Value): Contract {
    Set(c, "editedValues", Obj(Set(SpreadOf(At(c, "editedValues")), field, value)))
  }

  /** `handleValueChange(contractId, field, value)`. */
  function HandleValueChange(rows: seq<Contract>, id: string, field: string, value: Value): (r: seq<Contract>)
    ensures |r| == |rows|
    ensures forall i :: 0 <= i < |rows| && !IsRow(rows[i], id) ==> r[i] == rows[i]
    ensures forall i :: 0 <= i < |rows| && IsRow(rows[i], id) ==>
      At(r[i], "editedValues").Obj? && Get(At(r[i], "editedValues").fields, field) == Some(value)
  {
    assert forall c :: ChangeHolds(ChangeValue(c, field, value), field, value) by {
      forall c ensures ChangeHolds(ChangeValue(c, field, value), field, value) {
        ChangeValueHolds(c, field, value);
      }
    }
    MapMatching(rows, id, c => ChangeValue(c, field, value))
  }

  /** The row's edited values hold `value` under `field`. */
  predicate ChangeHolds(c: Contract, field: string, value: Value) {
    At(c, "editedValues").Obj? && Get(At(c, "editedValues").fields, field) == Some(value)
  }

  lemma ChangeValueHolds(c: Contract, field: string, value: Value)
    ensures ChangeHolds(ChangeValue(c, field, value), field, value)
  {
    var ev := Set(SpreadOf(At(c, "editedValues")), field, value);
    GetSetSame(c, "editedValues", Obj(ev));
    GetSetSame(SpreadOf(At(c, "editedValues")), field, value);
  }

  /** Only the rows with the id change: their edited values hold the new
      value under `field` and keep every other edited value; the row's own
      keys are untouched. */
  lemma HandleValueChangeEffect(rows: seq<Contract>, id: string, field: string, value: Value, i: nat)
    requires i < |rows|
    ensures var r := HandleValueChange(rows, id, field, value);
      && |r| == |rows|
      && (!IsRow(rows[i], id) ==> r[i] == rows[i])
      && (IsRow(rows[i], id) ==>
            var ev := At(r[i], "editedValues");
            && ev.Obj?
            && Get(ev.fields, field) == Some(value)
            && (forall k :: k != field ==> Get(ev.fields, k) == Get(SpreadOf(At(rows[i], "editedValues")), k))
            && SameExcept(r[i], rows[i], "editedValues", "editedValues"))
  {
    var c := rows[i];
    var prev := SpreadOf(At(c, "editedValues"));
    var ev := Set(prev, field, value);
    GetSetSame(c, "editedValues", Obj(ev));
    GetSetSame(prev, field, value);
    forall k | k != field ensures Get(ev, k) == Get(prev, k) {
      GetSetOther(prev, field, value, k);
    }
    forall k | k != "editedValues" ensures At(ChangeValue(c, field, value), k) == At(c, k) {
      GetSetOther(c, "editedValues", Obj(ev), k);
    }
  }

  // ------------------------------------------------------------------- saving

  /** The position `filteredContracts.find(c => c.id === contractId)`
      finds, `|rows|` for none. */
  function FirstRow(rows: seq<Contract>, id: string): (i: nat)
    ensures i <= |rows|
    ensures i < |rows| ==> IsRow(rows[i], id)
    ensures forall j :: 0 <= j < i ==> !IsRow(rows[j], id)
  {
    FindFirst(rows, c => IsRow(c, id))
  }

  /** `!contract?.editedValues`: no row with the id, or no edits on the
      first one. */
  predicate NothingToSave(rows: seq<Contract>, id: string) {
    var i := FirstRow(rows, id);
    i == |rows| || !Truthy(At(rows[i], "editedValues"))
  }

  /** `{ ...contract, ...contract.editedValues }`: the record handed to the
      store. */
  function SavedRecord(rows: seq<Contract>, id: string): (r: Option<Contract>)
    ensures r.None? <==> NothingToSave(rows, id)
  {
    var i := FirstRow(rows, id);
    if i == |rows| || !Truthy(At(rows[i], "editedValues")) then None
    else Some(Spread(rows[i], SpreadOf(At(rows[i], "editedValues"))))
  }

  /** A row with the edits merged in and edit mode left. */
  function ApplyEdits(c: Contract, edits: Value): (r: Contract)
    ensures At(r, "isEditing") == Bool(false)
    ensures At(r, "editedValues") == Undefined
  {
    var s := Spread(c, SpreadOf(edits));
    GetSetTwice(s, "isEditing", Bool(false), "editedValues", Undefined, "isEditing");
    GetSetTwice(s, "isEditing", Bool(false), "editedValues", Undefined, "editedValues");
    Set(Set(s, "isEditing", Bool(false)), "editedValues", Undefined)
  }

  /** `saveEditedValues(contractId)` with the outcome of the store call as
      a parameter: nothing to save or a failed store leaves the rows as
      they are; a stored record has the edits of the first row with the id
      merged into every row with the id, out of edit mode. */
  function SaveEdited(rows: seq<Contract>, id: string, stored: bool): (r: seq<Contract>)
    ensures |r| == |rows|
    ensures forall i :: 0 <= i < |rows| && !IsRow(rows[i], id) ==> r[i] == rows[i]
    ensures !stored ==> r == rows
    ensures (forall i :: 0 <= i < |rows| ==> !IsRow(rows[i], id)) ==> r == rows
  {
    if NothingToSave(rows, id) || !stored then rows
    else
      var edits := At(rows[FirstRow(rows, id)], "editedValues");
      MapMatching(rows, id, c => ApplyEdits(c, edits))
  }

  /** `saveEditedValues(contractId)` as the component is written: it calls
      `storeContract`, which the component never imports, so the call
      throws a `ReferenceError` that the `catch` logs, and no save ever
      succeeds. */
  function SaveEditedAsWritten(rows: seq<Contract>, id: string): seq<Contract> {
    var storeCall: Result<(), JsError> := Err(ReferenceError);
    SaveEdited(rows, id, storeCall.Ok?)
  }

  lemma ApplyEditsFields(c: Contract, edits: Value, k: string)
    requires WellFormed(SpreadOf(edits))
    ensures var e := SpreadOf(edits);
      var a := ApplyEdits(c, edits);
      && At(a, "isEditing") == Bool(false)
      && At(a, "editedValues") == Undefined
      && (k != "isEditing" && k != "editedValues" ==>
            At(a, k) == if k in Keys(e) then At(e, k) else At(c, k))
  {
    var e := SpreadOf(edits);
    var s := Spread(c, e);
    GetSetTwice(s, "isEditing", Bool(false), "editedValues", Undefined, "isEditing");
    GetSetTwice(s, "isEditing", Bool(false), "editedValues", Undefined, "editedValues");
    GetSetTwice(s, "isEditing", Bool(false), "editedValues", Undefined, k);
    SpreadGet(c, e, k);
  }

  /** Saving with nothing to save, or with a failed store, changes
      nothing; a stored save merges the first matching row's edits into
      every row with the id, leaves edit mode there, and changes no other
      row. */
  lemma SaveEditedEffect(rows: seq<Contract>, id: string, stored: bool, i: nat, k: string)
    requires i < |rows|
    ensures NothingToSave(rows, id) || !stored ==> SaveEdited(rows, id, stored) == rows
    ensures var r := SaveEdited(rows, id, stored);
      && |r| == |rows|
      && (!IsRow(rows[i], id) ==> r[i] == rows[i])
    ensures !NothingToSave(rows, id) && stored && IsRow(rows[i], id) &&
            WellFormed(SpreadOf(At(rows[FirstRow(rows, id)], "editedValues"))) ==>
      var r := SaveEdited(rows, id, stored);
      var e := SpreadOf(At(rows[FirstRow(rows, id)], "editedValues"));
      && At(r[i], "isEditing") == Bool(false)
      && At(r[i], "editedValues") == Undefined
      && (k != "isEditing" && k != "editedValues" ==>
            At(r[i], k) == if k in Keys(e) then At(e, k) else At(rows[i], k))
  {
    if !NothingToSave(rows, id) && stored {
      var edits := At(rows[FirstRow(rows, id)], "editedValues");
      if IsRow(rows[i], id) && WellFormed(SpreadOf(edits)) {
        ApplyEditsFields(rows[i], edits, k);
      }
    }
  }

  /** As written the save never takes effect: the rows come back
      unchanged whatever was edited. */
  lemma SaveEditedAsWrittenChangesNothing(rows: seq<Contract>, id: string)
    ensures SaveEditedAsWritten(rows, id) == rows
  {
  }

  /** Whenever a row holds an edit that differs from its value, the save
      as written keeps the old value where the intended save shows the
      edited one. */
  lemma SaveEditedAsWrittenLosesEdit(rows: seq<Contract>, id: string, k: string)
    requires !NothingToSave(rows, id)
    requires var f := FirstRow(rows, id);
      var e := SpreadOf(At(rows[f], "editedValues"));
      && WellFormed(e) && k in Keys(e) && k != "isEditing" && k != "editedValues"
      && At(e, k) != At(rows[f], k)
    ensures var f := FirstRow(rows, id);
      && At(SaveEditedAsWritten(rows, id)[f], k) == At(rows[f], k)
      && At(SaveEdited(rows, id, true)[f], k) == At(SpreadOf(At(rows[f], "editedValues")), k)
      && At(SaveEditedAsWritten(rows, id)[f], k) != At(SaveEdited(rows, id, true)[f], k)
  {
    var f := FirstRow(rows, id);
    SaveEditedAsWrittenChangesNothing(rows, id);
    SaveEditedEffect(rows, id, true, f, k);
  }

  // --------------------------------------------------------------- expansion

  /** The `relatedData` a row shows while its data loads. */
  const Loading: Value := Obj([Field("isLoading", Bool(true))])

  function Collapse(c: Contract): Contract {
    Set(c, "isExpanded", Bool(false))
  }

  function ExpandLoading(c: Contract): Contract {
    Set(Set(c, "isExpanded", Bool(true)), "relatedData", Loading)
  }

  function ExpandLoaded(c: Contract, data: seq<Field>): Contract {
    Set(Set(c, "isExpanded", Bool(true)), "relatedData", Obj(Set(data, "isLoading", Bool(false))))
  }

  /** `toggleRowExpansion(contractId)`; `related` is what
      `getContractRelatedData` delivers, `None` when it throws. An
      expanded row collapses; otherwise the rows show the loading state and
      then either the data or, on failure, collapse again. */
  function ToggleRowExpansion(rows: seq<Contract>, id: string, related: Option<seq<Field>>): (r: seq<Contract>)
    ensures |r| == |rows|
    ensures forall i :: 0 <= i < |rows| && !IsRow(rows[i], id) ==> r[i] == rows[i]
    ensures (forall i :: 0 <= i < |rows| ==> !IsRow(rows[i], id)) ==> r == rows
  {
    var i := FirstRow(rows, id);
    if i == |rows| then rows
    else if Truthy(At(rows[i], "isExpanded")) then MapMatching(rows, id, Collapse)
    else
      var loading := MapMatching(rows, id, ExpandLoading);
      match related
      case Some(data) => MapMatching(loading, id, c => ExpandLoaded(c, data))
      case None => MapMatching(loading, id, Collapse)
  }

  lemma ExpandFields(c: Contract, rd: Value, flag: bool)
    ensures var e := Set(Set(c, "isExpanded", Bool(flag)), "relatedData", rd);
      && At(e, "isExpanded") == Bool(flag) && At(e, "relatedData") == rd
      && SameExcept(e, c, "isExpanded", "relatedData")
  {
    GetSetTwice(c, "isExpanded", Bool(flag), "relatedData", rd, "isExpanded");
    GetSetTwice(c, "isExpanded", Bool(flag), "relatedData", rd, "relatedData");
    forall k | k != "isExpanded" && k != "relatedData"
      ensures At(Set(Set(c, "isExpanded", Bool(flag)), "relatedData", rd), k) == At(c, k)
    {
      GetSetTwice(c, "isExpanded", Bool(flag), "relatedData", rd, k);
    }
  }

  lemma CollapseFields(c: Contract)
    ensures At(Collapse(c), "isExpanded") == Bool(false)
    ensures SameExcept(Collapse(c), c, "isExpanded", "isExpanded")
  {
    GetSetSame(c, "isExpanded", Bool(false));
    forall k | k != "isExpanded" ensures At(Collapse(c), k) == At(c, k) {
      GetSetOther(c, "isExpanded", Bool(false), k);
    }
  }

  /** Expanding never touches a row without the id. An expanded row only
      loses `isExpanded`. Otherwise a successful load shows the data with
      `isLoading` false; a failed load collapses the row again and leaves
      its `relatedData` in the loading state. No other key changes. */
  lemma ToggleRowExpansionEffect(rows: seq<Contract>, id: string, related: Option<seq<Field>>, i: nat)
    requires i < |rows|
    ensures var r := ToggleRowExpansion(rows, id, related);
      && |r| == |rows|
      && (!IsRow(rows[i], id) ==> r[i] == rows[i])
    ensures var f := FirstRow(rows, id);
      var r := ToggleRowExpansion(rows, id, related);
      f < |rows| && IsRow(rows[i], id) ==>
        if Truthy(At(rows[f], "isExpanded")) then
          At(r[i], "isExpanded") == Bool(false) && SameExcept(r[i], rows[i], "isExpanded", "isExpanded")
        else
          && SameExcept(r[i], rows[i], "isExpanded", "relatedData")
          && At(r[i], "relatedData") == (if related.Some? then Obj(Set(related.value, "isLoading", Bool(false))) else Loading)
          && At(r[i], "isExpanded") == Bool(related.Some?)
  {
    var f := FirstRow(rows, id);
    if f < |rows| && !Truthy(At(rows[f], "isExpanded")) {
      var loading := MapMatching(rows, id, ExpandLoading);
      if IsRow(rows[i], id) {
        ExpandFields(rows[i], Loading, true);
        assert IsRow(loading[i], id);
        match related
        case Some(data) =>
          LoadedRow(rows[i], data);
        case None =>
          FailedRow(rows[i]);
      }
    } else if f < |rows| && IsRow(rows[i], id) {
      CollapseFields(rows[i]);
    }
  }

  /** A row that loaded its data, compared with the row before. */
  lemma LoadedRow(c: Contract, data: seq<Field>)
    ensures var r := ExpandLoaded(ExpandLoading(c), data);
      && At(r, "isExpanded") == Bool(true)
      && At(r, "relatedData") == Obj(Set(data, "isLoading", Bool(false)))
      && SameExcept(r, c, "isExpanded", "relatedData")
  {
    var l := ExpandLoading(c);
    var rd := Obj(Set(data, "isLoading", Bool(false)));
    GetSetTwice(l, "isExpanded", Bool(true), "relatedData", rd, "isExpanded");
    GetSetTwice(l, "isExpanded", Bool(true), "relatedData", rd, "relatedData");
    forall k | k != "isExpanded" && k != "relatedData" ensures At(ExpandLoaded(l, data), k) == At(c, k) {
      GetSetTwice(l, "isExpanded", Bool(true), "relatedData", rd, k);
      GetSetTwice(c, "isExpanded", Bool(true), "relatedData", Loading, k);
    }
  }

  /** A row whose load failed, compared with the row before. */
  lemma FailedRow(c: Contract)
    ensures var r := Collapse(ExpandLoading(c));
      && At(r, "isExpanded") == Bool(false)
      && At(r, "relatedData") == Loading
      && SameExcept(r, c, "isExpanded", "relatedData")
  {
    var l := ExpandLoading(c);
    GetSetSame(l, "isExpanded", Bool(false));
    GetSetOther(l, "isExpanded", Bool(false), "relatedData");
    GetSetTwice(c, "isExpanded", Bool(true), "relatedData", Loading, "relatedData");
    forall k | k != "isExpanded" && k != "relatedData" ensures At(Collapse(l), k) == At(c, k) {
      GetSetOther(l, "isExpanded", Bool(false), k);
      GetSetTwice(c, "isExpanded", Bool(true), "relatedData", Loading, k);
    }
  }

  // ---------------------------------------------------- search parameters

  /** The filter controls turned into a query: the `"all"` selection and
      an empty postal code ask for no filter. */
  function SearchParams(kontor: string, kind: string, postalCode: string): (q: Filters)
    ensures q.avtaleKontor.None? <==> kontor == "all"
    ensures q.kind.None? <==> kind == "all"
    ensures q.postalCode.None? <==> postalCode == ""
    ensures q.avtaleKontor.Some? ==> q.avtaleKontor.value == kontor
    ensures q.kind.Some? ==> q.kind.value == kind
    ensures q.postalCode.Some? ==> q.postalCode.value == postalCode
  {
    Filters(if kontor == "all" then None else Some(kontor),
            if kind == "all" then None else Some(kind),
            if postalCode == "" then None else Some(postalCode))
  }

  /** The filtered list of the manager screen: the store searched with
      the controls' query, then the search term when there is one. */
  function ManagerSearch(s: ContractStore, kontor: string, kind: string, postalCode: string, term: string): (r: Result<seq<Contract>, JsError>)
    ensures r.Ok? ==> IsSubseq(r.value, GetAll(s))
    ensures r.Ok? && term != "" ==> forall i :: 0 <= i < |r.value| ==> AnyValueMatches(r.value[i], term)
    ensures r.Err? <==> SearchStored(s, SearchParams(kontor, kind, postalCode)).Err?
  {
    match SearchStored(s, SearchParams(kontor, kind, postalCode))
    case Ok(filtered) =>
      if term != "" then
        var kept := Filter(filtered, c => AnyValueMatches(c, term));
        FilterIsSubseq(filtered, c => AnyValueMatches(c, term));
        SubseqTrans(kept, filtered, GetAll(s));
        Ok(kept)
      else Ok(filtered)
    case Err(e) => Err(e)
  }

  /** What the query asks of one contract, in terms of the controls. */
  predicate ControlsAccept(kontor: string, kind: string, postalCode: string, c: Contract) {
    && (kontor == "all" || kontor == "" || At(c, "avtaleKontor") == Str(kontor))
    && (kind == "all" || kind == "" || At(c, "type") == Str(kind))
    && (postalCode == "" || PostalTest(c, postalCode) == Ok(true))
  }

  lemma SearchParamsAccept(kontor: string, kind: string, postalCode: string, c: Contract)
    ensures var q := SearchParams(kontor, kind, postalCode);
      KontorOk(q, c) && TypeOk(q, c) && PostalOk(q, c) <==> ControlsAccept(kontor, kind, postalCode, c)
  {
  }

  /** The list holds exactly the stored contracts whose office and type
      equal the chosen ones (any for `"all"` or an empty choice), whose
      postal code contains the given text, and some top-level value of
      which contains the term, in key order. With every control cleared
      it is the whole store. */
  lemma ManagerSearchKeeps(s: ContractStore, kontor: string, kind: string, postalCode: string, term: string)
    requires ContractsConsistent(s)
    requires ManagerSearch(s, kontor, kind, postalCode, term).Ok?
    ensures var r := ManagerSearch(s, kontor, kind, postalCode, term).value;
      && IsSubseq(r, GetAll(s))
      && forall c :: c in r <==>
           && Keyed(c) && Lookup(s, IdOf(c)) == Some(c)
           && ControlsAccept(kontor, kind, postalCode, c)
           && (term == "" || AnyValueMatches(c, term))
    ensures kontor == "all" && kind == "all" && postalCode == "" && term == "" ==>
      ManagerSearch(s, kontor, kind, postalCode, term).value == GetAll(s)
  {
    var q := SearchParams(kontor, kind, postalCode);
    SearchStoredKeeps(s, q);
    var filtered := SearchStored(s, q).value;
    forall c {
      SearchParamsAccept(kontor, kind, postalCode, c);
    }
    if term != "" {
      var r := Filter(filtered, c => AnyValueMatches(c, term));
      FilterIsSubseq(filtered, c => AnyValueMatches(c, term));
      SubseqTrans(r, filtered, GetAll(s));
    }
  }
}

=== FILE: csv_utils.dfy ===
/** The small CSV reader of lib/csv-utils.ts (`parseCSV`): the whole text
    trimmed, split on line feeds, the first line naming the columns and
    every later line one record. Cells are split on every comma, with no
    quoting. */
module CsvUtils {
  import opened Wrappers
  import opened Text
  import opened Json
  import Seqs

  /** `values[i]?.trim()`: the trimmed cell, `undefined` past the end of a
      short line. */
  function Cell(values: seq<string>, i: nat): (v: Value)
    ensures i < |values| ==> v == Str(Trim(values[i]))
    ensures i >= |values| ==> v == Undefined
  {
    if i < |values| then Str(Trim(values[i])) else Undefined
  }

  /** The cell of every header, in header order. */
  function Cells(values: seq<string>, n: nat): (cs: seq<Value>)
    ensures |cs| == n
    ensures forall i :: 0 <= i < n ==> cs[i] == Cell(values, i)
  {
    seq(n, i requires 0 <= i < n => Cell(values, i))
  }

  /** One record: each trimmed header assigned its cell in order. Its keys
      are the distinct trimmed headers in first-occurrence order. */
  function Record(hs: seq<string>, values: seq<string>): (r: seq<Field>)
    ensures Keys(r) == Seqs.Dedup(TrimAll(hs))
    ensures WellFormed(r)
  {
    AssignAll(TrimAll(hs), Cells(values, |hs|))
  }

  /** The lines of the trimmed text; the first names the columns. */
  function Lines(content: string): (ls: seq<string>)
    ensures |ls| >= 1
  {
    Split(Trim(content), '\n')
  }

  /** One record per line, each read against the same headers. */
  function Records(hs: seq<string>, lines: seq<string>): (rs: seq<seq<Field>>)
    ensures |rs| == |lines|
    ensures forall k :: 0 <= k < |lines| ==> rs[k] == Record(hs, Split(lines[k], ','))
  {
    seq(|lines|, k requires 0 <= k < |lines| => Record(hs, Split(lines[k], ',')))
  }

  /** `parseCSV`: one record for every line after the first, even a blank
      one inside the text. */
  function ParseCsv(content: string): (records: seq<seq<Field>>)
    ensures |records| == |Lines(content)| - 1
    ensures forall k :: 0 <= k < |records| ==>
              Keys(records[k]) == Seqs.Dedup(TrimAll(Split(Lines(content)[0], ',')))
  {
    var lines := Lines(content);
    Records(Split(lines[0], ','), lines[1..])
  }

  /** The value of a header is the cell of its last column. */
  lemma RecordGetLast(hs: seq<string>, values: seq<string>, i: nat)
    requires i < |hs|
    requires forall j :: i < j < |hs| ==> Trim(hs[j]) != Trim(hs[i])
    ensures Get(Record(hs, values), Trim(hs[i])) == Some(Cell(values, i))
  {
    AssignAllLast(TrimAll(hs), Cells(values, |hs|), i);
  }

  /** A name no trimmed header has is not a key of the record. */
  lemma RecordGetAbsent(hs: seq<string>, values: seq<string>, key: string)
    requires forall j :: 0 <= j < |hs| ==> Trim(hs[j]) != key
    ensures Get(Record(hs, values), key) == None
  {
    assert key !in TrimAll(hs);
  }

  /** Cells past the last header are never read. */
  lemma ExtraCellsIgnored(hs: seq<string>, values: seq<string>, extra: seq<string>)
    requires |hs| <= |values|
    ensures Record(hs, values + extra) == Record(hs, values)
  {
    assert Cells(values + extra, |hs|) == Cells(values, |hs|);
  }

  /** Text with no line break after trimming (empty, or a header line
      alone) has no records. */
  lemma HeaderOnlyIsEmpty(content: string)
    requires '\n' !in Trim(content)
    ensures ParseCsv(content) == []
  {
    assert Lines(content) == Split(Trim(content), '\n');
    SplitNoSeparator(Trim(content), '\n');
  }

  /** A quoted cell holding a comma is cut at the comma: the line
      `"x,y",2` has three cells. */
  lemma QuotesNotHonoured()
    ensures Split("\"x,y\",2", ',') == ["\"x", "y\"", "2"]
  {
    assert "\"x,y\",2" == "\"x" + [','] + ("y\"" + [','] + "2");
    SplitJoin(["\"x", "y\"", "2"], ',');
    assert Join(["\"x", "y\"", "2"], ',') == "\"x" + [','] + ("y\"" + [','] + "2");
  }
}

=== FILE: custom_fields.dfy ===
/** User-defined fields written into the generated JSON along a dotted
    path (`applyCustomFields` in app/transform/page.tsx). A path segment
    ending in `[]` names an array whose items are walked; a last segment
    with `[]` writes the value into every contract. */
module CustomFields {
  import opened Wrappers
  import opened Text
  import opened Numbers
  import opened Json

  datatype Kind = StringKind | NumberKind | BooleanKind

  /** A custom field as the form edits it; the value is the text typed. */
  datatype CustomField = CustomField(name: string, path: string, kind: Kind, value: string)

  /** The value written: `Number(value)`, `Boolean(value)` or
      `String(value)` according to the kind. */
  function FieldValue(f: CustomField): (v: Value)
    ensures f.kind == NumberKind ==> (v.Num? || v.NaN?) && (v.Num? <==> NumberOf(f.value).Some?)
    ensures f.kind == NumberKind && v.Num? ==> Some(v.n) == NumberOf(f.value)
    ensures f.kind == BooleanKind ==> v == Bool(f.value != "")
    ensures f.kind == StringKind ==> v == Str(f.value)
  {
    match f.kind
    case NumberKind => (match NumberOf(f.value) case Some(d) => Num(d) case None => NaN)
    case BooleanKind => Bool(|f.value| > 0)
    case StringKind => Str(f.value)
  }

  /** A number typed as the text `String` prints for it is written back as
      that number. */
  lemma FieldValueOfPrinted(name: string, path: string, d: Dec)
    ensures FieldValue(CustomField(name, path, NumberKind, DecToString(d))) == Num(Normalize(d))
  {
    NumberOfDecToString(d);
  }

  /** `root[loc[0]][loc[1]]...`: reading below `undefined` or `null` throws. */
  function GetAt(root: Value, loc: seq<string>): (r: Result<Value, JsError>)
    ensures |loc| == 0 ==> r == Ok(root)
    decreases |loc|
  {
    if |loc| == 0 then Ok(root)
    else
      var child :- Prop(root, loc[0]);
      GetAt(child, loc[1..])
  }

  /** Reading a path goes through its first key's value. */
  lemma GetAtStep(root: Value, key: string, rest: seq<string>, child: Value)
    requires Prop(root, key) == Ok(child)
    ensures GetAt(root, [key] + rest) == GetAt(child, rest)
  {
    assert ([key] + rest)[1..] == rest;
  }

  /** `root[loc[0]]...[loc[n-1]] = v`, every object on the way being the
      one inside `root`: the parents are rebuilt around the changed child. */
  function SetAt(root: Value, loc: seq<string>, v: Value): (r: Result<Value, JsError>)
    requires |loc| > 0
    ensures r.Ok? ==> r.value.Obj? || r.value.Arr?
    ensures r.Ok? && root.Obj? ==>
              && r.value.Obj?
              && Keys(r.value.fields) == (if loc[0] in Keys(root.fields) then Keys(root.fields) else Keys(root.fields) + [loc[0]])
    decreases |loc|
  {
    if |loc| == 1 then SetProp(root, loc[0], v)
    else
      var child :- Prop(root, loc[0]);
      var changed :- SetAt(child, loc[1..], v);
      SetProp(root, loc[0], changed)
  }

  /** Writing a path goes through its first key's value. */
  lemma SetAtStep(root: Value, key: string, rest: seq<string>, child: Value, v: Value)
    requires |rest| > 0 && Prop(root, key) == Ok(child)
    ensures SetAt(root, [key] + rest, v)
            == (var changed := SetAt(child, rest, v);
                if changed.Ok? then SetProp(root, key, changed.value) else Err(changed.error))
  {
    assert ([key] + rest)[1..] == rest;
  }

  /** An array index is never the key `length`. */
  lemma IndexNotLength(key: string)
    requires CanonicalIndex(key).Some?
    ensures key != "length"
  {
    assert !IsDigit('l');
  }

  /** A property that was written reads back as the value written. */
  lemma PropSetProp(v: Value, key: string, x: Value)
    requires SetProp(v, key, x).Ok?
    ensures Prop(SetProp(v, key, x).value, key) == Ok(x)
  {
    if v.Obj? {
      GetSetSame(v.fields, key, x);
    } else {
      IndexNotLength(key);
    }
  }

  /** A path that was written reads back as the value written. */
  lemma {:induction false} GetAtSetAt(root: Value, loc: seq<string>, v: Value)
    requires |loc| > 0 && SetAt(root, loc, v).Ok?
    ensures GetAt(SetAt(root, loc, v).value, loc) == Ok(v)
    decreases |loc|
  {
    if |loc| == 1 {
      PropSetProp(root, loc[0], v);
    } else {
      var child := Prop(root, loc[0]).value;
      var changed := SetAt(child, loc[1..], v).value;
      GetAtSetAt(child, loc[1..], v);
      PropSetProp(root, loc[0], changed);
    }
  }

  /** The segment names an array to walk (`path.includes('[]')`). */
  predicate IsArraySegment(seg: string) {
    Contains(seg, "[]")
  }

  /** The property name of an array segment (`path.replace('[]', '')`). */
  function ArrayKey(seg: string): string {
    ReplaceFirst(seg, "[]", "")
  }

  /** The loop over every segment but the last. The state is the whole
      result and the location `current` points to; `Walk` returns both at
      the end of the loop. */
  function Walk(root: Value, paths: seq<string>, i: nat, loc: seq<string>): (r: Result<(Value, seq<string>), JsError>)
    requires i < |paths|
    ensures r.Ok? && root.Obj? ==> r.value.0.Obj?
    decreases |paths| - i
  {
    if i == |paths| - 1 then Ok((root, loc))
    else
      var seg := paths[i];
      var current :- GetAt(root, loc);
      if IsArraySegment(seg) then
        var key := ArrayKey(seg);
        var arr :- Prop(current, key);
        if arr.Arr? then
          var filled :- FillItems(root, loc + [key], |arr.items|, paths[i + 1], 0);
          Walk(filled, paths, i + 1, loc + [key, "0"])
        else Walk(root, paths, i + 1, loc)
      else
        var child :- Prop(current, seg);
        var next :- if Truthy(child) then Ok(root) else SetAt(root, loc + [seg], Obj([]));
        Walk(next, paths, i + 1, loc + [seg])
  }

  /** `arr.forEach(item => { if (!item[key]) item[key] = {} })` over the
      array at `arrLoc`, from item `j` on. */
  function FillItems(root: Value, arrLoc: seq<string>, n: nat, key: string, j: nat): (r: Result<Value, JsError>)
    requires j <= n
    ensures r.Ok? && root.Obj? && |arrLoc| > 0 ==> r.value.Obj?
    decreases n - j, 1
  {
    if j == n then Ok(root) else FillTurn(root, arrLoc, n, key, j)
  }

  /** Turn `j` of the fill loop on item `j`, then the turns after it. */
  function FillTurn(root: Value, arrLoc: seq<string>, n: nat, key: string, j: nat): (r: Result<Value, JsError>)
    requires j < n
    ensures r.Ok? && root.Obj? && |arrLoc| > 0 ==> r.value.Obj?
    decreases n - j, 0
  {
    var item :- GetAt(root, arrLoc + [NatToString(j)]);
    var prev :- Prop(item, key);
    var next :- if Truthy(prev) then Ok(root) else SetAt(root, arrLoc + [NatToString(j), key], Obj([]));
    FillItems(next, arrLoc, n, key, j + 1)
  }

  /** `contracts.forEach(c => { c[key] = v })`: every contract gains the
      property; a contract that is not an object throws. */
  function SetInEach(items: seq<Value>, key: string, v: Value): (r: Result<seq<Value>, JsError>)
    ensures r.Ok? ==> |r.value| == |items|
  {
    if |items| == 0 then Ok([])
    else
      var first :- SetProp(items[0], key, v);
      var rest :- SetInEach(items[1..], key, v);
      Ok([first] + rest)
  }

  /** One custom field applied to the result. */
  function ApplyField(root: Value, f: CustomField): (r: Result<Value, JsError>)
    ensures r.Ok? && root.Obj? ==> r.value.Obj?
  {
    var paths := Split(f.path, '.');
    var walked :- Walk(root, paths, 0, []);
    WriteLast(walked.0, walked.1, paths[|paths| - 1], FieldValue(f))
  }

  /** The write after the walk: an array segment sets the key on every
      contract of the result, any other segment sets it on `current`. */
  function WriteLast(root: Value, loc: seq<string>, last: string, v: Value): (r: Result<Value, JsError>)
    ensures r.Ok? && root.Obj? ==> r.value.Obj?
  {
    if IsArraySegment(last) then
      var contracts :- Prop(root, "contracts");
      if !Truthy(contracts) then Ok(root)
      else if contracts.Arr? then
        var changed :- SetInEach(contracts.items, ArrayKey(last), v);
        SetProp(root, "contracts", Arr(changed))
      else Err(TypeError)
    else SetAt(root, loc + [last], v)
  }

  /** `applyCustomFields`: the fields in order, the first throw ending it. */
  function ApplyCustomFields(root: Value, fields: seq<CustomField>): (r: Result<Value, JsError>)
    ensures r.Ok? && root.Obj? ==> r.value.Obj?
    decreases |fields|
  {
    if |fields| == 0 then Ok(root)
    else
      var next :- ApplyField(root, fields[0]);
      ApplyCustomFields(next, fields[1..])
  }

  /** A path with neither a dot nor `[]` sets that key of the result. */
  lemma TopLevelField(fields: seq<Field>, f: CustomField)
    requires '.' !in f.path && !IsArraySegment(f.path)
    ensures ApplyField(Obj(fields), f) == Ok(Obj(Set(fields, f.path, FieldValue(f))))
  {
    SplitNoSeparator(f.path, '.');
  }

  /** Without array segments the walk ends at the path minus its last
      segment. */
  lemma {:induction false} WalkPlain(root: Value, paths: seq<string>, i: nat, loc: seq<string>)
    requires i < |paths|
    requires forall k :: i <= k < |paths| - 1 ==> !IsArraySegment(paths[k])
    requires Walk(root, paths, i, loc).Ok?
    ensures Walk(root, paths, i, loc).value.1 == loc + paths[i..|paths| - 1]
    decreases |paths| - i
  {
    if i < |paths| - 1 {
      var next := WalkStep(root, paths, i, loc);
      WalkPlain(next, paths, i + 1, loc + [paths[i]]);
      WalkPlainFromNext(root, next, paths, i, loc);
    }
  }

  lemma WalkPlainFromNext(root: Value, next: Value, paths: seq<string>, i: nat, loc: seq<string>)
    requires i < |paths| - 1
    requires Walk(root, paths, i, loc) == Walk(next, paths, i + 1, loc + [paths[i]])
    requires Walk(next, paths, i + 1, loc + [paths[i]]).Ok?
    requires Walk(next, paths, i + 1, loc + [paths[i]]).value.1 == loc + [paths[i]] + paths[i + 1..|paths| - 1]
    ensures Walk(root, paths, i, loc).value.1 == loc + paths[i..|paths| - 1]
  {
    Seqs.MoveFirst(loc, paths, i, |paths| - 1);
  }

  /** One step of the walk over a segment that is not an array segment. */
  lemma WalkStep(root: Value, paths: seq<string>, i: nat, loc: seq<string>) returns (next: Value)
    requires i < |paths| - 1 && !IsArraySegment(paths[i])
    requires Walk(root, paths, i, loc).Ok?
    ensures Walk(root, paths, i, loc) == Walk(next, paths, i + 1, loc + [paths[i]])
  {
    var seg := paths[i];
    var current := GetAt(root, loc).value;
    var child := Prop(current, seg).value;
    next := if Truthy(child) then root else SetAt(root, loc + [seg], Obj([])).value;
  }

  /** A custom field whose path has no array segment, once written, reads
      back at its path as the value written. */
  lemma PlainPathReadsBack(root: Value, f: CustomField)
    requires PlainPath(Split(f.path, '.'))
    requires ApplyField(root, f).Ok?
    ensures GetAt(ApplyField(root, f).value, Split(f.path, '.')) == Ok(FieldValue(f))
  {
    var paths := Split(f.path, '.');
    var n := |paths|;
    WalkPlain(root, paths, 0, []);
    var w := Walk(root, paths, 0, []).value;
    var last := paths[n - 1];
    assert ApplyField(root, f) == WriteLast(w.0, w.1, last, FieldValue(f));
    assert WriteLast(w.0, w.1, last, FieldValue(f)) == SetAt(w.0, w.1 + [last], FieldValue(f)) by {
      assert !IsArraySegment(last);
    }
    Seqs.InitLast(w.1, paths);
    GetAtSetAt(w.0, paths, FieldValue(f));
  }

  /** No segment of the path names an array. */
  predicate PlainPath(paths: seq<string>) {
    forall k :: 0 <= k < |paths| ==> !IsArraySegment(paths[k])
  }

  /** On a list of objects, the write succeeds and sets the key in each. */
  lemma {:induction false} SetInEachObjects(items: seq<Value>, key: string, v: Value)
    requires forall k :: 0 <= k < |items| ==> items[k].Obj?
    ensures SetInEach(items, key, v).Ok?
    ensures forall k :: 0 <= k < |items| ==> SetInEach(items, key, v).value[k] == Obj(Set(items[k].fields, key, v))
  {
    if |items| > 0 {
      var tail := items[1..];
      SetInEachObjects(tail, key, v);
      var rest := SetInEach(tail, key, v).value;
      var r := [Obj(Set(items[0].fields, key, v))] + rest;
      assert SetProp(items[0], key, v) == Ok(Obj(Set(items[0].fields, key, v)));
      assert SetInEach(items, key, v) == Ok(r);
      forall k | 0 <= k < |items| ensures r[k] == Obj(Set(items[k].fields, key, v)) {
        if k > 0 {
          assert r[k] == rest[k - 1] && tail[k - 1] == items[k];
        }
      }
    }
  }

  /** The contract list with `key` set to `v` in every contract. */
  function UpdatedAll(items: seq<Value>, key: string, v: Value): (r: seq<Value>)
    requires forall k :: 0 <= k < |items| ==> items[k].Obj?
    ensures |r| == |items|
    ensures forall k :: 0 <= k < |items| ==> r[k] == Obj(Set(items[k].fields, key, v))
  {
    seq(|items|, k requires 0 <= k < |items| => Obj(Set(items[k].fields, key, v)))
  }

  /** A one-segment path `key[]` writes the value into every contract
      object; nothing else of the result changes. */
  lemma EveryContractField(fields: seq<Field>, items: seq<Value>, f: CustomField)
    requires '.' !in f.path && IsArraySegment(f.path)
    requires Get(fields, "contracts") == Some(Arr(items))
    requires forall k :: 0 <= k < |items| ==> items[k].Obj?
    ensures ApplyField(Obj(fields), f)
            == Ok(Obj(Set(fields, "contracts", Arr(UpdatedAll(items, ArrayKey(f.path), FieldValue(f))))))
  {
    var key, v := ArrayKey(f.path), FieldValue(f);
    ArraySegmentField(fields, items, f);
    SetInEachObjects(items, key, v);
    assert SetInEach(items, key, v).value == UpdatedAll(items, key, v);
  }

  lemma ArraySegmentField(fields: seq<Field>, items: seq<Value>, f: CustomField)
    requires '.' !in f.path && IsArraySegment(f.path)
    requires Get(fields, "contracts") == Some(Arr(items))
    ensures var changed := SetInEach(items, ArrayKey(f.path), FieldValue(f));
            ApplyField(Obj(fields), f) ==
              if changed.Ok? then Ok(Obj(Set(fields, "contracts", Arr(changed.value)))) else Err(changed.error)
  {
    OneSegment(Obj(fields), f);
    assert Prop(Obj(fields), "contracts") == Ok(Arr(items));
  }

  /** One item after `if (!item[key]) item[key] = {}`. */
  function FillOne(item: Value, key: string): Value
    requires item.Obj?
  {
    if Truthy(Get(item.fields, key).GetOr(Undefined)) then item
    else Obj(Set(item.fields, key, Obj([])))
  }

  /** The array once its first `j` items have been filled. */
  function FilledUpTo(items: seq<Value>, key: string, j: nat): seq<Value>
    requires forall k :: 0 <= k < |items| ==> items[k].Obj?
  {
    seq(|items|, k requires 0 <= k < |items| => if k < j then FillOne(items[k], key) else items[k])
  }

  /** The fill loop run from item `j` over an array whose first `j` items
      are filled ends with every item filled. */
  predicate FilledFrom(fields: seq<Field>, arrKey: string, items: seq<Value>, key: string, j: nat)
    requires forall k :: 0 <= k < |items| ==> items[k].Obj?
    requires j <= |items|
  {
    FillItems(Obj(Set(fields, arrKey, Arr(FilledUpTo(items, key, j)))), [arrKey], |items|, key, j)
      == Ok(Obj(Set(fields, arrKey, Arr(FilledUpTo(items, key, |items|)))))
  }

  /** On an array of objects held by the result, the fill loop from item
      `j` on fills every remaining item and leaves the rest alone. */
  lemma {:induction false} FillItemsObjects(fields: seq<Field>, arrKey: string, items: seq<Value>, key: string, j: nat)
    requires forall k :: 0 <= k < |items| ==> items[k].Obj?
    requires j <= |items|
    ensures FilledFrom(fields, arrKey, items, key, j)
    decreases |items| - j
  {
    if j < |items| {
      FillItemsObjects(fields, arrKey, items, key, j + 1);
      FillFromNext(fields, arrKey, items, key, j);
    } else {
      FillDone(fields, arrKey, items, key);
    }
  }

  lemma FillDone(fields: seq<Field>, arrKey: string, items: seq<Value>, key: string)
    requires forall k :: 0 <= k < |items| ==> items[k].Obj?
    ensures FilledFrom(fields, arrKey, items, key, |items|)
  {
  }

  lemma FillFromNext(fields: seq<Field>, arrKey: string, items: seq<Value>, key: string, j: nat)
    requires forall k :: 0 <= k < |items| ==> items[k].Obj?
    requires j < |items|
    requires FilledFrom(fields, arrKey, items, key, j + 1)
    ensures FilledFrom(fields, arrKey, items, key, j)
  {
    FillStep(fields, arrKey, items, key, j);
  }

  /** One turn of the fill loop moves from `j` filled items to `j + 1`. */
  lemma FillStep(fields: seq<Field>, arrKey: string, items: seq<Value>, key: string, j: nat)
    requires forall k :: 0 <= k < |items| ==> items[k].Obj?
    requires j < |items|
    ensures FillItems(Obj(Set(fields, arrKey, Arr(FilledUpTo(items, key, j)))), [arrKey], |items|, key, j)
            == FillItems(Obj(Set(fields, arrKey, Arr(FilledUpTo(items, key, j + 1)))), [arrKey], |items|, key, j + 1)
  {
    if Truthy(Get(items[j].fields, key).GetOr(Undefined)) {
      FillStepKept(fields, arrKey, items, key, j);
    } else {
      FillStepFilled(fields, arrKey, items, key, j);
    }
  }

  /** An item that already holds a truthy value under `key` is left as
      it is. */
  lemma FillStepKept(fields: seq<Field>, arrKey: string, items: seq<Value>, key: string, j: nat)
    requires forall k :: 0 <= k < |items| ==> items[k].Obj?
    requires j < |items| && Truthy(Get(items[j].fields, key).GetOr(Undefined))
    ensures FillItems(Obj(Set(fields, arrKey, Arr(FilledUpTo(items, key, j)))), [arrKey], |items|, key, j)
            == FillItems(Obj(Set(fields, arrKey, Arr(FilledUpTo(items, key, j + 1)))), [arrKey], |items|, key, j + 1)
  {
    var cur := FilledUpTo(items, key, j);
    var root := Obj(Set(fields, arrKey, Arr(cur)));
    FilledKept(items, key, j);
    ReadItem(fields, arrKey, cur, j);
    assert Prop(cur[j], key) == Ok(Get(items[j].fields, key).GetOr(Undefined));
    calc {
      FillItems(root, [arrKey], |items|, key, j);
      FillTurn(root, [arrKey], |items|, key, j);
      FillItems(root, [arrKey], |items|, key, j + 1);
    }
  }

  /** Filling an item that already holds a truthy value changes nothing. */
  lemma FilledKept(items: seq<Value>, key: string, j: nat)
    requires forall k :: 0 <= k < |items| ==> items[k].Obj?
    requires j < |items| && Truthy(Get(items[j].fields, key).GetOr(Undefined))
    ensures FilledUpTo(items, key, j + 1) == FilledUpTo(items, key, j)
    ensures FilledUpTo(items, key, j)[j] == items[j]
  {
    var a, b := FilledUpTo(items, key, j + 1), FilledUpTo(items, key, j);
    assert FillOne(items[j], key) == items[j];
    forall k | 0 <= k < |items|
      ensures a[k] == b[k]
    {
      if k == j {
        assert a[k] == FillOne(items[j], key);
      }
    }
  }

  /** An item without a truthy value under `key` gains an empty object
      there. */
  lemma FillStepFilled(fields: seq<Field>, arrKey: string, items: seq<Value>, key: string, j: nat)
    requires forall k :: 0 <= k < |items| ==> items[k].Obj?
    requires j < |items| && !Truthy(Get(items[j].fields, key).GetOr(Undefined))
    ensures FillItems(Obj(Set(fields, arrKey, Arr(FilledUpTo(items, key, j)))), [arrKey], |items|, key, j)
            == FillItems(Obj(Set(fields, arrKey, Arr(FilledUpTo(items, key, j + 1)))), [arrKey], |items|, key, j + 1)
  {
    var cur := FilledUpTo(items, key, j);
    var root := Obj(Set(fields, arrKey, Arr(cur)));
    var next := Obj(Set(fields, arrKey, Arr(FilledUpTo(items, key, j + 1))));
    FilledNext(items, key, j);
    ReadItem(fields, arrKey, cur, j);
    assert Prop(cur[j], key) == Ok(Get(items[j].fields, key).GetOr(Undefined));
    FillItem(fields, arrKey, cur, j, key);
    assert SetAt(root, [arrKey] + [NatToString(j), key], Obj([])) == Ok(next);
    calc {
      FillItems(root, [arrKey], |items|, key, j);
      FillTurn(root, [arrKey], |items|, key, j);
      FillItems(next, [arrKey], |items|, key, j + 1);
    }
  }

  /** Filling an item without a truthy value changes that item alone. */
  lemma FilledNext(items: seq<Value>, key: string, j: nat)
    requires forall k :: 0 <= k < |items| ==> items[k].Obj?
    requires j < |items| && !Truthy(Get(items[j].fields, key).GetOr(Undefined))
    ensures FilledUpTo(items, key, j)[j] == items[j]
    ensures FilledUpTo(items, key, j + 1)
            == FilledUpTo(items, key, j)[j := Obj(Set(items[j].fields, key, Obj([])))]
  {
    var a, b := FilledUpTo(items, key, j + 1), FilledUpTo(items, key, j);
    var c := b[j := Obj(Set(items[j].fields, key, Obj([])))];
    assert FillOne(items[j], key) == Obj(Set(items[j].fields, key, Obj([])));
    forall k | 0 <= k < |items|
      ensures a[k] == c[k]
    {
      if k == j {
        assert a[k] == FillOne(items[j], key);
      } else {
        assert c[k] == b[k];
      }
    }
  }

  /** Item `j` of the array under `arrKey`. */
  lemma ReadItem(fields: seq<Field>, arrKey: string, cur: seq<Value>, j: nat)
    requires j < |cur|
    ensures GetAt(Obj(Set(fields, arrKey, Arr(cur))), [arrKey] + [NatToString(j)]) == Ok(cur[j])
  {
    var root := Obj(Set(fields, arrKey, Arr(cur)));
    var idx := NatToString(j);
    CanonicalIndexOfNat(j);
    IndexNotLength(idx);
    GetSetSame(fields, arrKey, Arr(cur));
    assert Prop(Arr(cur), idx) == Ok(cur[j]);
    GetAtStep(root, arrKey, [idx], Arr(cur));
    GetAtStep(Arr(cur), idx, [], cur[j]);
    assert [idx] == [idx] + [];
  }

  /** Writing an empty object under `key` of item `j`. */
  lemma FillItem(fields: seq<Field>, arrKey: string, cur: seq<Value>, j: nat, key: string)
    requires j < |cur| && cur[j].Obj?
    ensures SetAt(Obj(Set(fields, arrKey, Arr(cur))), [arrKey] + [NatToString(j), key], Obj([]))
            == Ok(Obj(Set(fields, arrKey, Arr(cur[j := Obj(Set(cur[j].fields, key, Obj([])))]))))
  {
    var root := Obj(Set(fields, arrKey, Arr(cur)));
    var idx := NatToString(j);
    var filled := Obj(Set(cur[j].fields, key, Obj([])));
    CanonicalIndexOfNat(j);
    IndexNotLength(idx);
    assert SetAt(Arr(cur), [idx, key], Obj([])) == Ok(Arr(cur[j := filled])) by {
      assert Prop(Arr(cur), idx) == Ok(cur[j]);
      assert SetAt(cur[j], [key], Obj([])) == Ok(filled);
      SetAtStep(Arr(cur), idx, [key], cur[j], Obj([]));
      assert [idx] + [key] == [idx, key];
    }
    assert Prop(root, arrKey) == Ok(Arr(cur)) by {
      GetSetSame(fields, arrKey, Arr(cur));
    }
    SetAtStep(root, arrKey, [idx, key], Arr(cur), Obj([]));
    SetSet(fields, arrKey, Arr(cur), Arr(cur[j := filled]));
  }

  /** The walk over a leading array segment fills the array's items and
      moves to item 0. */
  lemma WalkArrayHead(root: Value, paths: seq<string>, items: seq<Value>, filled: Value)
    requires |paths| == 2 && IsArraySegment(paths[0])
    requires Prop(root, ArrayKey(paths[0])) == Ok(Arr(items))
    requires FillItems(root, [ArrayKey(paths[0])], |items|, paths[1], 0) == Ok(filled)
    ensures Walk(root, paths, 0, []) == Ok((filled, [ArrayKey(paths[0]), "0"]))
  {
    var a := ArrayKey(paths[0]);
    assert [] + [a] == [a];
    assert [] + [a, "0"] == [a, "0"];
  }

  /** A two-segment path whose last segment is plain writes at the walk's
      location. */
  lemma ApplyTwoSegments(root: Value, f: CustomField, filled: Value, loc: seq<string>)
    requires var paths := Split(f.path, '.');
             |paths| == 2 && !IsArraySegment(paths[1])
             && Walk(root, paths, 0, []) == Ok((filled, loc))
    ensures ApplyField(root, f) == SetAt(filled, loc + [Split(f.path, '.')[1]], FieldValue(f))
  {
  }

  /** Writing `b` of item 0 of the array under `a`. */
  lemma SetItemZero(fields: seq<Field>, a: string, items: seq<Value>, b: string, v: Value)
    requires 0 < |items| && items[0].Obj?
    ensures SetAt(Obj(Set(fields, a, Arr(items))), [a, "0", b], v)
            == Ok(Obj(Set(fields, a, Arr(items[0 := Obj(Set(items[0].fields, b, v))]))))
  {
    var changed := Arr(items[0 := Obj(Set(items[0].fields, b, v))]);
    SetItemInArray(items, b, v);
    SetIntoArrayField(fields, a, items, ["0", b], v, changed);
    assert [a] + ["0", b] == [a, "0", b];
  }

  /** Writing below the array under `a` rebuilds the object around the
      changed array. */
  lemma SetIntoArrayField(fields: seq<Field>, a: string, items: seq<Value>, rest: seq<string>, v: Value, changed: Value)
    requires |rest| > 0 && SetAt(Arr(items), rest, v) == Ok(changed)
    ensures SetAt(Obj(Set(fields, a, Arr(items))), [a] + rest, v) == Ok(Obj(Set(fields, a, changed)))
  {
    GetSetSame(fields, a, Arr(items));
    SetAtStep(Obj(Set(fields, a, Arr(items))), a, rest, Arr(items), v);
    SetSet(fields, a, Arr(items), changed);
  }

  lemma SetItemInArray(items: seq<Value>, b: string, v: Value)
    requires 0 < |items| && items[0].Obj?
    ensures SetAt(Arr(items), ["0", b], v) == Ok(Arr(items[0 := Obj(Set(items[0].fields, b, v))]))
  {
    assert CanonicalIndex("0") == Some(0);
    assert SetAt(items[0], [b], v) == Ok(Obj(Set(items[0].fields, b, v)));
    SetAtStep(Arr(items), "0", [b], items[0], v);
    assert ["0"] + [b] == ["0", b];
  }

  /** Item 0 of an empty array is `undefined`: writing below it throws. */
  lemma SetItemZeroEmpty(fields: seq<Field>, a: string, b: string, v: Value)
    requires Get(fields, a) == Some(Arr([]))
    ensures SetAt(Obj(fields), [a, "0", b], v) == Err(TypeError)
  {
    assert CanonicalIndex("0") == Some(0);
    assert SetAt(Undefined, [b], v) == Err(TypeError);
    SetAtStep(Arr([]), "0", [b], Undefined, v);
    assert ["0"] + [b] == ["0", b];
    SetAtStep(Obj(fields), a, ["0", b], Arr([]), v);
    assert [a] + ["0", b] == [a, "0", b];
  }

  /** A path `a[].b` over an array of objects: every item whose `b` is
      falsy first gets an empty object there, then item 0's `b` is set to
      the value; the other items keep their `b` or the empty object. */
  lemma ArrayThenKey(fields: seq<Field>, items: seq<Value>, f: CustomField)
    requires var paths := Split(f.path, '.');
             |paths| == 2 && IsArraySegment(paths[0]) && !IsArraySegment(paths[1])
    requires Get(fields, ArrayKey(Split(f.path, '.')[0])) == Some(Arr(items))
    requires 0 < |items| && forall k :: 0 <= k < |items| ==> items[k].Obj?
    ensures var paths := Split(f.path, '.');
            var filled := FilledUpTo(items, paths[1], |items|);
            ApplyField(Obj(fields), f)
            == Ok(Obj(Set(fields, ArrayKey(paths[0]), Arr(filled[0 := Obj(Set(items[0].fields, paths[1], FieldValue(f)))]))))
  {
    var paths := Split(f.path, '.');
    var a, b, v := ArrayKey(paths[0]), paths[1], FieldValue(f);
    var filled := FilledUpTo(items, b, |items|);
    var after := Obj(Set(fields, a, Arr(filled)));
    assert FilledUpTo(items, b, 0) == items;
    SetToSame(fields, a, Arr(items));
    FillItemsObjects(fields, a, items, b, 0);
    WalkArrayHead(Obj(fields), paths, items, after);
    ApplyTwoSegments(Obj(fields), f, after, [a, "0"]);
    assert [a, "0"] + [b] == [a, "0", b];
    assert filled[0] == FillOne(items[0], b);
    SetItemZero(fields, a, filled, b, v);
    assert Set(filled[0].fields, b, v) == Set(items[0].fields, b, v) by {
      if !Truthy(Get(items[0].fields, b).GetOr(Undefined)) {
        SetSet(items[0].fields, b, Obj([]), v);
      }
    }
  }

  /** The same path over an empty array throws: item 0 is `undefined`. */
  lemma ArrayThenKeyEmpty(fields: seq<Field>, f: CustomField)
    requires var paths := Split(f.path, '.');
             |paths| == 2 && IsArraySegment(paths[0]) && !IsArraySegment(paths[1])
    requires Get(fields, ArrayKey(Split(f.path, '.')[0])) == Some(Arr([]))
    ensures ApplyField(Obj(fields), f) == Err(TypeError)
  {
    var paths := Split(f.path, '.');
    var a, b := ArrayKey(paths[0]), paths[1];
    WalkArrayHead(Obj(fields), paths, [], Obj(fields));
    ApplyTwoSegments(Obj(fields), f, Obj(fields), [a, "0"]);
    assert [a, "0"] + [b] == [a, "0", b];
    SetItemZeroEmpty(fields, a, b, FieldValue(f));
  }

  /** A path without a dot skips the walk. */
  lemma OneSegment(root: Value, f: CustomField)
    requires '.' !in f.path
    ensures ApplyField(root, f) == WriteLast(root, [], f.path, FieldValue(f))
  {
    SplitNoSeparator(f.path, '.');
    assert Walk(root, [f.path], 0, []) == Ok((root, []));
  }

}

=== FILE: dashboard.dfy ===
/** The server actions behind the dashboard
    (frontend/app/actions/dashboard-actions.ts): reading the licence CSV
    files, the licence statistics per office, the counting parts of the
    dashboard statistics and the key reordering of `reorderJson`. File
    contents are parameters; reading, writing and logging are outside the
    model. */
module Dashboard {
  import opened Wrappers
  import opened Text
  import opened Numbers
  import opened Json
  import opened Seqs
  import opened Distinct

  // ---------------------------------------------------------------------
  // readCSVFile

  /** The lines of the file, trimmed, without the blank ones. */
  function CsvLines(content: string): (ls: seq<string>)
    ensures forall i :: 0 <= i < |ls| ==> NonEmpty(ls[i]) && Trim(ls[i]) == ls[i]
    ensures IsSubseq(ls, TrimAll(Split(content, '\n')))
  {
    var ts := TrimAll(Split(content, '\n'));
    FilterIsSubseq(ts, NonEmpty);
    var ls := Filter(ts, NonEmpty);
    forall j | 0 <= j < |ts| ensures Trim(ts[j]) == ts[j] {
      TrimIdempotent(Split(content, '\n')[j]);
    }
    FilterKeepsAll(ts, NonEmpty, (x: string) => Trim(x) == x);
    ls
  }

  /** The trimmed cells of one line. */
  function CsvRow(line: string): (row: seq<string>)
    ensures |row| >= 1
    ensures forall j :: 0 <= j < |row| ==> Trim(row[j]) == row[j]
  {
    var cells := Split(line, ',');
    assert forall j :: 0 <= j < |cells| ==> Trim(Trim(cells[j])) == Trim(cells[j]) by {
      forall j | 0 <= j < |cells| ensures Trim(Trim(cells[j])) == Trim(cells[j]) {
        TrimIdempotent(cells[j]);
      }
    }
    TrimAll(cells)
  }

  /** `readCSVFile`: one row per non-blank line, each cell trimmed; a file
      that cannot be read (`None`) gives no rows. */
  function ReadCsvFile(content: Option<string>): (rows: seq<seq<string>>)
    ensures content.None? ==> rows == []
    ensures content.Some? ==> |rows| == |CsvLines(content.value)|
    ensures forall i :: 0 <= i < |rows| ==> |rows[i]| >= 1
    ensures forall i, j :: 0 <= i < |rows| && 0 <= j < |rows[i]| ==> Trim(rows[i][j]) == rows[i][j]
  {
    match content
    case None => []
    case Some(text) =>
      var ls := CsvLines(text);
      seq(|ls|, i requires 0 <= i < |ls| => CsvRow(ls[i]))
  }

  /** A cell the reader reproduces: trimmed, and free of separators. */
  predicate PlainCell(cell: string) {
    Trim(cell) == cell && ',' !in cell && '\n' !in cell
  }

  /** A row the reader reproduces: plain cells, and a non-empty first and
      last cell so that the line is not blank and has no space to trim. */
  predicate PlainRow(row: seq<string>) {
    && |row| >= 1 && |row[0]| > 0 && |row[|row| - 1]| > 0
    && forall j :: 0 <= j < |row| ==> PlainCell(row[j])
  }

  /** The lines of a file holding the rows. */
  function Lines(rows: seq<seq<string>>): (ls: seq<string>)
    ensures |ls| == |rows|
    ensures forall i :: 0 <= i < |rows| ==> ls[i] == Join(rows[i], ',')
  {
    seq(|rows|, i requires 0 <= i < |rows| => Join(rows[i], ','))
  }

  /** Writing plain rows as comma-separated lines and reading the file back
      gives the rows. */
  lemma ReadCsvFileRoundTrip(rows: seq<seq<string>>)
    requires forall i :: 0 <= i < |rows| ==> PlainRow(rows[i])
    ensures ReadCsvFile(Some(Join(Lines(rows), '\n'))) == rows
  {
    var ls := Lines(rows);
    forall i | 0 <= i < |rows| ensures PlainLine(ls[i]) && CsvRow(ls[i]) == rows[i] {
      PlainRowLine(rows[i]);
    }
    CsvLinesOfPlainLines(ls);
  }

  /** Reading back plain lines joined by line feeds gives the lines. */
  lemma CsvLinesOfPlainLines(ls: seq<string>)
    requires forall i :: 0 <= i < |ls| ==> PlainLine(ls[i])
    ensures CsvLines(Join(ls, '\n')) == ls
  {
    if |ls| == 0 {
      EmptyFileHasNoLines();
    } else {
      SplitJoin(ls, '\n');
      TrimAllOfTrimmed(ls);
      FilterAll(ls, NonEmpty);
    }
  }

  lemma EmptyFileHasNoLines()
    ensures CsvLines("") == []
  {
    assert Split("", '\n') == [""];
    assert TrimAll([""]) == [""];
  }

  /** A line of a plain row: non-empty, trimmed, without line breaks. */
  predicate PlainLine(line: string) {
    NonEmpty(line) && Trim(line) == line && '\n' !in line
  }

  lemma PlainRowLine(row: seq<string>)
    requires PlainRow(row)
    ensures PlainLine(Join(row, ',')) && CsvRow(Join(row, ',')) == row
  {
    var line := Join(row, ',');
    JoinFirst(row, ',');
    JoinLast(row, ',');
    assert !IsSpace(line[0]) && !IsSpace(line[|line| - 1]) by {
      assert Trim(row[0]) == row[0];
      var last := row[|row| - 1];
      assert Trim(last) == last;
    }
    TrimNoEdgeSpace(line);
    JoinFree(row, ',', '\n');
    SplitJoin(row, ',');
    assert TrimAll(row) == row;
  }

  /** A join of pieces free of a character other than the separator is
      free of it. */
  lemma {:induction false} JoinFree(parts: seq<string>, c: char, x: char)
    requires c != x
    requires forall k :: 0 <= k < |parts| ==> x !in parts[k]
    ensures x !in Join(parts, c)
  {
    if |parts| > 1 {
      JoinFree(parts[1..], c, x);
    }
  }

  // ---------------------------------------------------------------------
  // getLicenseStats

  /** A destructured cell, `None` (`undefined`) past the end of a short
      row. A row always has its first cell, since blank lines are gone. */
  function Part(row: seq<string>, i: nat): (v: Option<string>)
    ensures v.Some? <==> i < |row|
  {
    if i < |row| then Some(row[i]) else None
  }

  /** A destructured cell as a property name or as the argument of
      `parseInt`: `undefined` turns into the text "undefined". */
  function Cell(row: seq<string>, i: nat): string {
    Part(row, i).GetOr("undefined")
  }

  datatype Area = Area(code: Option<string>, name: Option<string>, count: int)
  datatype Entry = Entry(total: int, areas: seq<Area>)
  datatype KontorLicenses = KontorLicenses(totalLicenses: int, transportors: map<string, Entry>)

  /** A row of the totals file as `[avtaleKontor, transportor, total]`
      destructures it, with `parseInt(total) || 0` applied. */
  datatype TotalRow = TotalRow(kontor: string, transportor: string, total: int)

  /** A row of the area file as `[avtaleKontor, transportor, code, name,
      count]` destructures it, with `parseInt(count) || 0` applied. */
  datatype AreaRow = AreaRow(kontor: string, transportor: string, area: Area)

  function TotalRows(rows: seq<seq<string>>): (rs: seq<TotalRow>)
    ensures |rs| == |rows|
    ensures forall i :: 0 <= i < |rows| ==>
              rs[i] == TotalRow(Cell(rows[i], 0), Cell(rows[i], 1), IntOrZero(Cell(rows[i], 2)))
  {
    seq(|rows|, i requires 0 <= i < |rows| =>
      TotalRow(Cell(rows[i], 0), Cell(rows[i], 1), IntOrZero(Cell(rows[i], 2))))
  }

  function AreaRows(rows: seq<seq<string>>): (rs: seq<AreaRow>)
    ensures |rs| == |rows|
    ensures forall i :: 0 <= i < |rows| ==>
              rs[i] == AreaRow(Cell(rows[i], 0), Cell(rows[i], 1),
                               Area(Part(rows[i], 2), Part(rows[i], 3), IntOrZero(Cell(rows[i], 4))))
  {
    seq(|rows|, i requires 0 <= i < |rows| =>
      AreaRow(Cell(rows[i], 0), Cell(rows[i], 1),
              Area(Part(rows[i], 2), Part(rows[i], 3), IntOrZero(Cell(rows[i], 4)))))
  }

  /** The office of every row of the totals file. */
  function Kontors(rows: seq<TotalRow>): (ks: seq<string>)
    ensures |ks| == |rows|
    ensures forall i :: 0 <= i < |rows| ==> ks[i] == rows[i].kontor
  {
    seq(|rows|, i requires 0 <= i < |rows| => rows[i].kontor)
  }

  /** The total of every row of the totals file. */
  function Totals(rows: seq<TotalRow>): (ts: seq<int>)
    ensures |ts| == |rows|
    ensures forall i :: 0 <= i < |rows| ==> ts[i] == rows[i].total
  {
    seq(|rows|, i requires 0 <= i < |rows| => rows[i].total)
  }

  /** The totals file names the office `k` and the operator `t` on some
      row. */
  predicate Seen(rows: seq<TotalRow>, k: string, t: string) {
    exists i :: 0 <= i < |rows| && rows[i].kontor == k && rows[i].transportor == t
  }

  /** The first pass over the totals file: for each row, the office gains
      the row's total and the operator's entry is replaced by one holding
      that total and no areas. The offices of the result are exactly the
      offices of the rows. */
  function TotalPass(rows: seq<TotalRow>): (m: map<string, KontorLicenses>)
    ensures forall k :: k in m <==> k in Kontors(rows)
  {
    if |rows| == 0 then map[]
    else
      var n := |rows| - 1;
      var prev := TotalPass(rows[..n]);
      ColumnsPrefix(rows, n);
      assert Kontors(rows) == Kontors(rows)[..n] + [rows[n].kontor];
      var r := rows[n];
      var s := if r.kontor in prev then prev[r.kontor] else KontorLicenses(0, map[]);
      prev[r.kontor := KontorLicenses(s.totalLicenses + r.total, s.transportors[r.transportor := Entry(r.total, [])])]
  }

  /** The columns of a prefix are the prefix of the columns. */
  lemma ColumnsPrefix(rows: seq<TotalRow>, n: nat)
    requires n <= |rows|
    ensures Kontors(rows[..n]) == Kontors(rows)[..n]
    ensures Totals(rows[..n]) == Totals(rows)[..n]
  {
  }

  /** An office's `totalLicenses` is the sum of the totals of all its
      rows, repeated operators included. */
  lemma {:induction false} TotalPassTotal(rows: seq<TotalRow>, k: string)
    requires k in TotalPass(rows)
    ensures TotalPass(rows)[k].totalLicenses == SumWhere(Kontors(rows), Totals(rows), k)
  {
    var n := |rows| - 1;
    var prev := TotalPass(rows[..n]);
    ColumnsPrefix(rows, n);
    if k in prev {
      TotalPassTotal(rows[..n], k);
    } else {
      SumWhereAbsent(Kontors(rows[..n]), Totals(rows[..n]), k);
    }
  }

  /** An office's operators are the operators of its rows, each with no
      areas yet. */
  lemma {:induction false} TotalPassOperators(rows: seq<TotalRow>, k: string, t: string)
    requires k in TotalPass(rows)
    ensures t in TotalPass(rows)[k].transportors <==> Seen(rows, k, t)
    ensures t in TotalPass(rows)[k].transportors ==> TotalPass(rows)[k].transportors[t].areas == []
  {
    var n := |rows| - 1;
    var prev := TotalPass(rows[..n]);
    var last := rows[n];
    assert Seen(rows, k, t) <==> Seen(rows[..n], k, t) || (last.kontor == k && last.transportor == t) by {
      assert forall i :: 0 <= i < n ==> rows[..n][i] == rows[i];
    }
    if k in prev {
      TotalPassOperators(rows[..n], k, t);
    } else {
      assert !Seen(rows[..n], k, t) by {
        assert forall i :: 0 <= i < n ==> Kontors(rows[..n])[i] == rows[..n][i].kontor;
      }
    }
  }

  /** An operator's entry holds the total of the last row naming it. */
  lemma {:induction false} TotalPassLastRowWins(rows: seq<TotalRow>, i: nat)
    requires i < |rows|
    requires forall j :: i < j < |rows| ==>
               !(rows[j].kontor == rows[i].kontor && rows[j].transportor == rows[i].transportor)
    ensures var m := TotalPass(rows); var k, t := rows[i].kontor, rows[i].transportor;
      k in m && t in m[k].transportors && m[k].transportors[t].total == rows[i].total
  {
    var n := |rows| - 1;
    var k, t := rows[i].kontor, rows[i].transportor;
    var prev, r := TotalPass(rows[..n]), rows[n];
    var s := if r.kontor in prev then prev[r.kontor] else KontorLicenses(0, map[]);
    assert TotalPass(rows)
           == prev[r.kontor := KontorLicenses(s.totalLicenses + r.total, s.transportors[r.transportor := Entry(r.total, [])])];
    if i < n {
      assert rows[..n][i] == rows[i];
      assert forall j :: i < j < n ==> rows[..n][j] == rows[j];
      TotalPassLastRowWins(rows[..n], i);
      assert !(r.kontor == k && r.transportor == t);
      if r.kontor == k {
        assert s == prev[k];
      }
    }
  }

  /** Two rows for the same office and operator: the office total counts
      both, the operator's entry only the second, so the office total can
      exceed the sum of its operators' totals. */
  lemma RepeatedOperatorCountedTwice(k: string, t: string, a: int, b: int)
    ensures var m := TotalPass([TotalRow(k, t, a), TotalRow(k, t, b)]);
      && k in m && t in m[k].transportors
      && m[k].totalLicenses == a + b
      && m[k].transportors[t].total == b
  {
    var rows := [TotalRow(k, t, a), TotalRow(k, t, b)];
    assert rows[..1] == [TotalRow(k, t, a)];
    assert rows[..1][..0] == [];
    assert TotalPass(rows[..1]) == map[k := KontorLicenses(a, map[t := Entry(a, [])])];
  }

  /** The areas of the rows naming `k` and `t`, in file order. */
  function AreasFor(rows: seq<AreaRow>, k: string, t: string): (as_: seq<Area>)
    ensures |as_| <= |rows|
  {
    if |rows| == 0 then []
    else
      var n := |rows| - 1;
      var r := rows[n];
      AreasFor(rows[..n], k, t) + (if r.kontor == k && r.transportor == t then [r.area] else [])
  }

  /** The second pass over the area file: a row is appended to the areas of
      its operator when the first pass created that entry, and is ignored
      otherwise. It adds no office and no operator and changes no total. */
  function AreaPass(m: map<string, KontorLicenses>, rows: seq<AreaRow>): (r: map<string, KontorLicenses>)
    ensures r.Keys == m.Keys
    ensures forall k :: k in m ==>
      r[k].totalLicenses == m[k].totalLicenses && r[k].transportors.Keys == m[k].transportors.Keys
  {
    if |rows| == 0 then m
    else
      var n := |rows| - 1;
      var prev := AreaPass(m, rows[..n]);
      var r := rows[n];
      if r.kontor in prev && r.transportor in prev[r.kontor].transportors then
        var s := prev[r.kontor];
        var e := s.transportors[r.transportor];
        prev[r.kontor := s.(transportors := s.transportors[r.transportor := e.(areas := e.areas + [r.area])])]
      else prev
  }

  /** Each operator's areas gain exactly the rows naming it, in file
      order; its total is unchanged. */
  lemma {:induction false} AreaPassAreas(m: map<string, KontorLicenses>, rows: seq<AreaRow>, k: string, t: string)
    requires k in m && t in m[k].transportors
    ensures var r, e := AreaPass(m, rows), m[k].transportors[t];
      k in r && t in r[k].transportors && r[k].transportors[t] == e.(areas := e.areas + AreasFor(rows, k, t))
  {
    if |rows| > 0 {
      var n := |rows| - 1;
      AreaPassAreas(m, rows[..n], k, t);
    }
  }

  /** A row naming an office or operator the first pass did not create is
      ignored. */
  lemma AreaPassIgnoresUnmatched(m: map<string, KontorLicenses>, rows: seq<AreaRow>, row: AreaRow)
    requires !(row.kontor in m && row.transportor in m[row.kontor].transportors)
    ensures AreaPass(m, rows + [row]) == AreaPass(m, rows)
  {
    assert (rows + [row])[..|rows|] == rows;
  }

  /** `slice(1)`: the rows after the header. */
  function Body<T>(rows: seq<T>): (b: seq<T>)
    ensures |b| == if |rows| == 0 then 0 else |rows| - 1
  {
    if |rows| == 0 then [] else rows[1..]
  }

  /** `getLicenseStats` over the contents of the totals file and the area
      file (`None` for a file that cannot be read). */
  function LicenseStats(totalFile: Option<string>, areaFile: Option<string>): (r: map<string, KontorLicenses>)
    ensures var rows := TotalRows(Body(ReadCsvFile(totalFile)));
      && (forall k :: k in r <==> k in Kontors(rows))
      && (forall k :: k in r ==> r[k].totalLicenses == SumWhere(Kontors(rows), Totals(rows), k))
  {
    var rows := TotalRows(Body(ReadCsvFile(totalFile)));
    var m := TotalPass(rows);
    assert forall k :: k in m ==> m[k].totalLicenses == SumWhere(Kontors(rows), Totals(rows), k) by {
      forall k | k in m ensures m[k].totalLicenses == SumWhere(Kontors(rows), Totals(rows), k) {
        TotalPassTotal(rows, k);
      }
    }
    AreaPass(m, AreaRows(Body(ReadCsvFile(areaFile))))
  }

  /** The offices of `getLicenseStats` are those of the totals file, each
      with the sum of its rows' totals. */
  lemma LicenseStatsTotals(totalFile: Option<string>, areaFile: Option<string>, k: string)
    ensures var rows := TotalRows(Body(ReadCsvFile(totalFile))); var m := LicenseStats(totalFile, areaFile);
      && (k in m <==> k in Kontors(rows))
      && (k in m ==> m[k].totalLicenses == SumWhere(Kontors(rows), Totals(rows), k))
  {
    var rows := TotalRows(Body(ReadCsvFile(totalFile)));
    if k in TotalPass(rows) {
      TotalPassTotal(rows, k);
    }
  }

  // ---------------------------------------------------------------------
  // getDashboardStats (the counting parts)

  /** What the dashboard reads of one contract: `avtaleKontor`,
      `avtaleNavn`, `startLocation?.city`, `startLocation?.municipality`,
      `resourceCount` (an integer here), `type`, `validTransport` and the
      elements of `validNeeds`. */
  datatype Summary = Summary(
    kontor: Value,
    transporter: Value,
    city: Value,
    municipality: Value,
    resources: int,
    kind: Value,
    validTransport: Value,
    validNeeds: seq<Value>)

  /** `v || 'Unknown'` used as a property name. */
  function GroupKey(v: Value): string {
    ToStr(Or(v, Str("Unknown")))
  }

  function KontorKeys(cs: seq<Summary>): (ks: seq<string>)
    ensures |ks| == |cs|
    ensures forall i :: 0 <= i < |cs| ==> ks[i] == GroupKey(cs[i].kontor)
  {
    seq(|cs|, i requires 0 <= i < |cs| => GroupKey(cs[i].kontor))
  }

  function TypeKeys(cs: seq<Summary>): (ks: seq<string>)
    ensures |ks| == |cs|
    ensures forall i :: 0 <= i < |cs| ==> ks[i] == GroupKey(cs[i].kind)
  {
    seq(|cs|, i requires 0 <= i < |cs| => GroupKey(cs[i].kind))
  }

  /** `resourceCount || 0` of every contract. */
  function Resources(cs: seq<Summary>): (rs: seq<int>)
    ensures |rs| == |cs|
    ensures forall i :: 0 <= i < |cs| ==> rs[i] == cs[i].resources
  {
    seq(|cs|, i requires 0 <= i < |cs| => cs[i].resources)
  }

  /** One bucket of a counting `reduce`. */
  datatype Tally = Tally(key: string, count: int)

  function Counts(ts: seq<Tally>): (cs: seq<int>)
    ensures |cs| == |ts|
    ensures forall i :: 0 <= i < |ts| ==> cs[i] == ts[i].count
  {
    seq(|ts|, i requires 0 <= i < |ts| => ts[i].count)
  }

  /** `contractTypes`: one bucket per distinct `type || 'Unknown'`, in
      first-seen order, holding the number of contracts of that type. */
  function ContractTypes(cs: seq<Summary>): (ts: seq<Tally>)
    ensures var keys := Dedup(TypeKeys(cs));
      && |ts| == |keys|
      && forall i :: 0 <= i < |ts| ==>
           ts[i].key == keys[i] && ts[i].count == SumWhere(TypeKeys(cs), Ones(|cs|), keys[i])
  {
    var keys := Dedup(TypeKeys(cs));
    seq(|keys|, i requires 0 <= i < |keys| => Tally(keys[i], SumWhere(TypeKeys(cs), Ones(|cs|), keys[i])))
  }

  /** The type counts add up to the number of contracts. */
  lemma ContractTypesSum(cs: seq<Summary>)
    ensures Sum(Counts(ContractTypes(cs))) == |cs|
  {
    var keys := Dedup(TypeKeys(cs));
    assert Counts(ContractTypes(cs)) == Sums(keys, TypeKeys(cs), Ones(|cs|));
    SumsTotal(keys, TypeKeys(cs), Ones(|cs|));
  }

  /** `totalResources`. */
  function TotalResources(cs: seq<Summary>): int {
    Sum(Resources(cs))
  }

  /** The per-office figures of `avtaleKontorStats`. */
  datatype KontorStats = KontorStats(
    totalContracts: int,
    transporterCount: nat,
    cityCount: nat,
    startKommuneCount: nat,
    totalResources: int)

  datatype Group = Group(kontor: string, stats: KontorStats)

  /** The contracts of office `k`. */
  function Members(cs: seq<Summary>, k: string): (ms: seq<Summary>)
    ensures |ms| <= |cs|
    ensures forall i :: 0 <= i < |ms| ==> GroupKey(ms[i].kontor) == k
  {
    Filter(cs, (c: Summary) => GroupKey(c.kontor) == k)
  }

  function Transporters(cs: seq<Summary>): seq<Value> {
    seq(|cs|, i requires 0 <= i < |cs| => cs[i].transporter)
  }

  function Cities(cs: seq<Summary>): seq<Value> {
    seq(|cs|, i requires 0 <= i < |cs| => cs[i].city)
  }

  function Municipalities(cs: seq<Summary>): seq<Value> {
    seq(|cs|, i requires 0 <= i < |cs| => cs[i].municipality)
  }

  /** The figures of office `k`: its contracts counted, the distinct truthy
      operators, cities and start municipalities of its contracts counted,
      and their resources added up. */
  function KontorStatsOf(cs: seq<Summary>, k: string): (s: KontorStats)
    ensures s.transporterCount <= s.totalContracts
    ensures s.cityCount <= s.totalContracts
    ensures s.startKommuneCount <= s.totalContracts
    ensures var ms := Members(cs, k);
            && s.totalContracts == |ms|
            && s.transporterCount == |TruthySet(Transporters(ms))|
            && s.cityCount == |TruthySet(Cities(ms))|
            && s.startKommuneCount == |TruthySet(Municipalities(ms))|
  {
    var ms := Members(cs, k);
    DistinctTruthyCount(Transporters(ms));
    DistinctTruthyCount(Cities(ms));
    DistinctTruthyCount(Municipalities(ms));
    KontorStats(
      |ms|,
      |DistinctTruthy(Transporters(ms))|,
      |DistinctTruthy(Cities(ms))|,
      |DistinctTruthy(Municipalities(ms))|,
      SumWhere(KontorKeys(cs), Resources(cs), k))
  }

  /** `avtaleKontorStats`: one group per distinct `avtaleKontor ||
      'Unknown'`, in first-seen order. */
  function KontorGroups(cs: seq<Summary>): (gs: seq<Group>)
    ensures var keys := Dedup(KontorKeys(cs));
      |gs| == |keys| && forall i :: 0 <= i < |gs| ==> gs[i] == Group(keys[i], KontorStatsOf(cs, keys[i]))
  {
    var keys := Dedup(KontorKeys(cs));
    seq(|keys|, i requires 0 <= i < |keys| => Group(keys[i], KontorStatsOf(cs, keys[i])))
  }

  /** The number of an office's contracts is the number of contracts
      bucketed under its name. */
  lemma {:induction false} MembersCount(cs: seq<Summary>, k: string)
    ensures |Members(cs, k)| == SumWhere(KontorKeys(cs), Ones(|cs|), k)
  {
    if |cs| > 0 {
      var n := |cs| - 1;
      MembersCount(cs[..n], k);
      MembersSnoc(cs, k);
      KontorOnesSnoc(cs, k);
    }
  }

  lemma MembersSnoc(cs: seq<Summary>, k: string)
    requires |cs| > 0
    ensures |Members(cs, k)| == |Members(cs[..|cs| - 1], k)| + (if GroupKey(cs[|cs| - 1].kontor) == k then 1 else 0)
  {
    var n := |cs| - 1;
    assert cs == cs[..n] + [cs[n]];
    FilterAppend(cs[..n], [cs[n]], (c: Summary) => GroupKey(c.kontor) == k);
  }

  lemma KontorOnesSnoc(cs: seq<Summary>, k: string)
    requires |cs| > 0
    ensures SumWhere(KontorKeys(cs), Ones(|cs|), k)
            == SumWhere(KontorKeys(cs[..|cs| - 1]), Ones(|cs| - 1), k) + (if GroupKey(cs[|cs| - 1].kontor) == k then 1 else 0)
  {
    var n := |cs| - 1;
    assert KontorKeys(cs)[..n] == KontorKeys(cs[..n]);
    assert Ones(|cs|)[..n] == Ones(n);
  }

  function GroupTotals(gs: seq<Group>): (ts: seq<int>)
    ensures |ts| == |gs|
    ensures forall i :: 0 <= i < |gs| ==> ts[i] == gs[i].stats.totalContracts
  {
    seq(|gs|, i requires 0 <= i < |gs| => gs[i].stats.totalContracts)
  }

  function GroupResources(gs: seq<Group>): (rs: seq<int>)
    ensures |rs| == |gs|
    ensures forall i :: 0 <= i < |gs| ==> rs[i] == gs[i].stats.totalResources
  {
    seq(|gs|, i requires 0 <= i < |gs| => gs[i].stats.totalResources)
  }

  /** The group counts add up to the number of contracts. */
  lemma GroupsShareContracts(cs: seq<Summary>)
    ensures Sum(GroupTotals(KontorGroups(cs))) == |cs|
  {
    var keys := Dedup(KontorKeys(cs));
    GroupTotalsAreSums(cs);
    SumsTotal(keys, KontorKeys(cs), Ones(|cs|));
  }

  lemma GroupTotalsAreSums(cs: seq<Summary>)
    ensures GroupTotals(KontorGroups(cs)) == Sums(Dedup(KontorKeys(cs)), KontorKeys(cs), Ones(|cs|))
  {
    GroupTotalsPointwise(cs);
  }

  lemma GroupTotalsPointwise(cs: seq<Summary>)
    ensures var keys := Dedup(KontorKeys(cs));
      forall i :: 0 <= i < |keys| ==> GroupTotals(KontorGroups(cs))[i] == SumWhere(KontorKeys(cs), Ones(|cs|), keys[i])
  {
    var keys := Dedup(KontorKeys(cs));
    var gs := KontorGroups(cs);
    forall i | 0 <= i < |keys|
      ensures GroupTotals(gs)[i] == SumWhere(KontorKeys(cs), Ones(|cs|), keys[i])
    {
      assert gs[i].stats == KontorStatsOf(cs, keys[i]);
      GroupTotalAt(cs, keys[i]);
    }
  }

  lemma GroupTotalAt(cs: seq<Summary>, k: string)
    ensures KontorStatsOf(cs, k).totalContracts == SumWhere(KontorKeys(cs), Ones(|cs|), k)
  {
    MembersCount(cs, k);
  }

  /** The group resources add up to `totalResources`. */
  lemma GroupsShareResources(cs: seq<Summary>)
    ensures Sum(GroupResources(KontorGroups(cs))) == TotalResources(cs)
  {
    var keys := Dedup(KontorKeys(cs));
    GroupResourcesAreSums(cs);
    SumsTotal(keys, KontorKeys(cs), Resources(cs));
  }

  lemma GroupResourcesAreSums(cs: seq<Summary>)
    ensures GroupResources(KontorGroups(cs)) == Sums(Dedup(KontorKeys(cs)), KontorKeys(cs), Resources(cs))
  {
    var keys := Dedup(KontorKeys(cs));
    var gs := KontorGroups(cs);
    forall i | 0 <= i < |keys|
      ensures GroupResources(gs)[i] == SumWhere(KontorKeys(cs), Resources(cs), keys[i])
    {
      assert gs[i].stats == KontorStatsOf(cs, keys[i]);
    }
  }

  function ValidNeedsOf(cs: seq<Summary>): (vs: seq<Value>)
    ensures forall v :: v in vs <==> exists i :: 0 <= i < |cs| && v in cs[i].validNeeds
  {
    if |cs| == 0 then [] else ValidNeedsOf(cs[..|cs| - 1]) + cs[|cs| - 1].validNeeds
  }

  function Transports(cs: seq<Summary>): seq<Value> {
    seq(|cs|, i requires 0 <= i < |cs| => cs[i].validTransport)
  }

  /** The distinct truthy transports are those some contract has. */
  lemma DistinctTransports(cs: seq<Summary>)
    ensures var d := DistinctTruthy(Transports(cs));
      && NoDups(d)
      && forall v :: v in d <==> Truthy(v) && exists i :: 0 <= i < |cs| && cs[i].validTransport == v
  {
    assert forall i :: 0 <= i < |cs| ==> Transports(cs)[i] == cs[i].validTransport;
  }

  /** The distinct truthy needs are those some contract lists. */
  lemma DistinctNeeds(cs: seq<Summary>)
    ensures var d := DistinctTruthy(ValidNeedsOf(cs));
      && NoDups(d)
      && forall v :: v in d <==> Truthy(v) && exists i :: 0 <= i < |cs| && v in cs[i].validNeeds
  {
  }

  datatype DashboardStats = DashboardStats(
    totalContracts: nat,
    contractTypes: seq<Tally>,
    totalResources: int,
    validTransports: seq<Value>,
    validNeeds: seq<Value>,
    kontorStats: seq<Group>,
    licenseStats: map<string, KontorLicenses>)

  /** `getDashboardStats`: nothing without a contract list; otherwise the
      counts, the distinct truthy transports and needs in first-seen order,
      the office groups and the licence statistics. */
  function DashboardStatsOf(contracts: Option<seq<Summary>>, totalFile: Option<string>,
                            areaFile: Option<string>): (r: Option<DashboardStats>)
    ensures r.Some? <==> contracts.Some?
    ensures r.Some? ==> var cs := contracts.value;
      && r.value.totalContracts == |cs|
      && NoDups(r.value.validTransports)
      && (forall v :: v in r.value.validTransports <==> Truthy(v) && exists i :: 0 <= i < |cs| && cs[i].validTransport == v)
      && NoDups(r.value.validNeeds)
      && (forall v :: v in r.value.validNeeds <==> Truthy(v) && exists i :: 0 <= i < |cs| && v in cs[i].validNeeds)
    ensures r.Some? ==> var cs := contracts.value;
      && r.value.contractTypes == ContractTypes(cs)
      && r.value.totalResources == TotalResources(cs)
      && r.value.kontorStats == KontorGroups(cs)
      && r.value.licenseStats == LicenseStats(totalFile, areaFile)
    ensures r.Some? ==>
      && Sum(Counts(r.value.contractTypes)) == r.value.totalContracts
      && Sum(GroupTotals(r.value.kontorStats)) == r.value.totalContracts
      && Sum(GroupResources(r.value.kontorStats)) == r.value.totalResources
  {
    match contracts
    case None => None
    case Some(cs) =>
      ContractTypesSum(cs);
      GroupsShareContracts(cs);
      GroupsShareResources(cs);
      DistinctTransports(cs);
      DistinctNeeds(cs);
      Some(DashboardStats(
        |cs|,
        ContractTypes(cs),
        TotalResources(cs),
        DistinctTruthy(Transports(cs)),
        DistinctTruthy(ValidNeedsOf(cs)),
        KontorGroups(cs),
        LicenseStats(totalFile, areaFile)))
  }

  // ---------------------------------------------------------------------
  // reorderJson

  /** The names in `order` that the object has, in `order`'s order. */
  function Named(fields: seq<Field>, order: seq<string>): (ns: seq<string>)
    ensures forall i :: 0 <= i < |ns| ==> ns[i] in Keys(fields) && ns[i] in order
  {
    Filter(order, (k: string) => k in Keys(fields))
  }

  /** The object's other keys, in their own order. */
  function Others(fields: seq<Field>, order: seq<string>): (os: seq<string>)
    ensures forall i :: 0 <= i < |os| ==> os[i] in Keys(fields) && os[i] !in order
  {
    Filter(Keys(fields), (k: string) => k !in order)
  }

  /** The value of each key, read from the object. */
  function Lookup(fields: seq<Field>, names: seq<string>): (vs: seq<Value>)
    ensures |vs| == |names|
    ensures forall i :: 0 <= i < |names| ==> vs[i] == Get(fields, names[i]).GetOr(Undefined)
  {
    seq(|names|, i requires 0 <= i < |names| => Get(fields, names[i]).GetOr(Undefined))
  }

  /** `reorderObject`: the object rebuilt with the keys named in `order`
      first, in `order`'s order, and the others after them in their own
      order. */
  function ReorderObject(fields: seq<Field>, order: seq<string>): (r: seq<Field>)
    requires WellFormed(fields)
    ensures WellFormed(r)
    ensures Keys(r) == Dedup(Named(fields, order)) + Others(fields, order)
  {
    var first, rest := Named(fields, order), Others(fields, order);
    var names := first + rest;
    assert NoDups(rest) by {
      FilterNoDups(Keys(fields), (k: string) => k !in order);
    }
    DedupAppendFresh(first, rest);
    AssignAll(names, Lookup(fields, names))
  }

  /** Reordering keeps exactly the object's key/value pairs. */
  lemma ReorderKeepsPairs(fields: seq<Field>, order: seq<string>, k: string)
    requires WellFormed(fields)
    ensures Get(ReorderObject(fields, order), k) == Get(fields, k)
  {
    var first, rest := Named(fields, order), Others(fields, order);
    var names := first + rest;
    var r := ReorderObject(fields, order);
    assert Keys(r) == Dedup(names);
    if k in names {
      var i := LastOccurrence(names, k);
      AssignAllLast(names, Lookup(fields, names), i);
      assert k in Keys(fields);
    } else {
      assert k !in Keys(fields);
      assert k !in Keys(r);
    }
  }

  /** `reorderJson` applies the reordering to every contract. */
  function ReorderAll(contracts: seq<seq<Field>>, order: seq<string>): (rs: seq<seq<Field>>)
    requires forall i :: 0 <= i < |contracts| ==> WellFormed(contracts[i])
    ensures |rs| == |contracts|
    ensures forall i :: 0 <= i < |contracts| ==> rs[i] == ReorderObject(contracts[i], order)
  {
    seq(|contracts|, i requires 0 <= i < |contracts| => ReorderObject(contracts[i], order))
  }
}

=== FILE: distinct.dfy ===
/** The "distinct truthy values" lists that the dashboard and the contract
    views build with a `Set` and `filter(Boolean)`. */
module Distinct {
  import opened Seqs
  import opened Json

  /** `Array.from(new Set(xs)).filter(Boolean)`: every truthy value once,
      nothing else. */
  function DistinctTruthy(xs: seq<Value>): (r: seq<Value>)
    ensures NoDups(r)
    ensures forall x :: x in r <==> x in xs && Truthy(x)
  {
    var d := Dedup(xs);
    FilterNoDups(d, Truthy);
    assert forall x :: x in xs && Truthy(x) ==> x in d;
    Filter(d, Truthy)
  }

  /** The truthy values among `xs`, order and repeats forgotten. */
  function TruthySet(xs: seq<Value>): set<Value> {
    set x | x in xs && Truthy(x)
  }

  /** The list has one entry per distinct truthy value. */
  lemma DistinctTruthyCount(xs: seq<Value>)
    ensures |DistinctTruthy(xs)| == |TruthySet(xs)|
  {
    var r := DistinctTruthy(xs);
    NoDupsCard(r);
    assert (set x | x in r) == TruthySet(xs);
  }

  /** The values come in the order of their first occurrence in `xs`. */
  lemma DistinctTruthyOrder(xs: seq<Value>)
    ensures var r := DistinctTruthy(xs);
      forall i, j :: 0 <= i < j < |r| ==> FirstIndex(xs, r[i]) < FirstIndex(xs, r[j])
  {
    var d := Dedup(xs);
    DedupFirstOccurrenceOrder(xs);
    var key := (x: Value) => if x in xs then FirstIndex(xs, x) as int else -1;
    assert forall i :: 0 <= i < |d| ==> key(d[i]) == FirstIndex(xs, d[i]);
    FilterOrdered(d, Truthy, key);
    var r := Filter(d, Truthy);
    assert forall i :: 0 <= i < |r| ==> key(r[i]) == FirstIndex(xs, r[i]);
  }

  /** `[...new Set(xs.filter(Boolean))]`, the other spelling in the
      source, gives the same list. */
  lemma FilterFirstSameList(xs: seq<Value>)
    ensures Dedup(Filter(xs, Truthy)) == DistinctTruthy(xs)
  {
    DedupFilterCommute(xs, Truthy);
  }
}

=== FILE: history.dfy ===
/** The export history page, app/history/page.tsx: deleting an export,
    saving an edited export file, and the size shown for each export. The
    file actions (`deleteFile`, `saveFile`, `saveHistory`) and `JSON.parse`
    are not modelled; whether each succeeded is a parameter. */
module History {
  import opened Wrappers
  import opened Text
  import opened Numbers
  import opened Seqs

  /** An entry of the export history. */
  datatype HistoryEntry = HistoryEntry(id: string, fileName: string, date: string, fileSize: int, files: seq<string>)

  // --------------------------------------------------------------- delete

  /** `history.filter(item => item.id !== id)`. */
  function WithoutId(history: seq<HistoryEntry>, id: string): seq<HistoryEntry> {
    Filter(history, (e: HistoryEntry) => e.id != id)
  }

  /** `handleDelete(id, fileName)`: the list shown changes only when the
      file was deleted and the shortened history was saved; a throw from
      either leaves it as it was. */
  function HandleDelete(history: seq<HistoryEntry>, id: string, deleted: bool, saved: bool): (r: seq<HistoryEntry>)
    ensures IsSubseq(r, history)
    ensures deleted && saved ==> forall e :: e in r <==> e in history && e.id != id
    ensures !(deleted && saved) ==> r == history
  {
    FilterIsSubseq(history, (x: HistoryEntry) => x.id != id);
    IsSubseqRefl(history);
    if deleted && saved then WithoutId(history, id) else history
  }

  /** After a successful delete no entry has the id, every other entry is
      kept in its order, and nothing else is added; a failed delete changes
      nothing. */
  lemma HandleDeleteEffect(history: seq<HistoryEntry>, id: string, deleted: bool, saved: bool, e: HistoryEntry)
    ensures var r := HandleDelete(history, id, deleted, saved);
      && (deleted && saved ==> (e in r <==> e in history && e.id != id))
      && (deleted && saved ==> |r| == |history| - CountIf(history, (x: HistoryEntry) => x.id == id))
      && IsSubseq(r, history)
      && (!(deleted && saved) ==> r == history)
  {
    FilterIsSubseq(history, (x: HistoryEntry) => x.id != id);
    IsSubseqRefl(history);
    FilterCount(history, id);
  }

  lemma {:induction false} FilterCount(history: seq<HistoryEntry>, id: string)
    ensures |WithoutId(history, id)| == |history| - CountIf(history, (x: HistoryEntry) => x.id == id)
  {
    if |history| > 0 {
      FilterCount(history[1..], id);
    }
  }

  /** Deleting the same id a second time changes nothing. */
  lemma HandleDeleteTwice(history: seq<HistoryEntry>, id: string)
    ensures HandleDelete(HandleDelete(history, id, true, true), id, true, true) == HandleDelete(history, id, true, true)
  {
    var p := (e: HistoryEntry) => e.id != id;
    FilterFilter(history, p, p);
  }

  // ------------------------------------------------------------ save edit

  /** `{ ...item, fileSize: size }` for every entry of the file. */
  function WithSize(history: seq<HistoryEntry>, name: string, size: int): (r: seq<HistoryEntry>)
    ensures |r| == |history|
    ensures forall i :: 0 <= i < |r| ==> r[i].fileName == history[i].fileName
  {
    seq(|history|, i requires 0 <= i < |history| =>
      if history[i].fileName == name then history[i].(fileSize := size) else history[i])
  }

  /** `handleSaveEdit()`: with no open file nothing happens; otherwise the
      edited text must parse, the file must be saved and the history must
      be saved before the entries of the file take the text's length as
      their size. `selected` is the open file's name. */
  function HandleSaveEdit(history: seq<HistoryEntry>, selected: Option<string>, content: string,
                          parses: bool, fileSaved: bool, historySaved: bool): (r: seq<HistoryEntry>)
    ensures |r| == |history|
    ensures forall i :: 0 <= i < |r| ==>
      && r[i].id == history[i].id && r[i].fileName == history[i].fileName
      && r[i].date == history[i].date && r[i].files == history[i].files
      && r[i].fileSize == (if selected.Some? && parses && fileSaved && historySaved && history[i].fileName == selected.value
                           then Utf16Length(content) else history[i].fileSize)
  {
    if selected.None? then history
    else if !(parses && fileSaved && historySaved) then history
    else WithSize(history, selected.value, Utf16Length(content))
  }

  /** A successful save changes the size of the entries of the open file
      to the text's length in UTF-16 code units and touches nothing else;
      any failure, and invalid JSON in particular, keeps the list. */
  lemma HandleSaveEditEffect(history: seq<HistoryEntry>, selected: Option<string>, content: string,
                             parses: bool, fileSaved: bool, historySaved: bool, i: nat)
    requires i < |history|
    ensures var r := HandleSaveEdit(history, selected, content, parses, fileSaved, historySaved);
      && |r| == |history|
      && (selected.None? || !parses || !fileSaved || !historySaved ==> r == history)
      && (selected.Some? && parses && fileSaved && historySaved ==>
            var e := history[i];
            && r[i].id == e.id && r[i].fileName == e.fileName && r[i].date == e.date && r[i].files == e.files
            && r[i].fileSize == (if e.fileName == selected.value then Utf16Length(content) else e.fileSize))
  {
  }

  /** Saving the same text twice leaves the history as one save did. */
  lemma HandleSaveEditTwice(history: seq<HistoryEntry>, name: string, content: string)
    ensures var once := HandleSaveEdit(history, Some(name), content, true, true, true);
      HandleSaveEdit(once, Some(name), content, true, true, true) == once
  {
  }

  // ------------------------------------------------------------- file size

  datatype SizeUnit = KB | MB

  /** `formatFileSize`: kilobytes below 1024 KB, megabytes from there on. */
  function UnitOf(bytes: int): SizeUnit {
    if bytes < 1024 * 1024 then KB else MB
  }

  /** Nearest multiple of a tenth of `num / den`, the larger one on a tie,
      as `toFixed(1)` picks it for a non-negative number. */
  function Tenths(num: nat, den: int): (n: nat)
    requires den > 0 && den % 2 == 0
    ensures -den <= 2 * (10 * num - n * den) < den
  {
    var a := 10 * num + den / 2;
    DivNat(a, den);
    a / den
  }

  /** Euclidean division of a natural number. */
  lemma DivNat(a: nat, den: nat)
    requires den > 0
    ensures a / den >= 0 && a == (a / den) * den + a % den && 0 <= a % den < den
  {
    var q := a / den;
    if q < 0 {
      MulGe(-q, den);
      Distrib(q, -q, den);
    }
  }

  lemma MulGe(k: int, den: nat)
    requires k >= 1
    ensures k * den >= den
  {
  }

  lemma Distrib(n: int, k: int, den: int)
    ensures (n + k) * den == n * den + k * den
  {
  }

  /** No other count of tenths is nearer, and one as near is smaller. */
  lemma TenthsNearest(num: nat, den: int, m: int)
    requires den > 0 && den % 2 == 0
    ensures var n := Tenths(num, den);
      Abs10(num, n, den) <= Abs10(num, m, den) && (Abs10(num, m, den) == Abs10(num, n, den) ==> m <= n)
  {
    var n := Tenths(num, den);
    var k := m - n;
    Distrib(n, k, den);
    if k >= 1 {
      MulGe(k, den);
    } else if k <= -1 {
      MulGe(-k, den);
      Distrib(k, -k, den);
    }
  }

  /** `|10 * num - n * den|`, twice the distance from `n` tenths in units
      of a twentieth of `den`. */
  function Abs10(num: nat, n: int, den: int): nat {
    var d := 10 * num - n * den;
    if d < 0 then -d else d
  }

  /** `x.toFixed(1)` of a number written with its tenths `n`. */
  function Fixed1(neg: bool, n: nat): (r: string)
    ensures |r| >= 3
    ensures var body := if neg then r[1..] else r;
      && (neg <==> r[0] == '-')
      && |body| >= 3 && body[|body| - 2] == '.'
      && AllDigits(body[..|body| - 2]) && IsDigit(body[|body| - 1])
      && DigitsValue(body[..|body| - 2]) * 10 + (body[|body| - 1] as int - '0' as int) == n
  {
    var body := NatToString(n / 10) + "." + [DigitChar(n % 10)];
    assert body[..|body| - 2] == NatToString(n / 10);
    var r := if neg then "-" + body else body;
    assert (if neg then r[1..] else r) == body;
    r
  }

  /** `formatFileSize(bytes)`: `bytes / 1024` or `bytes / 1048576` with one
      decimal and the unit. */
  function FormatFileSize(bytes: int): (r: string)
    ensures EndsWith(r, if bytes < 1048576 then " KB" else " MB")
  {
    var mag: nat := if bytes < 0 then -bytes else bytes;
    var den := if UnitOf(bytes) == KB then 1024 else 1048576;
    var text := Fixed1(bytes < 0, Tenths(mag, den)) + (if UnitOf(bytes) == KB then " KB" else " MB");
    assert text[|text| - 3..] == (if UnitOf(bytes) == KB then " KB" else " MB");
    text
  }
}

=== FILE: i18n.dfy ===
/** The translation table and its lookup function `t`. */
module I18n {
  import opened Wrappers
  import opened Text
  import opened Json
  import opened Numbers

  /** The language the store starts with and `t` falls back to. */
  const DEFAULT_LANGUAGE: string := "en"

  /** The English and Norwegian tables, section by section. */
  const EN_COMMON: seq<Field> := [
    Field("settings", Str("Settings")),
    Field("language", Str("Language")),
    Field("theme", Str("Theme")),
    Field("save", Str("Save")),
    Field("cancel", Str("Cancel")),
    Field("light", Str("Light")),
    Field("dark", Str("Dark")),
    Field("system", Str("System")),
    Field("loading", Str("Loading...")),
    Field("error", Str("Error")),
    Field("success", Str("Success")),
    Field("actions", Str("Actions")),
    Field("edit", Str("Edit")),
    Field("delete", Str("Delete")),
    Field("view", Str("View")),
    Field("close", Str("Close"))]

  const EN_NAVIGATION: seq<Field> := [
    Field("transform", Str("Transform")),
    Field("contracts", Str("Contracts")),
    Field("history", Str("History")),
    Field("dashboard", Str("Dashboard")),
    Field("contractManager", Str("Contract Manager"))]

  const EN_DASHBOARD: seq<Field> := [
    Field("title", Str("Dashboard")),
    Field("description", Str("Overview of contracts and resources")),
    Field("totalContracts", Str("Total Contracts")),
    Field("totalResources", Str("Total Resources")),
    Field("averageCost", Str("Average Cost per KM")),
    Field("avtaleKontor", Str("AvtaleKontor")),
    Field("contractTypes", Str("Contract Types")),
    Field("statistics", Str("Statistics")),
    Field("licenses", Str("Licenses per AvtaleKontor"))]

  const EN_TRANSFORM: seq<Field> := [
    Field("title", Str("Transform CSV")),
    Field("description", Str("Upload and transform CSV files into structured contract data")),
    Field("uploadTitle", Str("Upload CSV Files")),
    Field("selectFiles", Str("Select CSV files")),
    Field("uploadSuccess", Str("Successfully stored {count} files")),
    Field("uploadError", Str("Failed to upload files. Please try again.")),
    Field("processing", Str("Processing files...")),
    Field("validationError", Str("Validation error in file: {filename}"))]

  const EN_CONTRACTS: seq<Field> := [
    Field("title", Str("Contract Manager")),
    Field("description", Str("Search, edit, and manage contracts")),
    Field("search", Str("Search in all fields...")),
    Field("filters", Str("Search and Filters")),
    Field("advancedSearch", Str("Advanced Search")),
    Field("tableView", Str("Table View")),
    Field("jsonView", Str("JSON View")),
    Field("formView", Str("Form View")),
    Field("structureView", Str("Structure")),
    Field("id", Str("ID")),
    Field("avtaleKontor", Str("AvtaleKontor")),
    Field("avtaleName", Str("AvtaleNavn")),
    Field("type", Str("Type")),
    Field("transport", Str("Transport")),
    Field("location", Str("Location")),
    Field("resources", Str("Resources")),
    Field("cost", Str("Cost")),
    Field("details", Str("Details")),
    Field("filterByType", Str("Filter by Type")),
    Field("filterByAvtaleKontor", Str("Filter by AvtaleKontor")),
    Field("filterByPostalCode", Str("Filter by Postal Code")),
    Field("noResults", Str("No contracts found"))]

  const EN_HISTORY: seq<Field> := [
    Field("title", Str("History")),
    Field("description", Str("View previous transformations and exports")),
    Field("previousExports", Str("Previous Exports")),
    Field("noHistory", Str("No previous exports found")),
    Field("exportDate", Str("Export Date")),
    Field("fileSize", Str("File Size")),
    Field("fileName", Str("File Name")),
    Field("downloadFile", Str("Download File")),
    Field("deleteFile", Str("Delete File")),
    Field("viewDetails", Str("View Details")),
    Field("confirmDelete", Str("Are you sure you want to delete this file?"))]

  const EN_ERRORS: seq<Field> := [
    Field("loadingFailed", Str("Failed to load data")),
    Field("savingFailed", Str("Failed to save changes")),
    Field("uploadFailed", Str("Failed to upload file")),
    Field("invalidFormat", Str("Invalid file format")),
    Field("requiredField", Str("This field is required")),
    Field("invalidValue", Str("Invalid value")),
    Field("networkError", Str("Network error occurred")),
    Field("unexpectedError", Str("An unexpected error occurred"))]

  const EN: Value := Obj([
    Field("common", Obj(EN_COMMON)),
    Field("navigation", Obj(EN_NAVIGATION)),
    Field("dashboard", Obj(EN_DASHBOARD)),
    Field("transform", Obj(EN_TRANSFORM)),
    Field("contracts", Obj(EN_CONTRACTS)),
    Field("history", Obj(EN_HISTORY)),
    Field("errors", Obj(EN_ERRORS))])

  const NO_COMMON: seq<Field> := [
    Field("settings", Str("Innstillinger")),
    Field("language", Str("Språk")),
    Field("theme", Str("Tema")),
    Field("save", Str("Lagre")),
    Field("cancel", Str("Avbryt")),
    Field("light", Str("Lys")),
    Field("dark", Str("Mørk")),
    Field("system", Str("System")),
    Field("loading", Str("Laster...")),
    Field("error", Str("Feil")),
    Field("success", Str("Suksess")),
    Field("actions", Str("Handlinger")),
    Field("edit", Str("Rediger")),
    Field("delete", Str("Slett")),
    Field("view", Str("Vis")),
    Field("close", Str("Lukk"))]

  const NO_NAVIGATION: seq<Field> := [
    Field("transform", Str("Transformer")),
    Field("contracts", Str("Avtaler")),
    Field("history", Str("Historie")),
    Field("dashboard", Str("Dashbord")),
    Field("contractManager", Str("Avtalehåndtering"))]

  const NO_DASHBOARD: seq<Field> := [
    Field("title", Str("Dashbord")),
    Field("description", Str("Oversikt over avtaler og ressurser")),
    Field("totalContracts", Str("Totalt antall avtaler")),
    Field("totalResources", Str("Totalt antall ressurser")),
    Field("averageCost", Str("Gjennomsnittlig km pris")),
    Field("avtaleKontor", Str("AvtaleKontor")),
    Field("contractTypes", Str("Avtaletyper")),
    Field("statistics", Str("Statistikk")),
    Field("licenses", Str("Løyver per AvtaleKontor"))]

  const NO_TRANSFORM: seq<Field> := [
    Field("title", Str("Transform CSV")),
    Field("description", Str("Last opp og transformer CSV-filer til strukturerte avtaledata")),
    Field("uploadTitle", Str("Last opp CSV-filer")),
    Field("selectFiles", Str("Velg CSV-filer")),
    Field("uploadSuccess", Str("Vellykket lagring av {count} filer")),
    Field("uploadError", Str("Kunne ikke laste opp filer. Vennligst prøv igjen.")),
    Field("processing", Str("Behandler filer...")),
    Field("validationError", Str("Valideringsfeil i fil: {filename}"))]

  const NO_CONTRACTS: seq<Field> := [
    Field("title", Str("Avtalehåndtering")),
    Field("description", Str("Søk, rediger og administrer avtaler")),
    Field("search", Str("Søk i alle felt...")),
    Field("filters", Str("Søk og filtre")),
    Field("advancedSearch", Str("Avansert søk")),
    Field("tableView", Str("Tabellvisning")),
    Field("jsonView", Str("JSON-visning")),
    Field("formView", Str("Skjemavisning")),
    Field("structureView", Str("Struktur")),
    Field("id", Str("ID")),
    Field("avtaleKontor", Str("AvtaleKontor")),
    Field("avtaleName", Str("AvtaleNavn")),
    Field("type", Str("Type")),
    Field("transport", Str("Transport")),
    Field("location", Str("Sted")),
    Field("resources", Str("Ressurser")),
    Field("cost", Str("Kostnad")),
    Field("details", Str("Detaljer")),
    Field("filterByType", Str("Filtrer etter type")),
    Field("filterByAvtaleKontor", Str("Filtrer etter AvtaleKontor")),
    Field("filterByPostalCode", Str("Filtrer etter postnummer")),
    Field("noResults", Str("Ingen avtaler funnet"))]

  const NO_HISTORY: seq<Field> := [
    Field("title", Str("Historie")),
    Field("description", Str("Se tidligere transformasjoner og eksporter")),
    Field("previousExports", Str("Tidligere eksporter")),
    Field("noHistory", Str("Ingen tidligere eksporter funnet")),
    Field("exportDate", Str("Eksportdato")),
    Field("fileSize", Str("Filstørrelse")),
    Field("fileName", Str("Filnavn")),
    Field("downloadFile", Str("Last ned fil")),
    Field("deleteFile", Str("Slett fil")),
    Field("viewDetails", Str("Vis detaljer")),
    Field("confirmDelete", Str("Er du sikker på at du vil slette denne filen?"))]

  const NO_ERRORS: seq<Field> := [
    Field("loadingFailed", Str("Kunne ikke laste data")),
    Field("savingFailed", Str("Kunne ikke lagre endringer")),
    Field("uploadFailed", Str("Kunne ikke laste opp fil")),
    Field("invalidFormat", Str("Ugyldig filformat")),
    Field("requiredField", Str("Dette feltet er påkrevd")),
    Field("invalidValue", Str("Ugyldig verdi")),
    Field("networkError", Str("Nettverksfeil oppstod")),
    Field("unexpectedError", Str("En uventet feil oppstod"))]

  const NO: Value := Obj([
    Field("common", Obj(NO_COMMON)),
    Field("navigation", Obj(NO_NAVIGATION)),
    Field("dashboard", Obj(NO_DASHBOARD)),
    Field("transform", Obj(NO_TRANSFORM)),
    Field("contracts", Obj(NO_CONTRACTS)),
    Field("history", Obj(NO_HISTORY)),
    Field("errors", Obj(NO_ERRORS))])

  const TRANSLATIONS: seq<Field> := [Field("en", EN), Field("no", NO)]

  /** One entry of the `params` record of `t`. */
  datatype Param = Param(name: string, val: Value)

  /** The loop of `t` over the key segments: `None` when some segment reads
      as `undefined` (the key is then returned as it is), else the value
      reached. Reading a segment of `undefined` throws. */
  function Walk(current: Value, keys: seq<string>): (r: Result<Option<Value>, JsError>)
    decreases |keys|
  {
    if |keys| == 0 then Ok(Some(current))
    else
      var next :- Prop(current, keys[0]);
      if next.Undefined? then Ok(None) else Walk(next, keys[1..])
  }

  /** The `reduce` over the params: each `{name}` in turn is replaced,
      first occurrence only, by the text of its value, whose `$` patterns
      `replace` expands. A value that is not a string has no `replace` and
      throws. */
  function Substitute(text: Value, params: seq<Param>): (r: Result<Value, JsError>)
    ensures |params| == 0 ==> r == Ok(text)
    ensures |params| > 0 && !text.Str? ==> r == Err(TypeError)
    ensures r.Ok? && |params| > 0 ==> r.value.Str?
    decreases |params|
  {
    if |params| == 0 then Ok(text)
    else if !text.Str? then Err(TypeError)
    else
      var p := params[0];
      Substitute(Str(ReplaceFirst(text.s, "{" + p.name + "}", ToStr(p.val))), params[1..])
  }

  /** The table `t` reads: an omitted (or `undefined`) language is the
      default `'en'`. */
  function TableFor(language: Option<string>): Value {
    Table(language.GetOr(DEFAULT_LANGUAGE))
  }

  /** `t(key, language = 'en', params)`. */
  function T(key: string, language: Option<string>, params: Option<seq<Param>>): (r: Result<Value, JsError>)
    ensures language.None? || language == Some("en") ==> r == Translate(EN, key, params)
    ensures language == Some("no") ==> r == Translate(NO, key, params)
    ensures language.Some? && language.value != "en" && language.value != "no" ==> r == Err(TypeError)
  {
    Translate(TableFor(language), key, params)
  }

  /** The lookup of `t` in a given table: a key path that resolves gives
      its text, with the params substituted, and one that misses gives the
      key back. */
  function Translate(table: Value, key: string, params: Option<seq<Param>>): (r: Result<Value, JsError>)
    ensures Resolves(table, Split(key, '.')) ==>
      var text := Str(Leaf(table, Split(key, '.')));
      r == if params.Some? then Substitute(text, params.value) else Ok(text)
    ensures Misses(table, Split(key, '.')) ==> r == Ok(Str(key))
  {
    var path := Split(key, '.');
    assert Resolves(table, path) ==> Walk(table, path) == Ok(Some(Str(Leaf(table, path)))) by {
      if Resolves(table, path) { WalkResolves(table, path); }
    }
    assert Misses(table, path) ==> Walk(table, path) == Ok(None) by {
      if Misses(table, path) { WalkMisses(table, path); }
    }
    match Walk(table, path)
    case Err(e) => Err(e)
    case Ok(None) => Ok(Str(key))
    case Ok(Some(found)) =>
      if params.Some? then Substitute(found, params.value) else Ok(found)
  }

  // Paths through the table

  /** Following `path` through objects only ends on a string. */
  predicate Resolves(v: Value, path: seq<string>)
    decreases |path|
  {
    if |path| == 0 then v.Str?
    else v.Obj? && Get(v.fields, path[0]).Some? && Resolves(Get(v.fields, path[0]).value, path[1..])
  }

  /** The string `path` leads to. */
  function Leaf(v: Value, path: seq<string>): (s: string)
    requires Resolves(v, path)
    decreases |path|
  {
    if |path| == 0 then v.s else Leaf(Get(v.fields, path[0]).value, path[1..])
  }

  /** Following `path` through objects reaches an object that lacks the
      next segment. */
  predicate Misses(v: Value, path: seq<string>)
    decreases |path|
  {
    |path| > 0 && v.Obj? &&
    match Get(v.fields, path[0])
    case None => true
    case Some(next) => next.Undefined? || Misses(next, path[1..])
  }

  /** A path that resolves is read to its string. */
  lemma {:induction false} WalkResolves(v: Value, path: seq<string>)
    requires Resolves(v, path)
    ensures Walk(v, path) == Ok(Some(Str(Leaf(v, path))))
    decreases |path|
  {
    if |path| > 0 {
      WalkResolves(Get(v.fields, path[0]).value, path[1..]);
    }
  }

  /** A path that misses stops the walk without throwing. */
  lemma {:induction false} WalkMisses(v: Value, path: seq<string>)
    requires Misses(v, path)
    ensures Walk(v, path) == Ok(None)
    decreases |path|
  {
    var next := Get(v.fields, path[0]);
    if next.Some? && !next.value.Undefined? {
      WalkMisses(next.value, path[1..]);
    }
  }

  /** The table of a language, `undefined` for one it does not have. */
  function Table(language: string): (v: Value)
    ensures language == "en" ==> v == EN
    ensures language == "no" ==> v == NO
    ensures language != "en" && language != "no" ==> v == Undefined
  {
    if language == "en" then EN else if language == "no" then NO else Undefined
  }

  /** The table of a language is the entry of `translations` under its name. */
  lemma TableIsEntry(language: string)
    ensures Table(language) == Get(TRANSLATIONS, language).GetOr(Undefined)
  {
    assert TRANSLATIONS[0].key == "en" && TRANSLATIONS[1].key == "no";
  }

  /** Two sections with the same keys in the same order, every value a
      string. */
  predicate FlatSame(fs: seq<Field>, gs: seq<Field>) {
    |fs| == |gs| && forall i :: 0 <= i < |fs| ==> fs[i].key == gs[i].key && fs[i].val.Str? && gs[i].val.Str?
  }

  /** Two tables with the same sections in the same order, each pair of
      sections `FlatSame`. */
  predicate SameTables(a: Value, b: Value) {
    && a.Obj? && b.Obj? && |a.fields| == |b.fields|
    && forall i :: 0 <= i < |a.fields| ==>
         && a.fields[i].key == b.fields[i].key
         && a.fields[i].val.Obj? && b.fields[i].val.Obj?
         && FlatSame(a.fields[i].val.fields, b.fields[i].val.fields)
  }

  /** The English and the Norwegian table have the same key paths. */
  lemma TablesSameShape()
    ensures SameTables(EN, NO)
  {
    CommonSame();
    NavigationSame();
    DashboardSame();
    TransformSame();
    ContractsSame();
    HistorySame();
    ErrorsSame();
  }

  lemma CommonSame()
    ensures FlatSame(EN_COMMON, NO_COMMON)
  {
  }

  lemma NavigationSame()
    ensures FlatSame(EN_NAVIGATION, NO_NAVIGATION)
  {
  }

  lemma DashboardSame()
    ensures FlatSame(EN_DASHBOARD, NO_DASHBOARD)
  {
  }

  lemma TransformSame()
    ensures FlatSame(EN_TRANSFORM, NO_TRANSFORM)
  {
  }

  lemma ContractsSame()
    ensures FlatSame(EN_CONTRACTS, NO_CONTRACTS)
  {
  }

  lemma HistorySame()
    ensures FlatSame(EN_HISTORY, NO_HISTORY)
  {
  }

  lemma ErrorsSame()
    ensures FlatSame(EN_ERRORS, NO_ERRORS)
  {
  }

  /** The position of the first field with key `k`. */
  function KeyIndex(fs: seq<Field>, k: string): (r: Option<nat>)
    ensures r.Some? ==> r.value < |fs| && fs[r.value].key == k
  {
    if |fs| == 0 then None
    else if fs[0].key == k then Some(0)
    else match KeyIndex(fs[1..], k)
      case None => None
      case Some(i) => Some(i + 1)
  }

  /** `Get` reads the first field with the key. */
  lemma {:induction false} GetKeyIndex(fs: seq<Field>, k: string)
    ensures Get(fs, k) == if KeyIndex(fs, k).Some? then Some(fs[KeyIndex(fs, k).value].val) else None
  {
    if |fs| > 0 && fs[0].key != k {
      GetKeyIndex(fs[1..], k);
    }
  }

  /** Field lists with the same keys have their first `k` at the same
      position. */
  lemma {:induction false} KeyIndexSameKeys(fs: seq<Field>, gs: seq<Field>, k: string)
    requires |fs| == |gs| && forall i :: 0 <= i < |fs| ==> fs[i].key == gs[i].key
    ensures KeyIndex(fs, k) == KeyIndex(gs, k)
  {
    if |fs| > 0 && fs[0].key != k {
      KeyIndexSameKeys(fs[1..], gs[1..], k);
    }
  }

  /** In sections with the same keys a path resolves in one iff it
      resolves in the other, and misses in one iff it misses in the other. */
  lemma FlatSamePaths(fs: seq<Field>, gs: seq<Field>, path: seq<string>)
    requires FlatSame(fs, gs)
    ensures Resolves(Obj(fs), path) <==> Resolves(Obj(gs), path)
    ensures Misses(Obj(fs), path) <==> Misses(Obj(gs), path)
  {
    if |path| > 0 {
      GetKeyIndex(fs, path[0]);
      GetKeyIndex(gs, path[0]);
      KeyIndexSameKeys(fs, gs, path[0]);
    }
  }

  /** The same for whole tables. */
  lemma SameTablesSamePaths(a: Value, b: Value, path: seq<string>)
    requires SameTables(a, b)
    ensures Resolves(a, path) <==> Resolves(b, path)
    ensures Misses(a, path) <==> Misses(b, path)
  {
    if |path| > 0 {
      GetKeyIndex(a.fields, path[0]);
      GetKeyIndex(b.fields, path[0]);
      KeyIndexSameKeys(a.fields, b.fields, path[0]);
      var i := KeyIndex(a.fields, path[0]);
      if i.Some? {
        FlatSamePaths(a.fields[i.value].val.fields, b.fields[i.value].val.fields, path[1..]);
      }
    }
  }

  /** A key resolves in English iff it resolves in Norwegian, and is
      returned unchanged by one iff by the other. */
  lemma KeyInBothLanguages(key: string)
    ensures Resolves(EN, Split(key, '.')) <==> Resolves(NO, Split(key, '.'))
    ensures Misses(EN, Split(key, '.')) <==> Misses(NO, Split(key, '.'))
  {
    TablesSameShape();
    SameTablesSamePaths(EN, NO, Split(key, '.'));
  }

  /** A key that resolves gives its text, with the params substituted;
      the language defaults to English. */
  lemma TResolves(key: string, language: Option<string>, params: Option<seq<Param>>)
    requires Resolves(TableFor(language), Split(key, '.'))
    ensures var text := Str(Leaf(TableFor(language), Split(key, '.')));
            T(key, language, params) == if params.Some? then Substitute(text, params.value) else Ok(text)
    ensures language.None? ==> T(key, language, params) == T(key, Some("en"), params)
  {
  }

  /** A key that misses comes back unchanged, whatever the params. */
  lemma TMisses(key: string, language: Option<string>, params: Option<seq<Param>>)
    requires Misses(TableFor(language), Split(key, '.'))
    ensures T(key, language, params) == Ok(Str(key))
  {
  }

  /** Leaving the language out is asking for English. */
  lemma TDefaultsToEnglish(key: string, params: Option<seq<Param>>)
    ensures T(key, None, params) == T(key, Some("en"), params)
  {
  }

  /** A language the table lacks makes `t` throw on the first segment. */
  lemma TUnknownLanguage(key: string, language: string, params: Option<seq<Param>>)
    requires language != "en" && language != "no"
    ensures T(key, Some(language), params) == Err(TypeError)
  {
  }

  /** `Get` finds the first field with the key. */
  lemma {:induction false} GetFirst(fs: seq<Field>, k: string, i: nat)
    requires i < |fs| && fs[i].key == k
    requires forall j :: 0 <= j < i ==> fs[j].key != k
    ensures Get(fs, k) == Some(fs[i].val)
  {
    if i > 0 {
      GetFirst(fs[1..], k, i - 1);
    }
  }

  /** A first segment the object lacks misses. */
  lemma MissesAbsent(v: Value, path: seq<string>)
    requires v.Obj? && |path| > 0 && path[0] !in Keys(v.fields)
    ensures Misses(v, path)
  {
  }

  /** The section names of the English table. */
  lemma EnglishSections()
    ensures Keys(EN.fields) == ["common", "navigation", "dashboard", "transform", "contracts", "history", "errors"]
  {
  }

  /** A key whose first segment names no section of the table comes back
      unchanged: `t('settings.clearData')` gives `'settings.clearData'`,
      since there is no `settings` section. */
  lemma UnknownSectionGivesKey(key: string, language: Option<string>, params: Option<seq<Param>>)
    requires language.None? || language == Some("en") || language == Some("no")
    requires Split(key, '.')[0] !in Keys(TableFor(language).fields)
    ensures T(key, language, params) == Ok(Str(key))
  {
    MissesAbsent(TableFor(language), Split(key, '.'));
  }

  /** One parameter replaces the first `{name}` of the text by the text of
      its value: `'Successfully stored {count} files'` with `{count: 3}`
      becomes `'Successfully stored 3 files'`. */
  lemma SubstituteOne(pre: string, name: string, post: string, val: Value)
    requires '{' !in pre
    ensures Substitute(Str(pre + "{" + name + "}" + post), [Param(name, val)])
            == Ok(Str(pre + Expand(ToStr(val), "{" + name + "}", pre, post) + post))
  {
    assert pre + "{" + name + "}" + post == pre + ("{" + name + "}") + post;
    ReplaceFirstAfter(pre, "{" + name + "}", post, ToStr(val));
  }

  /** A value whose text has no `$` is inserted as it is. */
  lemma SubstituteOneLiteral(pre: string, name: string, post: string, val: Value)
    requires '{' !in pre && '$' !in ToStr(val)
    ensures Substitute(Str(pre + "{" + name + "}" + post), [Param(name, val)])
            == Ok(Str(pre + ToStr(val) + post))
  {
    SubstituteOne(pre, name, post, val);
    ExpandPlain(ToStr(val), "{" + name + "}", pre, post);
  }

  /** The value `$&` puts the placeholder itself back, so the text comes
      out unchanged. */
  lemma SubstituteMatchedText(pre: string, name: string, post: string)
    requires '{' !in pre
    ensures Substitute(Str(pre + "{" + name + "}" + post), [Param(name, Str("$&"))])
            == Ok(Str(pre + "{" + name + "}" + post))
  {
    SubstituteOne(pre, name, post, Str("$&"));
    assert ToStr(Str("$&")) == "$&";
    assert Expand("$&", "{" + name + "}", pre, post) == "{" + name + "}" + Expand("", "{" + name + "}", pre, post);
    assert Expand("", "{" + name + "}", pre, post) == "";
  }
}

=== FILE: json.dfy ===
/** JavaScript values as the application builds and reads them: JSON-like
    trees whose objects keep their keys in insertion order. */
module Json {
  import opened Wrappers
  import opened Text
  import opened Numbers
  import Seqs

  datatype Value =
    | Undefined
    | Null
    | NaN
    | Bool(b: bool)
    | Num(n: Dec)
    | Str(s: string)
    | Arr(items: seq<Value>)
    | Obj(fields: seq<Field>)

  /** One own property of an object. */
  datatype Field = Field(key: string, val: Value)

  /** What a JavaScript statement can throw. `Unmodelled` marks the few
      engine behaviours this model does not follow (see README). */
  datatype JsError = TypeError | ReferenceError | Unmodelled

  function NumOf(i: int): Value {
    Num(Dec(i, 0))
  }

  function Keys(fields: seq<Field>): (ks: seq<string>)
    ensures |ks| == |fields|
    ensures forall i :: 0 <= i < |fields| ==> ks[i] == fields[i].key
  {
    seq(|fields|, i requires 0 <= i < |fields| => fields[i].key)
  }

  /** An object never holds the same key twice. */
  predicate WellFormed(fields: seq<Field>) {
    Seqs.NoDups(Keys(fields))
  }

  /** `obj[key]` for an own property. */
  function Get(fields: seq<Field>, key: string): (r: Option<Value>)
    ensures r.Some? <==> key in Keys(fields)
    ensures r.Some? ==> exists i :: 0 <= i < |fields| && fields[i] == Field(key, r.value)
  {
    if |fields| == 0 then None
    else if fields[0].key == key then Some(fields[0].val)
    else
      assert Keys(fields) == [fields[0].key] + Keys(fields[1..]);
      var r := Get(fields[1..], key);
      if r.Some? then
        var i :| 0 <= i < |fields| - 1 && fields[1..][i] == Field(key, r.value);
        assert fields[i + 1] == Field(key, r.value);
        r
      else r
  }

  /** `obj[key] = val`: an existing key keeps its position, a new key is
      appended. */
  function Set(fields: seq<Field>, key: string, val: Value): (r: seq<Field>)
    ensures Keys(r) == if key in Keys(fields) then Keys(fields) else Keys(fields) + [key]
  {
    if |fields| == 0 then [Field(key, val)]
    else if fields[0].key == key then [Field(key, val)] + fields[1..]
    else
      assert Keys(fields) == [fields[0].key] + Keys(fields[1..]);
      var r := [fields[0]] + Set(fields[1..], key, val);
      assert Keys(r) == [fields[0].key] + Keys(Set(fields[1..], key, val));
      r
  }

  /** A field in front with another key does not hide the rest. */
  lemma GetSkip(f: Field, rest: seq<Field>, key: string)
    requires f.key != key
    ensures Get([f] + rest, key) == Get(rest, key)
  {
    assert ([f] + rest)[1..] == rest;
  }

  /** The first field with the key is the one read. */
  lemma {:induction false} GetFirst(fields: seq<Field>, i: nat, key: string)
    requires i < |fields| && fields[i].key == key
    requires forall j :: 0 <= j < i ==> fields[j].key != key
    ensures Get(fields, key) == Some(fields[i].val)
    decreases i
  {
    if i > 0 {
      GetFirst(fields[1..], i - 1, key);
    }
  }

  lemma {:induction false} GetSetSame(fields: seq<Field>, key: string, val: Value)
    ensures Get(Set(fields, key, val), key) == Some(val)
  {
    if |fields| > 0 && fields[0].key != key {
      GetSetSame(fields[1..], key, val);
    }
  }

  lemma {:induction false} GetSetOther(fields: seq<Field>, key: string, val: Value, other: string)
    requires other != key
    ensures Get(Set(fields, key, val), other) == Get(fields, other)
  {
    if |fields| > 0 && fields[0].key != key {
      GetSetOther(fields[1..], key, val, other);
    }
  }

  /** Reading an object after two writes to different keys. */
  lemma GetSetTwice(fields: seq<Field>, k1: string, v1: Value, k2: string, v2: Value, k: string)
    requires k1 != k2
    ensures Get(Set(Set(fields, k1, v1), k2, v2), k)
            == if k == k2 then Some(v2) else if k == k1 then Some(v1) else Get(fields, k)
  {
    var once := Set(fields, k1, v1);
    if k == k2 {
      GetSetSame(once, k2, v2);
    } else {
      GetSetOther(once, k2, v2, k);
      if k == k1 {
        GetSetSame(fields, k1, v1);
      } else {
        GetSetOther(fields, k1, v1, k);
      }
    }
  }

  /** A second write to the same key replaces the first. */
  lemma {:induction false} SetSet(fields: seq<Field>, key: string, a: Value, b: Value)
    ensures Set(Set(fields, key, a), key, b) == Set(fields, key, b)
  {
    if |fields| > 0 && fields[0].key != key {
      SetSet(fields[1..], key, a, b);
    }
  }

  /** Writing back the value a key already holds changes nothing. */
  lemma {:induction false} SetToSame(fields: seq<Field>, key: string, val: Value)
    requires Get(fields, key) == Some(val)
    ensures Set(fields, key, val) == fields
  {
    assert fields == [fields[0]] + fields[1..];
    if fields[0].key != key {
      assert Get(fields[1..], key) == Some(val);
      SetToSame(fields[1..], key, val);
    } else {
      assert fields[0] == Field(key, val);
    }
  }

  lemma SetWellFormed(fields: seq<Field>, key: string, val: Value)
    requires WellFormed(fields)
    ensures WellFormed(Set(fields, key, val))
  {
    var ks := Keys(fields);
    if key !in ks {
      var ks' := ks + [key];
      assert forall i :: 0 <= i < |ks| ==> ks'[i] == ks[i];
    }
  }

  /** Reading an object with one more field at the end. */
  lemma {:induction false} GetSnoc(pre: seq<Field>, f: Field, k: string)
    ensures Get(pre + [f], k) == if k in Keys(pre) then Get(pre, k) else if k == f.key then Some(f.val) else None
  {
    if |pre| == 0 {
      assert pre + [f] == [f];
    } else {
      assert (pre + [f])[0] == pre[0];
      assert Keys(pre) == [pre[0].key] + Keys(pre[1..]);
      if pre[0].key != k {
        assert (pre + [f])[1..] == pre[1..] + [f];
        GetSnoc(pre[1..], f, k);
      }
    }
  }

  /** `{ ...target, ...src }`: the fields of `src` written over a copy of
      `target`, one after the other. */
  function Spread(target: seq<Field>, src: seq<Field>): seq<Field>
    decreases |src|
  {
    if |src| == 0 then target
    else
      var n := |src| - 1;
      Set(Spread(target, src[..n]), src[n].key, src[n].val)
  }

  /** After a spread, a key of `src` reads as in `src` and any other key
      as in `target`. */
  lemma {:induction false} SpreadGet(target: seq<Field>, src: seq<Field>, k: string)
    requires WellFormed(src)
    ensures Get(Spread(target, src), k) == if k in Keys(src) then Get(src, k) else Get(target, k)
    decreases |src|
  {
    if |src| > 0 {
      var n := |src| - 1;
      var pre := src[..n];
      assert src == pre + [src[n]];
      assert Keys(pre) == Keys(src)[..n];
      assert WellFormed(pre);
      SpreadGet(target, pre, k);
      GetSnoc(pre, src[n], k);
      if k == src[n].key {
        GetSetSame(Spread(target, pre), k, src[n].val);
        assert k !in Keys(pre);
      } else {
        GetSetOther(Spread(target, pre), src[n].key, src[n].val, k);
      }
    }
  }

  /** `obj[keys[i]] = vals[i]` for every `i` in order, from an empty
      object: the keys are the distinct keys in first-occurrence order. */
  function AssignAll(keys: seq<string>, vals: seq<Value>): (r: seq<Field>)
    requires |keys| == |vals|
    ensures Keys(r) == Seqs.Dedup(keys)
    ensures WellFormed(r)
  {
    if |keys| == 0 then []
    else
      var n := |keys| - 1;
      var prev := AssignAll(keys[..n], vals[..n]);
      assert keys == keys[..n] + [keys[n]];
      AssignStep(prev, keys[..n], keys[n], vals[n]);
      Set(prev, keys[n], vals[n])
  }

  lemma AssignStep(prev: seq<Field>, init: seq<string>, key: string, val: Value)
    requires Keys(prev) == Seqs.Dedup(init) && WellFormed(prev)
    ensures Keys(Set(prev, key, val)) == Seqs.Dedup(init + [key])
    ensures WellFormed(Set(prev, key, val))
  {
    Seqs.DedupSnoc(init, key);
    SetWellFormed(prev, key, val);
  }

  /** A key holds the value of its last assignment. */
  lemma {:induction false} AssignAllLast(keys: seq<string>, vals: seq<Value>, i: nat)
    requires |keys| == |vals| && i < |keys|
    requires forall j :: i < j < |keys| ==> keys[j] != keys[i]
    ensures Get(AssignAll(keys, vals), keys[i]) == Some(vals[i])
  {
    var n := |keys| - 1;
    var prev := AssignAll(keys[..n], vals[..n]);
    if i == n {
      GetSetSame(prev, keys[i], vals[i]);
    } else {
      AssignAllLast(keys[..n], vals[..n], i);
      GetSetOther(prev, keys[n], vals[n], keys[i]);
    }
  }

  /** The text of a canonical array index: `"0"` or digits without a
      leading zero. */
  function CanonicalIndex(key: string): (r: Option<nat>)
    ensures r.Some? ==> NatToString(r.value) == key
  {
    if |key| > 0 && AllDigits(key) && (|key| == 1 || key[0] != '0') then
      NatToStringOfDigits(key);
      Some(DigitsValue(key))
    else None
  }

  /** Digits without a leading zero are the decimal text of their value. */
  lemma {:induction false} NatToStringOfDigits(key: string)
    requires |key| > 0 && AllDigits(key) && (|key| == 1 || key[0] != '0')
    ensures NatToString(DigitsValue(key)) == key
    decreases |key|
  {
    if |key| > 1 {
      var init := key[..|key| - 1];
      assert init[0] == key[0];
      NatToStringOfDigits(init);
      var last := key[|key| - 1];
      var n := DigitsValue(key);
      var d := last as int - '0' as int;
      assert n == DigitsValue(init) * 10 + d;
      assert n / 10 == DigitsValue(init) && n % 10 == d;
      assert DigitsValue(init) > 0 by {
        LeadingDigitPositive(init);
      }
      assert DigitChar(d) == last;
      assert key == init + [last];
    }
  }

  lemma {:induction false} LeadingDigitPositive(ds: string)
    requires |ds| > 0 && AllDigits(ds) && ds[0] != '0'
    ensures DigitsValue(ds) > 0
    decreases |ds|
  {
    if |ds| > 1 {
      LeadingDigitPositive(ds[..|ds| - 1]);
    }
  }

  /** Every index is read back from its own text. */
  lemma CanonicalIndexOfNat(n: nat)
    ensures CanonicalIndex(NatToString(n)) == Some(n)
  {
  }

  /** `v[key]` for a property read. Reading from `undefined` or `null`
      throws; inherited properties (methods of the prototypes) are not
      modelled and read as `undefined`. */
  function Prop(v: Value, key: string): (r: Result<Value, JsError>)
    ensures r.Err? <==> v.Undefined? || v.Null? || (v.Str? && r == Err(Unmodelled))
    ensures v.Obj? ==> r == Ok(Get(v.fields, key).GetOr(Undefined))
  {
    match v
    case Undefined => Err(TypeError)
    case Null => Err(TypeError)
    case Obj(fields) => Ok(Get(fields, key).GetOr(Undefined))
    case Arr(items) =>
      if key == "length" then Ok(NumOf(|items|))
      else (
        match CanonicalIndex(key)
        case Some(i) => if i < |items| then Ok(items[i]) else Ok(Undefined)
        case None => Ok(Undefined))
    case Str(s) =>
      if key == "length" then Ok(NumOf(Utf16Length(s)))
      else (
        match CanonicalIndex(key)
        case Some(i) =>
          if i >= Utf16Length(s) then Ok(Undefined)
          else if Utf16Length(s) == |s| then Ok(Str([s[i]]))
          else Err(Unmodelled)
        case None => Ok(Undefined))
    case _ => Ok(Undefined)
  }

  /** `v[key] = val` in strict mode: an object gains or updates the
      property, an array element inside the bounds is replaced, and a
      primitive or `undefined`/`null` throws. */
  function SetProp(v: Value, key: string, val: Value): (r: Result<Value, JsError>)
    ensures v.Obj? ==> r == Ok(Obj(Set(v.fields, key, val)))
    ensures r.Ok? ==> r.value.Obj? || r.value.Arr?
    ensures r.Ok? && v.Arr? ==> r.value.Arr? && |r.value.items| == |v.items|
    ensures !v.Obj? && !v.Arr? ==> r == Err(TypeError)
  {
    match v
    case Obj(fields) => Ok(Obj(Set(fields, key, val)))
    case Arr(items) => (
      match CanonicalIndex(key)
      case Some(i) => if i < |items| then Ok(Arr(items[i := val])) else Err(Unmodelled)
      case None => Err(Unmodelled))
    case _ => Err(TypeError)
  }

  /** JavaScript truthiness. */
  predicate Truthy(v: Value) {
    match v
    case Undefined => false
    case Null => false
    case NaN => false
    case Bool(b) => b
    case Num(n) => !IsZero(n)
    case Str(s) => |s| > 0
    case Arr(_) => true
    case Obj(_) => true
  }

  /** `a || b`. */
  function Or(a: Value, b: Value): (r: Value)
    ensures Truthy(a) ==> r == a
    ensures !Truthy(a) ==> r == b
  {
    if Truthy(a) then a else b
  }

  /** `String(v)`: arrays join their elements with "," (`null` and
      `undefined` elements become empty), plain objects print as
      "[object Object]". */
  function ToStr(v: Value): string
    decreases v
  {
    match v
    case Undefined => "undefined"
    case Null => "null"
    case NaN => "NaN"
    case Bool(b) => if b then "true" else "false"
    case Num(n) => DecToString(n)
    case Str(s) => s
    case Arr(items) =>
      Join(seq(|items|, i requires 0 <= i < |items| =>
             if items[i].Undefined? || items[i].Null? then "" else ToStr(items[i])), ',')
    case Obj(_) => "[object Object]"
  }

  /** `Object.values(obj)`. */
  function Values(fields: seq<Field>): (vs: seq<Value>)
    ensures |vs| == |fields|
    ensures forall i :: 0 <= i < |fields| ==> vs[i] == fields[i].val
  {
    seq(|fields|, i requires 0 <= i < |fields| => fields[i].val)
  }

  /** `String(v).toLowerCase().includes(term.toLowerCase())`: the
      case-insensitive substring test every search box in the application
      uses. */
  predicate MatchesTerm(v: Value, term: string) {
    Contains(ToLower(ToStr(v)), ToLower(term))
  }

  /** Some top-level value of the record matches the term. */
  predicate AnyValueMatches(fields: seq<Field>, term: string) {
    exists i :: 0 <= i < |fields| && MatchesTerm(fields[i].val, term)
  }

  /** Nested objects print as "[object Object]", so a term is looked for in
      their text and never in their fields. */
  lemma NestedObjectsNotSearched(fields: seq<Field>, term: string)
    requires MatchesTerm(Obj(fields), term)
    ensures Contains("[object object]", ToLower(term))
  {
    assert ToStr(Obj(fields)) == "[object Object]";
    assert ToLower("[object Object]") == "[object object]";
  }
}

=== FILE: json_viewer.dfy ===
/** The JSON viewer page, frontend/app/json-viewer/page.tsx: the column
    list collected from the loaded contracts, the column reordering, and
    the per-column filters followed by the free-text search. */
module JsonViewer {
  import opened Wrappers
  import opened Seqs
  import opened Json
  import opened Search

  // ------------------------------------------------------------ moveField

  datatype Direction = Up | Down

  /** `[s[i], s[j]] = [s[j], s[i]]`. */
  function Swap(s: seq<string>, i: nat, j: nat): (r: seq<string>)
    requires i < |s| && j < |s|
    ensures |r| == |s| && multiset(r) == multiset(s)
  {
    s[i := s[j]][j := s[i]]
  }

  /** `moveField(index, direction)`: `up` swaps with the previous column
      unless the column is first, `down` with the next one unless it is
      last. The result is always a reordering of the columns. */
  function MoveField(order: seq<string>, index: nat, dir: Direction): (r: seq<string>)
    requires index < |order|
    ensures |r| == |order| && multiset(r) == multiset(order)
  {
    if dir == Up && index > 0 then Swap(order, index, index - 1)
    else if dir == Down && index < |order| - 1 then Swap(order, index, index + 1)
    else order
  }

  /** Where each column of the result comes from: the column moves one
      step in the chosen direction when there is room, its neighbour
      takes its place, and every other column stays put. */
  lemma MoveFieldPositions(order: seq<string>, index: nat, dir: Direction, k: nat)
    requires index < |order| && k < |order|
    ensures var r := MoveField(order, index, dir);
      var j := if dir == Up then index - 1 else index + 1;
      if 0 <= j < |order| then
        (k == j ==> r[k] == order[index]) && (k == index ==> r[k] == order[j]) &&
        (k != j && k != index ==> r[k] == order[k])
      else r == order
  {
  }

  /** Moving a column up and then moving it back down restores the order. */
  lemma MoveUpThenDown(order: seq<string>, index: nat)
    requires 0 < index < |order|
    ensures MoveField(MoveField(order, index, Up), index - 1, Down) == order
  {
    var r := Swap(order, index, index - 1);
    assert MoveField(order, index, Up) == r;
    assert MoveField(r, index - 1, Down) == Swap(r, index - 1, index);
    SwapBack(order, index, index - 1);
  }

  /** Moving a column down and then back up restores the order. */
  lemma MoveDownThenUp(order: seq<string>, index: nat)
    requires index < |order| - 1
    ensures MoveField(MoveField(order, index, Down), index + 1, Up) == order
  {
    var r := Swap(order, index, index + 1);
    assert MoveField(order, index, Down) == r;
    assert MoveField(r, index + 1, Up) == Swap(r, index + 1, index);
    SwapBack(order, index, index + 1);
  }

  /** A second swap of the same two positions undoes the first. */
  lemma SwapBack(s: seq<string>, i: nat, j: nat)
    requires i < |s| && j < |s|
    ensures Swap(Swap(s, i, j), j, i) == s
  {
    var r := Swap(Swap(s, i, j), j, i);
    assert forall k :: 0 <= k < |s| ==> r[k] == s[k];
  }

  // -------------------------------------------------------------- columns

  /** Every key of every contract, contract by contract, as the nested
      `forEach` visits them. */
  function KeyStream(cs: seq<Contract>): seq<string> {
    if |cs| == 0 then [] else KeyStream(cs[..|cs| - 1]) + Keys(cs[|cs| - 1])
  }

  /** The column list of `loadData`: a `Set` of all the keys, in the order
      they are first seen. Each key of some contract is listed, once. */
  function AvailableFields(cs: seq<Contract>): (r: seq<string>)
    ensures NoDups(r)
    ensures forall key :: key in r <==> exists i :: 0 <= i < |cs| && key in Keys(cs[i])
  {
    assert forall key :: key in KeyStream(cs) <==> exists i :: 0 <= i < |cs| && key in Keys(cs[i]) by {
      forall key ensures key in KeyStream(cs) <==> exists i :: 0 <= i < |cs| && key in Keys(cs[i]) {
        KeyStreamHas(cs, key);
      }
    }
    var r := Dedup(KeyStream(cs));
    assert forall key :: key in r <==> key in KeyStream(cs) by {
      forall key ensures key in r <==> key in KeyStream(cs) {
        if key in r {
          var i :| 0 <= i < |r| && r[i] == key;
        }
        if key in KeyStream(cs) {
          var i :| 0 <= i < |KeyStream(cs)| && KeyStream(cs)[i] == key;
        }
      }
    }
    r
  }

  lemma {:induction false} KeyStreamHas(cs: seq<Contract>, key: string)
    ensures key in KeyStream(cs) <==> exists i :: 0 <= i < |cs| && key in Keys(cs[i])
  {
    if |cs| > 0 {
      var init := cs[..|cs| - 1];
      KeyStreamHas(init, key);
      if key in KeyStream(cs) && key !in Keys(cs[|cs| - 1]) {
        var i :| 0 <= i < |init| && key in Keys(init[i]);
        assert init[i] == cs[i];
      }
      if exists i :: 0 <= i < |cs| && key in Keys(cs[i]) {
        var i :| 0 <= i < |cs| && key in Keys(cs[i]);
        if i < |cs| - 1 {
          assert cs[i] == init[i];
        }
      }
    }
  }

  /** The columns are exactly the keys that occur in some contract, each
      listed once, in the order the contracts first show them. */
  lemma AvailableFieldsExactly(cs: seq<Contract>, key: string)
    ensures key in AvailableFields(cs) <==> exists i :: 0 <= i < |cs| && key in Keys(cs[i])
    ensures NoDups(AvailableFields(cs))
    ensures forall i, j :: 0 <= i < j < |AvailableFields(cs)| ==>
      FirstIndex(KeyStream(cs), AvailableFields(cs)[i]) < FirstIndex(KeyStream(cs), AvailableFields(cs)[j])
  {
    KeyStreamHas(cs, key);
    DedupFirstOccurrenceOrder(KeyStream(cs));
  }

  /** Contracts with the same keys in the same order give the columns in
      that order. */
  lemma {:induction false} AvailableFieldsUniform(cs: seq<Contract>, ks: seq<string>)
    requires |cs| > 0 && NoDups(ks)
    requires forall i :: 0 <= i < |cs| ==> Keys(cs[i]) == ks
    ensures AvailableFields(cs) == ks
  {
    UniformStream(cs, ks);
    DedupOfNoDups(ks);
  }

  lemma {:induction false} UniformStream(cs: seq<Contract>, ks: seq<string>)
    requires |cs| > 0 && NoDups(ks)
    requires forall i :: 0 <= i < |cs| ==> Keys(cs[i]) == ks
    ensures Dedup(KeyStream(cs)) == Dedup(ks)
  {
    var init := cs[..|cs| - 1];
    assert Keys(cs[|cs| - 1]) == ks;
    assert KeyStream(cs) == KeyStream(init) + ks;
    if |init| == 0 {
      assert KeyStream(init) == [];
      assert KeyStream(cs) == ks;
    } else {
      assert forall i :: 0 <= i < |init| ==> init[i] == cs[i];
      UniformStream(init, ks);
      DedupOfNoDups(ks);
      DedupAppendSeen(KeyStream(init), ks);
    }
  }

  /** Appending values that were all seen already leaves the `Set` as it
      was. */
  lemma {:induction false} DedupAppendSeen(a: seq<string>, b: seq<string>)
    requires forall k :: 0 <= k < |b| ==> b[k] in Dedup(a)
    ensures Dedup(a + b) == Dedup(a)
    decreases |b|
  {
    if |b| > 0 {
      var init, x := b[..|b| - 1], b[|b| - 1];
      assert b == init + [x];
      forall k | 0 <= k < |init| ensures init[k] in Dedup(a) {
        assert init[k] == b[k];
      }
      DedupAppendSeen(a, init);
      DedupSeenStep(a, init, x);
    } else {
      assert a + b == a;
    }
  }

  lemma DedupSeenStep(a: seq<string>, init: seq<string>, x: string)
    requires Dedup(a + init) == Dedup(a) && x in Dedup(a)
    ensures Dedup(a + (init + [x])) == Dedup(a)
  {
    AppendSnoc(a, init, x);
    DedupSnoc(a + init, x);
  }

  // -------------------------------------------------------------- filters

  /** The filter state holds strings only: `handleFilterChange` stores the
      text of an input. */
  predicate TextFilters(fs: seq<Field>) {
    forall i :: 0 <= i < |fs| ==> fs[i].val.Str?
  }

  /** `handleFilterChange(field, value)`: `{...prev, [field]: value}`. */
  function HandleFilterChange(fs: seq<Field>, field: string, value: string): (r: seq<Field>)
    requires TextFilters(fs)
    ensures TextFilters(r)
  {
    SetKeepsText(fs, field, value);
    Set(fs, field, Str(value))
  }

  lemma {:induction false} SetKeepsText(fs: seq<Field>, field: string, value: string)
    requires TextFilters(fs)
    ensures TextFilters(Set(fs, field, Str(value)))
  {
    if |fs| > 0 && fs[0].key != field {
      SetKeepsText(fs[1..], field, value);
    }
  }

  /** `String(contract[field]).toLowerCase().includes(value.toLowerCase())`. */
  predicate FieldMatches(c: Contract, field: string, value: string) {
    MatchesTerm(At(c, field), value)
  }

  /** One pass of the `forEach` over the filter entries: an empty value is
      skipped, any other narrows the list. */
  function ApplyFieldFilters(cs: seq<Contract>, fs: seq<Field>): (r: seq<Contract>)
    requires TextFilters(fs)
    ensures IsSubseq(r, cs)
    ensures forall i :: 0 <= i < |r| ==> FieldsPass(fs, r[i])
    decreases |fs|
  {
    if |fs| == 0 then
      IsSubseqRefl(cs);
      cs
    else
      var r := ApplyFieldFilters(Narrow(cs, fs[0]), fs[1..]);
      NarrowStep(cs, fs, r);
      r
  }

  /** One filter entry applied: an empty value keeps the list, any other
      keeps the contracts whose field matches it. */
  function Narrow(cs: seq<Contract>, f: Field): (r: seq<Contract>)
    requires f.val.Str?
    ensures IsSubseq(r, cs)
    ensures |f.val.s| > 0 ==> forall i :: 0 <= i < |r| ==> FieldMatches(r[i], f.key, f.val.s)
  {
    if |f.val.s| > 0 then
      FilterIsSubseq(cs, c => FieldMatches(c, f.key, f.val.s));
      Filter(cs, c => FieldMatches(c, f.key, f.val.s))
    else
      IsSubseqRefl(cs);
      cs
  }

  /** What survives the first entry and then passes the remaining ones
      passes them all, and stays a subsequence of the input. */
  lemma NarrowStep(cs: seq<Contract>, fs: seq<Field>, r: seq<Contract>)
    requires TextFilters(fs) && |fs| > 0
    requires IsSubseq(r, Narrow(cs, fs[0]))
    requires forall i :: 0 <= i < |r| ==> FieldsPass(fs[1..], r[i])
    ensures IsSubseq(r, cs)
    ensures forall i :: 0 <= i < |r| ==> FieldsPass(fs, r[i])
  {
    var next := Narrow(cs, fs[0]);
    SubseqTrans(r, next, cs);
    SubseqMembers(r, next);
    forall i | 0 <= i < |r| ensures FieldsPass(fs, r[i]) {
      var c := r[i];
      assert FieldsPass(fs[1..], c);
      assert |fs[0].val.s| > 0 ==> FieldMatches(c, fs[0].key, fs[0].val.s) by {
        if |fs[0].val.s| > 0 {
          assert c in next;
          var j :| 0 <= j < |next| && next[j] == c;
        }
      }
      PassSplit(fs, c);
    }
  }

  /** The effect of the filter effect: the column filters, then the search
      term over all top-level values when it is non-empty. */
  function ViewFilter(cs: seq<Contract>, fs: seq<Field>, term: string): (r: seq<Contract>)
    requires TextFilters(fs)
    ensures IsSubseq(r, cs)
    ensures forall i :: 0 <= i < |r| ==> Shown(fs, term, r[i])
  {
    var filtered := ApplyFieldFilters(cs, fs);
    if |term| > 0 then
      var r := Filter(filtered, c => AnyValueMatches(c, term));
      FilterIsSubseq(filtered, c => AnyValueMatches(c, term));
      SubseqTrans(r, filtered, cs);
      SubseqMembers(r, filtered);
      r
    else filtered
  }

  /** A contract passes every non-empty column filter. */
  predicate FieldsPass(fs: seq<Field>, c: Contract)
    requires TextFilters(fs)
  {
    forall i :: 0 <= i < |fs| && |fs[i].val.s| > 0 ==> FieldMatches(c, fs[i].key, fs[i].val.s)
  }

  /** A contract is shown: it passes the column filters and, when there is
      a search term, one of its values contains it. */
  predicate Shown(fs: seq<Field>, term: string, c: Contract)
    requires TextFilters(fs)
  {
    FieldsPass(fs, c) && (|term| > 0 ==> AnyValueMatches(c, term))
  }

  lemma {:induction false} ApplyFieldFiltersIsFilter(cs: seq<Contract>, fs: seq<Field>)
    requires TextFilters(fs)
    ensures ApplyFieldFilters(cs, fs) == Filter(cs, c => FieldsPass(fs, c))
    decreases |fs|
  {
    if |fs| == 0 {
      FilterAll(cs, c => FieldsPass(fs, c));
    } else {
      var f := fs[0];
      var rest := fs[1..];
      var p := (c: Contract) => FieldsPass(rest, c);
      var q := (c: Contract) => FieldMatches(c, f.key, f.val.s);
      var all := (c: Contract) => FieldsPass(fs, c);
      forall c: Contract ensures all(c) == ((|f.val.s| > 0 ==> q(c)) && p(c)) {
        PassSplit(fs, c);
      }
      if |f.val.s| > 0 {
        var next := Filter(cs, q);
        assert Narrow(cs, f) == next;
        ApplyFieldFiltersIsFilter(next, rest);
        FilterConj(cs, q, p, all);
      } else {
        ApplyFieldFiltersIsFilter(cs, rest);
        FilterExt(cs, p, all);
      }
    }
  }

  lemma PassSplit(fs: seq<Field>, c: Contract)
    requires TextFilters(fs) && |fs| > 0
    ensures FieldsPass(fs, c) <==>
      (|fs[0].val.s| > 0 ==> FieldMatches(c, fs[0].key, fs[0].val.s)) && FieldsPass(fs[1..], c)
  {
    var rest := fs[1..];
    assert forall i :: 1 <= i < |fs| ==> fs[i] == rest[i - 1];
    if (|fs[0].val.s| > 0 ==> FieldMatches(c, fs[0].key, fs[0].val.s)) && FieldsPass(rest, c) {
      forall i | 0 <= i < |fs| && |fs[i].val.s| > 0 ensures FieldMatches(c, fs[i].key, fs[i].val.s) {
        if i > 0 {
          assert fs[i] == rest[i - 1];
        }
      }
    }
  }

  /** The list shown keeps, in their order, exactly the contracts that pass
      every non-empty column filter and match the search term; the filters
      are applied one after another, yet their order does not matter. */
  lemma ViewFilterKeepsExactly(cs: seq<Contract>, fs: seq<Field>, term: string)
    requires TextFilters(fs)
    ensures ViewFilter(cs, fs, term) == Filter(cs, c => Shown(fs, term, c))
    ensures IsSubseq(ViewFilter(cs, fs, term), cs)
  {
    ApplyFieldFiltersIsFilter(cs, fs);
    var pass := (c: Contract) => FieldsPass(fs, c);
    var shown := (c: Contract) => Shown(fs, term, c);
    if |term| > 0 {
      FilterConj(cs, pass, c => AnyValueMatches(c, term), shown);
    } else {
      FilterExt(cs, pass, shown);
    }
    FilterIsSubseq(cs, shown);
  }

  /** Filters whose values are all empty and an empty term show every
      contract. */
  lemma EmptyFiltersShowAll(cs: seq<Contract>, fs: seq<Field>)
    requires TextFilters(fs)
    requires forall i :: 0 <= i < |fs| ==> fs[i].val.s == ""
    ensures ViewFilter(cs, fs, "") == cs
  {
    ViewFilterKeepsExactly(cs, fs, "");
    FilterAll(cs, c => Shown(fs, "", c));
  }

  /** A filter change sets that column's filter text and keeps every
      other column's. */
  lemma HandleFilterChangeReads(fs: seq<Field>, field: string, value: string, other: string)
    requires TextFilters(fs)
    ensures Get(HandleFilterChange(fs, field, value), field) == Some(Str(value))
    ensures other != field ==> Get(HandleFilterChange(fs, field, value), other) == Get(fs, other)
  {
    GetSetSame(fs, field, Str(value));
    if other != field {
      GetSetOther(fs, field, Str(value), other);
    }
  }
}

=== FILE: language.dfy ===
/** The language provider of the two front ends
    (components/theme/language-provider.tsx and
    frontend/components/theme/language-provider.tsx): the language chosen
    when the provider mounts, its persistence in local storage, and the
    `useLanguage` hook. The two providers differ only in the code they use
    for Norwegian and in the browser prefixes they recognise. */
module Language {
  import opened Wrappers
  import opened Text

  const ENGLISH: string := "en"

  /** The provider under components/ and the one under frontend/. */
  datatype Variant = RootProvider | FrontendProvider

  /** The code a provider uses for Norwegian. */
  function Norwegian(v: Variant): string {
    match v
    case RootProvider => "no"
    case FrontendProvider => "nb"
  }

  /** The languages a provider accepts from storage. */
  predicate Known(v: Variant, lang: string) {
    lang == ENGLISH || lang == Norwegian(v)
  }

  /** The lower-cased browser language names Norwegian: `nb` or `nn`, and
      for the provider under components/ also `no`. */
  predicate NorwegianBrowser(v: Variant, browser: string) {
    var b := ToLower(browser);
    StartsWith(b, "nb") || StartsWith(b, "nn") || (v == RootProvider && StartsWith(b, "no"))
  }

  /** The mount effect: a known saved language is taken as it is, anything
      else (nothing saved, or an unknown value) falls back to the browser
      language. */
  function InitialLanguage(v: Variant, saved: Option<string>, browser: string): (lang: string)
    ensures Known(v, lang)
    ensures saved.Some? && Known(v, saved.value) ==> lang == saved.value
    ensures !(saved.Some? && Known(v, saved.value)) ==> (lang == Norwegian(v) <==> NorwegianBrowser(v, browser))
  {
    if saved.Some? && |saved.value| > 0 && Known(v, saved.value) then saved.value
    else if NorwegianBrowser(v, browser) then Norwegian(v)
    else ENGLISH
  }

  /** The provider's language and the value stored under `language`. */
  datatype Provider = Provider(language: string, stored: Option<string>)

  /** A provider whose stored value is its language. */
  predicate Persisted(p: Provider) {
    p.stored == Some(p.language)
  }

  /** Mounting over a store that holds `current`: the first effect reads
      storage and sets the chosen language; the second effect writes the
      language of the first render, and runs again after the re-render
      when the language changed. */
  function Mount(v: Variant, current: string, saved: Option<string>, browser: string): (p: Provider)
    ensures p.language == InitialLanguage(v, saved, browser)
    ensures Persisted(p) && Known(v, p.language)
  {
    var chosen := InitialLanguage(v, saved, browser);
    var afterFirstRender := Some(current);
    Provider(chosen, if chosen != current then Some(chosen) else afterFirstRender)
  }

  /** `setLanguage`: the persistence effect reruns when the language
      changes; an unchanged language leaves storage as it is. */
  function SetLanguage(p: Provider, lang: string): (q: Provider)
    ensures q.language == lang
    ensures lang == p.language ==> q.stored == p.stored
    ensures Persisted(p) ==> Persisted(q)
  {
    if lang == p.language then p else Provider(lang, Some(lang))
  }

  /** Any sequence of changes to known languages after mounting keeps the
      language known and written to storage. */
  lemma {:induction false} ChangesStayPersisted(v: Variant, p: Provider, changes: seq<string>)
    requires Persisted(p) && Known(v, p.language)
    requires forall k :: 0 <= k < |changes| ==> Known(v, changes[k])
    ensures var q := SetAll(p, changes); Persisted(q) && Known(v, q.language)
    decreases |changes|
  {
    if |changes| > 0 {
      ChangesStayPersisted(v, SetLanguage(p, changes[0]), changes[1..]);
    }
  }

  /** The changes applied one after another. */
  function SetAll(p: Provider, changes: seq<string>): (q: Provider)
    ensures |changes| > 0 ==> q.language == changes[|changes| - 1]
    ensures |changes| == 0 ==> q == p
    decreases |changes|
  {
    if |changes| == 0 then p else SetAll(SetLanguage(p, changes[0]), changes[1..])
  }

  /** What one provider stores, the next mount restores: a persisted known
      language survives a reload whatever the browser language. */
  lemma ReloadRestores(v: Variant, p: Provider, current: string, browser: string)
    requires Persisted(p) && Known(v, p.language)
    ensures Mount(v, current, p.stored, browser).language == p.language
  {
  }

  /** A Norwegian code the other provider stored is not recognised and is
      replaced by the browser's choice. */
  lemma ForeignCodeNotRestored(saved: string, browser: string)
    requires saved == Norwegian(RootProvider)
    ensures InitialLanguage(FrontendProvider, Some(saved), browser)
            == if NorwegianBrowser(FrontendProvider, browser) then "nb" else ENGLISH
  {
  }

  /** A browser language starting with `no` gives Norwegian under
      components/ and English under frontend/. */
  lemma NoPrefixOnlyAtRoot(browser: string)
    requires StartsWith(ToLower(browser), "no")
    ensures InitialLanguage(RootProvider, None, browser) == "no"
    ensures InitialLanguage(FrontendProvider, None, browser) == ENGLISH
  {
    var b := ToLower(browser);
    assert b[..2] == "no";
    assert !StartsWith(b, "nb") && !StartsWith(b, "nn") by {
      assert b[1] == 'o';
    }
  }

  /** `useLanguage`: the context value inside a provider; outside one the
      hook throws. */
  function UseLanguage<C>(context: Option<C>): (r: Result<C, string>)
    ensures r.Ok? <==> context.Some?
    ensures context.Some? ==> r.value == context.value
  {
    match context
    case Some(c) => Ok(c)
    case None => Err("useLanguage must be used within a LanguageProvider")
  }
}

=== FILE: numbers.dfy ===
/** Numbers as the application sees them: decimal text read by `Number`,
    `parseFloat` and `parseInt`, and printed back by `String`. A number is
    a decimal `mant / 10^exp`; only the plain decimal notation is read
    (see README for the forms left out). */
module Numbers {
  import opened Wrappers
  import opened Text

  function Pow10(n: nat): (p: nat)
    ensures p >= 1
  {
    if n == 0 then 1 else 10 * Pow10(n - 1)
  }

  predicate AllDigits(s: string) {
    forall k :: 0 <= k < |s| ==> IsDigit(s[k])
  }

  /** The value of a run of decimal digits; the empty run is 0. */
  function DigitsValue(ds: string): nat
    requires AllDigits(ds)
  {
    if |ds| == 0 then 0
    else DigitsValue(ds[..|ds| - 1]) * 10 + (ds[|ds| - 1] as int - '0' as int)
  }

  /** Leading zeros do not change the value of a digit run. */
  lemma {:induction false} DigitsValueZeros(z: string, b: string)
    requires forall k :: 0 <= k < |z| ==> z[k] == '0'
    requires AllDigits(b)
    ensures AllDigits(z + b)
    ensures DigitsValue(z + b) == DigitsValue(b)
    decreases |b|
  {
    assert AllDigits(z + b);
    if |b| == 0 {
      assert z + b == z;
      ZerosValue(z);
    } else {
      var b' := b[..|b| - 1];
      assert (z + b)[..|z + b| - 1] == z + b';
      DigitsValueZeros(z, b');
    }
  }

  lemma {:induction false} ZerosValue(z: string)
    requires forall k :: 0 <= k < |z| ==> z[k] == '0'
    ensures AllDigits(z) && DigitsValue(z) == 0
  {
    if |z| > 0 {
      ZerosValue(z[..|z| - 1]);
    }
  }

  function DigitChar(d: nat): (c: char)
    requires d < 10
    ensures IsDigit(c) && c as int - '0' as int == d
  {
    ('0' as int + d) as char
  }

  /** Decimal text of a natural number, with no leading zeros. */
  function NatToString(n: nat): (r: string)
    ensures |r| >= 1 && AllDigits(r)
    ensures DigitsValue(r) == n
    ensures |r| > 1 ==> r[0] != '0'
  {
    if n < 10 then [DigitChar(n)]
    else
      var r := NatToString(n / 10) + [DigitChar(n % 10)];
      assert r[..|r| - 1] == NatToString(n / 10);
      r
  }

  /** `String(i)` for an integer. */
  function IntToString(i: int): string {
    if i < 0 then "-" + NatToString(-i) else NatToString(i)
  }

  /** A finite decimal number `mant / 10^exp`. */
  datatype Dec = Dec(mant: int, exp: nat)

  /** The canonical form: no trailing zero digit after the decimal point. */
  predicate Normal(d: Dec) {
    d.exp == 0 || d.mant % 10 != 0
  }

  function Abs(i: int): nat {
    if i < 0 then -i else i
  }

  /** Strip trailing zero fraction digits. */
  function Normalize(d: Dec): (r: Dec)
    ensures Normal(r) && r.exp <= d.exp
    decreases d.exp
  {
    if d.exp > 0 && d.mant % 10 == 0 then Normalize(Dec(d.mant / 10, d.exp - 1)) else d
  }

  /** Normalizing keeps the value: only factors of ten are taken out. */
  lemma {:induction false} NormalizeValue(d: Dec)
    ensures d.mant == Normalize(d).mant * Pow10(d.exp - Normalize(d).exp)
    decreases d.exp
  {
    if d.exp > 0 && d.mant % 10 == 0 {
      var d' := Dec(d.mant / 10, d.exp - 1);
      NormalizeValue(d');
      var r := Normalize(d');
      var p := Pow10(d'.exp - r.exp);
      assert d'.mant == r.mant * p;
      assert Pow10(d.exp - r.exp) == 10 * p;
      assert d.mant == 10 * d'.mant;
      assert 10 * (r.mant * p) == r.mant * (10 * p);
    }
  }

  lemma NormalizeNormal(d: Dec)
    requires Normal(d)
    ensures Normalize(d) == d
  {
  }

  /** A number is falsy in JavaScript exactly when it is zero (NaN is kept apart). */
  predicate IsZero(d: Dec) {
    d.mant == 0
  }

  /** `String(x)` for a finite number in fixed notation. */
  function DecToString(d: Dec): string {
    var n := Normalize(d);
    (if n.mant < 0 then "-" else "") + FixedText(Abs(n.mant), n.exp)
  }

  /** The digits of `a`, with zeros in front to make at least `e + 1`. */
  function Padded(a: nat, e: nat): (ds: string)
    ensures AllDigits(ds) && |ds| >= e + 1 && DigitsValue(ds) == a
  {
    var s := NatToString(a);
    var z := if |s| >= e + 1 then "" else Zeros(e + 1 - |s|);
    DigitsValueZeros(z, s);
    z + s
  }

  function Zeros(n: nat): (z: string)
    ensures |z| == n && forall k :: 0 <= k < n ==> z[k] == '0'
  {
    if n == 0 then "" else "0" + Zeros(n - 1)
  }

  /** The digits of `a / 10^e`, with exactly `e` digits after the point
      and at least one before it. */
  function FixedText(a: nat, e: nat): string {
    var ds := Padded(a, e);
    if e == 0 then ds else ds[..|ds| - e] + "." + ds[|ds| - e..]
  }

  function TakeDigits(s: string): (r: string)
    ensures AllDigits(r) && r <= s
    ensures |r| == |s| || !IsDigit(s[|r|])
  {
    if |s| > 0 && IsDigit(s[0]) then [s[0]] + TakeDigits(s[1..]) else ""
  }

  /** The sign in front of a literal: `(negative, rest)`. */
  function SplitSign(s: string): (bool, string) {
    if |s| > 0 && s[0] == '-' then (true, s[1..])
    else if |s| > 0 && s[0] == '+' then (false, s[1..])
    else (false, s)
  }

  /** Combine integer digits and fraction digits into a number. */
  function MakeDec(neg: bool, ip: string, fp: string): (d: Dec)
    requires AllDigits(ip) && AllDigits(fp)
    ensures Normal(d)
  {
    assert AllDigits(ip + fp);
    var m := DigitsValue(ip + fp);
    Normalize(Dec(if neg then 0 - m else m, |fp|))
  }

  /** An unsigned decimal literal `digits [. digits]` or `. digits`, the
      whole of `s`. */
  function UnsignedLiteral(s: string): Option<(string, string)> {
    var ip := TakeDigits(s);
    var rest := s[|ip|..];
    if |rest| == 0 then (if |ip| > 0 then Some((ip, "")) else None)
    else if rest[0] != '.' then None
    else
      var fp := TakeDigits(rest[1..]);
      if |ip| + |fp| > 0 && |fp| == |rest| - 1 then Some((ip, fp)) else None
  }

  /** `Number(s)` on decimal text: the trimmed text must be a whole signed
      literal, and blank text is zero. `None` is NaN. */
  function NumberOf(s: string): (r: Option<Dec>)
    ensures r.Some? ==> Normal(r.value)
  {
    var t := Trim(s);
    if |t| == 0 then Some(Dec(0, 0))
    else
      var (neg, body) := SplitSign(t);
      match UnsignedLiteral(body)
      case None => None
      case Some((ip, fp)) => Some(MakeDec(neg, ip, fp))
  }

  /** `parseFloat(s)`: the longest decimal prefix after leading whitespace.
      `None` is NaN. */
  function ParseFloatPrefix(s: string): (r: Option<Dec>)
    ensures r.Some? ==> Normal(r.value)
  {
    var (neg, body) := SplitSign(TrimStart(s));
    match PrefixLiteral(body)
    case None => None
    case Some((ip, fp)) => Some(MakeDec(neg, ip, fp))
  }

  /** The longest literal `digits [. digits]` at the front of `s`: the
      integer and fraction digits, at least one of them non-empty. */
  function PrefixLiteral(s: string): (r: Option<(string, string)>)
    ensures r.Some? ==> AllDigits(r.value.0) && AllDigits(r.value.1)
  {
    var ip := TakeDigits(s);
    var rest := s[|ip|..];
    var fp := if |rest| > 0 && rest[0] == '.' then TakeDigits(rest[1..]) else "";
    if |ip| + |fp| == 0 then None else Some((ip, fp))
  }

  predicate IsHexDigit(c: char) {
    IsDigit(c) || ('a' <= c <= 'f') || ('A' <= c <= 'F')
  }

  function HexDigitValue(c: char): (v: nat)
    requires IsHexDigit(c)
    ensures v < 16
  {
    if IsDigit(c) then c as int - '0' as int
    else if 'a' <= c <= 'f' then c as int - 'a' as int + 10
    else c as int - 'A' as int + 10
  }

  predicate AllHexDigits(s: string) {
    forall k :: 0 <= k < |s| ==> IsHexDigit(s[k])
  }

  /** The value of a run of hexadecimal digits. */
  function HexValue(hs: string): nat
    requires AllHexDigits(hs)
  {
    if |hs| == 0 then 0 else HexValue(hs[..|hs| - 1]) * 16 + HexDigitValue(hs[|hs| - 1])
  }

  function TakeHexDigits(s: string): (r: string)
    ensures AllHexDigits(r) && r <= s
  {
    if |s| > 0 && IsHexDigit(s[0]) then [s[0]] + TakeHexDigits(s[1..]) else ""
  }

  /** `parseInt(s)` with no radix: leading whitespace and a sign are
      skipped, a `0x` prefix selects base 16, and the longest digit prefix
      is read. `None` is NaN. */
  function ParseIntPrefix(s: string): (r: Option<int>)
    ensures r.Some? && r.value < 0 ==> |TrimStart(s)| > 0 && TrimStart(s)[0] == '-'
  {
    var (neg, body) := SplitSign(TrimStart(s));
    if |body| >= 2 && body[0] == '0' && (body[1] == 'x' || body[1] == 'X') then
      var hs := TakeHexDigits(body[2..]);
      if |hs| == 0 then None else Some(if neg then 0 - HexValue(hs) else HexValue(hs))
    else
      var ds := TakeDigits(body);
      if |ds| == 0 then None else Some(if neg then 0 - DigitsValue(ds) else DigitsValue(ds))
  }

  /** `parseInt(s) || 0`: NaN and zero both become 0. */
  function IntOrZero(s: string): int {
    ParseIntPrefix(s).GetOr(0)
  }

  lemma {:induction false} TakeDigitsAll(x: string)
    requires AllDigits(x)
    ensures TakeDigits(x) == x
  {
    if |x| > 0 {
      TakeDigitsAll(x[1..]);
    }
  }

  lemma {:induction false} TakeDigitsStop(x: string, y: string)
    requires AllDigits(x) && |y| > 0 && !IsDigit(y[0])
    ensures TakeDigits(x + y) == x
  {
    if |x| > 0 {
      assert (x + y)[1..] == x[1..] + y;
      TakeDigitsStop(x[1..], y);
    }
  }

  lemma LiteralWithPoint(ip: string, fp: string)
    requires AllDigits(ip) && AllDigits(fp) && |ip| > 0
    ensures UnsignedLiteral(ip + "." + fp) == Some((ip, fp))
  {
    var body := ip + "." + fp;
    assert body == ip + ("." + fp);
    TakeDigitsStop(ip, "." + fp);
    assert body[|ip|..] == "." + fp;
    assert ("." + fp)[1..] == fp;
    TakeDigitsAll(fp);
  }

  lemma LiteralWithoutPoint(ip: string)
    requires AllDigits(ip) && |ip| > 0
    ensures UnsignedLiteral(ip) == Some((ip, ""))
  {
    TakeDigitsAll(ip);
  }

  /** `FixedText(a, e)` reads back as a literal whose digits have value
      `a` and whose fraction has `e` digits. */
  lemma {:induction false} FixedTextLiteral(a: nat, e: nat)
    ensures var u := UnsignedLiteral(FixedText(a, e));
            u.Some? && AllDigits(u.value.0) && AllDigits(u.value.1) &&
            |u.value.1| == e && DigitsValue(u.value.0 + u.value.1) == a
  {
    var ds := Padded(a, e);
    if e == 0 {
      LiteralWithoutPoint(ds);
      assert ds + "" == ds;
    } else {
      var ip := ds[..|ds| - e];
      var fp := ds[|ds| - e..];
      LiteralWithPoint(ip, fp);
      SplitJoins(ds, |ds| - e);
    }
  }

  lemma SplitJoins(s: string, m: nat)
    requires m <= |s|
    ensures s[..m] + s[m..] == s
  {
  }

  /** `Number` on text that is already trimmed: the sign, then the literal. */
  lemma NumberOfSigned(text: string, neg: bool, body: string, ip: string, fp: string)
    requires |text| > 0 && Trim(text) == text && SplitSign(text) == (neg, body)
    requires UnsignedLiteral(body) == Some((ip, fp))
    requires AllDigits(ip) && AllDigits(fp)
    ensures NumberOf(text) == Some(MakeDec(neg, ip, fp))
  {
  }

  lemma SignedTextParts(neg: bool, body: string)
    requires |body| > 0 && IsDigit(body[0])
    requires forall k :: 0 <= k < |body| ==> IsDigit(body[k]) || body[k] == '.'
    ensures var text := (if neg then "-" else "") + body;
            Trim(text) == text && SplitSign(text) == (neg, body)
  {
    var text := (if neg then "-" else "") + body;
    var off := if neg then 1 else 0;
    forall k | 0 <= k < |text| ensures !IsSpace(text[k]) {
      if k >= off {
        assert text[k] == body[k - off];
      }
    }
    TrimNoSpace(text);
    if neg {
      assert text[1..] == body;
    }
  }

  lemma FixedTextChars(a: nat, e: nat)
    ensures |FixedText(a, e)| > 0 && IsDigit(FixedText(a, e)[0])
    ensures forall k :: 0 <= k < |FixedText(a, e)| ==>
              IsDigit(FixedText(a, e)[k]) || FixedText(a, e)[k] == '.'
  {
    var ds := Padded(a, e);
    var t := FixedText(a, e);
    if e > 0 {
      var m := |ds| - e;
      assert t == ds[..m] + "." + ds[m..];
      forall k | 0 <= k < |t| ensures IsDigit(t[k]) || t[k] == '.' {
        if k < m {
          assert t[k] == ds[k];
        } else if k > m {
          assert t[k] == ds[k - 1];
        }
      }
    }
  }

  /** Printing a number and reading it back with `Number` gives the same
      number, in canonical form. */
  lemma {:induction false} NumberOfDecToString(d: Dec)
    ensures NumberOf(DecToString(d)) == Some(Normalize(d))
  {
    var n := Normalize(d);
    var a, e := Abs(n.mant), n.exp;
    var body := FixedText(a, e);
    assert DecToString(d) == (if n.mant < 0 then "-" else "") + body;
    FixedTextChars(a, e);
    FixedTextLiteral(a, e);
    var u := UnsignedLiteral(body).value;
    SignedTextParts(n.mant < 0, body);
    NumberOfSigned(DecToString(d), n.mant < 0, body, u.0, u.1);
    MakeDecOf(n, u.0, u.1);
  }

  lemma MakeDecOf(n: Dec, ip: string, fp: string)
    requires Normal(n)
    requires AllDigits(ip) && AllDigits(fp) && |fp| == n.exp
    requires DigitsValue(ip + fp) == Abs(n.mant)
    ensures MakeDec(n.mant < 0, ip, fp) == n
  {
    NormalizeNormal(n);
  }

  /** Trailing whitespace does not change the digit run at the front. */
  lemma {:induction false} TakeDigitsSpaces(x: string, w: string)
    requires forall k :: 0 <= k < |w| ==> IsSpace(w[k])
    ensures TakeDigits(x + w) == TakeDigits(x)
  {
    if |x| > 0 {
      assert (x + w)[0] == x[0];
      if IsDigit(x[0]) {
        assert (x + w)[1..] == x[1..] + w;
        TakeDigitsSpaces(x[1..], w);
      }
    } else {
      assert x + w == w;
    }
  }

  lemma SplitSignAppend(t: string, w: string)
    requires |t| > 0
    ensures SplitSign(t + w) == (SplitSign(t).0, SplitSign(t).1 + w)
  {
    assert (t + w)[0] == t[0];
    assert (t + w)[1..] == t[1..] + w;
  }

  /** A whole literal followed by whitespace is read in full by the
      prefix reader. */
  lemma PrefixLiteralSpaces(body: string, w: string)
    requires forall k :: 0 <= k < |w| ==> IsSpace(w[k])
    requires UnsignedLiteral(body).Some?
    ensures PrefixLiteral(body + w) == UnsignedLiteral(body)
  {
    var ip, fp := UnsignedParts(body);
    TakeDigitsSpaces(body, w);
    assert (body + w)[|ip|..] == body[|ip|..] + w;
    if |body| > |ip| {
      FractionSpaces(body[|ip|..], w);
    }
    PrefixParts(body + w, ip, fp);
  }

  /** The two parts of a whole literal. */
  lemma UnsignedParts(body: string) returns (ip: string, fp: string)
    requires UnsignedLiteral(body).Some?
    ensures UnsignedLiteral(body) == Some((ip, fp)) && ip == TakeDigits(body) && |ip| <= |body|
    ensures |body| == |ip| ==> fp == ""
    ensures |body| > |ip| ==> body[|ip|..][0] == '.' && fp == TakeDigits(body[|ip|..][1..])
  {
    ip := TakeDigits(body);
    var rest := body[|ip|..];
    fp := if |rest| > 0 then TakeDigits(rest[1..]) else "";
  }

  /** The prefix reader finds `ip` and then `fp` after a point. */
  lemma PrefixParts(s: string, ip: string, fp: string)
    requires ip == TakeDigits(s) && |ip| + |fp| > 0
    requires |s| == |ip| || s[|ip|..][0] != '.' ==> fp == ""
    requires |s| > |ip| && s[|ip|..][0] == '.' ==> fp == TakeDigits(s[|ip|..][1..])
    ensures PrefixLiteral(s) == Some((ip, fp))
  {
  }

  lemma FractionSpaces(rest: string, w: string)
    requires forall k :: 0 <= k < |w| ==> IsSpace(w[k])
    requires |rest| > 0 && rest[0] == '.'
    ensures (rest + w)[0] == '.' && TakeDigits((rest + w)[1..]) == TakeDigits(rest[1..])
  {
    assert (rest + w)[1..] == rest[1..] + w;
    TakeDigitsSpaces(rest[1..], w);
  }

  /** With the leading whitespace gone, what is left is the trimmed text
      and the trailing whitespace. */
  lemma TrimStartParts(s: string) returns (w: string)
    ensures TrimStart(s) == Trim(s) + w
    ensures forall k :: 0 <= k < |w| ==> IsSpace(w[k])
  {
    var t := Trim(s);
    var i := LeadingSpaces(s);
    var e := i + |t|;
    assert t == s[i..e];
    TrimStartSplit(s, i, e);
    w := s[e..];
  }

  lemma TrimStartSplit(s: string, i: nat, e: nat)
    requires i <= e <= |s| && TrimStart(s) == s[i..]
    requires forall k :: e <= k < |s| ==> IsSpace(s[k])
    ensures TrimStart(s) == s[i..e] + s[e..]
    ensures forall k :: 0 <= k < |s[e..]| ==> IsSpace(s[e..][k])
  {
    assert forall k :: 0 <= k < |s[e..]| ==> s[e..][k] == s[e + k];
    assert s[i..] == s[i..e] + s[e..];
  }

  /** On text that `Number` accepts and that is not blank, `parseFloat`
      reads the same number. */
  lemma ParseFloatAgrees(s: string)
    requires NumberOf(s).Some? && Trim(s) != ""
    ensures ParseFloatPrefix(s) == NumberOf(s)
  {
    var t := Trim(s);
    var w := TrimStartParts(s);
    var (neg, body) := SplitSign(t);
    var u := UnsignedLiteral(body);
    assert u.Some?;
    assert NumberOf(s) == Some(MakeDec(neg, u.value.0, u.value.1));
    assert SplitSign(TrimStart(s)) == (neg, body + w) by {
      SplitSignAppend(t, w);
    }
    assert PrefixLiteral(body + w) == u by {
      PrefixLiteralSpaces(body, w);
    }
  }
}

=== FILE: reconcile.dfy ===
/** The join that turns the uploaded tables into the contract list
    (`handleGenerateJSON` in app/transform/page.tsx): the contract table
    gives one contract per row with an area code, and the area and start
    location tables are looked up by the normalized area code. */
module Reconcile {
  import opened Wrappers
  import opened Text
  import opened Numbers
  import opened Json
  import Seqs
  import opened Transform
  import CustomFields

  const CONTRACT_FILE: string := "avtaleinnhold.csv"
  const AREA_FILE: string := "omrade.csv"
  const START_FILE: string := "startsted.csv"

  // Finding the tables

  /** Index of the first file whose lower-cased name is `name`. */
  function FindFileIndex(files: seq<CsvFile>, name: string): (r: Option<nat>)
    ensures r.Some? ==> r.value < |files| && ToLower(files[r.value].name) == name
    ensures r.Some? ==> forall j :: 0 <= j < r.value ==> ToLower(files[j].name) != name
    ensures r.None? ==> forall j :: 0 <= j < |files| ==> ToLower(files[j].name) != name
  {
    if |files| == 0 then None
    else if ToLower(files[0].name) == name then Some(0)
    else
      match FindFileIndex(files[1..], name)
      case None => None
      case Some(i) => Some(i + 1)
  }

  /** `files.find(f => f.name.toLowerCase() === name)`. */
  function FindFile(files: seq<CsvFile>, name: string): (r: Option<CsvFile>)
    ensures r.Some? <==> exists j :: 0 <= j < |files| && ToLower(files[j].name) == name
    ensures r.Some? ==> r.value in files && ToLower(r.value.name) == name
  {
    match FindFileIndex(files, name)
    case None => None
    case Some(i) => Some(files[i])
  }

  // Lookup tables keyed by area code

  datatype StartLocation = StartLocation(postalCode: string, city: string, municipality: string)

  datatype AreaInfo = AreaInfo(office: string, transporter: string)

  /** `row[idx]?.trim() || ''` where a missing column has index -1. */
  function Cell(row: seq<string>, idx: Option<nat>): string {
    if idx.Some? && idx.value < |row| then Trim(row[idx.value]) else ""
  }

  /** The row has a non-empty cell in the area-code column
      (`row[areaCodeIndex]` is truthy). */
  predicate Keyed(row: seq<string>, codeIdx: nat) {
    codeIdx < |row| && row[codeIdx] != ""
  }

  /** The lookup key of a row: its area code, trimmed and normalized. */
  function RowKey(row: seq<string>, codeIdx: nat): string {
    if codeIdx < |row| then NormalizeAreaCode(Str(Trim(row[codeIdx]))) else ""
  }

  /** The key of every row, in order. */
  function RowKeys(rows: seq<seq<string>>, codeIdx: nat): (ks: seq<string>)
    ensures |ks| == |rows|
  {
    if |rows| == 0 then [] else RowKeys(rows[..|rows| - 1], codeIdx) + [RowKey(rows[|rows| - 1], codeIdx)]
  }

  /** Whether every row is keyed, in order. */
  function RowFlags(rows: seq<seq<string>>, codeIdx: nat): (fs: seq<bool>)
    ensures |fs| == |rows|
    ensures forall r :: 0 <= r < |rows| ==> fs[r] == Keyed(rows[r], codeIdx)
  {
    if |rows| == 0 then [] else RowFlags(rows[..|rows| - 1], codeIdx) + [Keyed(rows[|rows| - 1], codeIdx)]
  }

  lemma {:induction false} RowKeysAt(rows: seq<seq<string>>, codeIdx: nat, r: nat)
    requires r < |rows|
    ensures RowKeys(rows, codeIdx)[r] == RowKey(rows[r], codeIdx)
  {
    if r < |rows| - 1 {
      RowKeysAt(rows[..|rows| - 1], codeIdx, r);
    }
  }

  /** Row `r` is the last keyed row with its key. */
  predicate LastRowFor(rows: seq<seq<string>>, codeIdx: nat, r: int) {
    Seqs.IsLastKept(RowKeys(rows, codeIdx), RowFlags(rows, codeIdx), r)
  }

  /** The loop that fills `startLocations` or `areaInfo`: every keyed row
      is stored under its key, rows without an area code are skipped, and
      a later row with the same key replaces an earlier one. */
  function Lookup<V>(rows: seq<seq<string>>, codeIdx: nat, info: seq<string> -> V): (m: map<string, V>)
    ensures forall r :: 0 <= r < |rows| && Keyed(rows[r], codeIdx) ==> RowKeys(rows, codeIdx)[r] in m
    ensures forall k :: k in m ==>
              exists r :: 0 <= r < |rows| && Keyed(rows[r], codeIdx) && RowKeys(rows, codeIdx)[r] == k
    ensures forall r :: LastRowFor(rows, codeIdx, r) ==> m[RowKeys(rows, codeIdx)[r]] == info(rows[r])
  {
    var vals := seq(|rows|, r requires 0 <= r < |rows| => info(rows[r]));
    Seqs.LastWins(RowKeys(rows, codeIdx), vals, RowFlags(rows, codeIdx))
  }

  /** The start location of every area of the start-location table; empty
      when the table or its area-code column is missing. */
  function StartLocations(file: Option<CsvFile>): (m: map<string, StartLocation>)
    ensures file.None? ==> m == map[]
    ensures file.Some? && AREA_CODE !in Normalized(file.value.headers) ==> m == map[]
  {
    match file
    case None => map[]
    case Some(f) =>
      match FindIndex(f.headers, AREA_CODE)
      case None => map[]
      case Some(ci) =>
        var pi := FindIndex(f.headers, START_POSTAL_CODE);
        var ti := FindIndex(f.headers, START_CITY);
        var mi := FindIndex(f.headers, MUNICIPALITY);
        Lookup(f.content, ci, row => StartLocation(Cell(row, pi), Cell(row, ti), Cell(row, mi)))
  }

  /** The office and transporter of every area of the area table; empty
      when the table or its area-code column is missing. */
  function AreaInfos(file: Option<CsvFile>): (m: map<string, AreaInfo>)
    ensures file.None? ==> m == map[]
    ensures file.Some? && AREA_CODE !in Normalized(file.value.headers) ==> m == map[]
  {
    match file
    case None => map[]
    case Some(f) =>
      match FindIndex(f.headers, AREA_CODE)
      case None => map[]
      case Some(ci) =>
        var oi := FindIndex(f.headers, OFFICE);
        var ti := FindIndex(f.headers, TRANSPORTER);
        Lookup(f.content, ci, row => AreaInfo(Cell(row, oi), Cell(row, ti)))
  }

  /** The last area row carrying a key supplies that key's office and
      transporter, read from the office and transporter columns. */
  lemma AreaInfoOfRow(f: CsvFile, r: nat)
    requires AREA_CODE in Normalized(f.headers)
    requires LastRowFor(f.content, FindIndex(f.headers, AREA_CODE).value, r)
    ensures var ci := FindIndex(f.headers, AREA_CODE).value;
            var m := AreaInfos(Some(f));
            && RowKeys(f.content, ci)[r] in m
            && m[RowKeys(f.content, ci)[r]]
               == AreaInfo(Cell(f.content[r], FindIndex(f.headers, OFFICE)),
                           Cell(f.content[r], FindIndex(f.headers, TRANSPORTER)))
  {
  }

  /** The last start-location row carrying a key supplies that key's start
      postal code, city and municipality, read from their columns. */
  lemma StartLocationOfRow(f: CsvFile, r: nat)
    requires AREA_CODE in Normalized(f.headers)
    requires LastRowFor(f.content, FindIndex(f.headers, AREA_CODE).value, r)
    ensures var ci := FindIndex(f.headers, AREA_CODE).value;
            var m := StartLocations(Some(f));
            && RowKeys(f.content, ci)[r] in m
            && m[RowKeys(f.content, ci)[r]]
               == StartLocation(Cell(f.content[r], FindIndex(f.headers, START_POSTAL_CODE)),
                                Cell(f.content[r], FindIndex(f.headers, START_CITY)),
                                Cell(f.content[r], FindIndex(f.headers, MUNICIPALITY)))
  {
  }

  // One contract row

  /** The typed value of a trimmed, non-empty cell of the contract table:
      a number when `Number` accepts the text, unless the header is
      `omradekode` in any letter case; else a boolean for `true` or
      `false` in any letter case; else the text itself. */
  function Coerce(header: string, value: string): (v: Value)
    requires value != "" && Trim(value) == value
    ensures v.Num? <==> NumberOf(value).Some? && ToLower(header) != "omradekode"
    ensures v.Num? ==> NumberOf(value) == Some(v.n)
    ensures v.Bool? <==> !v.Num? && (ToLower(value) == "true" || ToLower(value) == "false")
    ensures v.Bool? ==> (v.b <==> ToLower(value) == "true")
    ensures v.Str? <==> !v.Num? && !v.Bool?
    ensures v.Str? ==> v.s == value
  {
    if NumberOf(value).Some? && ToLower(header) != "omradekode" then
      ParseFloatAgrees(value);
      Num(ParseFloatPrefix(value).value)
    else if ToLower(value) == "true" || ToLower(value) == "false" then
      Bool(ToLower(value) == "true")
    else Str(value)
  }

  /** The value of the cell in column `i` of a row, or `undefined` when the
      cell is missing or blank. */
  function CellValue(header: string, row: seq<string>, i: nat): (v: Value)
    ensures v.Undefined? <==> !(i < |row| && Trim(row[i]) != "")
    ensures v.Undefined? || v.Num? || v.Bool? || v.Str?
  {
    if i < |row| && Trim(row[i]) != "" then
      TrimIdempotent(row[i]);
      Coerce(header, Trim(row[i]))
    else Undefined
  }

  /** Column `i` is stored: its cell is present and non-blank and its
      header is one of the selected fields. */
  predicate Stored(f: CsvFile, row: seq<string>, i: nat) {
    i < |f.headers| && i < |row| && Trim(row[i]) != "" && f.headers[i] in f.selectedFields
  }

  function DataFlags(f: CsvFile, row: seq<string>): (keep: seq<bool>)
    ensures |keep| == |f.headers|
    ensures forall i :: 0 <= i < |f.headers| ==> keep[i] == Stored(f, row, i)
  {
    seq(|f.headers|, i requires 0 <= i < |f.headers| => Stored(f, row, i))
  }

  /** The value of every column, in order. */
  function DataValues(headers: seq<string>, row: seq<string>): (vs: seq<Value>)
    ensures |vs| == |headers|
  {
    seq(|headers|, i requires 0 <= i < |headers| => CellValue(headers[i], row, i))
  }

  lemma DataValuesAt(headers: seq<string>, row: seq<string>, i: nat)
    requires i < |headers|
    ensures DataValues(headers, row)[i] == CellValue(headers[i], row, i)
  {
  }

  /** A value a stored column can hold. */
  predicate Defined(v: Value) {
    v.Num? || v.Bool? || v.Str?
  }

  /** `contractData`: for each header in order, the typed value of its
      cell when the column is stored; a header that repeats keeps the
      value of its last stored column. */
  function ContractData(f: CsvFile, row: seq<string>): (data: map<string, Value>)
    ensures forall i :: 0 <= i < |f.headers| && Stored(f, row, i) ==> f.headers[i] in data
    ensures forall k :: k in data ==> k in f.selectedFields
    ensures forall k :: k in data ==> Defined(data[k])
    ensures forall i :: Seqs.IsLastKept(f.headers, DataFlags(f, row), i) ==>
              data[f.headers[i]] == CellValue(f.headers[i], row, i)
  {
    var keep := DataFlags(f, row);
    var vals := DataValues(f.headers, row);
    var data := Seqs.LastWins(f.headers, vals, keep);
    forall i | 0 <= i < |f.headers| && keep[i] ensures Defined(vals[i]) {
      DataValuesAt(f.headers, row, i);
    }
    Seqs.LastWinsValues(f.headers, vals, keep, Defined);
    forall k | k in data ensures k in f.selectedFields {
      var i :| 0 <= i < |f.headers| && keep[i] && f.headers[i] == k;
    }
    forall i | Seqs.IsLastKept(f.headers, keep, i) ensures data[f.headers[i]] == CellValue(f.headers[i], row, i) {
      DataValuesAt(f.headers, row, i);
    }
    data
  }

  /** `contractData[key]`. */
  function DataGet(data: map<string, Value>, key: string): Value {
    if key in data then data[key] else Undefined
  }

  /** `contractData[findField(headers, standard) || '']`. */
  function StandardValue(f: CsvFile, data: map<string, Value>, standard: string): Value {
    DataGet(data, FindField(f.headers, standard).GetOr(""))
  }

  /** The area code of a contract row: the `OmradeKode` value when truthy,
      else the value of the column whose normal form is OMRADEKODE. */
  function AreaCodeOf(f: CsvFile, data: map<string, Value>): (code: Value)
    ensures Truthy(DataGet(data, "OmradeKode")) ==> code == DataGet(data, "OmradeKode")
    ensures !Truthy(DataGet(data, "OmradeKode")) ==>
              code == DataGet(data, FindField(f.headers, AREA_CODE).GetOr(""))
  {
    Or(DataGet(data, "OmradeKode"), StandardValue(f, data, AREA_CODE))
  }

  /** `(needs || '').split(';').filter(Boolean).map(n => n.trim())`:
      text splits into its non-empty pieces, each trimmed; a number or
      `true` has no `split` and throws. */
  function ValidNeeds(needs: Value): (r: Result<seq<string>, JsError>)
    requires needs.Str? || needs.Num? || needs.Bool?
    ensures r.Ok? <==> needs.Str?
    ensures r.Ok? ==> |r.value| == |Seqs.Filter(Split(needs.s, ';'), NonEmpty)|
    ensures r.Ok? ==> forall k :: 0 <= k < |r.value| ==>
              r.value[k] == Trim(Seqs.Filter(Split(needs.s, ';'), NonEmpty)[k])
  {
    if needs.Str? then
      var pieces := Seqs.Filter(Split(needs.s, ';'), NonEmpty);
      Ok(TrimAll(pieces))
    else Err(TypeError)
  }

  /** Needs written as a `;`-separated list of trimmed, non-empty names
      come back as that list. */
  lemma ValidNeedsOfJoined(needs: seq<string>)
    requires |needs| > 0
    requires forall k :: 0 <= k < |needs| ==> needs[k] != "" && ';' !in needs[k] && Trim(needs[k]) == needs[k]
    ensures ValidNeeds(Str(Join(needs, ';'))) == Ok(needs)
  {
    var r := ValidNeeds(Str(Join(needs, ';')));
    assert Split(Join(needs, ';'), ';') == needs by {
      SplitJoin(needs, ';');
    }
    assert Seqs.Filter(needs, NonEmpty) == needs by {
      Seqs.FilterAll(needs, NonEmpty);
    }
    assert r.value == needs;
  }

  /** A contract of the output, before it is written as JSON. */
  datatype Contract = Contract(
    id: string,
    costPerKm: Value,
    startupCost: Value,
    minimumCost: Value,
    areaCode: Value,
    kind: Value,
    validTransport: Value,
    validNeeds: seq<string>,
    office: string,
    transporter: string,
    start: StartLocation)

  /** The contract of one row, `None` when the row has no truthy area code. */
  function AssembleContract(f: CsvFile, row: seq<string>, areas: map<string, AreaInfo>,
                            starts: map<string, StartLocation>): (r: Result<Option<Contract>, JsError>)
    ensures var code := AreaCodeOf(f, ContractData(f, row));
            && (r == Ok(None) <==> !Truthy(code))
            && (r.Err? <==> Truthy(code) && !Or(StandardValue(f, ContractData(f, row), NEEDS), Str("")).Str?)
    ensures r.Ok? && r.value.Some? ==>
              var c := r.value.value;
              && Truthy(c.areaCode)
              && c.id == CodeKey(ToStr(c.areaCode))
              && (c.id in areas ==> c.office == areas[c.id].office && c.transporter == areas[c.id].transporter)
              && (c.id !in areas ==> c.office == "" && c.transporter == "")
              && (c.id in starts ==> c.start == starts[c.id])
              && (c.id !in starts ==> c.start == StartLocation("", "", ""))
  {
    var data := ContractData(f, row);
    var code := AreaCodeOf(f, data);
    if !Truthy(code) then Ok(None)
    else
      var validNeeds := ValidNeeds(Or(StandardValue(f, data, NEEDS), Str("")));
      if validNeeds.Err? then Err(validNeeds.error)
      else
        var c := MakeContract(f, data, code, validNeeds.value, areas, starts);
        assert Truthy(c.areaCode);
        Ok(Some(c))
  }

  /** `v` is `found || dflt`: the value found when truthy, else the
      default. */
  predicate Defaulted(v: Value, found: Value, dflt: Value) {
    (Truthy(found) ==> v == found) && (!Truthy(found) ==> v == dflt)
  }

  /** The contract object of a row with a truthy area code: the cost
      columns default to 0 and the type and transport columns to '' when
      falsy, and the office, transporter and start location are looked up
      under the normalised code. */
  function MakeContract(f: CsvFile, data: map<string, Value>, code: Value, validNeeds: seq<string>,
                        areas: map<string, AreaInfo>, starts: map<string, StartLocation>): (c: Contract)
    ensures c.areaCode == code && c.id == CodeKey(ToStr(code)) && c.id == NormalizeAreaCode(code)
    ensures Defaulted(c.costPerKm, StandardValue(f, data, COST_PER_KM), NumOf(0))
    ensures Defaulted(c.startupCost, StandardValue(f, data, STARTUP_COST), NumOf(0))
    ensures Defaulted(c.minimumCost, StandardValue(f, data, MIN_COST), NumOf(0))
    ensures Defaulted(c.kind, StandardValue(f, data, TYPE), Str(""))
    ensures Defaulted(c.validTransport, StandardValue(f, data, TRANSPORT), Str(""))
    ensures c.validNeeds == validNeeds
    ensures c.id in areas ==> c.office == areas[c.id].office && c.transporter == areas[c.id].transporter
    ensures c.id !in areas ==> c.office == "" && c.transporter == ""
    ensures c.id in starts ==> c.start == starts[c.id]
    ensures c.id !in starts ==> c.start == StartLocation("", "", "")
  {
    var id := NormalizeAreaCode(code);
    NormalizeAreaCodeIsCodeKey(code);
    Contract(
      id,
      Or(StandardValue(f, data, COST_PER_KM), NumOf(0)),
      Or(StandardValue(f, data, STARTUP_COST), NumOf(0)),
      Or(StandardValue(f, data, MIN_COST), NumOf(0)),
      code,
      Or(StandardValue(f, data, TYPE), Str("")),
      Or(StandardValue(f, data, TRANSPORT), Str("")),
      validNeeds,
      if id in areas then areas[id].office else "",
      if id in areas then areas[id].transporter else "",
      if id in starts then starts[id] else StartLocation("", "", ""))
  }

  /** The fields of a row's contract: the area code found in the row and
      its normal form as id, each cost column's value or 0 when falsy, the
      type and transport columns' values or '' when falsy, and the trimmed
      non-empty pieces of the needs column. */
  lemma ContractFields(f: CsvFile, row: seq<string>, areas: map<string, AreaInfo>,
                       starts: map<string, StartLocation>, c: Contract)
    requires AssembleContract(f, row, areas, starts) == Ok(Some(c))
    ensures var data := ContractData(f, row);
            && c.areaCode == AreaCodeOf(f, data)
            && c.id == NormalizeAreaCode(c.areaCode)
            && Defaulted(c.costPerKm, StandardValue(f, data, COST_PER_KM), NumOf(0))
            && Defaulted(c.startupCost, StandardValue(f, data, STARTUP_COST), NumOf(0))
            && Defaulted(c.minimumCost, StandardValue(f, data, MIN_COST), NumOf(0))
            && Defaulted(c.kind, StandardValue(f, data, TYPE), Str(""))
            && Defaulted(c.validTransport, StandardValue(f, data, TRANSPORT), Str(""))
            && ValidNeeds(Or(StandardValue(f, data, NEEDS), Str(""))) == Ok(c.validNeeds)
  {
    var data := ContractData(f, row);
    var code := AreaCodeOf(f, data);
    var needs := ValidNeeds(Or(StandardValue(f, data, NEEDS), Str("")));
    assert Truthy(code) && needs.Ok?;
    assert c == MakeContract(f, data, code, needs.value, areas, starts);
  }

  // The whole contract table

  /** The outcome of every row, in row order. */
  function RowResults(f: CsvFile, rows: seq<seq<string>>, areas: map<string, AreaInfo>,
                      starts: map<string, StartLocation>): (rs: seq<Result<Option<Contract>, JsError>>)
    ensures |rs| == |rows|
  {
    seq(|rows|, i requires 0 <= i < |rows| => AssembleContract(f, rows[i], areas, starts))
  }

  /** `Promise.all`: every value in order when every outcome is a value,
      else the error of the first outcome that is one. */
  function AllOk<T>(rs: seq<Result<T, JsError>>): (r: Result<seq<T>, JsError>)
    ensures r.Ok? <==> forall i :: 0 <= i < |rs| ==> rs[i].Ok?
    ensures r.Ok? ==> |r.value| == |rs| && forall i :: 0 <= i < |rs| ==> r.value[i] == rs[i].value
    ensures r.Err? ==> exists i :: 0 <= i < |rs| && rs[i] == Err(r.error) && forall j :: 0 <= j < i ==> rs[j].Ok?
  {
    if |rs| == 0 then Ok([])
    else if rs[0].Err? then Err(rs[0].error)
    else
      var rest := AllOk(rs[1..]);
      if rest.Err? then
        var i :| 0 <= i < |rs[1..]| && rs[1..][i] == Err(rest.error) && forall j :: 0 <= j < i ==> rs[1..][j].Ok?;
        assert rs[i + 1] == Err(rest.error) && forall j :: 0 <= j < i + 1 ==> rs[j].Ok?;
        Err(rest.error)
      else
        assert forall i :: 1 <= i < |rs| ==> rs[i] == rs[1..][i - 1];
        Ok([rs[0].value] + rest.value)
  }

  /** The present entries, in order (the `filter` on `null`). */
  function Somes<T>(xs: seq<Option<T>>): (r: seq<T>)
    ensures |r| <= |xs|
    ensures forall i :: 0 <= i < |xs| && xs[i].Some? ==> xs[i].value in r
    ensures forall k :: 0 <= k < |r| ==> Some(r[k]) in xs
  {
    if |xs| == 0 then []
    else
      var rest := Somes(xs[1..]);
      assert forall k :: 0 <= k < |rest| ==> Some(rest[k]) in xs by {
        forall k | 0 <= k < |rest| ensures Some(rest[k]) in xs {
          assert Some(rest[k]) in xs[1..];
        }
      }
      if xs[0].Some? then [xs[0].value] + rest else rest
  }

  /** Keeping the present entries commutes with concatenation, so the
      contracts come out in the order of their rows. */
  lemma {:induction false} SomesAppend<T>(a: seq<Option<T>>, b: seq<Option<T>>)
    ensures Somes(a + b) == Somes(a) + Somes(b)
  {
    if |a| > 0 {
      assert (a + b)[0] == a[0];
      assert (a + b)[1..] == a[1..] + b;
      SomesAppend(a[1..], b);
    } else {
      assert a + b == b;
    }
  }

  /** The number of present entries. */
  lemma {:induction false} SomesCount<T>(xs: seq<Option<T>>)
    ensures |Somes(xs)| == Seqs.CountIf(xs, (o: Option<T>) => o.Some?)
  {
    if |xs| > 0 {
      SomesCount(xs[1..]);
    }
  }

  /** Two lists that agree position by position on two tests have as many
      entries passing each. */
  lemma {:induction false} CountIfAligned<A, B>(a: seq<A>, b: seq<B>, p: A -> bool, q: B -> bool)
    requires |a| == |b|
    requires forall i :: 0 <= i < |a| ==> (p(a[i]) <==> q(b[i]))
    ensures Seqs.CountIf(a, p) == Seqs.CountIf(b, q)
  {
    if |a| > 0 {
      assert p(a[0]) <==> q(b[0]);
      CountIfAligned(a[1..], b[1..], p, q);
    }
  }

  /** The row has a truthy area code, so it becomes a contract. */
  predicate HasCode(f: CsvFile, row: seq<string>) {
    Truthy(AreaCodeOf(f, ContractData(f, row)))
  }

  /** A row's outcome, when not an error, holds a contract exactly when the
      row has a truthy area code. */
  lemma AssembleSome(f: CsvFile, row: seq<string>, areas: map<string, AreaInfo>,
                     starts: map<string, StartLocation>)
    requires AssembleContract(f, row, areas, starts).Ok?
    ensures AssembleContract(f, row, areas, starts).value.Some? <==> HasCode(f, row)
  {
  }

  /** The contracts of a list of rows: one per row with a truthy area code. */
  lemma RowsCount(f: CsvFile, rows: seq<seq<string>>, areas: map<string, AreaInfo>,
                  starts: map<string, StartLocation>)
    requires AllOk(RowResults(f, rows, areas, starts)).Ok?
    ensures |Somes(AllOk(RowResults(f, rows, areas, starts)).value)|
            == Seqs.CountIf(rows, (row: seq<string>) => HasCode(f, row))
  {
    var rs := RowResults(f, rows, areas, starts);
    var all := AllOk(rs).value;
    SomesCount(all);
    forall i | 0 <= i < |all| ensures all[i].Some? <==> HasCode(f, rows[i]) {
      assert rs[i] == AssembleContract(f, rows[i], areas, starts);
      AssembleSome(f, rows[i], areas, starts);
    }
    CountIfAligned(all, rows, (o: Option<Contract>) => o.Some?, (row: seq<string>) => HasCode(f, row));
  }

  /** Row accounting: the contract list has one contract per non-blank row
      of the contract table with a truthy area code, and a row without one
      is dropped. */
  lemma ContractCount(files: seq<CsvFile>, f: CsvFile)
    requires Contracts(files, f).Ok?
    ensures |Contracts(files, f).value|
            == Seqs.CountIf(Seqs.Filter(f.content, HasContent), (row: seq<string>) => HasCode(f, row))
  {
    RowsCount(f, Seqs.Filter(f.content, HasContent), AreaInfos(FindFile(files, AREA_FILE)),
              StartLocations(FindFile(files, START_FILE)));
  }

  /** Every contract made from a list of rows is the contract of one of
      them. */
  lemma RowsSource(f: CsvFile, rows: seq<seq<string>>, areas: map<string, AreaInfo>,
                   starts: map<string, StartLocation>, c: Contract)
    requires AllOk(RowResults(f, rows, areas, starts)).Ok?
    requires c in Somes(AllOk(RowResults(f, rows, areas, starts)).value)
    ensures exists i :: 0 <= i < |rows| && AssembleContract(f, rows[i], areas, starts) == Ok(Some(c))
  {
    var rs := RowResults(f, rows, areas, starts);
    var i := OkSource(rs, c);
    assert rs[i] == AssembleContract(f, rows[i], areas, starts);
  }

  /** A present entry of the values of all-successful outcomes comes from
      one of the outcomes. */
  lemma OkSource<T>(rs: seq<Result<Option<T>, JsError>>, c: T) returns (i: nat)
    requires AllOk(rs).Ok?
    requires c in Somes(AllOk(rs).value)
    ensures i < |rs| && rs[i] == Ok(Some(c))
  {
    var all := AllOk(rs).value;
    var k :| 0 <= k < |Somes(all)| && Somes(all)[k] == c;
    assert Some(c) in all;
    i :| 0 <= i < |all| && all[i] == Some(c);
  }

  /** Every contract is the contract of some non-blank row of the contract
      table, joined with the lookup tables of that upload. */
  lemma ContractsFromRows(files: seq<CsvFile>, f: CsvFile, c: Contract)
    requires Contracts(files, f).Ok? && c in Contracts(files, f).value
    ensures exists row :: row in f.content && HasContent(row)
              && AssembleContract(f, row, AreaInfos(FindFile(files, AREA_FILE)),
                                  StartLocations(FindFile(files, START_FILE))) == Ok(Some(c))
  {
    var areas := AreaInfos(FindFile(files, AREA_FILE));
    var starts := StartLocations(FindFile(files, START_FILE));
    var rows := Seqs.Filter(f.content, HasContent);
    RowsSource(f, rows, areas, starts, c);
    var i :| 0 <= i < |rows| && AssembleContract(f, rows[i], areas, starts) == Ok(Some(c));
    assert rows[i] in f.content && HasContent(rows[i]);
  }

  /** With only the contract table uploaded the join degrades: every
      contract has an empty office, transporter and start location. */
  lemma OnlyContractTable(files: seq<CsvFile>, f: CsvFile)
    requires FindFile(files, AREA_FILE).None? && FindFile(files, START_FILE).None?
    requires Contracts(files, f).Ok?
    ensures forall c :: c in Contracts(files, f).value ==>
              c.office == "" && c.transporter == "" && c.start == StartLocation("", "", "")
  {
    forall c | c in Contracts(files, f).value
      ensures c.office == "" && c.transporter == "" && c.start == StartLocation("", "", "")
    {
      ContractsFromRows(files, f, c);
    }
  }

  /** The JSON object of a contract, with its fields in the order the
      application writes them. */
  function ContractValue(c: Contract): (v: Value)
    ensures v.Obj? && Keys(v.fields) == CONTRACT_KEYS
  {
    Obj([
      Field("id", Str(c.id)),
      Field("hasPaidReturn", Bool(false)),
      Field("cost", CostValue(c)),
      Field("nodes", Arr([NodeValue(c)])),
      Field("resourceCount", NumOf(0)),
      Field("type", c.kind),
      Field("validTransport", c.validTransport),
      Field("validNeeds", Arr(seq(|c.validNeeds|, k requires 0 <= k < |c.validNeeds| => Str(c.validNeeds[k])))),
      Field("avtaleKontor", Str(c.office)),
      Field("avtaleNavn", Str(c.transporter)),
      Field("startLocation", StartValue(c))])
  }

  /** The `cost` object of a written contract. */
  function CostValue(c: Contract): Value
  {
    Obj([
      Field("costPerKm", c.costPerKm),
      Field("costPerWaitedMinute", NumOf(0)),
      Field("startupCost", c.startupCost),
      Field("minimumCost", c.minimumCost)])
  }

  /** The one node of a written contract. */
  function NodeValue(c: Contract): Value
  {
    Obj([
      Field("id", c.areaCode),
      Field("postalCodes", Obj([Field("pickup", Arr([])), Field("delivery", Arr([]))]))])
  }

  /** The `startLocation` object of a written contract. */
  function StartValue(c: Contract): Value
  {
    Obj([
      Field("postalCode", Str(c.start.postalCode)),
      Field("city", Str(c.start.city)),
      Field("municipality", Str(c.start.municipality))])
  }

  /** The keys of a contract object are distinct. */
  lemma ContractKeysDistinct()
    ensures Seqs.NoDups(CONTRACT_KEYS)
  {
  }

  /** A contract object's field is read under its key. */
  lemma ReadContractKey(c: Contract, i: nat)
    requires i < |CONTRACT_KEYS|
    ensures Prop(ContractValue(c), CONTRACT_KEYS[i]) == Ok(ContractValue(c).fields[i].val)
  {
    var fs := ContractValue(c).fields;
    assert Keys(fs) == CONTRACT_KEYS;
    ContractKeysDistinct();
    GetFirst(fs, i, CONTRACT_KEYS[i]);
  }

  // One read of a written contract object each; the grouped lemmas below
  // collect them.

  lemma ReadId(c: Contract)
    ensures CustomFields.GetAt(ContractValue(c), ["id"]) == Ok(Str(c.id))
  {
    ReadContractKey(c, 0);
    assert CONTRACT_KEYS[0] == "id";
    CustomFields.GetAtStep(ContractValue(c), "id", [], Str(c.id));
    assert ["id"] == ["id"] + [];
  }

  lemma ReadPaidReturn(c: Contract)
    ensures CustomFields.GetAt(ContractValue(c), ["hasPaidReturn"]) == Ok(Bool(false))
  {
    ReadContractKey(c, 1);
    assert CONTRACT_KEYS[1] == "hasPaidReturn";
    CustomFields.GetAtStep(ContractValue(c), "hasPaidReturn", [], Bool(false));
    assert ["hasPaidReturn"] == ["hasPaidReturn"] + [];
  }

  lemma ReadResourceCount(c: Contract)
    ensures CustomFields.GetAt(ContractValue(c), ["resourceCount"]) == Ok(NumOf(0))
  {
    ReadContractKey(c, 4);
    assert CONTRACT_KEYS[4] == "resourceCount";
    CustomFields.GetAtStep(ContractValue(c), "resourceCount", [], NumOf(0));
    assert ["resourceCount"] == ["resourceCount"] + [];
  }

  lemma ReadType(c: Contract)
    ensures CustomFields.GetAt(ContractValue(c), ["type"]) == Ok(c.kind)
  {
    ReadContractKey(c, 5);
    assert CONTRACT_KEYS[5] == "type";
    CustomFields.GetAtStep(ContractValue(c), "type", [], c.kind);
    assert ["type"] == ["type"] + [];
  }

  lemma ReadTransport(c: Contract)
    ensures CustomFields.GetAt(ContractValue(c), ["validTransport"]) == Ok(c.validTransport)
  {
    ReadContractKey(c, 6);
    assert CONTRACT_KEYS[6] == "validTransport";
    CustomFields.GetAtStep(ContractValue(c), "validTransport", [], c.validTransport);
    assert ["validTransport"] == ["validTransport"] + [];
  }

  lemma ReadOffice(c: Contract)
    ensures CustomFields.GetAt(ContractValue(c), ["avtaleKontor"]) == Ok(Str(c.office))
  {
    ReadContractKey(c, 8);
    assert CONTRACT_KEYS[8] == "avtaleKontor";
    CustomFields.GetAtStep(ContractValue(c), "avtaleKontor", [], Str(c.office));
    assert ["avtaleKontor"] == ["avtaleKontor"] + [];
  }

  lemma ReadTransporter(c: Contract)
    ensures CustomFields.GetAt(ContractValue(c), ["avtaleNavn"]) == Ok(Str(c.transporter))
  {
    ReadContractKey(c, 9);
    assert CONTRACT_KEYS[9] == "avtaleNavn";
    CustomFields.GetAtStep(ContractValue(c), "avtaleNavn", [], Str(c.transporter));
    assert ["avtaleNavn"] == ["avtaleNavn"] + [];
  }

  lemma ReadCostObject(c: Contract)
    ensures Prop(ContractValue(c), "cost") == Ok(CostValue(c))
  {
    ReadContractKey(c, 2);
    assert CONTRACT_KEYS[2] == "cost";
  }

  lemma ReadNodes(c: Contract)
    ensures Prop(ContractValue(c), "nodes") == Ok(Arr([NodeValue(c)]))
  {
    ReadContractKey(c, 3);
    assert CONTRACT_KEYS[3] == "nodes";
  }

  lemma ReadStartObject(c: Contract)
    ensures Prop(ContractValue(c), "startLocation") == Ok(StartValue(c))
  {
    ReadContractKey(c, 10);
    assert CONTRACT_KEYS[10] == "startLocation";
  }

  lemma ReadNeeds(c: Contract)
    ensures Prop(ContractValue(c), "validNeeds") == Ok(ContractValue(c).fields[7].val)
  {
    ReadContractKey(c, 7);
    assert CONTRACT_KEYS[7] == "validNeeds";
  }

  lemma ReadNeedsLength(c: Contract)
    ensures CustomFields.GetAt(ContractValue(c), ["validNeeds", "length"]) == Ok(NumOf(|c.validNeeds|))
  {
    var needs := ContractValue(c).fields[7].val;
    ReadNeeds(c);
    CustomFields.GetAtStep(ContractValue(c), "validNeeds", ["length"], needs);
    CustomFields.GetAtStep(needs, "length", [], NumOf(|c.validNeeds|));
    assert ["validNeeds", "length"] == ["validNeeds"] + ["length"];
    assert ["length"] == ["length"] + [];
  }

  lemma CostFieldCostPerKm(c: Contract)
    ensures Prop(CostValue(c), "costPerKm") == Ok(c.costPerKm)
  {
    GetFirst(CostValue(c).fields, 0, "costPerKm");
  }

  lemma ReadCostPerKm(c: Contract)
    ensures CustomFields.GetAt(ContractValue(c), ["cost", "costPerKm"]) == Ok(c.costPerKm)
  {
    ReadCostObject(c);
    CostFieldCostPerKm(c);
    CustomFields.GetAtStep(ContractValue(c), "cost", ["costPerKm"], CostValue(c));
    CustomFields.GetAtStep(CostValue(c), "costPerKm", [], c.costPerKm);
    assert ["cost", "costPerKm"] == ["cost"] + ["costPerKm"];
    assert ["costPerKm"] == ["costPerKm"] + [];
  }

  lemma CostFieldCostPerWaitedMinute(c: Contract)
    ensures Prop(CostValue(c), "costPerWaitedMinute") == Ok(NumOf(0))
  {
    GetFirst(CostValue(c).fields, 1, "costPerWaitedMinute");
  }

  lemma ReadCostPerWaitedMinute(c: Contract)
    ensures CustomFields.GetAt(ContractValue(c), ["cost", "costPerWaitedMinute"]) == Ok(NumOf(0))
  {
    ReadCostObject(c);
    CostFieldCostPerWaitedMinute(c);
    CustomFields.GetAtStep(ContractValue(c), "cost", ["costPerWaitedMinute"], CostValue(c));
    CustomFields.GetAtStep(CostValue(c), "costPerWaitedMinute", [], NumOf(0));
    assert ["cost", "costPerWaitedMinute"] == ["cost"] + ["costPerWaitedMinute"];
    assert ["costPerWaitedMinute"] == ["costPerWaitedMinute"] + [];
  }

  lemma CostFieldStartupCost(c: Contract)
    ensures Prop(CostValue(c), "startupCost") == Ok(c.startupCost)
  {
    GetFirst(CostValue(c).fields, 2, "startupCost");
  }

  lemma ReadStartupCost(c: Contract)
    ensures CustomFields.GetAt(ContractValue(c), ["cost", "startupCost"]) == Ok(c.startupCost)
  {
    ReadCostObject(c);
    CostFieldStartupCost(c);
    CustomFields.GetAtStep(ContractValue(c), "cost", ["startupCost"], CostValue(c));
    CustomFields.GetAtStep(CostValue(c), "startupCost", [], c.startupCost);
    assert ["cost", "startupCost"] == ["cost"] + ["startupCost"];
    assert ["startupCost"] == ["startupCost"] + [];
  }

  lemma CostFieldMinimumCost(c: Contract)
    ensures Prop(CostValue(c), "minimumCost") == Ok(c.minimumCost)
  {
    GetFirst(CostValue(c).fields, 3, "minimumCost");
  }

  lemma ReadMinimumCost(c: Contract)
    ensures CustomFields.GetAt(ContractValue(c), ["cost", "minimumCost"]) == Ok(c.minimumCost)
  {
    ReadCostObject(c);
    CostFieldMinimumCost(c);
    CustomFields.GetAtStep(ContractValue(c), "cost", ["minimumCost"], CostValue(c));
    CustomFields.GetAtStep(CostValue(c), "minimumCost", [], c.minimumCost);
    assert ["cost", "minimumCost"] == ["cost"] + ["minimumCost"];
    assert ["minimumCost"] == ["minimumCost"] + [];
  }

  lemma StartFieldPostalCode(c: Contract)
    ensures Prop(StartValue(c), "postalCode") == Ok(Str(c.start.postalCode))
  {
    GetFirst(StartValue(c).fields, 0, "postalCode");
  }

  lemma ReadStartPostalCode(c: Contract)
    ensures CustomFields.GetAt(ContractValue(c), ["startLocation", "postalCode"]) == Ok(Str(c.start.postalCode))
  {
    ReadStartObject(c);
    StartFieldPostalCode(c);
    CustomFields.GetAtStep(ContractValue(c), "startLocation", ["postalCode"], StartValue(c));
    CustomFields.GetAtStep(StartValue(c), "postalCode", [], Str(c.start.postalCode));
    assert ["startLocation", "postalCode"] == ["startLocation"] + ["postalCode"];
    assert ["postalCode"] == ["postalCode"] + [];
  }

  lemma StartFieldCity(c: Contract)
    ensures Prop(StartValue(c), "city") == Ok(Str(c.start.city))
  {
    GetFirst(StartValue(c).fields, 1, "city");
  }

  lemma ReadStartCity(c: Contract)
    ensures CustomFields.GetAt(ContractValue(c), ["startLocation", "city"]) == Ok(Str(c.start.city))
  {
    ReadStartObject(c);
    StartFieldCity(c);
    CustomFields.GetAtStep(ContractValue(c), "startLocation", ["city"], StartValue(c));
    CustomFields.GetAtStep(StartValue(c), "city", [], Str(c.start.city));
    assert ["startLocation", "city"] == ["startLocation"] + ["city"];
    assert ["city"] == ["city"] + [];
  }

  lemma StartFieldMunicipality(c: Contract)
    ensures Prop(StartValue(c), "municipality") == Ok(Str(c.start.municipality))
  {
    GetFirst(StartValue(c).fields, 2, "municipality");
  }

  lemma ReadStartMunicipality(c: Contract)
    ensures CustomFields.GetAt(ContractValue(c), ["startLocation", "municipality"]) == Ok(Str(c.start.municipality))
  {
    ReadStartObject(c);
    StartFieldMunicipality(c);
    CustomFields.GetAtStep(ContractValue(c), "startLocation", ["municipality"], StartValue(c));
    CustomFields.GetAtStep(StartValue(c), "municipality", [], Str(c.start.municipality));
    assert ["startLocation", "municipality"] == ["startLocation"] + ["municipality"];
    assert ["municipality"] == ["municipality"] + [];
  }

  lemma ReadNodesLength(c: Contract)
    ensures CustomFields.GetAt(ContractValue(c), ["nodes", "length"]) == Ok(NumOf(1))
  {
    ReadNodes(c);
    CustomFields.GetAtStep(ContractValue(c), "nodes", ["length"], Arr([NodeValue(c)]));
    CustomFields.GetAtStep(Arr([NodeValue(c)]), "length", [], NumOf(1));
    assert ["nodes", "length"] == ["nodes"] + ["length"];
    assert ["length"] == ["length"] + [];
  }

  lemma NodesZero(c: Contract)
    ensures Prop(Arr([NodeValue(c)]), "0") == Ok(NodeValue(c))
  {
    assert CanonicalIndex("0") == Some(0);
  }

  /** The one node, read at index 0 of the written nodes. */
  lemma ReadNode(c: Contract, rest: seq<string>)
    ensures CustomFields.GetAt(ContractValue(c), ["nodes", "0"] + rest) == CustomFields.GetAt(NodeValue(c), rest)
  {
    ReadNodes(c);
    NodesZero(c);
    CustomFields.GetAtStep(ContractValue(c), "nodes", ["0"] + rest, Arr([NodeValue(c)]));
    CustomFields.GetAtStep(Arr([NodeValue(c)]), "0", rest, NodeValue(c));
    assert ["nodes", "0"] + rest == ["nodes"] + (["0"] + rest);
  }

  lemma NodeFieldId(c: Contract)
    ensures Prop(NodeValue(c), "id") == Ok(c.areaCode)
  {
    GetFirst(NodeValue(c).fields, 0, "id");
  }

  lemma ReadNodeId(c: Contract)
    ensures CustomFields.GetAt(ContractValue(c), ["nodes", "0", "id"]) == Ok(c.areaCode)
  {
    ReadNode(c, ["id"]);
    NodeFieldId(c);
    CustomFields.GetAtStep(NodeValue(c), "id", [], c.areaCode);
    assert ["nodes", "0", "id"] == ["nodes", "0"] + ["id"];
    assert ["id"] == ["id"] + [];
  }

  lemma NodePostalCodes(c: Contract, k: string)
    requires k == "pickup" || k == "delivery"
    ensures CustomFields.GetAt(NodeValue(c), ["postalCodes", k]) == Ok(Arr([]))
  {
    var pc := NodeValue(c).fields[1].val;
    GetFirst(NodeValue(c).fields, 1, "postalCodes");
    if k == "pickup" { GetFirst(pc.fields, 0, k); } else { GetFirst(pc.fields, 1, k); }
    CustomFields.GetAtStep(NodeValue(c), "postalCodes", [k], pc);
    CustomFields.GetAtStep(pc, k, [], Arr([]));
    assert ["postalCodes", k] == ["postalCodes"] + [k];
    assert [k] == [k] + [];
  }

  lemma ReadNodePickup(c: Contract)
    ensures CustomFields.GetAt(ContractValue(c), ["nodes", "0", "postalCodes", "pickup"]) == Ok(Arr([]))
  {
    ReadNode(c, ["postalCodes", "pickup"]);
    NodePostalCodes(c, "pickup");
    assert ["nodes", "0", "postalCodes", "pickup"] == ["nodes", "0"] + ["postalCodes", "pickup"];
  }

  lemma ReadNodeDelivery(c: Contract)
    ensures CustomFields.GetAt(ContractValue(c), ["nodes", "0", "postalCodes", "delivery"]) == Ok(Arr([]))
  {
    ReadNode(c, ["postalCodes", "delivery"]);
    NodePostalCodes(c, "delivery");
    assert ["nodes", "0", "postalCodes", "delivery"] == ["nodes", "0"] + ["postalCodes", "delivery"];
  }

  /** The written object's own scalar fields: the id, no paid return, no
      resources, the type and transport, the office and transporter. */
  lemma ContractValueReads(c: Contract)
    ensures var v := ContractValue(c);
            && CustomFields.GetAt(v, ["id"]) == Ok(Str(c.id))
            && CustomFields.GetAt(v, ["hasPaidReturn"]) == Ok(Bool(false))
            && CustomFields.GetAt(v, ["resourceCount"]) == Ok(NumOf(0))
            && CustomFields.GetAt(v, ["type"]) == Ok(c.kind)
            && CustomFields.GetAt(v, ["validTransport"]) == Ok(c.validTransport)
            && CustomFields.GetAt(v, ["validNeeds", "length"]) == Ok(NumOf(|c.validNeeds|))
            && CustomFields.GetAt(v, ["avtaleKontor"]) == Ok(Str(c.office))
            && CustomFields.GetAt(v, ["avtaleNavn"]) == Ok(Str(c.transporter))
  {
    ReadId(c); ReadPaidReturn(c); ReadResourceCount(c); ReadType(c);
    ReadTransport(c); ReadNeedsLength(c); ReadOffice(c); ReadTransporter(c);
  }

  /** The written costs: the three costs of the row and no cost per waited
      minute. */
  lemma ContractCostReads(c: Contract)
    ensures var v := ContractValue(c);
            && CustomFields.GetAt(v, ["cost", "costPerKm"]) == Ok(c.costPerKm)
            && CustomFields.GetAt(v, ["cost", "costPerWaitedMinute"]) == Ok(NumOf(0))
            && CustomFields.GetAt(v, ["cost", "startupCost"]) == Ok(c.startupCost)
            && CustomFields.GetAt(v, ["cost", "minimumCost"]) == Ok(c.minimumCost)
  {
    ReadCostPerKm(c); ReadCostPerWaitedMinute(c); ReadStartupCost(c); ReadMinimumCost(c);
  }

  /** The written nodes: exactly one, carrying the area code as found in
      the row and empty pickup and delivery lists. */
  lemma ContractNodeReads(c: Contract)
    ensures var v := ContractValue(c);
            && CustomFields.GetAt(v, ["nodes", "length"]) == Ok(NumOf(1))
            && CustomFields.GetAt(v, ["nodes", "0", "id"]) == Ok(c.areaCode)
            && CustomFields.GetAt(v, ["nodes", "0", "postalCodes", "pickup"]) == Ok(Arr([]))
            && CustomFields.GetAt(v, ["nodes", "0", "postalCodes", "delivery"]) == Ok(Arr([]))
  {
    ReadNodesLength(c); ReadNodeId(c); ReadNodePickup(c); ReadNodeDelivery(c);
  }

  /** The written start location. */
  lemma ContractStartReads(c: Contract)
    ensures var v := ContractValue(c);
            && CustomFields.GetAt(v, ["startLocation", "postalCode"]) == Ok(Str(c.start.postalCode))
            && CustomFields.GetAt(v, ["startLocation", "city"]) == Ok(Str(c.start.city))
            && CustomFields.GetAt(v, ["startLocation", "municipality"]) == Ok(Str(c.start.municipality))
  {
    ReadStartPostalCode(c); ReadStartCity(c); ReadStartMunicipality(c);
  }

  lemma NeedsItem(c: Contract, k: nat)
    requires k < |c.validNeeds|
    ensures Prop(ContractValue(c).fields[7].val, NatToString(k)) == Ok(Str(c.validNeeds[k]))
  {
    CanonicalIndexOfNat(k);
  }

  /** Each need is written, in order, as a string element of `validNeeds`. */
  lemma ContractValueNeeds(c: Contract, k: nat)
    requires k < |c.validNeeds|
    ensures CustomFields.GetAt(ContractValue(c), ["validNeeds", NatToString(k)]) == Ok(Str(c.validNeeds[k]))
  {
    var needs := ContractValue(c).fields[7].val;
    ReadNeeds(c);
    NeedsItem(c, k);
    CustomFields.GetAtStep(ContractValue(c), "validNeeds", [NatToString(k)], needs);
    CustomFields.GetAtStep(needs, NatToString(k), [], Str(c.validNeeds[k]));
    assert ["validNeeds", NatToString(k)] == ["validNeeds"] + [NatToString(k)];
    assert [NatToString(k)] == [NatToString(k)] + [];
  }

  const CONTRACT_KEYS: seq<string> := ["id", "hasPaidReturn", "cost", "nodes", "resourceCount", "type",
    "validTransport", "validNeeds", "avtaleKontor", "avtaleNavn", "startLocation"]

  function ContractValues(cs: seq<Contract>): (vs: seq<Value>)
    ensures |vs| == |cs|
    ensures forall k :: 0 <= k < |cs| ==> vs[k] == ContractValue(cs[k])
  {
    seq(|cs|, k requires 0 <= k < |cs| => ContractValue(cs[k]))
  }

  // The generation

  datatype GenError =
    | MissingContractFile
    | Thrown(e: JsError)
    | NoValidContracts

  /** The contracts of the contract table joined with the lookup tables,
      before the custom fields. */
  function Contracts(files: seq<CsvFile>, f: CsvFile): Result<seq<Contract>, JsError> {
    var areas := AreaInfos(FindFile(files, AREA_FILE));
    var starts := StartLocations(FindFile(files, START_FILE));
    var rows := Seqs.Filter(f.content, HasContent);
    var all :- AllOk(RowResults(f, rows, areas, starts));
    Ok(Somes(all))
  }

  /** `handleGenerateJSON` up to the saving of the file: the result object
      `{contracts}` with the custom fields applied, or the reason it is
      not produced. */
  function GenerateJson(files: seq<CsvFile>, custom: seq<CustomFields.CustomField>): (r: Result<Value, GenError>)
    ensures FindFile(files, CONTRACT_FILE).None? ==> r == Err(MissingContractFile)
    ensures r.Ok? ==> r.value.Obj?
    ensures r.Ok? ==> var cs := Get(r.value.fields, "contracts");
                      cs.Some? && Truthy(cs.value) && cs.value != Arr([])
  {
    match FindFile(files, CONTRACT_FILE)
    case None => Err(MissingContractFile)
    case Some(f) => Finish(Contracts(files, f), custom)
  }

  /** The contracts wrapped as `{contracts}`, the custom fields applied,
      and the result refused when it holds no contract. */
  function Finish(contracts: Result<seq<Contract>, JsError>, custom: seq<CustomFields.CustomField>): (r: Result<Value, GenError>)
    ensures r.Ok? ==> r.value.Obj?
    ensures r.Ok? ==> var cs := Get(r.value.fields, "contracts");
                      cs.Some? && Truthy(cs.value) && cs.value != Arr([])
  {
    match contracts
    case Err(e) => Err(Thrown(e))
    case Ok(cs) =>
      var result := Obj([Field("contracts", Arr(ContractValues(cs)))]);
      match CustomFields.ApplyCustomFields(result, custom)
      case Err(e) => Err(Thrown(e))
      case Ok(final) =>
        var contracts := Get(final.fields, "contracts").GetOr(Undefined);
        if !Truthy(contracts) || contracts == Arr([]) then Err(NoValidContracts)
        else Ok(final)
  }

  /** Without custom fields the output is exactly the contracts of the
      rows that have an area code, in row order, and it is refused when
      there is none. */
  lemma GenerateWithoutCustomFields(files: seq<CsvFile>)
    requires FindFile(files, CONTRACT_FILE).Some?
    ensures var f := FindFile(files, CONTRACT_FILE).value;
            var cs := Contracts(files, f);
            var r := GenerateJson(files, []);
            && (cs.Err? ==> r == Err(Thrown(cs.error)))
            && (cs.Ok? && |cs.value| == 0 ==> r == Err(NoValidContracts))
            && (cs.Ok? && |cs.value| > 0 ==> r == Ok(Obj([Field("contracts", Arr(ContractValues(cs.value)))])))
  {
    FinishWithout(Contracts(files, FindFile(files, CONTRACT_FILE).value));
  }

  lemma FinishWithout(cs: Result<seq<Contract>, JsError>)
    ensures var r := Finish(cs, []);
            && (cs.Err? ==> r == Err(Thrown(cs.error)))
            && (cs.Ok? && |cs.value| == 0 ==> r == Err(NoValidContracts))
            && (cs.Ok? && |cs.value| > 0 ==> r == Ok(Obj([Field("contracts", Arr(ContractValues(cs.value)))])))
  {
    if cs.Ok? {
      var contracts := Arr(ContractValues(cs.value));
      var result := Obj([Field("contracts", contracts)]);
      assert CustomFields.ApplyCustomFields(result, []) == Ok(result);
      assert Get(result.fields, "contracts") == Some(contracts);
      assert |cs.value| == 0 <==> contracts == Arr([]);
    }
  }
}

=== FILE: search.dfy ===
/** The contract search and the "distinct values" statistics that the two
    server actions (app/actions/contract-actions.ts and
    frontend/app/actions/contract-actions.ts), the IndexedDB layer
    (app/lib/db.ts) and both contract managers spell out alike. A contract
    is the plain object the application stores. */
module Search {
  import opened Wrappers
  import opened Text
  import opened Json
  import opened Seqs
  import opened Distinct

  type Contract = seq<Field>

  /** The optional filters of a search; `None` is a missing property. */
  datatype Filters = Filters(avtaleKontor: Option<string>, kind: Option<string>, postalCode: Option<string>)

  /** `if (filters.x)`: a filter applies only when it is a non-empty string. */
  predicate Active(f: Option<string>) {
    f.Some? && |f.value| > 0
  }

  /** No filter applies. */
  predicate Unfiltered(f: Filters) {
    !Active(f.avtaleKontor) && !Active(f.kind) && !Active(f.postalCode)
  }

  /** `c.key`: `undefined` for a missing property. */
  function At(c: Contract, key: string): Value {
    Get(c, key).GetOr(Undefined)
  }

  /** `c.startLocation?.postalCode`: only an object start location has one. */
  function PostalCodeOf(c: Contract): Value {
    match At(c, "startLocation")
    case Obj(loc) => At(loc, "postalCode")
    case _ => Undefined
  }

  /** `c.startLocation?.postalCode?.includes(pc)`: a string is searched for
      the text and an array for the element; a missing code gives
      `undefined`; numbers, booleans and objects have no `includes` and
      the call throws. */
  function PostalTest(c: Contract, pc: string): (r: Result<bool, JsError>)
    ensures r == Ok(true) <==>
      (PostalCodeOf(c).Str? && Contains(PostalCodeOf(c).s, pc)) || (PostalCodeOf(c).Arr? && Str(pc) in PostalCodeOf(c).items)
    ensures r.Err? <==> !(PostalCodeOf(c).Undefined? || PostalCodeOf(c).Null? || PostalCodeOf(c).Str? || PostalCodeOf(c).Arr?)
  {
    match PostalCodeOf(c)
    case Undefined => Ok(false)
    case Null => Ok(false)
    case Str(s) => Ok(Contains(s, pc))
    case Arr(items) => Ok(Str(pc) in items)
    case _ => Err(TypeError)
  }

  /** What each filter, and the search term, asks of one contract. */
  predicate KontorOk(f: Filters, c: Contract) {
    !Active(f.avtaleKontor) || At(c, "avtaleKontor") == Str(f.avtaleKontor.value)
  }

  predicate TypeOk(f: Filters, c: Contract) {
    !Active(f.kind) || At(c, "type") == Str(f.kind.value)
  }

  predicate PostalOk(f: Filters, c: Contract) {
    !Active(f.postalCode) || PostalTest(c, f.postalCode.value) == Ok(true)
  }

  predicate TermOk(term: string, c: Contract) {
    |term| == 0 || AnyValueMatches(c, term)
  }

  /** The postal filter throws on this contract. */
  predicate PostalThrows(f: Filters, c: Contract) {
    Active(f.postalCode) && PostalTest(c, f.postalCode.value).Err?
  }

  /** A contract the whole search keeps: every filter and the term at once. */
  predicate Keeps(f: Filters, term: string, c: Contract) {
    KontorOk(f, c) && TypeOk(f, c) && PostalOk(f, c) && TermOk(term, c)
  }

  /** Some contract of the list has a postal code without `includes`. */
  predicate AnyThrows(cs: seq<Contract>, pc: string) {
    exists i :: 0 <= i < |cs| && PostalTest(cs[i], pc).Err?
  }

  /** The filters one after another as the source applies them. */
  function ApplyFilters(cs: seq<Contract>, f: Filters): (r: Result<seq<Contract>, JsError>)
    ensures r.Ok? ==> IsSubseq(r.value, cs)
    ensures Unfiltered(f) ==> r == Ok(cs)
    ensures r.Err? ==> r.error == TypeError && Active(f.postalCode)
  {
    var k := f.avtaleKontor.GetOr("");
    var t := f.kind.GetOr("");
    var pc := f.postalCode.GetOr("");
    var a := if Active(f.avtaleKontor) then Filter(cs, c => At(c, "avtaleKontor") == Str(k)) else cs;
    var b := if Active(f.kind) then Filter(a, c => At(c, "type") == Str(t)) else a;
    FilterIsSubseq(cs, c => At(c, "avtaleKontor") == Str(k));
    FilterIsSubseq(a, c => At(c, "type") == Str(t));
    FilterIsSubseq(b, c => PostalTest(c, pc) == Ok(true));
    IsSubseqRefl(cs);
    IsSubseqRefl(a);
    SubseqTrans(b, a, cs);
    SubseqTrans(Filter(b, c => PostalTest(c, pc) == Ok(true)), b, cs);
    if !Active(f.postalCode) then Ok(b)
    else if AnyThrows(b, pc) then Err(TypeError)
    else Ok(Filter(b, c => PostalTest(c, pc) == Ok(true)))
  }

  /** `if (searchTerm)`: the contracts some top-level value of which matches. */
  function ApplyTerm(cs: seq<Contract>, term: string): seq<Contract> {
    if |term| > 0 then Filter(cs, c => AnyValueMatches(c, term)) else cs
  }

  /** `searchContracts(contracts, searchTerm, filters)` of the server actions. */
  function SearchContracts(cs: seq<Contract>, term: string, f: Filters): (r: Result<seq<Contract>, JsError>)
    ensures r.Ok? ==> IsSubseq(r.value, cs)
    ensures r.Ok? ==> forall i :: 0 <= i < |r.value| ==> TermOk(term, r.value[i])
    ensures Unfiltered(f) && term == "" ==> r == Ok(cs)
  {
    if ApplyFilters(cs, f).Ok? then
      var filtered := ApplyFilters(cs, f).value;
      FilterIsSubseq(filtered, c => AnyValueMatches(c, term));
      IsSubseqRefl(filtered);
      SubseqTrans(ApplyTerm(filtered, term), filtered, cs);
      Ok(ApplyTerm(filtered, term))
    else
      Err(ApplyFilters(cs, f).error)
  }

  /** The contracts the kontor and type filters let through. */
  lemma KontorTypeStage(cs: seq<Contract>, f: Filters)
    ensures var k := f.avtaleKontor.GetOr("");
      var t := f.kind.GetOr("");
      var a := if Active(f.avtaleKontor) then Filter(cs, c => At(c, "avtaleKontor") == Str(k)) else cs;
      var b := if Active(f.kind) then Filter(a, c => At(c, "type") == Str(t)) else a;
      b == Filter(cs, c => KontorOk(f, c) && TypeOk(f, c))
  {
    var k := f.avtaleKontor.GetOr("");
    var t := f.kind.GetOr("");
    var pk := c => At(c, "avtaleKontor") == Str(k);
    var pt := c => At(c, "type") == Str(t);
    var both := c => KontorOk(f, c) && TypeOk(f, c);
    var a := if Active(f.avtaleKontor) then Filter(cs, pk) else cs;
    if Active(f.avtaleKontor) {
      FilterExt(cs, pk, c => KontorOk(f, c));
    } else {
      FilterAll(cs, c => KontorOk(f, c));
    }
    assert a == Filter(cs, c => KontorOk(f, c));
    if Active(f.kind) {
      FilterExt(a, pt, c => TypeOk(f, c));
    } else {
      FilterAll(a, c => TypeOk(f, c));
    }
    FilterConj(cs, c => KontorOk(f, c), c => TypeOk(f, c), both);
  }

  /** The search throws exactly when the postal filter meets, among the
      contracts the other filters keep, a postal code that is neither a
      string, an array nor missing. */
  lemma SearchThrows(cs: seq<Contract>, term: string, f: Filters)
    ensures SearchContracts(cs, term, f).Err? <==>
      exists i :: 0 <= i < |cs| && KontorOk(f, cs[i]) && TypeOk(f, cs[i]) && PostalThrows(f, cs[i])
  {
    var b := Filter(cs, c => KontorOk(f, c) && TypeOk(f, c));
    KontorTypeStage(cs, f);
    var pc := f.postalCode.GetOr("");
    assert SearchContracts(cs, term, f).Err? <==> Active(f.postalCode) && AnyThrows(b, pc);
    AnyThrowsFiltered(cs, f, b);
  }

  lemma AnyThrowsFiltered(cs: seq<Contract>, f: Filters, b: seq<Contract>)
    requires b == Filter(cs, c => KontorOk(f, c) && TypeOk(f, c))
    ensures Active(f.postalCode) && AnyThrows(b, f.postalCode.GetOr("")) <==>
      exists i :: 0 <= i < |cs| && KontorOk(f, cs[i]) && TypeOk(f, cs[i]) && PostalThrows(f, cs[i])
  {
    if Active(f.postalCode) {
      if AnyThrows(b, f.postalCode.GetOr("")) {
        ThrowerFromFiltered(cs, f, b);
      } else {
        NoThrowerInFiltered(cs, f, b);
      }
    }
  }

  lemma ThrowerFromFiltered(cs: seq<Contract>, f: Filters, b: seq<Contract>)
    requires b == Filter(cs, c => KontorOk(f, c) && TypeOk(f, c))
    requires Active(f.postalCode) && AnyThrows(b, f.postalCode.GetOr(""))
    ensures exists i :: 0 <= i < |cs| && KontorOk(f, cs[i]) && TypeOk(f, cs[i]) && PostalThrows(f, cs[i])
  {
    var i :| 0 <= i < |b| && PostalTest(b[i], f.postalCode.GetOr("")).Err?;
    var c := b[i];
    assert KontorOk(f, c) && TypeOk(f, c) && PostalThrows(f, c);
    assert c in cs;
    var j :| 0 <= j < |cs| && cs[j] == c;
  }

  lemma NoThrowerInFiltered(cs: seq<Contract>, f: Filters, b: seq<Contract>)
    requires b == Filter(cs, c => KontorOk(f, c) && TypeOk(f, c))
    requires Active(f.postalCode) && !AnyThrows(b, f.postalCode.GetOr(""))
    ensures forall i :: 0 <= i < |cs| && KontorOk(f, cs[i]) && TypeOk(f, cs[i]) ==> !PostalThrows(f, cs[i])
  {
    forall i | 0 <= i < |cs| && KontorOk(f, cs[i]) && TypeOk(f, cs[i])
      ensures !PostalThrows(f, cs[i])
    {
      var k :| 0 <= k < |b| && b[k] == cs[i];
      assert !PostalTest(b[k], f.postalCode.GetOr("")).Err?;
    }
  }

  /** The steps of the search together are one filter by the conjunction
      of all conditions; so the order of the filters does not matter and
      the result keeps the input order. */
  lemma SearchIsOneFilter(cs: seq<Contract>, term: string, f: Filters)
    requires SearchContracts(cs, term, f).Ok?
    ensures SearchContracts(cs, term, f).value == Filter(cs, c => Keeps(f, term, c))
  {
    var kt := c => KontorOk(f, c) && TypeOk(f, c);
    var ktp := c => KontorOk(f, c) && TypeOk(f, c) && PostalOk(f, c);
    var b := Filter(cs, kt);
    KontorTypeStage(cs, f);
    var pc := f.postalCode.GetOr("");
    var filtered := ApplyFilters(cs, f).value;
    if Active(f.postalCode) {
      FilterExt(b, c => PostalTest(c, pc) == Ok(true), c => PostalOk(f, c));
    } else {
      FilterAll(b, c => PostalOk(f, c));
    }
    FilterConj(cs, kt, c => PostalOk(f, c), ktp);
    assert filtered == Filter(cs, ktp);
    if |term| > 0 {
      FilterExt(filtered, c => AnyValueMatches(c, term), c => TermOk(term, c));
    } else {
      FilterAll(filtered, c => TermOk(term, c));
    }
    FilterConj(cs, ktp, c => TermOk(term, c), c => Keeps(f, term, c));
  }

  /** The result is the input with the contracts the search rejects
      removed, in the input order; with no filter and no term it is the
      input itself. */
  lemma SearchKeepsExactly(cs: seq<Contract>, term: string, f: Filters)
    requires SearchContracts(cs, term, f).Ok?
    ensures var r := SearchContracts(cs, term, f).value;
      IsSubseq(r, cs) && forall c :: c in r <==> c in cs && Keeps(f, term, c)
    ensures Unfiltered(f) && term == "" ==> SearchContracts(cs, term, f).value == cs
  {
    SearchIsOneFilter(cs, term, f);
    FilterIsSubseq(cs, c => Keeps(f, term, c));
  }

  /** The same filter values in any arrangement of the steps give the same
      list: filtering by the postal code before the kontor is the same as
      after. */
  lemma {:induction false} FilterOrderIrrelevant(cs: seq<Contract>, p: Contract -> bool, q: Contract -> bool)
    ensures Filter(Filter(cs, p), q) == Filter(Filter(cs, q), p)
  {
    FilterConj(cs, p, q, c => p(c) && q(c));
    FilterConj(cs, q, p, c => p(c) && q(c));
  }

  /** A contract with no postal code never survives a postal filter. */
  lemma MissingPostalCodeExcluded(cs: seq<Contract>, term: string, f: Filters, c: Contract)
    requires Active(f.postalCode)
    requires PostalCodeOf(c).Undefined? || PostalCodeOf(c).Null?
    requires SearchContracts(cs, term, f).Ok?
    ensures c !in SearchContracts(cs, term, f).value
  {
    SearchKeepsExactly(cs, term, f);
  }

  /** `contracts.map(c => c[key])`. */
  function Column(cs: seq<Contract>, key: string): (vs: seq<Value>)
    ensures |vs| == |cs|
    ensures forall i :: 0 <= i < |cs| ==> vs[i] == At(cs[i], key)
  {
    seq(|cs|, i requires 0 <= i < |cs| => At(cs[i], key))
  }

  /** The kontor and type lists of `getContractStats` and the managers. */
  datatype Stats = Stats(avtaleKontorer: seq<Value>, types: seq<Value>)

  /** `[...new Set(contracts.map(c => c.key).filter(Boolean))]`. */
  function DistinctColumn(cs: seq<Contract>, key: string): (r: seq<Value>)
    ensures NoDups(r)
    ensures forall v :: v in r <==> Truthy(v) && exists i :: 0 <= i < |cs| && At(cs[i], key) == v
  {
    var col := Column(cs, key);
    FilterFirstSameList(col);
    assert forall v :: v in col <==> exists i :: 0 <= i < |cs| && At(cs[i], key) == v;
    Dedup(Filter(col, Truthy))
  }

  function ContractStats(cs: seq<Contract>): Stats {
    Stats(DistinctColumn(cs, "avtaleKontor"), DistinctColumn(cs, "type"))
  }

  /** Each list holds the distinct truthy values of its property, in the
      order they first occur among the contracts. */
  lemma StatsFirstOccurrenceOrder(cs: seq<Contract>, key: string)
    ensures var r := DistinctColumn(cs, key);
      forall i, j :: 0 <= i < j < |r| ==> FirstIndex(Column(cs, key), r[i]) < FirstIndex(Column(cs, key), r[j])
  {
    FilterFirstSameList(Column(cs, key));
    DistinctTruthyOrder(Column(cs, key));
  }
}

=== FILE: seqs.dfy ===
/** Sequence utilities that several source files re-implement with
    `Array.prototype.filter` and `Array.from(new Set(...))`. */
module Seqs {

  /** `xs.filter(p)`: the elements satisfying `p`, in order. */
  function Filter<T>(s: seq<T>, p: T -> bool): (r: seq<T>)
    ensures |r| <= |s|
    ensures forall i :: 0 <= i < |r| ==> p(r[i])
    ensures forall i :: 0 <= i < |r| ==> r[i] in s
    ensures forall i :: 0 <= i < |s| && p(s[i]) ==> s[i] in r
  {
    if |s| == 0 then []
    else if p(s[0]) then [s[0]] + Filter(s[1..], p)
    else Filter(s[1..], p)
  }

  lemma FilterAppend<T>(a: seq<T>, b: seq<T>, p: T -> bool)
    ensures Filter(a + b, p) == Filter(a, p) + Filter(b, p)
  {
    if |a| == 0 {
      assert a + b == b;
    } else {
      assert (a + b)[1..] == a[1..] + b;
      FilterAppend(a[1..], b, p);
    }
  }

  /** Elements outside `s[i..j]` that fail `p` do not change the filter. */
  lemma FilterSlice<T>(s: seq<T>, i: int, j: int, p: T -> bool)
    requires 0 <= i <= j <= |s|
    requires forall k :: 0 <= k < i ==> !p(s[k])
    requires forall k :: j <= k < |s| ==> !p(s[k])
    ensures Filter(s[i..j], p) == Filter(s, p)
  {
    var a, b, c := s[..i], s[i..j], s[j..];
    assert s == a + b + c by {
      SplitThree(s, i, j);
    }
    assert Filter(a, p) == [] by {
      FilterNone(a, p);
    }
    assert Filter(c, p) == [] by {
      FilterNone(c, p);
    }
    FilterAppend(a + b, c, p);
    FilterAppend(a, b, p);
  }

  lemma SplitThree<T>(s: seq<T>, i: int, j: int)
    requires 0 <= i <= j <= |s|
    ensures s == s[..i] + s[i..j] + s[j..]
  {
    var r := s[..i] + s[i..j] + s[j..];
    assert |r| == |s|;
    forall k | 0 <= k < |s| ensures r[k] == s[k] {
      if k < i {
        assert r[k] == s[..i][k];
      } else if k < j {
        assert r[k] == s[i..j][k - i];
      } else {
        assert r[k] == s[j..][k - j];
      }
    }
  }

  /** What every element of a sequence satisfies, every kept one does. */
  lemma FilterKeepsAll<T>(s: seq<T>, p: T -> bool, q: T -> bool)
    requires forall i :: 0 <= i < |s| ==> q(s[i])
    ensures forall i :: 0 <= i < |Filter(s, p)| ==> q(Filter(s, p)[i])
  {
    var r := Filter(s, p);
    forall i | 0 <= i < |r| ensures q(r[i]) {
      assert r[i] in s;
    }
  }

  /** Moving the first element of a slice onto the end of a prefix. */
  lemma MoveFirst<T>(pre: seq<T>, s: seq<T>, i: int, e: int)
    requires 0 <= i < e <= |s|
    ensures pre + [s[i]] + s[i + 1..e] == pre + s[i..e]
  {
    assert s[i..e] == [s[i]] + s[i + 1..e];
  }

  /** The elements but the last, with the last put back. */
  lemma InitLast<T>(a: seq<T>, s: seq<T>)
    requires |s| > 0 && a == [] + s[0..|s| - 1]
    ensures a + [s[|s| - 1]] == s
  {
  }

  lemma {:induction false} FilterNone<T>(s: seq<T>, p: T -> bool)
    requires forall k :: 0 <= k < |s| ==> !p(s[k])
    ensures Filter(s, p) == []
  {
    if |s| > 0 {
      FilterNone(s[1..], p);
    }
  }

  /** Filtering by a weaker condition first changes nothing. */
  lemma {:induction false} FilterFilter<T>(s: seq<T>, p: T -> bool, q: T -> bool)
    requires forall k :: 0 <= k < |s| && p(s[k]) ==> q(s[k])
    ensures Filter(Filter(s, q), p) == Filter(s, p)
  {
    if |s| > 0 {
      FilterFilter(s[1..], p, q);
    }
  }

  lemma {:induction false} FilterAll<T>(s: seq<T>, p: T -> bool)
    requires forall i :: 0 <= i < |s| ==> p(s[i])
    ensures Filter(s, p) == s
  {
    if |s| > 0 {
      FilterAll(s[1..], p);
    }
  }

  /** `a` is `b` with some elements removed and the rest kept in order. */
  predicate IsSubseq<T(==)>(a: seq<T>, b: seq<T>)
    decreases |b|
  {
    if |a| == 0 then true
    else if |b| == 0 then false
    else if a[0] == b[0] then IsSubseq(a[1..], b[1..])
    else IsSubseq(a, b[1..])
  }

  lemma {:induction false} IsSubseqRefl<T>(s: seq<T>)
    ensures IsSubseq(s, s)
  {
    if |s| > 0 {
      IsSubseqRefl(s[1..]);
    }
  }

  lemma {:induction false} FilterIsSubseq<T>(s: seq<T>, p: T -> bool)
    ensures IsSubseq(Filter(s, p), s)
  {
    if |s| > 0 {
      FilterIsSubseq(s[1..], p);
      if p(s[0]) {
        assert Filter(s, p)[1..] == Filter(s[1..], p);
      } else {
        SubseqOfTail(Filter(s, p), s);
      }
    }
  }

  /** Filtering keeps every copy of an element it accepts. */
  lemma {:induction false} FilterMultiplicity<T>(s: seq<T>, p: T -> bool, x: T)
    requires p(x)
    ensures multiset(Filter(s, p))[x] == multiset(s)[x]
  {
    if |s| > 0 {
      FilterMultiplicity(s[1..], p, x);
      assert s == [s[0]] + s[1..];
      if p(s[0]) {
        assert Filter(s, p) == [s[0]] + Filter(s[1..], p);
      }
    }
  }

  /** A subsequence of the tail is a subsequence of the whole. */
  lemma {:induction false} SubseqOfTail<T>(a: seq<T>, b: seq<T>)
    requires |b| > 0 && IsSubseq(a, b[1..])
    ensures IsSubseq(a, b)
    decreases |b|, 1
  {
    if |a| > 0 && a[0] == b[0] {
      SubseqDropHead(a, b[1..]);
    }
  }

  lemma {:induction false} SubseqDropHead<T>(a: seq<T>, c: seq<T>)
    requires |a| > 0 && IsSubseq(a, c)
    ensures IsSubseq(a[1..], c)
    decreases |c| + 1, 0
  {
    if a[0] == c[0] {
      SubseqOfTail(a[1..], c);
    } else {
      SubseqDropHead(a, c[1..]);
      SubseqOfTail(a[1..], c);
    }
  }

  lemma {:induction false} SubseqMembers<T>(a: seq<T>, b: seq<T>)
    requires IsSubseq(a, b)
    ensures forall x :: x in a ==> x in b
    decreases |b|
  {
    if |a| > 0 {
      if a[0] == b[0] {
        SubseqMembers(a[1..], b[1..]);
        assert forall x :: x in a ==> x == a[0] || x in a[1..];
      } else {
        SubseqMembers(a, b[1..]);
      }
    }
  }

  lemma {:induction false} SubseqTrans<T>(a: seq<T>, b: seq<T>, c: seq<T>)
    requires IsSubseq(a, b) && IsSubseq(b, c)
    ensures IsSubseq(a, c)
    decreases |c|
  {
    if |a| == 0 {
    } else if |b| == 0 {
    } else if b[0] == c[0] {
      if a[0] == b[0] {
        SubseqTrans(a[1..], b[1..], c[1..]);
      } else {
        SubseqTrans(a, b[1..], c[1..]);
      }
      SubseqOfTailIfHeadsDiffer(a, c);
    } else {
      SubseqTrans(a, b, c[1..]);
      SubseqOfTail(a, c);
    }
  }

  lemma SubseqOfTailIfHeadsDiffer<T>(a: seq<T>, c: seq<T>)
    requires |a| > 0 && |c| > 0
    requires a[0] == c[0] ==> IsSubseq(a[1..], c[1..])
    requires a[0] != c[0] ==> IsSubseq(a, c[1..])
    ensures IsSubseq(a, c)
  {
  }

  /** Every element of `a` occurs in `b`. */
  predicate Within<T(==)>(a: seq<T>, b: seq<T>) {
    forall k :: 0 <= k < |a| ==> a[k] in b
  }

  lemma WithinTrans<T>(a: seq<T>, b: seq<T>, c: seq<T>)
    requires Within(a, b) && Within(b, c)
    ensures Within(a, c)
  {
    forall k | 0 <= k < |a| ensures a[k] in c {
      var j :| 0 <= j < |b| && b[j] == a[k];
    }
  }

  lemma WithinSlice<T>(s: seq<T>, i: int, j: int)
    requires 0 <= i <= j <= |s|
    ensures Within(s[i..j], s)
  {
    forall k | 0 <= k < j - i ensures s[i..j][k] in s {
      assert s[i..j][k] == s[i + k];
    }
  }

  /** No element occurs twice. */
  predicate NoDups<T(==)>(s: seq<T>) {
    forall i, j :: 0 <= i < j < |s| ==> s[i] != s[j]
  }

  /** A list without repeats has as many elements as its set of elements. */
  lemma {:induction false} NoDupsCard<T>(s: seq<T>)
    requires NoDups(s)
    ensures |set x | x in s| == |s|
  {
    if |s| > 0 {
      var t := s[1..];
      assert forall i :: 0 <= i < |t| ==> t[i] == s[i + 1];
      NoDupsCard(t);
      assert s[0] !in t;
      assert (set x | x in s) == {s[0]} + (set x | x in t);
    }
  }

  /** Index of the first occurrence of `x` in `s`, as `indexOf` computes it. */
  function FirstIndex<T(==)>(s: seq<T>, x: T): (k: nat)
    requires x in s
    ensures k < |s| && s[k] == x && x !in s[..k]
  {
    if s[0] == x then 0 else 1 + FirstIndex(s[1..], x)
  }

  /** `Array.from(new Set(s))`: a `Set` remembers insertion order, so each
      value keeps the position of its first occurrence. */
  function Dedup<T(==)>(s: seq<T>): (r: seq<T>)
    ensures forall i :: 0 <= i < |r| ==> r[i] in s
    ensures forall i :: 0 <= i < |s| ==> s[i] in r
    ensures NoDups(r)
    ensures |r| <= |s|
  {
    if |s| == 0 then []
    else
      var r := Dedup(s[..|s| - 1]);
      assert forall i :: 0 <= i < |s| - 1 ==> s[i] == s[..|s| - 1][i];
      if s[|s| - 1] in r then r else r + [s[|s| - 1]]
  }

  /** The values of a `Set` iterate in first-occurrence order. */
  lemma {:induction false} DedupFirstOccurrenceOrder<T>(s: seq<T>)
    ensures forall i, j :: 0 <= i < j < |Dedup(s)| ==>
              FirstIndex(s, Dedup(s)[i]) < FirstIndex(s, Dedup(s)[j])
  {
    if |s| > 0 {
      var init := s[..|s| - 1];
      var last := s[|s| - 1];
      DedupFirstOccurrenceOrder(init);
      var r := Dedup(init);
      forall x | x in init
        ensures FirstIndex(s, x) == FirstIndex(init, x)
      {
        FirstIndexPrefix(init, s, x);
      }
      if last !in r {
        assert last !in init;
        assert FirstIndex(s, last) == |s| - 1 by {
          FirstIndexLast(s);
        }
      }
    }
  }

  lemma {:induction false} FirstIndexPrefix<T>(init: seq<T>, s: seq<T>, x: T)
    requires init <= s && x in init
    ensures FirstIndex(s, x) == FirstIndex(init, x)
  {
    if s[0] != x {
      assert init[1..] <= s[1..];
      FirstIndexPrefix(init[1..], s[1..], x);
    }
  }

  lemma FirstIndexLast<T>(s: seq<T>)
    requires |s| > 0 && s[|s| - 1] !in s[..|s| - 1]
    ensures FirstIndex(s, s[|s| - 1]) == |s| - 1
  {
    var k := FirstIndex(s, s[|s| - 1]);
    assert forall i :: 0 <= i < |s| - 1 ==> s[..|s| - 1][i] == s[i];
  }

  lemma {:induction false} DedupOfNoDups<T>(s: seq<T>)
    requires NoDups(s)
    ensures Dedup(s) == s
  {
    if |s| > 0 {
      var init := s[..|s| - 1];
      DedupOfNoDups(init);
      assert s[|s| - 1] !in init;
      assert init + [s[|s| - 1]] == s;
    }
  }

  /** Adding one value to a `Set` appends it unless it is already there. */
  lemma DedupSnoc<T>(t: seq<T>, x: T)
    ensures Dedup(t + [x]) == if x in Dedup(t) then Dedup(t) else Dedup(t) + [x]
  {
    assert (t + [x])[..|t + [x]| - 1] == t;
  }

  /** Dropping values before or after building the `Set` gives the same list:
      `Array.from(new Set(xs)).filter(p)` and `[...new Set(xs.filter(p))]`
      agree. */
  lemma {:induction false} DedupFilterCommute<T>(s: seq<T>, p: T -> bool)
    ensures Filter(Dedup(s), p) == Dedup(Filter(s, p))
  {
    if |s| > 0 {
      var init := s[..|s| - 1];
      var last := s[|s| - 1];
      assert s == init + [last];
      DedupFilterCommute(init, p);
      if p(last) {
        assert Filter(s, p) == Filter(init, p) + [last] by {
          FilterAppend(init, [last], p);
          assert Filter([last], p) == [last];
        }
        DedupFilterKept(init, last, p);
      } else {
        assert Filter(s, p) == Filter(init, p) by {
          FilterAppend(init, [last], p);
          assert Filter([last], p) == [];
        }
        DedupFilterDropped(init, last, p);
      }
    }
  }

  /** The step of `DedupFilterCommute` for a last element that passes. */
  lemma DedupFilterKept<T>(init: seq<T>, last: T, p: T -> bool)
    requires p(last)
    requires Filter(Dedup(init), p) == Dedup(Filter(init, p))
    ensures Filter(Dedup(init + [last]), p) == Dedup(Filter(init, p) + [last])
  {
    var r := Dedup(init);
    var fi := Filter(init, p);
    DedupSnoc(init, last);
    DedupSnoc(fi, last);
    if last in r {
      assert last in fi;
    } else {
      assert last !in fi;
      FilterAppend(r, [last], p);
      assert Filter([last], p) == [last];
    }
  }

  /** The step of `DedupFilterCommute` for a last element that fails. */
  lemma DedupFilterDropped<T>(init: seq<T>, last: T, p: T -> bool)
    requires !p(last)
    requires Filter(Dedup(init), p) == Dedup(Filter(init, p))
    ensures Filter(Dedup(init + [last]), p) == Dedup(Filter(init, p))
  {
    var r := Dedup(init);
    DedupSnoc(init, last);
    if last !in r {
      FilterAppend(r, [last], p);
      assert Filter([last], p) == [];
    }
  }

  /** Entry `i` is kept and no later kept entry has its key. */
  predicate IsLastKept<K(==)>(keys: seq<K>, keep: seq<bool>, i: int)
    requires |keys| == |keep|
  {
    && 0 <= i < |keys| && keep[i]
    && forall j :: i < j < |keys| && keep[j] ==> keys[j] != keys[i]
  }

  /** A map filled by assigning `m[keys[i]] := vals[i]` for every kept
      entry in order: the last kept entry for a key wins. */
  function LastWins<K(==), V>(keys: seq<K>, vals: seq<V>, keep: seq<bool>): (m: map<K, V>)
    requires |keys| == |vals| == |keep|
    ensures forall i :: 0 <= i < |keys| && keep[i] ==> keys[i] in m
    ensures forall k :: k in m ==> exists i :: 0 <= i < |keys| && keep[i] && keys[i] == k
    ensures forall i :: IsLastKept(keys, keep, i) ==> m[keys[i]] == vals[i]
  {
    if |keys| == 0 then map[]
    else
      var n := |keys| - 1;
      var m := LastWins(keys[..n], vals[..n], keep[..n]);
      LastWinsStep(keys, vals, keep, m);
      if keep[n] then m[keys[n] := vals[n]] else m
  }

  lemma LastWinsStep<K, V>(keys: seq<K>, vals: seq<V>, keep: seq<bool>, m: map<K, V>)
    requires |keys| == |vals| == |keep| > 0
    requires var n := |keys| - 1;
      && (forall i :: 0 <= i < n && keep[..n][i] ==> keys[..n][i] in m)
      && (forall k :: k in m ==> exists i :: 0 <= i < n && keep[..n][i] && keys[..n][i] == k)
      && (forall i :: IsLastKept(keys[..n], keep[..n], i) ==> m[keys[..n][i]] == vals[..n][i])
    ensures var n := |keys| - 1;
      var r := if keep[n] then m[keys[n] := vals[n]] else m;
      && (forall i :: 0 <= i < |keys| && keep[i] ==> keys[i] in r)
      && (forall k :: k in r ==> exists i :: 0 <= i < |keys| && keep[i] && keys[i] == k)
      && (forall i :: IsLastKept(keys, keep, i) ==> r[keys[i]] == vals[i])
  {
    var n := |keys| - 1;
    var r := if keep[n] then m[keys[n] := vals[n]] else m;
    forall i | 0 <= i < |keys| && keep[i] ensures keys[i] in r {
      if i < n {
        assert keep[..n][i] && keys[..n][i] == keys[i];
      }
    }
    forall k | k in r ensures exists i :: 0 <= i < |keys| && keep[i] && keys[i] == k {
      if !(keep[n] && k == keys[n]) {
        var i :| 0 <= i < n && keep[..n][i] && keys[..n][i] == k;
        assert keep[i] && keys[i] == k;
      }
    }
    forall i | IsLastKept(keys, keep, i) ensures r[keys[i]] == vals[i] {
      if i < n {
        assert IsLastKept(keys[..n], keep[..n], i);
        assert keys[..n][i] == keys[i] && vals[..n][i] == vals[i];
        if keep[n] {
          assert keys[n] != keys[i];
        }
      }
    }
  }

  /** A property every kept value has holds of every value in the map. */
  lemma {:induction false} LastWinsValues<K, V>(keys: seq<K>, vals: seq<V>, keep: seq<bool>, P: V -> bool)
    requires |keys| == |vals| == |keep|
    requires forall i :: 0 <= i < |keys| && keep[i] ==> P(vals[i])
    ensures forall k :: k in LastWins(keys, vals, keep) ==> P(LastWins(keys, vals, keep)[k])
  {
    if |keys| > 0 {
      var n := |keys| - 1;
      LastWinsValues(keys[..n], vals[..n], keep[..n], P);
    }
  }

  /** With nothing kept the map stays empty. */
  lemma LastWinsNoneKept<K, V>(keys: seq<K>, vals: seq<V>, keep: seq<bool>)
    requires |keys| == |vals| == |keep|
    requires forall i :: 0 <= i < |keep| ==> !keep[i]
    ensures LastWins(keys, vals, keep) == map[]
  {
    var m := LastWins(keys, vals, keep);
    assert forall k :: k !in m;
  }

  /** Number of elements satisfying `p`. */
  function CountIf<T>(s: seq<T>, p: T -> bool): (n: nat)
    ensures n <= |s|
  {
    if |s| == 0 then 0 else (if p(s[0]) then 1 else 0) + CountIf(s[1..], p)
  }

  lemma {:induction false} FilterLength<T>(s: seq<T>, p: T -> bool)
    ensures |Filter(s, p)| == CountIf(s, p)
  {
    if |s| > 0 {
      FilterLength(s[1..], p);
    }
  }

  /** Sum of integers. */
  function Sum(s: seq<int>): int {
    if |s| == 0 then 0 else s[0] + Sum(s[1..])
  }

  lemma {:induction false} SumAppend(a: seq<int>, b: seq<int>)
    ensures Sum(a + b) == Sum(a) + Sum(b)
  {
    if |a| == 0 {
      assert a + b == b;
    } else {
      assert (a + b)[1..] == a[1..] + b;
      SumAppend(a[1..], b);
    }
  }

  /** The sum of the weights of the entries whose key is `k`: what a
      `reduce` that adds `ws[i]` into the bucket `keys[i]` leaves in the
      bucket `k`. */
  function SumWhere<K(==)>(keys: seq<K>, ws: seq<int>, k: K): int
    requires |keys| == |ws|
  {
    if |keys| == 0 then 0
    else
      var n := |keys| - 1;
      SumWhere(keys[..n], ws[..n], k) + (if keys[n] == k then ws[n] else 0)
  }

  /** A key that never occurs has an empty bucket. */
  lemma {:induction false} SumWhereAbsent<K>(keys: seq<K>, ws: seq<int>, k: K)
    requires |keys| == |ws| && k !in keys
    ensures SumWhere(keys, ws, k) == 0
  {
    if |keys| > 0 {
      var n := |keys| - 1;
      assert k !in keys[..n];
      SumWhereAbsent(keys[..n], ws[..n], k);
    }
  }

  /** The bucket sums of the keys `ds`, in that order. */
  function Sums<K(==)>(ds: seq<K>, keys: seq<K>, ws: seq<int>): (r: seq<int>)
    requires |keys| == |ws|
    ensures |r| == |ds|
    ensures forall i :: 0 <= i < |ds| ==> r[i] == SumWhere(keys, ws, ds[i])
  {
    seq(|ds|, i requires 0 <= i < |ds| => SumWhere(keys, ws, ds[i]))
  }

  /** One more entry adds its weight to the bucket sums once, if its key
      is one of the distinct keys `ds`. */
  lemma {:induction false} SumsSnoc<K>(ds: seq<K>, keys: seq<K>, ws: seq<int>, k: K, w: int)
    requires |keys| == |ws| && NoDups(ds)
    ensures Sum(Sums(ds, keys + [k], ws + [w])) == Sum(Sums(ds, keys, ws)) + (if k in ds then w else 0)
  {
    if |ds| > 0 {
      assert (keys + [k])[..|keys|] == keys;
      assert (ws + [w])[..|ws|] == ws;
      assert Sums(ds, keys + [k], ws + [w])[1..] == Sums(ds[1..], keys + [k], ws + [w]);
      assert Sums(ds, keys, ws)[1..] == Sums(ds[1..], keys, ws);
      SumsSnoc(ds[1..], keys, ws, k, w);
      assert k in ds <==> k == ds[0] || k in ds[1..];
      if k == ds[0] {
        assert k !in ds[1..];
      }
    }
  }

  /** Grouping loses nothing: when `ds` lists every key once, the bucket
      sums add up to the sum of all weights. */
  lemma {:induction false} SumsTotal<K>(ds: seq<K>, keys: seq<K>, ws: seq<int>)
    requires |keys| == |ws| && NoDups(ds)
    requires forall i :: 0 <= i < |keys| ==> keys[i] in ds
    ensures Sum(Sums(ds, keys, ws)) == Sum(ws)
  {
    if |keys| == 0 {
      SumZeros(Sums(ds, keys, ws));
    } else {
      var n := |keys| - 1;
      var ks, vs := keys[..n], ws[..n];
      SumsTotal(ds, ks, vs);
      assert keys == ks + [keys[n]];
      assert ws == vs + [ws[n]];
      SumsSnoc(ds, ks, vs, keys[n], ws[n]);
      assert Sum(Sums(ds, keys, ws)) == Sum(vs) + ws[n];
      SumAppend(vs, [ws[n]]);
      assert Sum([ws[n]]) == ws[n];
    }
  }

  lemma {:induction false} SumZeros(s: seq<int>)
    requires forall i :: 0 <= i < |s| ==> s[i] == 0
    ensures Sum(s) == 0
  {
    if |s| > 0 {
      SumZeros(s[1..]);
    }
  }

  /** A weight of one per entry. */
  function Ones(n: nat): (r: seq<int>)
    ensures |r| == n
    ensures forall i :: 0 <= i < n ==> r[i] == 1
    ensures Sum(r) == n
  {
    if n == 0 then []
    else
      SumAppend(Ones(n - 1), [1]);
      Ones(n - 1) + [1]
  }

  /** Appending values that are new and distinct extends the distinct
      list by exactly those values. */
  lemma {:induction false} DedupAppendFresh<T>(a: seq<T>, b: seq<T>)
    requires NoDups(b)
    requires forall x :: x in b ==> x !in a
    ensures Dedup(a + b) == Dedup(a) + b
  {
    if |b| == 0 {
      assert a + b == a;
    } else {
      var n := |b| - 1;
      var init, last := b[..n], b[n];
      assert b == init + [last];
      assert NoDups(init) && last !in init && last !in a;
      assert forall x :: x in init ==> x !in a by {
        assert forall x :: x in init ==> x in b;
      }
      DedupAppendFresh(a, init);
      DedupAppendFreshStep(a, init, last);
      AppendSnoc(a, init, last);
      AppendSnoc(Dedup(a), init, last);
    }
  }

  lemma DedupAppendFreshStep<T>(a: seq<T>, init: seq<T>, last: T)
    requires Dedup(a + init) == Dedup(a) + init
    requires last !in a && last !in init
    ensures Dedup(a + init + [last]) == Dedup(a) + init + [last]
  {
    DedupSnoc(a + init, last);
  }

  lemma AppendSnoc<T>(a: seq<T>, init: seq<T>, last: T)
    ensures a + (init + [last]) == a + init + [last]
  {
  }

  /** An element that occurs has a last occurrence. */
  lemma LastOccurrence<T>(s: seq<T>, x: T) returns (i: nat)
    requires x in s
    ensures i < |s| && s[i] == x
    ensures forall j :: i < j < |s| ==> s[j] != x
  {
    i := |s| - 1;
    while s[i] != x
      invariant 0 <= i < |s|
      invariant forall j :: i < j < |s| ==> s[j] != x
      decreases i
    {
      i := i - 1;
    }
  }

  /** Removing elements keeps a list duplicate-free. */
  lemma {:induction false} FilterNoDups<T>(s: seq<T>, p: T -> bool)
    requires NoDups(s)
    ensures NoDups(Filter(s, p))
  {
    if |s| > 0 {
      FilterNoDups(s[1..], p);
      var rest := Filter(s[1..], p);
      if p(s[0]) {
        assert s[0] !in rest by {
          assert s[0] !in s[1..];
        }
        var r := [s[0]] + rest;
        forall i, j | 0 <= i < j < |r| ensures r[i] != r[j] {
          if i > 0 {
            assert r[i] == rest[i - 1] && r[j] == rest[j - 1];
          } else {
            assert r[j] == rest[j - 1];
          }
        }
      }
    }
  }

  /** `s` is strictly increasing in `key`. */
  predicate Increasing<T>(s: seq<T>, key: T -> int) {
    forall i, j :: 0 <= i < j < |s| ==> key(s[i]) < key(s[j])
  }

  /** Removing elements keeps a list ordered by a key. */
  lemma {:induction false} FilterOrdered<T>(s: seq<T>, p: T -> bool, key: T -> int)
    requires Increasing(s, key)
    ensures Increasing(Filter(s, p), key)
  {
    if |s| > 0 {
      assert Increasing(s[1..], key);
      FilterOrdered(s[1..], p, key);
      if p(s[0]) {
        FilterTailAbove(s, p, key);
        ConsIncreasing(s[0], Filter(s[1..], p), key);
      }
    }
  }

  lemma FilterTailAbove<T>(s: seq<T>, p: T -> bool, key: T -> int)
    requires |s| > 0 && Increasing(s, key)
    ensures forall j :: 0 <= j < |Filter(s[1..], p)| ==> key(s[0]) < key(Filter(s[1..], p)[j])
  {
    var rest := Filter(s[1..], p);
    forall j | 0 <= j < |rest| ensures key(s[0]) < key(rest[j]) {
      var k :| 0 <= k < |s[1..]| && s[1..][k] == rest[j];
      assert s[k + 1] == rest[j];
    }
  }

  lemma ConsIncreasing<T>(x: T, rest: seq<T>, key: T -> int)
    requires Increasing(rest, key)
    requires forall j :: 0 <= j < |rest| ==> key(x) < key(rest[j])
    ensures Increasing([x] + rest, key)
  {
    var r := [x] + rest;
    forall i, j | 0 <= i < j < |r| ensures key(r[i]) < key(r[j]) {
      if i > 0 {
        assert r[i] == rest[i - 1] && r[j] == rest[j - 1];
      } else {
        assert r[j] == rest[j - 1];
      }
    }
  }

  /** Two filters in a row keep what satisfies both conditions. */
  lemma {:induction false} FilterConj<T>(s: seq<T>, p: T -> bool, q: T -> bool, pq: T -> bool)
    requires forall x :: pq(x) == (p(x) && q(x))
    ensures Filter(Filter(s, p), q) == Filter(s, pq)
  {
    if |s| > 0 {
      FilterConj(s[1..], p, q, pq);
      if p(s[0]) {
        assert Filter(s, p)[1..] == Filter(s[1..], p);
      }
    }
  }

  /** Conditions that agree on the elements give the same filter. */
  lemma {:induction false} FilterExt<T>(s: seq<T>, p: T -> bool, q: T -> bool)
    requires forall i :: 0 <= i < |s| ==> p(s[i]) == q(s[i])
    ensures Filter(s, p) == Filter(s, q)
  {
    if |s| > 0 {
      FilterExt(s[1..], p, q);
    }
  }

  /** `xs.findIndex(p)`, with `|s|` for "none": the first position whose
      element satisfies `p`. */
  function FindFirst<T>(s: seq<T>, p: T -> bool): (i: nat)
    ensures i <= |s|
    ensures i < |s| ==> p(s[i])
    ensures forall j :: 0 <= j < i ==> !p(s[j])
  {
    if |s| == 0 then 0
    else if p(s[0]) then 0
    else
      var i := FindFirst(s[1..], p);
      assert forall j :: 1 <= j < i + 1 ==> s[j] == s[1..][j - 1];
      i + 1
  }
}

=== FILE: store.dfy ===
/** The object stores of the IndexedDB layer (app/lib/db.ts) that the
    contract views read back: the `contracts` store and the `locations`
    store, both keyed by a string `id`. A store is the list of its records
    in key order, which is the order `getAll` returns them in. */
module Store {
  import opened Wrappers
  import opened Text
  import opened Json
  import opened Numbers
  import opened Seqs
  import opened Search

  /** Sequences of code units in lexicographic order; a proper prefix
      comes first. */
  predicate UnitsLess(a: seq<int>, b: seq<int>)
    decreases |a|
  {
    if |a| == 0 then |b| > 0
    else if |b| == 0 then false
    else if a[0] != b[0] then a[0] < b[0]
    else UnitsLess(a[1..], b[1..])
  }

  /** String keys compared by UTF-16 code unit, as IndexedDB compares
      them: a character outside the Basic Multilingual Plane sorts by its
      surrogates, before the characters U+E000 to U+FFFF. */
  predicate Less(a: string, b: string) {
    UnitsLess(Utf16Units(a), Utf16Units(b))
  }

  lemma {:induction false} UnitsLessIrreflexive(a: seq<int>)
    ensures !UnitsLess(a, a)
    decreases |a|
  {
    if |a| > 0 {
      UnitsLessIrreflexive(a[1..]);
    }
  }

  lemma {:induction false} UnitsLessTotal(a: seq<int>, b: seq<int>)
    requires a != b
    ensures UnitsLess(a, b) || UnitsLess(b, a)
    decreases |a|
  {
    if |a| > 0 && |b| > 0 && a[0] == b[0] {
      assert a == [a[0]] + a[1..] && b == [b[0]] + b[1..];
      UnitsLessTotal(a[1..], b[1..]);
    }
  }

  lemma {:induction false} UnitsLessTrans(a: seq<int>, b: seq<int>, c: seq<int>)
    requires UnitsLess(a, b) && UnitsLess(b, c)
    ensures UnitsLess(a, c)
    decreases |a|
  {
    if |a| > 0 && a[0] == b[0] && b[0] == c[0] {
      UnitsLessTrans(a[1..], b[1..], c[1..]);
    }
  }

  lemma LessIrreflexive(a: string)
    ensures !Less(a, a)
  {
    UnitsLessIrreflexive(Utf16Units(a));
  }

  /** Two different keys are ordered one way or the other: different
      strings have different code units. */
  lemma LessTotal(a: string, b: string)
    requires a != b
    ensures Less(a, b) || Less(b, a)
  {
    if Utf16Units(a) == Utf16Units(b) {
      Utf16UnitsInjective(a, b);
    }
    UnitsLessTotal(Utf16Units(a), Utf16Units(b));
  }

  lemma LessTrans(a: string, b: string, c: string)
    requires Less(a, b) && Less(b, c)
    ensures Less(a, c)
  {
    UnitsLessTrans(Utf16Units(a), Utf16Units(b), Utf16Units(c));
  }

  /** One record under its key. */
  datatype Entry<T> = Entry(key: string, val: T)

  /** Keys strictly increase, so no key is held twice. */
  predicate Sorted<T>(s: seq<Entry<T>>) {
    forall i, j :: 0 <= i < j < |s| ==> Less(s[i].key, s[j].key)
  }

  /** The record under `k` is in the store. */
  predicate HasKey<T>(s: seq<Entry<T>>, k: string) {
    exists i :: 0 <= i < |s| && s[i].key == k
  }

  /** `store.get(key)`. */
  function Lookup<T(==)>(s: seq<Entry<T>>, k: string): (r: Option<T>)
    ensures r.Some? <==> HasKey(s, k)
    ensures r.Some? ==> exists i :: 0 <= i < |s| && s[i] == Entry(k, r.value)
  {
    if |s| == 0 then None
    else if s[0].key == k then Some(s[0].val)
    else
      var r := Lookup(s[1..], k);
      if r.Some? then
        var i :| 0 <= i < |s| - 1 && s[1..][i] == Entry(k, r.value);
        assert s[i + 1] == Entry(k, r.value);
        r
      else
        assert forall i :: 1 <= i < |s| ==> s[i] == s[1..][i - 1];
        r
  }

  /** The records, in key order. */
  function GetAll<T>(s: seq<Entry<T>>): (vs: seq<T>)
    ensures |vs| == |s|
    ensures forall i :: 0 <= i < |s| ==> vs[i] == s[i].val
  {
    seq(|s|, i requires 0 <= i < |s| => s[i].val)
  }

  /** `store.put(record)` under key `k`: a record with that key is
      replaced, otherwise the record is inserted before the first larger
      key. */
  function Put<T>(s: seq<Entry<T>>, k: string, v: T): (r: seq<Entry<T>>)
    ensures Entry(k, v) in r
    ensures forall j :: 0 <= j < |r| ==> r[j] == Entry(k, v) || r[j] in s
    ensures forall j :: 0 <= j < |s| && s[j].key != k ==> s[j] in r
    ensures |s| <= |r| <= |s| + 1
    decreases |s|
  {
    if |s| == 0 then [Entry(k, v)]
    else if s[0].key == k then [Entry(k, v)] + s[1..]
    else if Less(k, s[0].key) then [Entry(k, v)] + s
    else [s[0]] + Put(s[1..], k, v)
  }

  /** A put keeps the store in key order and adds no record but the new
      one. */
  lemma {:induction false} PutSorted<T>(s: seq<Entry<T>>, k: string, v: T)
    requires Sorted(s)
    ensures Sorted(Put(s, k, v))
    ensures forall j :: 0 <= j < |Put(s, k, v)| ==> Put(s, k, v)[j] == Entry(k, v) || Put(s, k, v)[j] in s
    decreases |s|
  {
    if |s| == 0 {
    } else if s[0].key == k {
      PutSortedReplace(s, k, v);
    } else if Less(k, s[0].key) {
      PutSortedFront(s, k, v);
    } else {
      LessTotal(k, s[0].key);
      PutSorted(s[1..], k, v);
      PutSortedSkip(s, k, v);
    }
  }

  lemma PutSortedReplace<T>(s: seq<Entry<T>>, k: string, v: T)
    requires Sorted(s) && |s| > 0 && s[0].key == k
    ensures Sorted(Put(s, k, v))
  {
    var r := [Entry(k, v)] + s[1..];
    assert Put(s, k, v) == r;
    assert forall i :: 0 < i < |s| ==> r[i] == s[i];
  }

  lemma PutSortedFront<T>(s: seq<Entry<T>>, k: string, v: T)
    requires Sorted(s) && |s| > 0 && s[0].key != k && Less(k, s[0].key)
    ensures Sorted(Put(s, k, v))
  {
    forall j | 0 <= j < |s| ensures Less(k, s[j].key) {
      if j > 0 {
        LessTrans(k, s[0].key, s[j].key);
      }
    }
    SortedCons(Entry(k, v), s);
    assert Put(s, k, v) == [Entry(k, v)] + s;
  }

  lemma PutSortedSkip<T>(s: seq<Entry<T>>, k: string, v: T)
    requires Sorted(s) && |s| > 0 && s[0].key != k && !Less(k, s[0].key) && Less(s[0].key, k)
    requires Sorted(Put(s[1..], k, v))
    ensures Sorted(Put(s, k, v))
  {
    var rest := Put(s[1..], k, v);
    forall j | 0 <= j < |rest| ensures Less(s[0].key, rest[j].key) {
      if rest[j] != Entry(k, v) {
        assert rest[j] in s[1..];
        var i :| 0 <= i < |s[1..]| && s[1..][i] == rest[j];
        assert s[i + 1] == rest[j];
      }
    }
    SortedCons(s[0], rest);
    assert Put(s, k, v) == [s[0]] + rest;
  }

  lemma SortedCons<T>(e: Entry<T>, s: seq<Entry<T>>)
    requires Sorted(s)
    requires forall j :: 0 <= j < |s| ==> Less(e.key, s[j].key)
    ensures Sorted([e] + s)
  {
    var r := [e] + s;
    forall i, j | 0 <= i < j < |r| ensures Less(r[i].key, r[j].key) {
      assert r[j] == s[j - 1];
      if i > 0 {
        assert r[i] == s[i - 1];
      }
    }
  }

  /** After a put the key holds the new record. */
  lemma {:induction false} LookupPutSame<T>(s: seq<Entry<T>>, k: string, v: T)
    ensures Lookup(Put(s, k, v), k) == Some(v)
    decreases |s|
  {
    if |s| > 0 && s[0].key != k && !Less(k, s[0].key) {
      LookupPutSame(s[1..], k, v);
    }
  }

  /** A put leaves every other key as it was. */
  lemma {:induction false} LookupPutOther<T>(s: seq<Entry<T>>, k: string, v: T, other: string)
    requires other != k
    ensures Lookup(Put(s, k, v), other) == Lookup(s, other)
    decreases |s|
  {
    if |s| > 0 && s[0].key != k && !Less(k, s[0].key) {
      LookupPutOther(s[1..], k, v, other);
    }
  }

  /** In a sorted store a listed record is the one `get` returns for its
      key. */
  lemma LookupListed<T>(s: seq<Entry<T>>, i: nat)
    requires Sorted(s) && i < |s|
    ensures Lookup(s, s[i].key) == Some(s[i].val)
  {
    var r := Lookup(s, s[i].key);
    var j :| 0 <= j < |s| && s[j] == Entry(s[i].key, r.value);
    if j < i {
      LessIrreflexive(s[i].key);
    } else if i < j {
      LessIrreflexive(s[i].key);
    }
  }

  /** The `contracts` store. */
  type ContractStore = seq<Entry<Contract>>

  /** A contract with a string `id`, the store's key path; the signature of
      the store functions demands one. */
  predicate Keyed(c: Contract) {
    At(c, "id").Str?
  }

  function IdOf(c: Contract): string
    requires Keyed(c)
  {
    At(c, "id").s
  }

  /** Every record sits under its own `id`. */
  predicate ContractsConsistent(s: ContractStore) {
    Sorted(s) && forall i :: 0 <= i < |s| ==> Keyed(s[i].val) && IdOf(s[i].val) == s[i].key
  }

  /** `storeContract`: `put` into the `contracts` store. */
  function StoreContract(s: ContractStore, c: Contract): (r: ContractStore)
    requires ContractsConsistent(s) && Keyed(c)
    ensures ContractsConsistent(r)
  {
    PutSorted(s, IdOf(c), c);
    Put(s, IdOf(c), c)
  }

  /** `storeContracts`: one `put` per contract, in list order, in one
      transaction. */
  function StoreContracts(s: ContractStore, cs: seq<Contract>): (r: ContractStore)
    requires ContractsConsistent(s)
    requires forall i :: 0 <= i < |cs| ==> Keyed(cs[i])
    ensures ContractsConsistent(r)
    decreases |cs|
  {
    if |cs| == 0 then s
    else
      var n := |cs| - 1;
      StoreContract(StoreContracts(s, cs[..n]), cs[n])
  }

  /** Storing a contract replaces the stored contract with the same `id`
      and nothing else. */
  lemma StoreContractReplaces(s: ContractStore, c: Contract, k: string)
    requires ContractsConsistent(s) && Keyed(c)
    ensures Lookup(StoreContract(s, c), k) == if k == IdOf(c) then Some(c) else Lookup(s, k)
  {
    if k == IdOf(c) {
      LookupPutSame(s, k, c);
    } else {
      LookupPutOther(s, IdOf(c), c, k);
    }
  }

  /** The `id` of every contract of the list. */
  function Ids(cs: seq<Contract>): (ks: seq<string>)
    requires forall i :: 0 <= i < |cs| ==> Keyed(cs[i])
    ensures |ks| == |cs|
    ensures forall i :: 0 <= i < |cs| ==> ks[i] == IdOf(cs[i])
  {
    seq(|cs|, i requires 0 <= i < |cs| && Keyed(cs[i]) => IdOf(cs[i]))
  }

  /** `storeContracts` is a put of each contract under its `id`. */
  lemma {:induction false} StoreContractsPuts(s: ContractStore, cs: seq<Contract>)
    requires ContractsConsistent(s)
    requires forall i :: 0 <= i < |cs| ==> Keyed(cs[i])
    ensures StoreContracts(s, cs) == PutAll(s, Ids(cs), cs)
    decreases |cs|
  {
    if |cs| > 0 {
      var n := |cs| - 1;
      StoreContractsPuts(s, cs[..n]);
      assert Ids(cs)[..n] == Ids(cs[..n]);
    }
  }

  /** After `storeContracts` an `id` of the list holds the last contract of
      the list with that `id`, and an `id` no contract has keeps its stored
      contract. */
  lemma StoreContractsLastWins(s: ContractStore, cs: seq<Contract>, k: string)
    requires ContractsConsistent(s)
    requires forall j :: 0 <= j < |cs| ==> Keyed(cs[j])
    ensures forall i :: 0 <= i < |cs| && IdOf(cs[i]) == k && (forall j :: i < j < |cs| ==> IdOf(cs[j]) != k) ==>
      Lookup(StoreContracts(s, cs), k) == Some(cs[i])
    ensures (forall j :: 0 <= j < |cs| ==> IdOf(cs[j]) != k) ==> Lookup(StoreContracts(s, cs), k) == Lookup(s, k)
  {
    StoreContractsPuts(s, cs);
    var ks := Ids(cs);
    forall i | 0 <= i < |cs| && IdOf(cs[i]) == k && (forall j :: i < j < |cs| ==> IdOf(cs[j]) != k)
      ensures Lookup(StoreContracts(s, cs), k) == Some(cs[i])
    {
      PutAllLast(s, ks, cs, i);
    }
    if forall j :: 0 <= j < |cs| ==> IdOf(cs[j]) != k {
      PutAllOthers(s, ks, cs, k);
    }
  }

  /** Puts in list order. */
  function PutAll<T>(s: seq<Entry<T>>, ks: seq<string>, vs: seq<T>): seq<Entry<T>>
    requires |ks| == |vs|
    decreases |ks|
  {
    if |ks| == 0 then s
    else
      var n := |ks| - 1;
      Put(PutAll(s, ks[..n], vs[..n]), ks[n], vs[n])
  }

  lemma {:induction false} PutAllLast<T>(s: seq<Entry<T>>, ks: seq<string>, vs: seq<T>, i: nat)
    requires |ks| == |vs| && i < |ks|
    requires forall j :: i < j < |ks| ==> ks[j] != ks[i]
    ensures Lookup(PutAll(s, ks, vs), ks[i]) == Some(vs[i])
    decreases |ks|
  {
    var n := |ks| - 1;
    var prev := PutAll(s, ks[..n], vs[..n]);
    if i < n {
      calc {
        Lookup(PutAll(s, ks, vs), ks[i]);
        Lookup(Put(prev, ks[n], vs[n]), ks[i]);
        { LookupPutOther(prev, ks[n], vs[n], ks[i]); }
        Lookup(prev, ks[..n][i]);
        { PutAllLast(s, ks[..n], vs[..n], i); }
        Some(vs[..n][i]);
      }
    } else {
      LookupPutSame(prev, ks[n], vs[n]);
    }
  }

  lemma {:induction false} PutAllOthers<T>(s: seq<Entry<T>>, ks: seq<string>, vs: seq<T>, k: string)
    requires |ks| == |vs| && k !in ks
    ensures Lookup(PutAll(s, ks, vs), k) == Lookup(s, k)
    decreases |ks|
  {
    if |ks| > 0 {
      var n := |ks| - 1;
      assert k !in ks[..n];
      PutAllOthers(s, ks[..n], vs[..n], k);
      LookupPutOther(PutAll(s, ks[..n], vs[..n]), ks[n], vs[n], k);
    }
  }

  /** `searchContracts(query)` of the IndexedDB layer: the query's filters
      over every stored contract, in key order. */
  function SearchStored(s: ContractStore, q: Filters): (r: Result<seq<Contract>, JsError>)
    ensures r.Ok? ==> IsSubseq(r.value, GetAll(s))
    ensures Unfiltered(q) ==> r == Ok(GetAll(s))
  {
    ApplyFilters(GetAll(s), q)
  }

  /** The result holds exactly the stored contracts the filters accept, in
      key order; an empty query returns every stored contract. */
  lemma SearchStoredKeeps(s: ContractStore, q: Filters)
    requires ContractsConsistent(s)
    requires SearchStored(s, q).Ok?
    ensures var r := SearchStored(s, q).value;
      && IsSubseq(r, GetAll(s))
      && (forall c :: c in r <==>
            Keyed(c) && Lookup(s, IdOf(c)) == Some(c) && KontorOk(q, c) && TypeOk(q, c) && PostalOk(q, c))
    ensures Unfiltered(q) ==> SearchStored(s, q).value == GetAll(s)
  {
    var all := GetAll(s);
    assert SearchContracts(all, "", q) == SearchStored(s, q);
    SearchKeepsExactly(all, "", q);
    StoredExactly(s);
  }

  /** The listed contracts are exactly those a lookup of their own id finds. */
  lemma StoredExactly(s: ContractStore)
    requires ContractsConsistent(s)
    ensures forall c :: c in GetAll(s) <==> Keyed(c) && Lookup(s, IdOf(c)) == Some(c)
  {
    var all := GetAll(s);
    forall c ensures c in all <==> Keyed(c) && Lookup(s, IdOf(c)) == Some(c) {
      if c in all {
        var i :| 0 <= i < |s| && s[i].val == c;
        LookupListed(s, i);
      }
      if Keyed(c) && Lookup(s, IdOf(c)) == Some(c) {
        var i :| 0 <= i < |s| && s[i] == Entry(IdOf(c), c);
        assert all[i] == c;
      }
    }
  }

  /** A coordinate in the projected grid the application uses. */
  datatype Coordinate = Coordinate(ost: Dec, nord: Dec)

  datatype Location = Location(id: string, contractId: string, coordinate: Coordinate, timestamp: int)

  /** The `locations` store. */
  type LocationStore = seq<Entry<Location>>

  predicate LocationsConsistent(s: LocationStore) {
    Sorted(s) && forall i :: 0 <= i < |s| ==> s[i].val.id == s[i].key
  }

  /** No location before position `i` belongs to the contract. */
  predicate FirstOf(s: LocationStore, contractId: string, i: nat) {
    forall j :: 0 <= j < i && j < |s| ==> s[j].val.contractId != contractId
  }

  /** `getLocation(contractId)`: the first location, in key order, of the
      contract. */
  function GetLocation(s: LocationStore, contractId: string): (r: Option<Location>)
    ensures r.None? <==> forall i :: 0 <= i < |s| ==> s[i].val.contractId != contractId
    ensures r.Some? ==> r.value.contractId == contractId
    ensures r.Some? ==> exists i :: 0 <= i < |s| && s[i].val == r.value && FirstOf(s, contractId, i)
  {
    if |s| == 0 then None
    else if s[0].val.contractId == contractId then Some(s[0].val)
    else
      var r := GetLocation(s[1..], contractId);
      assert forall i :: 1 <= i < |s| ==> s[i] == s[1..][i - 1];
      if r.Some? then
        var i :| 0 <= i < |s| - 1 && s[1..][i].val == r.value && FirstOf(s[1..], contractId, i);
        assert s[i + 1].val == r.value;
        r
      else r
  }

  /** `updateLocation(id, coordinate)` at time `now`. */
  function UpdateLocation(s: LocationStore, id: string, coordinate: Coordinate, now: int): (r: LocationStore)
    requires LocationsConsistent(s)
    ensures LocationsConsistent(r)
  {
    match Lookup(s, id)
    case None => s
    case Some(l) =>
      var l' := l.(coordinate := coordinate, timestamp := now);
      assert l.id == id;
      PutSorted(s, id, l');
      Put(s, id, l')
  }

  /** Updating a location changes only its coordinate and timestamp; an
      unknown `id` changes nothing. */
  lemma UpdateLocationEffect(s: LocationStore, id: string, coordinate: Coordinate, now: int, k: string)
    requires LocationsConsistent(s)
    ensures var r := UpdateLocation(s, id, coordinate, now);
      Lookup(r, k) == if k == id && Lookup(s, id).Some?
        then Some(Lookup(s, id).value.(coordinate := coordinate, timestamp := now))
        else Lookup(s, k)
    ensures Lookup(s, id).None? ==> UpdateLocation(s, id, coordinate, now) == s
  {
    if Lookup(s, id).Some? {
      var l' := Lookup(s, id).value.(coordinate := coordinate, timestamp := now);
      if k == id {
        LookupPutSame(s, id, l');
      } else {
        LookupPutOther(s, id, l', k);
      }
    }
  }
}

=== FILE: text.dfy ===
/** The JavaScript string operations the application relies on
    (`trim`, `toUpperCase`, `split`, `includes`, `replace`, `padStart`),
    stated over `seq<char>`. */
module Text {
  import opened Wrappers
  import opened Seqs

  /** The class `\s` of JavaScript regular expressions, which is also the
      set of characters `String.prototype.trim` strips. */
  predicate IsSpace(c: char) {
    || c == ' ' || c == '\t' || c == '\n' || c == '\r'
    || c == '\U{000B}' || c == '\U{000C}' || c == '\U{00A0}' || c == '\U{1680}'
    || ('\U{2000}' <= c <= '\U{200A}')
    || c == '\U{2028}' || c == '\U{2029}' || c == '\U{202F}' || c == '\U{205F}'
    || c == '\U{3000}' || c == '\U{FEFF}'
  }

  predicate NotSpace(c: char) {
    !IsSpace(c)
  }

  /** A string that `filter(Boolean)` keeps. */
  predicate NonEmpty(s: string) {
    |s| > 0
  }

  predicate IsDigit(c: char) {
    '0' <= c <= '9'
  }

  predicate IsAsciiUpper(c: char) {
    'A' <= c <= 'Z'
  }

  predicate IsAsciiLower(c: char) {
    'a' <= c <= 'z'
  }

  /** `toUpperCase` on one character, for ASCII and the Latin-1 letters
      (which include the Norwegian æ, ø and å). The letters whose capital
      is longer than one character, such as ß, are kept as they are. */
  function UpperChar(c: char): (u: char)
    ensures IsAsciiLower(c) ==> IsAsciiUpper(u)
    ensures !IsAsciiLower(c) && !IsAsciiUpper(c) ==> !IsAsciiUpper(u)
    ensures !IsAsciiLower(u)
    ensures IsSpace(u) <==> IsSpace(c)
  {
    if IsAsciiLower(c) then (c as int - 32) as char
    else if '\U{00E0}' <= c <= '\U{00FE}' && c != '\U{00F7}' then (c as int - 32) as char
    else if c == '\U{00FF}' then '\U{0178}'
    else if c == '\U{00B5}' then '\U{039C}'
    else c
  }

  /** The Latin-1 capitals À to Þ, without the multiplication sign. */
  predicate IsLatinUpper(c: char) {
    '\U{00C0}' <= c <= '\U{00DE}' && c != '\U{00D7}'
  }

  /** `toLowerCase` on one character, for ASCII and the Latin-1 letters. */
  function LowerChar(c: char): (l: char)
    ensures IsAsciiUpper(c) ==> IsAsciiLower(l)
    ensures IsSpace(l) <==> IsSpace(c)
  {
    if IsAsciiUpper(c) then (c as int + 32) as char
    else if IsLatinUpper(c) then (c as int + 32) as char
    else if c == '\U{0178}' then '\U{00FF}'
    else c
  }

  /** Upper-casing an upper-cased character changes nothing. */
  lemma UpperCharIdempotent(c: char)
    ensures UpperChar(UpperChar(c)) == UpperChar(c)
  {
  }

  /** Upper-casing does not care whether the text was lower-cased first. */
  lemma UpperLowerChar(c: char)
    ensures UpperChar(LowerChar(c)) == UpperChar(c)
  {
  }

  function ToUpper(s: string): (r: string)
    ensures |r| == |s|
  {
    seq(|s|, i requires 0 <= i < |s| => UpperChar(s[i]))
  }

  function ToLower(s: string): (r: string)
    ensures |r| == |s|
  {
    seq(|s|, i requires 0 <= i < |s| => LowerChar(s[i]))
  }

  lemma ToUpperSlice(s: string, i: int, j: int)
    requires 0 <= i <= j <= |s|
    ensures ToUpper(s[i..j]) == ToUpper(s)[i..j]
  {
  }

  lemma ToUpperNoop(s: string)
    requires forall k :: 0 <= k < |s| ==> UpperChar(s[k]) == s[k]
    ensures ToUpper(s) == s
  {
  }

  lemma ToUpperAppend(a: string, b: string)
    ensures ToUpper(a + b) == ToUpper(a) + ToUpper(b)
  {
  }

  lemma ToLowerAppend(a: string, b: string)
    ensures ToLower(a + b) == ToLower(a) + ToLower(b)
  {
  }

  /** Number of whitespace characters at the start. */
  function LeadingSpaces(s: string): (n: nat)
    ensures n <= |s|
    ensures forall k :: 0 <= k < n ==> IsSpace(s[k])
    ensures n == |s| || !IsSpace(s[n])
  {
    if |s| > 0 && IsSpace(s[0]) then 1 + LeadingSpaces(s[1..]) else 0
  }

  /** Number of whitespace characters at the end. */
  function TrailingSpaces(s: string): (n: nat)
    ensures n <= |s|
    ensures forall k :: |s| - n <= k < |s| ==> IsSpace(s[k])
    ensures n == |s| || !IsSpace(s[|s| - n - 1])
  {
    if |s| > 0 && IsSpace(s[|s| - 1]) then 1 + TrailingSpaces(s[..|s| - 1]) else 0
  }

  /** `trimStart`: drops the leading whitespace and nothing else. */
  function TrimStart(s: string): (r: string)
    ensures |r| <= |s| && r == s[|s| - |r|..]
    ensures forall k :: 0 <= k < |s| - |r| ==> IsSpace(s[k])
    ensures |r| == 0 || !IsSpace(r[0])
  {
    s[LeadingSpaces(s)..]
  }

  /** `trimEnd`: drops the trailing whitespace and nothing else. */
  function TrimEnd(s: string): (r: string)
    ensures |r| <= |s| && r == s[..|r|]
    ensures forall k :: |r| <= k < |s| ==> IsSpace(s[k])
    ensures |r| == 0 || !IsSpace(r[|r| - 1])
  {
    s[..|s| - TrailingSpaces(s)]
  }

  /** `trim`, which is `trimStart` followed by `trimEnd`: a slice of the
      input with no whitespace at either end, and only whitespace cut away. */
  function Trim(s: string): (r: string)
    ensures |r| == 0 || (!IsSpace(r[0]) && !IsSpace(r[|r| - 1]))
    ensures var i := LeadingSpaces(s);
              && i + |r| <= |s| && r == s[i..i + |r|]
              && (forall k :: i + |r| <= k < |s| ==> IsSpace(s[k]))
  {
    var i := LeadingSpaces(s);
    if i == |s| then "" else s[i..|s| - TrailingSpaces(s)]
  }

  lemma TrimStartNoop(s: string)
    requires |s| == 0 || !IsSpace(s[0])
    ensures TrimStart(s) == s
  {
  }

  lemma TrimEndNoop(s: string)
    requires |s| == 0 || !IsSpace(s[|s| - 1])
    ensures TrimEnd(s) == s
  {
  }

  /** `trim` is `trimStart` followed by `trimEnd`. */
  lemma TrimIsBothEnds(s: string)
    ensures Trim(s) == TrimEnd(TrimStart(s))
  {
    var t := TrimStart(s);
    var i := LeadingSpaces(s);
    if i < |s| {
      var n := TrailingSpaces(s);
      assert t == s[i..];
      TrailingSpacesSuffix(s, i);
      assert TrimEnd(t) == s[i..][..|t| - n];
    }
  }

  lemma {:induction false} TrailingSpacesSuffix(s: string, i: nat)
    requires i < |s| && !IsSpace(s[i])
    ensures TrailingSpaces(s[i..]) == TrailingSpaces(s)
    decreases |s|
  {
    if IsSpace(s[|s| - 1]) {
      assert s[i..][..|s[i..]| - 1] == s[..|s| - 1][i..];
      TrailingSpacesSuffix(s[..|s| - 1], i);
    }
  }

  /** Trimming twice is trimming once. */
  lemma TrimIdempotent(s: string)
    ensures Trim(Trim(s)) == Trim(s)
  {
    var r := Trim(s);
    assert LeadingSpaces(r) == 0;
  }

  /** A string without whitespace is its own trim. */
  lemma TrimNoSpace(s: string)
    requires forall k :: 0 <= k < |s| ==> !IsSpace(s[k])
    ensures Trim(s) == s
  {
    assert LeadingSpaces(s) == 0;
  }

  /** A string with no whitespace at either end is its own trim. */
  lemma TrimNoEdgeSpace(s: string)
    requires |s| == 0 || (!IsSpace(s[0]) && !IsSpace(s[|s| - 1]))
    ensures Trim(s) == s
  {
    assert LeadingSpaces(s) == 0;
    if |s| > 0 {
      assert TrailingSpaces(s) == 0;
    }
  }

  /** `xs.map(x => x.trim())`. */
  function TrimAll(xs: seq<string>): (ys: seq<string>)
    ensures |ys| == |xs|
    ensures forall i :: 0 <= i < |xs| ==> ys[i] == Trim(xs[i])
  {
    seq(|xs|, i requires 0 <= i < |xs| => Trim(xs[i]))
  }

  lemma TrimAllOfTrimmed(xs: seq<string>)
    requires forall i :: 0 <= i < |xs| ==> Trim(xs[i]) == xs[i]
    ensures TrimAll(xs) == xs
  {
  }

  /** `s.replace(/\s+/g, '')`: every whitespace character removed. */
  function RemoveSpaces(s: string): (r: string)
    ensures forall k :: 0 <= k < |r| ==> !IsSpace(r[k])
  {
    Filter(s, NotSpace)
  }

  /** `s.replace(/<c>/g, '')`. */
  function RemoveChar(s: string, c: char): (r: string)
    ensures c !in r
    ensures |r| <= |s|
    ensures forall k :: 0 <= k < |r| ==> r[k] in s
    ensures forall k :: 0 <= k < |s| && s[k] != c ==> s[k] in r
  {
    if |s| == 0 then ""
    else if s[0] == c then RemoveChar(s[1..], c)
    else [s[0]] + RemoveChar(s[1..], c)
  }

  lemma {:induction false} RemoveCharAbsent(s: string, c: char)
    requires c !in s
    ensures RemoveChar(s, c) == s
  {
    if |s| > 0 {
      RemoveCharAbsent(s[1..], c);
    }
  }

  /** `s.split(c)` for a one-character separator: always at least one
      piece, and no piece holds the separator. */
  function Split(s: string, c: char): (r: seq<string>)
    ensures |r| >= 1
    ensures forall k :: 0 <= k < |r| ==> c !in r[k]
  {
    if |s| == 0 then [""]
    else
      var rest := Split(s[1..], c);
      if s[0] == c then [""] + rest
      else [[s[0]] + rest[0]] + rest[1..]
  }

  /** `parts.join(c)`. */
  function Join(parts: seq<string>, c: char): string {
    if |parts| == 0 then ""
    else if |parts| == 1 then parts[0]
    else parts[0] + [c] + Join(parts[1..], c)
  }

  /** A join starts with the first piece. */
  lemma JoinFirst(parts: seq<string>, c: char)
    requires |parts| >= 1 && |parts[0]| > 0
    ensures |Join(parts, c)| > 0 && Join(parts, c)[0] == parts[0][0]
  {
  }

  /** A join ends with the last piece. */
  lemma {:induction false} JoinLast(parts: seq<string>, c: char)
    requires |parts| >= 1 && |parts[|parts| - 1]| > 0
    ensures var j := Join(parts, c); var p := parts[|parts| - 1];
      |j| > 0 && j[|j| - 1] == p[|p| - 1]
  {
    if |parts| > 1 {
      JoinLast(parts[1..], c);
    }
  }

  /** Joining the pieces of a split restores the text. */
  lemma {:induction false} JoinSplit(s: string, c: char)
    ensures Join(Split(s, c), c) == s
  {
    if |s| > 0 {
      JoinSplit(s[1..], c);
      var rest := Split(s[1..], c);
      if s[0] == c {
        assert Split(s, c)[1..] == rest;
      } else {
        var r := Split(s, c);
        assert r[1..] == rest[1..];
        if |rest| == 1 {
        } else {
          assert rest == [rest[0]] + rest[1..];
        }
      }
    }
  }

  /** Splitting a join of separator-free pieces gives the pieces back. */
  lemma {:induction false} SplitJoin(parts: seq<string>, c: char)
    requires |parts| >= 1
    requires forall k :: 0 <= k < |parts| ==> c !in parts[k]
    ensures Split(Join(parts, c), c) == parts
    decreases |parts|, |parts[0]|
  {
    var j := Join(parts, c);
    if |parts[0]| > 0 {
      var p0 := parts[0];
      var tail := [p0[1..]] + parts[1..];
      assert c !in p0[1..] && tail[1..] == parts[1..];
      SplitJoin(tail, c);
      JoinDropFirst(parts, c);
      assert c !in p0;
      assert Split(j, c) == [[p0[0]] + tail[0]] + tail[1..];
      assert [p0[0]] + p0[1..] == p0;
    } else if |parts| > 1 {
      SplitJoin(parts[1..], c);
      assert j == [c] + Join(parts[1..], c);
      assert j[1..] == Join(parts[1..], c);
      assert parts == [parts[0]] + parts[1..];
    }
  }

  /** A join without its first character is the join with the first piece
      shortened by one. */
  lemma JoinDropFirst(parts: seq<string>, c: char)
    requires |parts| >= 1 && |parts[0]| > 0
    ensures |Join(parts, c)| > 0 && Join(parts, c)[0] == parts[0][0]
    ensures Join(parts, c)[1..] == Join([parts[0][1..]] + parts[1..], c)
  {
    var p0 := parts[0];
    var tail := [p0[1..]] + parts[1..];
    if |parts| > 1 {
      var rest := [c] + Join(parts[1..], c);
      assert tail[0] == p0[1..] && tail[1..] == parts[1..] && |tail| > 1;
      assert Join(parts, c) == p0 + rest;
      assert Join(tail, c) == p0[1..] + rest;
      DropFirstAppend(p0, rest);
    } else {
      assert tail == [p0[1..]];
    }
  }

  lemma DropFirstAppend(a: string, b: string)
    requires |a| > 0
    ensures (a + b)[1..] == a[1..] + b
  {
  }

  /** Two separator-free pieces joined by the separator split back. */
  lemma SplitTwo(a: string, b: string, c: char)
    requires c !in a && c !in b
    ensures Split(a + [c] + b, c) == [a, b]
  {
    SplitJoin([a, b], c);
    assert Join([a, b], c) == a + [c] + b;
  }

  /** Text without the separator is one piece. */
  lemma SplitNoSeparator(s: string, c: char)
    requires c !in s
    ensures Split(s, c) == [s]
  {
    SplitJoin([s], c);
  }

  /** Number of occurrences of `c` in `s`. */
  function Occurrences(s: string, c: char): nat {
    if |s| == 0 then 0 else (if s[0] == c then 1 else 0) + Occurrences(s[1..], c)
  }

  /** A split yields one more piece than there are separators. */
  lemma {:induction false} SplitCount(s: string, c: char)
    ensures |Split(s, c)| == Occurrences(s, c) + 1
  {
    if |s| > 0 {
      SplitCount(s[1..], c);
    }
  }

  /** `s.startsWith(p)`. */
  predicate StartsWith(s: string, p: string) {
    |p| <= |s| && s[..|p|] == p
  }

  /** `s.endsWith(p)`. */
  predicate EndsWith(s: string, p: string) {
    |p| <= |s| && s[|s| - |p|..] == p
  }

  /** `pat` occurs in `s` at position `i`. */
  predicate OccursAt(s: string, pat: string, i: int) {
    0 <= i && i + |pat| <= |s| && s[i..i + |pat|] == pat
  }

  /** `s.indexOf(pat)`, with `None` for -1. */
  function IndexOf(s: string, pat: string): (r: Option<nat>)
    ensures r.Some? ==> OccursAt(s, pat, r.value)
    ensures r.Some? ==> forall i :: 0 <= i < r.value ==> !OccursAt(s, pat, i)
    ensures r.None? ==> forall i :: !OccursAt(s, pat, i)
    decreases |s|
  {
    if |pat| <= |s| && s[..|pat|] == pat then Some(0)
    else if |s| <= |pat| then
      assert forall i :: !OccursAt(s, pat, i) by {
        if |pat| <= |s| {
          assert s[0..|pat|] == s[..|pat|];
        }
      }
      None
    else
      var r := IndexOf(s[1..], pat);
      assert forall i :: 1 <= i ==> (OccursAt(s, pat, i) <==> OccursAt(s[1..], pat, i - 1)) by {
        forall i | 1 <= i ensures OccursAt(s, pat, i) <==> OccursAt(s[1..], pat, i - 1) {
          OccursShift(s, pat, i);
        }
      }
      assert !OccursAt(s, pat, 0);
      match r
      case None => None
      case Some(k) => Some(k + 1)
  }

  lemma OccursShift(s: string, pat: string, i: int)
    requires 1 <= i && |s| > 0
    ensures OccursAt(s, pat, i) <==> OccursAt(s[1..], pat, i - 1)
  {
    if i + |pat| <= |s| {
      var a, b := s[i..i + |pat|], s[1..][i - 1..i - 1 + |pat|];
      assert |a| == |b|;
      forall k | 0 <= k < |a| ensures a[k] == b[k] {
        assert a[k] == s[i + k] && b[k] == s[1..][i - 1 + k];
      }
      assert a == b;
    }
  }

  /** `s.includes(pat)`. */
  predicate Contains(s: string, pat: string) {
    IndexOf(s, pat).Some?
  }

  /** `includes` holds exactly when the pattern occurs somewhere. */
  lemma ContainsIff(s: string, pat: string)
    ensures Contains(s, pat) <==> exists i :: OccursAt(s, pat, i)
  {
  }

  /** The empty pattern occurs in every string. */
  lemma ContainsEmpty(s: string)
    ensures Contains(s, "")
  {
    assert OccursAt(s, "", 0);
  }

  /** `s.replace(pat, rep)` with a string pattern: the first occurrence
      only, its replacement being `rep` with its `$` patterns expanded. */
  function ReplaceFirst(s: string, pat: string, rep: string): (r: string)
    ensures !Contains(s, pat) ==> r == s
    ensures Contains(s, pat) ==>
              var i := IndexOf(s, pat).value;
              r == s[..i] + Expand(rep, pat, s[..i], s[i + |pat|..]) + s[i + |pat|..]
  {
    match IndexOf(s, pat)
    case None => s
    case Some(i) => s[..i] + Expand(rep, pat, s[..i], s[i + |pat|..]) + s[i + |pat|..]
  }

  /** The replacement text `replace` inserts for a string pattern
      (GetSubstitution, section 22.1.3.19.1 of ECMA-262), read left to
      right: `$$` is one `$`, `$&` the matched text, `` $` `` the text
      before the match and `$'` the text after it. A string pattern has no
      capture groups, so any other `$` stands for itself. */
  function Expand(rep: string, matched: string, before: string, after: string): (r: string)
    decreases |rep|
  {
    if |rep| == 0 then ""
    else if rep[0] == '$' && |rep| >= 2 && rep[1] == '$' then "$" + Expand(rep[2..], matched, before, after)
    else if rep[0] == '$' && |rep| >= 2 && rep[1] == '&' then matched + Expand(rep[2..], matched, before, after)
    else if rep[0] == '$' && |rep| >= 2 && rep[1] == '`' then before + Expand(rep[2..], matched, before, after)
    else if rep[0] == '$' && |rep| >= 2 && rep[1] == '\'' then after + Expand(rep[2..], matched, before, after)
    else [rep[0]] + Expand(rep[1..], matched, before, after)
  }

  /** A replacement without `$` is inserted as it is. */
  lemma {:induction false} ExpandPlain(rep: string, matched: string, before: string, after: string)
    requires '$' !in rep
    ensures Expand(rep, matched, before, after) == rep
    decreases |rep|
  {
    if |rep| > 0 {
      assert rep[0] != '$';
      assert '$' !in rep[1..];
      ExpandPlain(rep[1..], matched, before, after);
      assert rep == [rep[0]] + rep[1..];
    }
  }

  /** Every `$` of `s` doubled: the text a replacement must be to insert
      `s` literally. */
  function EscapeDollars(s: string): (r: string)
    ensures |r| >= |s|
    decreases |s|
  {
    if |s| == 0 then ""
    else if s[0] == '$' then "$$" + EscapeDollars(s[1..])
    else [s[0]] + EscapeDollars(s[1..])
  }

  /** Expanding the escaped text gives the text back, whatever the match
      and its surroundings. */
  lemma {:induction false} ExpandEscaped(s: string, matched: string, before: string, after: string)
    ensures Expand(EscapeDollars(s), matched, before, after) == s
    decreases |s|
  {
    if |s| > 0 {
      var e := EscapeDollars(s);
      ExpandEscaped(s[1..], matched, before, after);
      if s[0] == '$' {
        assert e[0] == '$' && e[1] == '$' && e[2..] == EscapeDollars(s[1..]);
      } else {
        assert e[0] == s[0] && e[1..] == EscapeDollars(s[1..]);
      }
      assert s == [s[0]] + s[1..];
    }
  }

  /** When the pattern's first character does not occur before it, the
      first occurrence is the one that follows `pre`. */
  lemma ReplaceFirstAfter(pre: string, pat: string, post: string, rep: string)
    requires |pat| > 0 && pat[0] !in pre
    ensures ReplaceFirst(pre + pat + post, pat, rep) == pre + Expand(rep, pat, pre, post) + post
  {
    var s := pre + pat + post;
    assert OccursAt(s, pat, |pre|) by {
      assert s[|pre|..|pre| + |pat|] == pat;
    }
    forall i | 0 <= i < |pre| ensures !OccursAt(s, pat, i) {
      assert s[i] == pre[i] != pat[0];
      assert i + |pat| <= |s| ==> s[i..i + |pat|][0] == s[i];
    }
    assert IndexOf(s, pat) == Some(|pre|);
    assert s[..|pre|] == pre && s[|pre| + |pat|..] == post;
  }

  /** `s.padStart(n, fill)` with a one-unit fill character: fill
      characters in front until the string is `n` code units long. */
  function PadStart(s: string, n: nat, fill: char): (r: string)
    requires fill as int <= 0xFFFF
    ensures Utf16Length(r) == if Utf16Length(s) >= n then Utf16Length(s) else n
    ensures EndsWith(r, s)
    ensures forall k :: 0 <= k < |r| - |s| ==> r[k] == fill
  {
    if Utf16Length(s) >= n then s
    else
      var pad := seq(n - Utf16Length(s), _ => fill);
      Utf16LengthAppend(pad, s);
      Utf16LengthOneUnit(pad);
      pad + s
  }

  /** `s.replace(/^c/, '')`. */
  function DropLeading(s: string, c: char): (r: string)
    ensures forall k :: 0 <= k < |r| ==> r[k] in s
  {
    if |s| > 0 && s[0] == c then s[1..] else s
  }

  /** `s.replace(/c$/, '')`. */
  function DropTrailing(s: string, c: char): (r: string)
    ensures forall k :: 0 <= k < |r| ==> r[k] in s
  {
    if |s| > 0 && s[|s| - 1] == c then s[..|s| - 1] else s
  }

  /** Length in UTF-16 code units, which is what JavaScript's `length`
      counts: characters outside the Basic Multilingual Plane take two. */
  function Utf16Length(s: string): (n: nat)
    ensures |s| <= n <= 2 * |s|
  {
    if |s| == 0 then 0
    else (if s[0] as int > 0xFFFF then 2 else 1) + Utf16Length(s[1..])
  }

  lemma {:induction false} Utf16LengthAppend(a: string, b: string)
    ensures Utf16Length(a + b) == Utf16Length(a) + Utf16Length(b)
    decreases |a|
  {
    if |a| == 0 {
      assert a + b == b;
    } else {
      assert (a + b)[1..] == a[1..] + b;
      Utf16LengthAppend(a[1..], b);
    }
  }

  /** Characters of the Basic Multilingual Plane take one code unit each. */
  lemma {:induction false} Utf16LengthOneUnit(s: string)
    requires forall k :: 0 <= k < |s| ==> s[k] as int <= 0xFFFF
    ensures Utf16Length(s) == |s|
    decreases |s|
  {
    if |s| > 0 {
      Utf16LengthOneUnit(s[1..]);
    }
  }

  /** The UTF-16 code units of one character: itself, or a high and a low
      surrogate outside the Basic Multilingual Plane. */
  function CharUnits(c: char): (u: seq<int>)
    ensures |u| == if c as int > 0xFFFF then 2 else 1
    ensures c as int > 0xFFFF <==> 0xD800 <= u[0] < 0xDC00
  {
    if c as int > 0xFFFF then
      [0xD800 + (c as int - 0x10000) / 0x400, 0xDC00 + (c as int - 0x10000) % 0x400]
    else [c as int]
  }

  /** The UTF-16 code units of a string, which JavaScript strings hold. */
  function Utf16Units(s: string): (u: seq<int>)
    ensures |u| == Utf16Length(s)
    decreases |s|
  {
    if |s| == 0 then [] else CharUnits(s[0]) + Utf16Units(s[1..])
  }

  /** A character is read back from the front of its code units. */
  lemma CharUnitsInjective(c: char, d: char, rest1: seq<int>, rest2: seq<int>)
    requires CharUnits(c) + rest1 == CharUnits(d) + rest2
    ensures c == d && rest1 == rest2
  {
    var u, w := CharUnits(c), CharUnits(d);
    assert (u + rest1)[0] == u[0] && (w + rest2)[0] == w[0];
    if c as int > 0xFFFF {
      assert (u + rest1)[1] == u[1] && (w + rest2)[1] == w[1];
      assert (u + rest1)[2..] == rest1 && (w + rest2)[2..] == rest2;
    } else {
      assert (u + rest1)[1..] == rest1 && (w + rest2)[1..] == rest2;
    }
  }

  /** Different strings have different code units. */
  lemma {:induction false} Utf16UnitsInjective(a: string, b: string)
    requires Utf16Units(a) == Utf16Units(b)
    ensures a == b
    decreases |a|
  {
    if |a| > 0 && |b| > 0 {
      CharUnitsInjective(a[0], b[0], Utf16Units(a[1..]), Utf16Units(b[1..]));
      Utf16UnitsInjective(a[1..], b[1..]);
      assert a == [a[0]] + a[1..] && b == [b[0]] + b[1..];
    }
  }
}

=== FILE: theme.dfy ===
/** The theme helpers of frontend/app/styles/theme/utils.ts: dotted-path
    lookup in the theme object and the colour formatting built on it. The
    theme object is a parameter (its table lives in files this model does
    not cover), and the console warnings are left out. */
module Theme {
  import opened Wrappers
  import opened Text
  import opened Numbers
  import opened Json

  // ------------------------------------------------------------ path lookup

  /** `path.reduce((acc, key) => acc?.[key], obj)`: `undefined` or `null`
      short-circuits to `undefined`, anything else is read with `[key]`. */
  function GetThemeValue(obj: Value, path: seq<string>): (r: Result<Value, JsError>)
    ensures |path| == 0 ==> r == Ok(obj)
    ensures |path| > 0 && (obj.Undefined? || obj.Null?) ==> r == Ok(Undefined)
    ensures |path| > 0 && obj.Obj? && Get(obj.fields, path[0]).None? ==> r == Ok(Undefined)
    ensures r.Err? ==> r.error == Unmodelled
    decreases |path|
  {
    if |path| == 0 then Ok(obj)
    else
      var next := if obj.Undefined? || obj.Null? then Ok(Undefined) else Prop(obj, path[0]);
      match next
      case Ok(v) => GetThemeValue(v, path[1..])
      case Err(e) => Err(e)
  }

  /** `obj` holds nested objects along `path`, ending at `leaf`. */
  predicate HasPath(obj: Value, path: seq<string>, leaf: Value)
    decreases |path|
  {
    if |path| == 0 then obj == leaf
    else obj.Obj? && Get(obj.fields, path[0]).Some? && HasPath(Get(obj.fields, path[0]).value, path[1..], leaf)
  }

  /** Along existing keys the lookup finds the nested value. */
  lemma {:induction false} GetThemeValueFollows(obj: Value, path: seq<string>, leaf: Value)
    requires HasPath(obj, path, leaf)
    ensures GetThemeValue(obj, path) == Ok(leaf)
    decreases |path|
  {
    if |path| > 0 {
      GetThemeValueFollows(Get(obj.fields, path[0]).value, path[1..], leaf);
    }
  }

  /** A segment missing from an object makes the whole lookup `undefined`,
      whatever follows it. */
  lemma {:induction false} MissingSegment(obj: Value, pre: seq<string>, mid: Value, key: string, post: seq<string>)
    requires HasPath(obj, pre, mid) && mid.Obj? && Get(mid.fields, key).None?
    ensures GetThemeValue(obj, pre + [key] + post) == Ok(Undefined)
    decreases |pre|
  {
    if |pre| == 0 {
      assert pre + [key] + post == [key] + post;
      assert ([key] + post)[1..] == post;
    } else {
      assert (pre + [key] + post)[0] == pre[0];
      assert (pre + [key] + post)[1..] == pre[1..] + [key] + post;
      MissingSegment(Get(obj.fields, pre[0]).value, pre[1..], mid, key, post);
    }
  }

  // ------------------------------------------------------------------ paths

  /** `s.replace` of every `c` by `d`, character by character. */
  function ReplaceChar(s: string, c: char, d: char): (r: string)
    ensures |r| == |s|
    ensures forall k :: 0 <= k < |s| ==> r[k] == if s[k] == c then d else s[k]
  {
    seq(|s|, k requires 0 <= k < |s| => if s[k] == c then d else s[k])
  }

  /** Splitting at `c` and joining with `d` replaces every `c` by `d`. */
  lemma {:induction false} JoinSplitReplaces(s: string, c: char, d: char)
    ensures Join(Split(s, c), d) == ReplaceChar(s, c, d)
    decreases |s|
  {
    if |s| > 0 {
      var rest := Split(s[1..], c);
      JoinSplitReplaces(s[1..], c, d);
      ReplaceCons(s, c, d);
      if s[0] == c {
        assert Split(s, c) == [""] + rest;
        JoinEmptyFirst(rest, d);
      } else {
        assert Split(s, c) == [[s[0]] + rest[0]] + rest[1..];
        JoinGrowFirst(s[0], rest, d);
      }
    }
  }

  lemma ReplaceCons(s: string, c: char, d: char)
    requires |s| > 0
    ensures ReplaceChar(s, c, d) == [if s[0] == c then d else s[0]] + ReplaceChar(s[1..], c, d)
  {
  }

  /** An empty first piece leaves the separator at the front. */
  lemma JoinEmptyFirst(rest: seq<string>, d: char)
    requires |rest| >= 1
    ensures Join([""] + rest, d) == [d] + Join(rest, d)
  {
    assert ([""] + rest)[1..] == rest;
  }

  /** A character in front of the first piece lands in front of the join. */
  lemma JoinGrowFirst(x: char, rest: seq<string>, d: char)
    requires |rest| >= 1
    ensures Join([[x] + rest[0]] + rest[1..], d) == [x] + Join(rest, d)
  {
    var parts := [[x] + rest[0]] + rest[1..];
    if |rest| > 1 {
      assert parts[1..] == rest[1..];
      assert Join(rest, d) == rest[0] + [d] + Join(rest[1..], d);
    }
  }

  // -------------------------------------------------------------- tv / cssVar

  /** `tv(path)`: the theme value at the dotted path, `''` for a falsy one. */
  function Tv(theme: Value, path: string): (r: Result<Value, JsError>)
    ensures r.Err? <==> GetThemeValue(theme, Split(path, '.')).Err?
    ensures r.Ok? ==> Truthy(r.value) || r.value == Str("")
    ensures r.Ok? && Truthy(r.value) ==> r.value == GetThemeValue(theme, Split(path, '.')).value
  {
    match GetThemeValue(theme, Split(path, '.'))
    case Err(e) => Err(e)
    case Ok(v) => Ok(if !Truthy(v) then Str("") else v)
  }

  /** A path through the theme to a truthy value gives that value; a path
      that leaves the theme's objects gives `''`. */
  lemma TvFinds(theme: Value, segs: seq<string>, path: string, leaf: Value, pre: seq<string>, mid: Value, key: string, post: seq<string>)
    requires Split(path, '.') == segs
    ensures HasPath(theme, segs, leaf) && Truthy(leaf) ==> Tv(theme, path) == Ok(leaf)
    ensures segs == pre + [key] + post && HasPath(theme, pre, mid) && mid.Obj? && Get(mid.fields, key).None? ==>
      Tv(theme, path) == Ok(Str(""))
  {
    if HasPath(theme, segs, leaf) {
      GetThemeValueFollows(theme, segs, leaf);
    }
    if segs == pre + [key] + post && HasPath(theme, pre, mid) && mid.Obj? && Get(mid.fields, key).None? {
      MissingSegment(theme, pre, mid, key, post);
    }
  }

  /** `cssVar(path)`: the CSS variable named after the path. */
  function CssVar(theme: Value, path: string): (r: Result<string, JsError>)
    ensures r.Err? <==> GetThemeValue(theme, Split(path, '.')).Err?
    ensures r.Ok? && r.value != "" ==> r.value == "var(--" + ReplaceChar(path, '.', '-') + ")"
  {
    JoinSplitReplaces(path, '.', '-');
    match GetThemeValue(theme, Split(path, '.'))
    case Err(e) => Err(e)
    case Ok(v) => Ok(if !Truthy(v) then "" else "var(--" + Join(Split(path, '.'), '-') + ")")
  }

  /** A path that leads to a truthy value names the variable with every
      `.` of the path turned into `-`; any other path gives `''`. */
  lemma CssVarName(theme: Value, path: string)
    requires GetThemeValue(theme, Split(path, '.')).Ok?
    ensures var v := GetThemeValue(theme, Split(path, '.')).value;
      CssVar(theme, path) == Ok(if Truthy(v) then "var(--" + ReplaceChar(path, '.', '-') + ")" else "")
  {
    JoinSplitReplaces(path, '.', '-');
  }

  // ------------------------------------------------------------------ colours

  /** `/^#?[0-9A-Fa-f]{6}$/.test(value)`, as the matcher runs it: an
      optional `#`, then exactly six hexadecimal digits up to the end. */
  function IsHexColor(value: string): bool {
    var rest := if |value| > 0 && value[0] == '#' then value[1..] else value;
    |rest| == 6 && AllHexDigits(rest)
  }

  /** The pattern's language: six hexadecimal digits, with or without a
      `#` in front. */
  lemma IsHexColorIff(value: string)
    ensures IsHexColor(value) <==>
      (|value| == 6 && AllHexDigits(value)) || (|value| == 7 && value[0] == '#' && AllHexDigits(value[1..]))
  {
    if |value| == 6 && value[0] == '#' {
      assert !IsHexDigit(value[0]);
    }
  }

  /** `s.substring(a, b)` for `a <= b`: the indices are clamped to the
      string. */
  function Substring(s: string, a: nat, b: nat): (r: string)
    requires a <= b
  {
    var hi := if b <= |s| then b else |s|;
    var lo := if a <= hi then a else hi;
    s[lo..hi]
  }

  /** `parseInt(s, 16)`: leading whitespace, a sign and a `0x` prefix are
      skipped, then the longest run of hexadecimal digits is read. `None`
      is NaN. */
  function ParseHex(s: string): Option<int> {
    var (neg, body) := SplitSign(TrimStart(s));
    var digits := if |body| >= 2 && body[0] == '0' && (body[1] == 'x' || body[1] == 'X') then body[2..] else body;
    var hs := TakeHexDigits(digits);
    if |hs| == 0 then None else Some(if neg then 0 - HexValue(hs) else HexValue(hs))
  }

  /** `${n}` of what `parseInt` returned. */
  function IntText(n: Option<int>): string {
    if n.Some? then IntToString(n.value) else "NaN"
  }

  /** One component of `hexToRgb`: the two characters from `i` read in
      base 16 and written in decimal. */
  function Component(h: string, i: nat): string {
    IntText(ParseHex(Substring(h, i, i + 2)))
  }

  /** A hexadecimal digit for a value below 16. */
  function HexDigit(d: nat): (c: char)
    requires d < 16
    ensures IsHexDigit(c) && HexDigitValue(c) == d
  {
    if d < 10 then DigitChar(d) else ('A' as int + d - 10) as char
  }

  /** A byte as two hexadecimal digits. */
  function Hex2(n: nat): (s: string)
    requires n < 256
    ensures |s| == 2 && AllHexDigits(s)
  {
    [HexDigit(n / 16), HexDigit(n % 16)]
  }

  /** The value of two hexadecimal digits, from the left. */
  lemma HexValuePair(s: string)
    requires |s| == 2 && AllHexDigits(s)
    ensures HexValue(s) == HexDigitValue(s[0]) * 16 + HexDigitValue(s[1])
    ensures HexValue(s) < 256
  {
    var a := s[..1];
    assert a[..0] == [];
    assert HexValue(a) == HexDigitValue(s[0]);
    assert s[..|s| - 1] == a;
  }

  lemma Hex2Value(n: nat)
    requires n < 256
    ensures HexValue(Hex2(n)) == n
  {
    HexValuePair(Hex2(n));
  }

  /** Hexadecimal digits are not whitespace, sign or prefix: the parse
      reads them as they are. */
  lemma ParseHexDigits(s: string)
    requires |s| == 2 && AllHexDigits(s)
    ensures TrimStart(s) == s && SplitSign(s) == (false, s) && TakeHexDigits(s) == s
  {
    assert !IsSpace(s[0]);
    TrimStartNoop(s);
    assert s[1..][1..] == [];
  }

  /** Two hexadecimal digits read in base 16 give their value, which is
      below 256. */
  lemma ParseHexPair(s: string)
    requires |s| == 2 && AllHexDigits(s)
    ensures ParseHex(s) == Some(HexValue(s))
    ensures HexValue(s) < 256
  {
    ParseHexDigits(s);
    HexValuePair(s);
    assert !(s[0] == '0' && (s[1] == 'x' || s[1] == 'X'));
  }

  /** The byte written by the two digits of `ds` from `i`. */
  function Byte(ds: string, i: nat): (n: nat)
    requires |ds| == 6 && AllHexDigits(ds) && i <= 4
    ensures n < 256
  {
    var pair := ds[i..i + 2];
    assert AllHexDigits(pair);
    HexValuePair(pair);
    HexValue(pair)
  }

  /** A component of six digits is the decimal text of its byte. */
  lemma ComponentOf(ds: string, i: nat)
    requires |ds| == 6 && AllHexDigits(ds) && i <= 4
    ensures Component(ds, i) == NatToString(Byte(ds, i))
  {
    var pair := ds[i..i + 2];
    assert Substring(ds, i, i + 2) == pair;
    ParseHexPair(pair);
    assert IntToString(HexValue(pair)) == NatToString(HexValue(pair));
  }

  /** The digits of a valid colour, `#` taken off. */
  function ColorDigits(value: string): (ds: string)
    requires IsHexColor(value)
    ensures |ds| == 6 && AllHexDigits(ds)
  {
    if value[0] == '#' then value[1..] else value
  }

  /** Removing the first `#` from a valid colour leaves its digits. */
  lemma StripHash(value: string)
    requires IsHexColor(value)
    ensures ReplaceFirst(value, "#", "") == ColorDigits(value)
  {
    var ds := ColorDigits(value);
    if value[0] == '#' {
      ReplaceFirstAfter("", "#", ds, "");
      assert "" + "#" + ds == value;
    } else {
      assert !Contains(value, "#") by {
        ContainsIff(value, "#");
        forall i ensures !OccursAt(value, "#", i) {
          if 0 <= i < |value| {
            assert value[i..i + 1][0] == value[i];
            assert IsHexDigit(value[i]);
          }
        }
      }
    }
  }

  /** The decimal text of the colour's three byte values. */
  function RgbText(ds: string): string
    requires |ds| == 6 && AllHexDigits(ds)
  {
    NatToString(Byte(ds, 0)) + " " + NatToString(Byte(ds, 2)) + " " + NatToString(Byte(ds, 4))
  }

  /** `hexToRgb(hex)`: the first `#` removed, then three two-character
      slices read in base 16 and written in decimal. For a valid colour
      each component is the byte of the next pair of digits. */
  function HexToRgb(hex: string): (r: string)
    ensures IsHexColor(hex) ==> r == RgbText(ColorDigits(hex))
  {
    var h := ReplaceFirst(hex, "#", "");
    assert IsHexColor(hex) ==> Component(h, 0) + " " + Component(h, 2) + " " + Component(h, 4) == RgbText(ColorDigits(hex)) by {
      if IsHexColor(hex) {
        StripHash(hex);
        ComponentOf(h, 0);
        ComponentOf(h, 2);
        ComponentOf(h, 4);
      }
    }
    Component(h, 0) + " " + Component(h, 2) + " " + Component(h, 4)
  }

  lemma HashedColor(ds: string)
    requires |ds| == 6 && AllHexDigits(ds)
    ensures IsHexColor("#" + ds) && ColorDigits("#" + ds) == ds
  {
    assert ("#" + ds)[1..] == ds;
  }

  lemma BytesOfHex2(r: nat, g: nat, b: nat)
    requires r < 256 && g < 256 && b < 256
    ensures var ds := Hex2(r) + Hex2(g) + Hex2(b);
      Byte(ds, 0) == r && Byte(ds, 2) == g && Byte(ds, 4) == b
  {
    var ds := Hex2(r) + Hex2(g) + Hex2(b);
    assert ds[0..2] == Hex2(r) && ds[2..4] == Hex2(g) && ds[4..6] == Hex2(b);
    Hex2Value(r);
    Hex2Value(g);
    Hex2Value(b);
  }

  /** Writing three components as a colour and reading it back gives the
      components. */
  lemma HexToRgbOfHex2(r: nat, g: nat, b: nat)
    requires r < 256 && g < 256 && b < 256
    ensures IsHexColor("#" + Hex2(r) + Hex2(g) + Hex2(b))
    ensures HexToRgb("#" + Hex2(r) + Hex2(g) + Hex2(b)) == NatToString(r) + " " + NatToString(g) + " " + NatToString(b)
  {
    var ds := Hex2(r) + Hex2(g) + Hex2(b);
    assert "#" + Hex2(r) + Hex2(g) + Hex2(b) == "#" + ds;
    HashedColor(ds);
    BytesOfHex2(r, g, b);
    assert RgbText(ds) == NatToString(r) + " " + NatToString(g) + " " + NatToString(b);
  }

  /** `formatColor(value, alpha)`; `alpha` is a finite number or absent. */
  function FormatColor(value: string, alpha: Option<Dec>): (r: string)
    ensures IsHexColor(value) && alpha.None? ==> r == "rgb(" + RgbText(ColorDigits(value)) + ")"
    ensures IsHexColor(value) && alpha.Some? ==>
      r == "rgba(" + RgbText(ColorDigits(value)) + ", " + DecToString(alpha.value) + ")"
    ensures !IsHexColor(value) && '%' in value ==> r == "hsl(" + value + ")"
  {
    if IsHexColor(value) then
      var rgb := HexToRgb(value);
      if alpha.Some? then "rgba(" + rgb + ", " + DecToString(alpha.value) + ")" else "rgb(" + rgb + ")"
    else if '%' in value then "hsl(" + value + ")"
    else if alpha.Some? then "rgba(" + value + ", " + DecToString(alpha.value) + ")"
    else "rgb(" + value + ")"
  }

  lemma HexColorNoPercent(value: string)
    requires IsHexColor(value)
    ensures '%' !in value
  {
    var ds := ColorDigits(value);
    forall k | 0 <= k < |value| ensures value[k] != '%' {
      if value[0] != '#' {
        assert value[k] == ds[k];
      } else if k > 0 {
        assert value[k] == ds[k - 1];
      }
    }
  }

  /** The three kinds of colour text: a hex colour gives its components
      and takes the alpha; text with `%` is HSL and drops the alpha; any
      other text is wrapped as RGB and takes the alpha. A hex colour never
      holds `%`, so the HSL form never applies to it. */
  lemma FormatColorKinds(value: string, alpha: Option<Dec>, other: Option<Dec>)
    ensures IsHexColor(value) ==> '%' !in value
    ensures !IsHexColor(value) && '%' in value ==>
      FormatColor(value, alpha) == FormatColor(value, other) == "hsl(" + value + ")"
    ensures IsHexColor(value) && alpha.None? ==>
      var ds := ColorDigits(value);
      FormatColor(value, alpha) == "rgb(" + RgbText(ds) + ")"
    ensures !IsHexColor(value) && '%' !in value && alpha.Some? ==>
      FormatColor(value, alpha) == "rgba(" + value + ", " + DecToString(alpha.value) + ")"
  {
    if IsHexColor(value) {
      HexColorNoPercent(value);
    }
  }

  /** `color(path, alpha)`: the value under `theme.colors` formatted as a
      colour, `''` when the path finds nothing. A number, boolean or object
      has no `includes` and throws; an array's `includes` is not modelled. */
  function ColorOf(theme: Value, path: string, alpha: Option<Dec>): (r: Result<string, JsError>)
    ensures Prop(theme, "colors").Err? ==> r == Err(Prop(theme, "colors").error)
    ensures Prop(theme, "colors").Ok? ==>
      var found := GetThemeValue(Prop(theme, "colors").value, Split(path, '.'));
      && (found.Err? ==> r == Err(found.error))
      && (found.Ok? && !Truthy(found.value) ==> r == Ok(""))
      && (found.Ok? && found.value.Str? && |found.value.s| > 0 ==> r == Ok(FormatColor(found.value.s, alpha)))
      && (found.Ok? && (found.value.Num? || found.value.Bool? || found.value.Obj?) && Truthy(found.value) ==> r == Err(TypeError))
  {
    var colors :- Prop(theme, "colors");
    match GetThemeValue(colors, Split(path, '.'))
    case Err(e) => Err(e)
    case Ok(v) =>
      if !Truthy(v) then Ok("")
      else if v.Str? then Ok(FormatColor(v.s, alpha))
      else if v.Arr? then Err(Unmodelled)
      else Err(TypeError)
  }

  /** `hsl(path)`: the value under `theme.colors` wrapped as HSL. */
  function Hsl(theme: Value, path: string): (r: Result<string, JsError>)
    ensures Prop(theme, "colors").Err? ==> r == Err(Prop(theme, "colors").error)
    ensures r.Ok? ==> r.value == "" || (|r.value| >= 5 && r.value[..4] == "hsl(" && r.value[|r.value| - 1] == ')')
    ensures Prop(theme, "colors").Ok? ==>
      var found := GetThemeValue(Prop(theme, "colors").value, Split(path, '.'));
      && (found.Err? ==> r == Err(found.error))
      && (found.Ok? && !Truthy(found.value) ==> r == Ok(""))
  {
    var colors :- Prop(theme, "colors");
    match GetThemeValue(colors, Split(path, '.'))
    case Err(e) => Err(e)
    case Ok(v) =>
      if !Truthy(v) then Ok("")
      else
        var t := "hsl(" + ToStr(v) + ")";
        assert t[..4] == "hsl(";
        Ok(t)
  }

  /** A colour path that is missing under `theme.colors` gives `''` from
      both colour helpers. */
  lemma MissingColorIsEmpty(theme: Value, pre: seq<string>, mid: Value, key: string, post: seq<string>, path: string, alpha: Option<Dec>)
    requires theme.Obj? && Get(theme.fields, "colors").Some?
    requires HasPath(Get(theme.fields, "colors").value, pre, mid) && mid.Obj? && Get(mid.fields, key).None?
    requires Split(path, '.') == pre + [key] + post
    ensures ColorOf(theme, path, alpha) == Ok("")
    ensures Hsl(theme, path) == Ok("")
  {
    MissingSegment(Get(theme.fields, "colors").value, pre, mid, key, post);
  }

  /** A truthy value stored under the path comes out as its text wrapped
      in `hsl(...)`; an HSL triple stored as text comes out as written. */
  lemma HslFound(theme: Value, path: string, leaf: Value)
    requires theme.Obj? && Get(theme.fields, "colors").Some?
    requires HasPath(Get(theme.fields, "colors").value, Split(path, '.'), leaf)
    requires Truthy(leaf)
    ensures Hsl(theme, path) == Ok("hsl(" + ToStr(leaf) + ")")
    ensures leaf.Str? ==> Hsl(theme, path) == Ok("hsl(" + leaf.s + ")")
  {
    var colors := Get(theme.fields, "colors").value;
    assert Prop(theme, "colors") == Ok(colors);
    GetThemeValueFollows(colors, Split(path, '.'), leaf);
  }

  /** A colour text stored under the path is formatted as a colour. */
  lemma ColorOfFound(theme: Value, path: string, value: string, alpha: Option<Dec>)
    requires theme.Obj? && Get(theme.fields, "colors").Some?
    requires HasPath(Get(theme.fields, "colors").value, Split(path, '.'), Str(value))
    requires |value| > 0
    ensures ColorOf(theme, path, alpha) == Ok(FormatColor(value, alpha))
  {
    var colors := Get(theme.fields, "colors").value;
    assert Prop(theme, "colors") == Ok(colors);
    GetThemeValueFollows(colors, Split(path, '.'), Str(value));
    assert Truthy(Str(value));
  }

  /** A hex colour stored under the path comes out in the `rgb` form. */
  lemma ColorOfHex(theme: Value, path: string, value: string)
    requires theme.Obj? && Get(theme.fields, "colors").Some?
    requires HasPath(Get(theme.fields, "colors").value, Split(path, '.'), Str(value))
    requires IsHexColor(value)
    ensures ColorOf(theme, path, None) == Ok("rgb(" + RgbText(ColorDigits(value)) + ")")
  {
    ColorOfFound(theme, path, value, None);
    FormatColorKinds(value, None, None);
  }
}

=== FILE: transform.dfy ===
/** The import page's helpers: matching CSV headers against the standard
    field names, the area-code join key, postal-range padding, splitting an
    uploaded file into cells, and the file-list updates (field selection
    and the default relationships between files). */
module Transform {
  import opened Wrappers
  import opened Seqs
  import opened Text
  import opened Json

  const AREA_CODE: string := "OMRADEKODE"
  const CONTRACT_AREA_CODE: string := "AVTALEOMRADEKODE"
  const PICKUP_AREA: string := "HENTEOMRADE"
  const DELIVERY_AREA: string := "LEVERINGOMRADE"
  const RESOURCE_COUNT: string := "ANTALL"
  const TYPE: string := "TYPE"
  const TRANSPORT: string := "GYLDIGTRANSPORT"
  const NEEDS: string := "GYLDIGBEHOV"
  const COST_PER_KM: string := "KMPRIS"
  const MIN_COST: string := "MINPRIS"
  const STARTUP_COST: string := "STARTTAKST"
  const OFFICE: string := "AVTALEKONTOR"
  const TRANSPORTER: string := "AVTALENAVN"
  const START_POSTAL_CODE: string := "STARTPOSTNR"
  const START_CITY: string := "STARTPOSTSTED"
  const MUNICIPALITY: string := "KOMMUNE"

  // ---------------------------------------------------------------------
  // Field names

  /** Trimmed, upper-cased, with every whitespace character removed. */
  function NormalizeFieldName(field: string): (r: string)
    ensures forall k :: 0 <= k < |r| ==> !IsSpace(r[k]) && !IsAsciiLower(r[k])
  {
    RemoveSpaces(ToUpper(Trim(field)))
  }

  /** Filtering the upper-cased text by a condition that whitespace never
      meets gives the same result with or without trimming first. */
  lemma FilterUpperTrim(s: string, p: char -> bool)
    requires forall k :: 0 <= k < |s| && IsSpace(s[k]) ==> !p(UpperChar(s[k]))
    ensures Filter(ToUpper(Trim(s)), p) == Filter(ToUpper(s), p)
  {
    var t := Trim(s);
    var i := LeadingSpaces(s);
    var j := i + |t|;
    assert t == s[i..j];
    ToUpperSlice(s, i, j);
    UpperOutside(s, i, j, p);
    FilterSlice(ToUpper(s), i, j, p);
  }

  lemma UpperOutside(s: string, i: int, j: int, p: char -> bool)
    requires 0 <= i <= j <= |s|
    requires forall k :: 0 <= k < |s| && IsSpace(s[k]) ==> !p(UpperChar(s[k]))
    requires forall k :: 0 <= k < i ==> IsSpace(s[k])
    requires forall k :: j <= k < |s| ==> IsSpace(s[k])
    ensures forall k :: 0 <= k < i ==> !p(ToUpper(s)[k])
    ensures forall k :: j <= k < |s| ==> !p(ToUpper(s)[k])
  {
  }

  /** Trimming first is redundant: the name is the upper-cased text with its
      whitespace removed, wherever that whitespace was. */
  lemma NormalizeFieldNameNoTrim(field: string)
    ensures NormalizeFieldName(field) == RemoveSpaces(ToUpper(field))
  {
    FilterUpperTrim(field, NotSpace);
  }

  /** A normalized name is its own normal form. */
  lemma NormalizeFieldNameIdempotent(field: string)
    ensures NormalizeFieldName(NormalizeFieldName(field)) == NormalizeFieldName(field)
  {
    var n := NormalizeFieldName(field);
    NormalizeFieldNameNoTrim(n);
    UpperFixed(n, ToUpper(Trim(field)));
    ToUpperNoop(n);
    FilterAll(n, NotSpace);
  }

  /** Characters taken from upper-cased text are fixed by upper-casing. */
  lemma UpperFixed(n: string, u: string)
    requires forall k :: 0 <= k < |n| ==> n[k] in u
    requires forall k :: 0 <= k < |u| ==> exists c :: u[k] == UpperChar(c)
    ensures forall k :: 0 <= k < |n| ==> UpperChar(n[k]) == n[k]
  {
    forall k | 0 <= k < |n| ensures UpperChar(n[k]) == n[k] {
      var j :| 0 <= j < |u| && u[j] == n[k];
      var c :| u[j] == UpperChar(c);
      UpperCharIdempotent(c);
    }
  }

  /** The normal forms of a header list, position by position. */
  function Normalized(headers: seq<string>): (ns: seq<string>)
    ensures |ns| == |headers|
  {
    seq(|headers|, i requires 0 <= i < |headers| => NormalizeFieldName(headers[i]))
  }

  /** Index of the first header whose normal form is `target`
      (`headers.findIndex(h => normalizeFieldName(h) === target)`). */
  function FindIndex(headers: seq<string>, target: string): (r: Option<nat>)
    ensures r.Some? ==> r.value < |headers| && Normalized(headers)[r.value] == target
    ensures r.Some? ==> target !in Normalized(headers)[..r.value]
    ensures r.None? <==> target !in Normalized(headers)
  {
    var ns := Normalized(headers);
    if target in ns then Some(FirstIndex(ns, target)) else None
  }

  /** `findField`: the first header, in its original spelling, that matches
      the standard name after normalization of both. */
  function FindField(headers: seq<string>, standard: string): (r: Option<string>)
    ensures r.Some? <==> NormalizeFieldName(standard) in Normalized(headers)
    ensures r.Some? ==> r.value in headers
  {
    match FindIndex(headers, NormalizeFieldName(standard))
    case None => None
    case Some(k) => Some(headers[k])
  }

  /** `getDefaultField`: the header for OMRADEKODE if any, else the one
      for AVTALEOMRADEKODE, else the empty string. */
  function GetDefaultField(headers: seq<string>): (r: string)
    ensures r == "" || r in headers
  {
    var normalized := Normalized(headers);
    if AREA_CODE in normalized then headers[FirstIndex(normalized, AREA_CODE)]
    else if CONTRACT_AREA_CODE in normalized then headers[FirstIndex(normalized, CONTRACT_AREA_CODE)]
    else ""
  }

  lemma StandardNamesNormal()
    ensures NormalizeFieldName(AREA_CODE) == AREA_CODE
    ensures NormalizeFieldName(CONTRACT_AREA_CODE) == CONTRACT_AREA_CODE
  {
    AreaCodeNormal();
    ContractAreaCodeNormal();
  }

  lemma AreaCodeNormal()
    ensures NormalizeFieldName(AREA_CODE) == AREA_CODE
  {
    assert forall k :: 0 <= k < |AREA_CODE| ==> IsAsciiUpper(AREA_CODE[k]);
    NoSpaceUpper(AREA_CODE);
  }

  lemma ContractAreaCodeNormal()
    ensures NormalizeFieldName(CONTRACT_AREA_CODE) == CONTRACT_AREA_CODE
  {
    assert forall k :: 0 <= k < |CONTRACT_AREA_CODE| ==> IsAsciiUpper(CONTRACT_AREA_CODE[k]);
    NoSpaceUpper(CONTRACT_AREA_CODE);
  }

  lemma NoSpaceUpper(s: string)
    requires forall k :: 0 <= k < |s| ==> IsAsciiUpper(s[k])
    ensures NormalizeFieldName(s) == s
  {
    TrimNoSpace(s);
    ToUpperNoop(s);
    FilterAll(s, NotSpace);
  }

  /** The default field is the OMRADEKODE match, falling back to the
      AVTALEOMRADEKODE match, falling back to "". */
  lemma GetDefaultFieldPrefersAreaCode(headers: seq<string>)
    ensures GetDefaultField(headers) ==
              FindField(headers, AREA_CODE).GetOr(FindField(headers, CONTRACT_AREA_CODE).GetOr(""))
  {
    StandardNamesNormal();
    FindFieldOfNormal(headers, AREA_CODE);
    FindFieldOfNormal(headers, CONTRACT_AREA_CODE);
  }

  lemma FindFieldOfNormal(headers: seq<string>, standard: string)
    requires NormalizeFieldName(standard) == standard
    ensures FindField(headers, standard) ==
              if standard in Normalized(headers) then Some(headers[FirstIndex(Normalized(headers), standard)])
              else None
  {
  }

  // ---------------------------------------------------------------------
  // Area codes

  /** The characters an area code keeps: A-Z, 0-9 and '-'. */
  predicate IsCodeChar(c: char) {
    IsAsciiUpper(c) || IsDigit(c) || c == '-'
  }

  /** `normalizeAreaCode`: `String(code)`, trimmed, upper-cased, without
      whitespace, and with every character outside A-Z, 0-9 and '-'
      dropped. */
  function NormalizeAreaCode(code: Value): (r: string)
    ensures forall k :: 0 <= k < |r| ==> IsCodeChar(r[k])
  {
    NormalizeCodeText(ToStr(code))
  }

  function NormalizeCodeText(s: string): (r: string)
    ensures forall k :: 0 <= k < |r| ==> IsCodeChar(r[k])
  {
    Filter(RemoveSpaces(ToUpper(Trim(s))), IsCodeChar)
  }

  /** The reference definition of the join key: the code characters of the
      upper-cased text, in order. */
  function CodeKey(s: string): (r: string)
    ensures forall k :: 0 <= k < |r| ==> IsCodeChar(r[k])
  {
    Filter(ToUpper(s), IsCodeChar)
  }

  lemma NormalizeAreaCodeIsCodeKey(code: Value)
    ensures NormalizeAreaCode(code) == CodeKey(ToStr(code))
  {
    NormalizeCodeTextIsCodeKey(ToStr(code));
  }

  lemma NormalizeCodeTextIsCodeKey(s: string)
    ensures NormalizeCodeText(s) == CodeKey(s)
  {
    FilterFilter(ToUpper(Trim(s)), IsCodeChar, NotSpace);
    FilterUpperTrim(s, IsCodeChar);
  }

  /** `areCodesMatching`. */
  predicate CodesMatch(a: Value, b: Value) {
    NormalizeAreaCode(a) == NormalizeAreaCode(b)
  }

  /** Two codes match exactly when their keys agree, so matching is an
      equivalence relation. */
  lemma CodesMatchIff(a: Value, b: Value, c: Value)
    ensures CodesMatch(a, b) <==> CodeKey(ToStr(a)) == CodeKey(ToStr(b))
    ensures CodesMatch(a, a)
    ensures CodesMatch(a, b) ==> CodesMatch(b, a)
    ensures CodesMatch(a, b) && CodesMatch(b, c) ==> CodesMatch(a, c)
  {
    NormalizeAreaCodeIsCodeKey(a);
    NormalizeAreaCodeIsCodeKey(b);
  }

  /** Normalizing a normalized code changes nothing. */
  lemma NormalizeAreaCodeIdempotent(code: Value)
    ensures NormalizeAreaCode(Str(NormalizeAreaCode(code))) == NormalizeAreaCode(code)
  {
    var n := NormalizeAreaCode(code);
    assert ToStr(Str(n)) == n;
    CodeKeyOfCode(n);
    NormalizeCodeTextIsCodeKey(n);
  }

  /** Text made only of code characters is its own key. */
  lemma CodeKeyOfCode(n: string)
    requires forall k :: 0 <= k < |n| ==> IsCodeChar(n[k])
    ensures CodeKey(n) == n
  {
    forall k | 0 <= k < |n| ensures UpperChar(n[k]) == n[k] {
      CodeCharUpper(n[k]);
    }
    ToUpperNoop(n);
    FilterAll(n, IsCodeChar);
  }

  lemma CodeCharUpper(c: char)
    requires IsCodeChar(c)
    ensures UpperChar(c) == c
  {
  }

  /** Letter case does not matter. */
  lemma CodeKeyIgnoresCase(s: string)
    ensures CodeKey(ToLower(s)) == CodeKey(s)
    ensures CodeKey(ToUpper(s)) == CodeKey(s)
  {
    forall k | 0 <= k < |s| ensures UpperChar(LowerChar(s[k])) == UpperChar(s[k]) {
      UpperLowerChar(s[k]);
    }
    assert ToUpper(ToLower(s)) == ToUpper(s);
    forall k | 0 <= k < |s| ensures UpperChar(UpperChar(s[k])) == UpperChar(s[k]) {
      UpperCharIdempotent(s[k]);
    }
    assert ToUpper(ToUpper(s)) == ToUpper(s);
  }

  /** A whitespace character anywhere does not matter. */
  lemma CodeKeyIgnoresSpace(a: string, w: char, b: string)
    requires IsSpace(w)
    ensures CodeKey(a + [w] + b) == CodeKey(a + b)
  {
    var ua, uw, ub := ToUpper(a), ToUpper([w]), ToUpper(b);
    assert ToUpper(a + [w] + b) == ua + uw + ub by {
      ToUpperAppend(a + [w], b);
      ToUpperAppend(a, [w]);
    }
    assert ToUpper(a + b) == ua + ub by {
      ToUpperAppend(a, b);
    }
    assert Filter(uw, IsCodeChar) == [] by {
      SpaceNotCode(w);
      FilterNone(uw, IsCodeChar);
    }
    FilterAppend(ua + uw, ub, IsCodeChar);
    FilterAppend(ua, uw, IsCodeChar);
    FilterAppend(ua, ub, IsCodeChar);
  }

  lemma SpaceNotCode(w: char)
    requires IsSpace(w)
    ensures !IsCodeChar(UpperChar(w))
  {
  }

  // ---------------------------------------------------------------------
  // Postal ranges

  function Pad4(s: string): (r: string)
    ensures Utf16Length(r) >= 4 && EndsWith(r, s)
    ensures forall k :: 0 <= k < |r| - |s| ==> r[k] == '0'
  {
    PadStart(s, 4, '0')
  }

  /** One token of a range list after trimming and removing every '"' and
      '\r'. */
  function CleanRangeText(token: string): (c: string)
    ensures '"' !in c && '\r' !in c
  {
    var r := RemoveChar(RemoveChar(Trim(token), '"'), '\r');
    assert forall k :: 0 <= k < |r| ==> r[k] != '"';
    r
  }

  lemma {:induction false} OccurrencesPositive(s: string, c: char)
    requires c in s
    ensures Occurrences(s, c) > 0
  {
    if s[0] != c {
      OccurrencesPositive(s[1..], c);
    }
  }

  /** A single code is padded to four digits with leading zeros; a range
      keeps its first two dash-separated parts, each padded. */
  function CleanToken(token: string): (r: string)
    ensures Utf16Length(r) >= 4
    ensures var c := CleanRangeText(token);
            '-' !in c ==> EndsWith(r, c) && Utf16Length(r) == (if Utf16Length(c) >= 4 then Utf16Length(c) else 4) &&
                          forall k :: 0 <= k < |r| - |c| ==> r[k] == '0'
    ensures var c := CleanRangeText(token);
            '-' in c ==> |Split(c, '-')| >= 2 &&
                         Split(r, '-') == [Pad4(Split(c, '-')[0]), Pad4(Split(c, '-')[1])]
  {
    var c := CleanRangeText(token);
    if '-' !in c then Pad4(c)
    else
      var parts := Split(c, '-');
      SplitCount(c, '-');
      OccurrencesPositive(c, '-');
      var a, b := Pad4(parts[0]), Pad4(parts[1]);
      PaddedHasNoDash(parts[0]);
      PaddedHasNoDash(parts[1]);
      SplitJoin([a, b], '-');
      assert Join([a, b], '-') == a + "-" + b;
      Utf16LengthAppend(a + "-", b);
      Utf16LengthAppend(a, "-");
      a + "-" + b
  }

  lemma PaddedHasNoDash(s: string)
    requires '-' !in s
    ensures '-' !in Pad4(s)
  {
    var r := Pad4(s);
    assert r == r[..|r| - |s|] + s;
  }

  /** `cleanPostalRanges`: the padded form of every comma-separated token.
      Padding never yields "", so `filter(Boolean)` drops nothing and the
      result has exactly one entry per token. */
  function CleanPostalRanges(rangeStr: string): (r: seq<string>)
    ensures |r| == |Split(rangeStr, ',')|
    ensures forall i :: 0 <= i < |r| ==> r[i] == CleanToken(Split(rangeStr, ',')[i])
  {
    var tokens := Split(rangeStr, ',');
    var padded := seq(|tokens|, i requires 0 <= i < |tokens| => CleanToken(tokens[i]));
    FilterAll(padded, NonEmpty);
    Filter(padded, NonEmpty)
  }

  /** A plain code is padded to four digits. */
  lemma CleanTokenOfCode(token: string)
    requires Plain(token) && '-' !in token
    ensures CleanToken(token) == Pad4(token)
  {
    CleanTokenOfPlain(token);
  }

  /** A plain range `a-b` becomes both ends padded. */
  lemma CleanTokenOfRange(a: string, b: string)
    requires Plain(a) && Plain(b) && '-' !in a && '-' !in b
    ensures CleanToken(a + "-" + b) == Pad4(a) + "-" + Pad4(b)
  {
    var t := a + "-" + b;
    assert Plain(t) by {
      PlainConcat(a, "-", b);
    }
    CleanTokenOfPlain(t);
    assert t[|a|] == '-';
    SplitTwo(a, b, '-');
  }

  lemma PlainConcat(a: string, m: string, b: string)
    requires Plain(a) && Plain(m) && Plain(b)
    ensures Plain(a + m + b)
  {
  }

  /** No whitespace, quotes or carriage returns. */
  predicate Plain(token: string) {
    forall k :: 0 <= k < |token| ==> !IsSpace(token[k]) && token[k] != '"' && token[k] != '\r'
  }

  /** A token without whitespace, quotes or carriage returns is cleaned to
      itself before padding. */
  lemma CleanTokenOfPlain(token: string)
    requires Plain(token)
    ensures CleanRangeText(token) == token
  {
    TrimNoSpace(token);
    RemoveCharAbsent(token, '"');
    RemoveCharAbsent(token, '\r');
  }

  // ---------------------------------------------------------------------
  // Upload splitting

  /** `text.replace(/\r\n/g, '\n').replace(/\r/g, '\n')`, in one pass:
      every CRLF and every remaining CR becomes LF. */
  function NormalizeNewlines(s: string): (r: string)
    ensures '\r' !in r
    ensures '\r' !in s ==> r == s
  {
    if |s| == 0 then ""
    else if s[0] == '\r' && |s| > 1 && s[1] == '\n' then "\n" + NormalizeNewlines(s[2..])
    else if s[0] == '\r' then "\n" + NormalizeNewlines(s[1..])
    else [s[0]] + NormalizeNewlines(s[1..])
  }

  /** A cell: trimmed, one leading and one trailing '"' removed, no '\r'. */
  function CleanCell(cell: string): (r: string)
    ensures '\r' !in r && |r| <= |cell|
  {
    RemoveChar(DropTrailing(DropLeading(Trim(cell), '"'), '"'), '\r')
  }

  /** Cleaning only removes characters. */
  lemma CleanCellWithin(cell: string)
    ensures Within(CleanCell(cell), cell)
  {
    var t := Trim(cell);
    var a := DropLeading(t, '"');
    var b := DropTrailing(a, '"');
    WithinSlice(cell, LeadingSpaces(cell), LeadingSpaces(cell) + |t|);
    WithinTrans(a, t, cell);
    WithinTrans(b, a, cell);
    WithinTrans(RemoveChar(b, '\r'), b, cell);
  }

  /** Every comma separates two cells; quotes are not special. */
  function SplitRow(line: string): (r: seq<string>)
    ensures |r| == Occurrences(line, ',') + 1
    ensures forall k :: 0 <= k < |r| ==> ',' !in r[k] && '\r' !in r[k]
  {
    var cells := Split(line, ',');
    SplitCount(line, ',');
    var r := seq(|cells|, i requires 0 <= i < |cells| => CleanCell(cells[i]));
    assert forall i :: 0 <= i < |r| ==> ',' !in r[i] by {
      forall i | 0 <= i < |r| ensures ',' !in r[i] {
        CleanCellWithin(cells[i]);
        assert ',' !in cells[i];
      }
    }
    r
  }

  /** `row.some(cell => cell.trim())`. */
  predicate HasContent(row: seq<string>) {
    exists k :: 0 <= k < |row| && Trim(row[k]) != ""
  }

  function SplitLines(text: string): (rows: seq<seq<string>>)
    ensures |rows| >= 1
  {
    var lines := Split(NormalizeNewlines(text), '\n');
    seq(|lines|, i requires 0 <= i < |lines| => SplitRow(lines[i]))
  }

  /** The upload splitting: line 0 gives the headers, and the content is
      every later line that has a non-blank cell. */
  function UploadSplit(text: string): (r: (seq<string>, seq<seq<string>>))
    ensures r.0 == SplitLines(text)[0]
    ensures IsSubseq(r.1, SplitLines(text)[1..])
    ensures forall i :: 0 <= i < |r.1| ==> HasContent(r.1[i])
    ensures forall i :: 1 <= i < |SplitLines(text)| && HasContent(SplitLines(text)[i]) ==>
              SplitLines(text)[i] in r.1
    ensures forall row :: HasContent(row) ==> multiset(r.1)[row] == multiset(SplitLines(text)[1..])[row]
  {
    var rows := SplitLines(text);
    FilterIsSubseq(rows[1..], HasContent);
    forall row | HasContent(row)
      ensures multiset(Filter(rows[1..], HasContent))[row] == multiset(rows[1..])[row]
    {
      FilterMultiplicity(rows[1..], HasContent, row);
    }
    assert forall i :: 1 <= i < |rows| ==> rows[i] == rows[1..][i - 1];
    (rows[0], Filter(rows[1..], HasContent))
  }

  /** A cell that is already clean is kept as it is. */
  predicate CleanText(cell: string) {
    && '"' !in cell && '\r' !in cell && '\n' !in cell && ',' !in cell
    && (|cell| == 0 || (!IsSpace(cell[0]) && !IsSpace(cell[|cell| - 1])))
  }

  lemma CleanCellOfClean(cell: string)
    requires CleanText(cell)
    ensures CleanCell(cell) == cell
  {
    TrimStartNoop(cell);
    TrimEndNoop(cell);
    RemoveCharAbsent(cell, '\r');
  }

  function JoinRow(row: seq<string>): string {
    Join(row, ',')
  }

  lemma {:induction false} JoinNoChar(parts: seq<string>, sep: char, c: char)
    requires c != sep
    requires forall k :: 0 <= k < |parts| ==> c !in parts[k]
    ensures c !in Join(parts, sep)
  {
    if |parts| > 1 {
      JoinNoChar(parts[1..], sep, c);
    }
  }

  /** Writing clean rows as comma- and newline-separated text and uploading
      it gives the rows back, provided every row after the first has a
      non-blank cell. */
  lemma UploadSplitOfJoined(rows: seq<seq<string>>)
    requires |rows| >= 1
    requires forall i :: 0 <= i < |rows| ==> |rows[i]| >= 1
    requires forall i, k :: 0 <= i < |rows| && 0 <= k < |rows[i]| ==> CleanText(rows[i][k])
    requires forall i :: 1 <= i < |rows| ==> HasContent(rows[i])
    ensures UploadSplit(Join(seq(|rows|, i requires 0 <= i < |rows| => JoinRow(rows[i])), '\n')) == (rows[0], rows[1..])
  {
    var lines := seq(|rows|, i requires 0 <= i < |rows| => JoinRow(rows[i]));
    forall i | 0 <= i < |rows|
      ensures '\n' !in lines[i] && '\r' !in lines[i]
      ensures SplitRow(lines[i]) == rows[i]
    {
      JoinNoChar(rows[i], ',', '\n');
      JoinNoChar(rows[i], ',', '\r');
      SplitJoin(rows[i], ',');
      forall k | 0 <= k < |rows[i]| ensures CleanCell(rows[i][k]) == rows[i][k] {
        CleanCellOfClean(rows[i][k]);
      }
    }
    var text := Join(lines, '\n');
    JoinNoChar(lines, '\n', '\r');
    SplitJoin(lines, '\n');
    assert SplitLines(text) == rows;
    FilterAll(rows[1..], HasContent);
  }

  // ---------------------------------------------------------------------
  // Files and relationships

  datatype Relationship = Relationship(targetFile: string, sourceField: string, targetField: string)

  datatype CsvFile = CsvFile(
    name: string,
    content: seq<seq<string>>,
    headers: seq<string>,
    selectedFields: seq<string>,
    selected: bool,
    relationships: map<string, Relationship>)

  /** `toggleField`: on the files with that name, a selected field is
      removed (every copy of it) and an unselected one is appended. */
  function ToggleField(files: seq<CsvFile>, fileName: string, field: string): (r: seq<CsvFile>)
    ensures |r| == |files|
    ensures forall i :: 0 <= i < |files| && files[i].name != fileName ==> r[i] == files[i]
    ensures forall i :: 0 <= i < |files| && files[i].name == fileName ==>
              r[i] == files[i].(selectedFields := r[i].selectedFields) &&
              (field in r[i].selectedFields <==> field !in files[i].selectedFields) &&
              forall g :: g != field ==> (g in r[i].selectedFields <==> g in files[i].selectedFields)
  {
    seq(|files|, i requires 0 <= i < |files| =>
      if files[i].name == fileName then files[i].(selectedFields := ToggleIn(files[i].selectedFields, field))
      else files[i])
  }

  function ToggleIn(fields: seq<string>, field: string): (r: seq<string>)
    ensures field in r <==> field !in fields
    ensures forall g :: g != field ==> (g in r <==> g in fields)
  {
    if field in fields then Filter(fields, (f: string) => f != field) else fields + [field]
  }

  /** Toggling twice restores which fields are selected. */
  lemma ToggleTwice(fields: seq<string>, field: string)
    ensures forall g :: g in ToggleIn(ToggleIn(fields, field), field) <==> g in fields
  {
  }

  /** The name of every file, in order. */
  function Names(files: seq<CsvFile>): (ns: seq<string>)
    ensures |ns| == |files|
    ensures forall i :: 0 <= i < |files| ==> ns[i] == files[i].name
  {
    seq(|files|, i requires 0 <= i < |files| => files[i].name)
  }

  /** The default field of every file, in order. */
  function DefaultFields(files: seq<CsvFile>): (ds: seq<string>)
    ensures |ds| == |files|
    ensures forall i :: 0 <= i < |files| ==> ds[i] == "" || ds[i] in files[i].headers
  {
    seq(|files|, i requires 0 <= i < |files| => GetDefaultField(files[i].headers))
  }

  /** An upload links the new file (default field `own`) to each existing
      file whose default field is `ds[i]` when either of the two is set. */
  function UploadFlags(own: string, ds: seq<string>): (keep: seq<bool>)
    ensures |keep| == |ds|
    ensures forall i :: 0 <= i < |ds| ==> (keep[i] <==> own != "" || ds[i] != "")
  {
    seq(|ds|, i requires 0 <= i < |ds| => own != "" || ds[i] != "")
  }

  /** The relationships of a newly uploaded file: one to every linked
      existing file, from the new file's default field to the existing
      file's; when two linked files share a name the later one wins. */
  function UploadRelationships(prev: seq<CsvFile>, headers: seq<string>): (rels: map<string, Relationship>)
    ensures var own, ds := GetDefaultField(headers), DefaultFields(prev);
            && (forall i :: 0 <= i < |prev| && (own != "" || ds[i] != "") ==> prev[i].name in rels)
            && (forall i :: IsLastKept(Names(prev), UploadFlags(own, ds), i) ==>
                  rels[prev[i].name] == Relationship(prev[i].name, own, ds[i]))
  {
    var own, ds := GetDefaultField(headers), DefaultFields(prev);
    var rs := seq(|prev|, i requires 0 <= i < |prev| => Relationship(prev[i].name, own, ds[i]));
    LastWins(Names(prev), rs, UploadFlags(own, ds))
  }

  /** Every relationship of the new file points at a linked existing file. */
  lemma UploadRelationshipsOnlyLinked(prev: seq<CsvFile>, headers: seq<string>, k: string)
    requires k in UploadRelationships(prev, headers)
    ensures var own, ds := GetDefaultField(headers), DefaultFields(prev);
            exists i :: 0 <= i < |prev| && (own != "" || ds[i] != "") && prev[i].name == k
  {
    var own, ds := GetDefaultField(headers), DefaultFields(prev);
    var names, keep := Names(prev), UploadFlags(own, ds);
    var rs := seq(|prev|, i requires 0 <= i < |prev| => Relationship(prev[i].name, own, ds[i]));
    assert UploadRelationships(prev, headers) == LastWins(names, rs, keep);
    var i :| 0 <= i < |names| && keep[i] && names[i] == k;
    assert prev[i].name == k;
  }

  /** `handleFileUpload` for one file: the file is appended with every
      header selected and the relationships above. Each linked existing file
      gains the reverse relationship: the spread copy in the source shares
      its `relationships` object, so the existing file's own record changes. */
  function AddUploadedFile(prev: seq<CsvFile>, name: string, text: string): (r: seq<CsvFile>)
    ensures |r| == |prev| + 1
    ensures r[|prev|] == CsvFile(name, UploadSplit(text).1, UploadSplit(text).0, UploadSplit(text).0, true,
                                 UploadRelationships(prev, UploadSplit(text).0))
    ensures forall i :: 0 <= i < |prev| ==> r[i] == LinkBack(prev[i], name, GetDefaultField(UploadSplit(text).0))
  {
    var (headers, content) := UploadSplit(text);
    AddFile(prev, name, headers, content)
  }

  function AddFile(prev: seq<CsvFile>, name: string, headers: seq<string>, content: seq<seq<string>>): (r: seq<CsvFile>)
    ensures |r| == |prev| + 1
    ensures r[|prev|] == CsvFile(name, content, headers, headers, true, UploadRelationships(prev, headers))
    ensures forall i :: 0 <= i < |prev| ==> r[i] == LinkBack(prev[i], name, GetDefaultField(headers))
  {
    var own := GetDefaultField(headers);
    var newFile := CsvFile(name, content, headers, headers, true, UploadRelationships(prev, headers));
    seq(|prev|, i requires 0 <= i < |prev| => LinkBack(prev[i], name, own)) + [newFile]
  }

  /** The reverse relationship an existing file gains from an upload whose
      default field is `own`; only the relationships change. */
  function LinkBack(f: CsvFile, name: string, own: string): (r: CsvFile)
    ensures r.(relationships := f.relationships) == f
    ensures var d := GetDefaultField(f.headers);
            r.relationships == if own != "" || d != "" then f.relationships[name := Relationship(name, d, own)]
                               else f.relationships
  {
    var d := GetDefaultField(f.headers);
    if own != "" || d != "" then f.(relationships := f.relationships[name := Relationship(name, d, own)])
    else f
  }

  /** After an upload, the new file and every linked existing file point at
      each other with mirrored fields, provided no later existing file has
      the same name. */
  lemma UploadMirrored(prev: seq<CsvFile>, name: string, text: string, i: nat)
    requires i < |prev|
    requires IsLastKept(Names(prev), UploadFlags(GetDefaultField(UploadSplit(text).0), DefaultFields(prev)), i)
    ensures var r := AddUploadedFile(prev, name, text);
            && prev[i].name in r[|prev|].relationships
            && name in r[i].relationships
            && r[|prev|].relationships[prev[i].name].sourceField == r[i].relationships[name].targetField
            && r[|prev|].relationships[prev[i].name].targetField == r[i].relationships[name].sourceField
  {
  }

  /** `setAllToOmradekode` links file `i` to file `j` when both have a
      default field (and `i != j`). */
  function PairFlags(ds: seq<string>, i: nat): (keep: seq<bool>)
    requires i < |ds|
    ensures |keep| == |ds|
    ensures forall j :: 0 <= j < |ds| ==> (keep[j] <==> j != i && ds[i] != "" && ds[j] != "")
  {
    seq(|ds|, j requires 0 <= j < |ds| => j != i && ds[i] != "" && ds[j] != "")
  }

  /** The relationships `setAllToOmradekode` gives file `i`: one to every
      other file when both have a default field, a later file of the same
      name overwriting an earlier one. */
  function AllRelationships(files: seq<CsvFile>, i: nat): (rels: map<string, Relationship>)
    requires i < |files|
    ensures var ds := DefaultFields(files);
            && (forall j :: 0 <= j < |files| && j != i && ds[i] != "" && ds[j] != "" ==> files[j].name in rels)
            && (forall j :: IsLastKept(Names(files), PairFlags(ds, i), j) ==>
                  rels[files[j].name] == Relationship(files[j].name, ds[i], ds[j]))
  {
    var ds := DefaultFields(files);
    var rs := seq(|files|, j requires 0 <= j < |files| => Relationship(files[j].name, ds[i], ds[j]));
    LastWins(Names(files), rs, PairFlags(ds, i))
  }

  /** A file without a default field gets no relationships. */
  lemma AllRelationshipsNeedDefault(files: seq<CsvFile>, i: nat)
    requires i < |files| && DefaultFields(files)[i] == ""
    ensures AllRelationships(files, i) == map[]
  {
    var ds := DefaultFields(files);
    var names, keep := Names(files), PairFlags(ds, i);
    var rs := seq(|files|, j requires 0 <= j < |files| => Relationship(files[j].name, ds[i], ds[j]));
    assert AllRelationships(files, i) == LastWins(names, rs, keep);
    LastWinsNoneKept(names, rs, keep);
  }

  /** `setAllToOmradekode`: every file's relationships are rebuilt from the
      default fields alone; nothing else about the files changes. */
  function SetAllToOmradekode(files: seq<CsvFile>): (r: seq<CsvFile>)
    ensures |r| == |files|
    ensures forall i :: 0 <= i < |files| ==> r[i].(relationships := files[i].relationships) == files[i]
    ensures forall i :: 0 <= i < |files| ==> r[i].relationships == AllRelationships(files, i)
  {
    seq(|files|, i requires 0 <= i < |files| =>
      files[i].(relationships := AllRelationships(files, i)))
  }

  /** With distinct names, two files that both have a default field point
      at each other, each relationship mirroring the other. */
  lemma SetAllSymmetric(files: seq<CsvFile>, i: nat, j: nat)
    requires i < |files| && j < |files| && i != j
    requires NoDups(Names(files))
    requires DefaultFields(files)[i] != "" && DefaultFields(files)[j] != ""
    ensures var r := SetAllToOmradekode(files);
            && files[j].name in r[i].relationships && files[i].name in r[j].relationships
            && r[i].relationships[files[j].name].sourceField == r[j].relationships[files[i].name].targetField
            && r[i].relationships[files[j].name].targetField == r[j].relationships[files[i].name].sourceField
  {
    var ds, names := DefaultFields(files), Names(files);
    assert IsLastKept(names, PairFlags(ds, i), j);
    assert IsLastKept(names, PairFlags(ds, j), i);
  }
}

=== FILE: wrappers.dfy ===
/** Failure-compatible wrappers shared by every module of the model. */
module Wrappers {

  /** An optional value: JavaScript's `undefined` / Python's `None` on one side. */
  datatype Option<+T> = None | Some(value: T) {
    function GetOr(default: T): T {
      match this
      case Some(v) => v
      case None => default
    }
  }

  /** The outcome of an operation that can throw. */
  datatype Result<+R, +E> = Ok(value: R) | Err(error: E) {
    predicate IsFailure() {
      Err?
    }

    function PropagateFailure<U>(): Result<U, E>
      requires Err?
    {
      Err(error)
    }

    function Extract(): R
      requires Ok?
    {
      value
    }
  }
}
